=== FILE: README.md ===
# Inventory analytics of the Marfim stock sheets, in Dafny

The repository is a set of Python scripts around two Google Sheets tabs:

- **ESTOQUE**, the ledger. It has one row per stock movement, appended in time order. Each row holds the group, item, date, entry, exit, previous balance and balance.
- **ÍNDICE_ITENS**, the index. It has one row per item, holding its current balance (Saldo Atual), the date of its last movement and the ledger line it points at.

Every script reads these tabs and computes something from them. Each script has its own copy of the helpers:

- the number parsers (`converter_para_numero`);
- consumption windows of 30, 60 and 90 days;
- coverage in days, with 999 meaning "no consumption";
- alert and urgency ladders;
- purchase quantities rounded to lots;
- a safety-stock planner;
- a demand forecaster;
- anomaly detectors;
- the ABC curve;
- the arithmetic audit of each item's last ledger row;
- the index rebuild;
- the item-name checks;
- a keyword category classifier.

This project restates that logic as pure Dafny functions over immutable records and proves what each computation promises. The Python code is the reference throughout. Where two scripts differ, each variant is modelled separately and the difference is stated as a lemma. For example, `"2.6"` reads as 2.6 in config.py and as 26 in app_marfim.py. Likewise, the boundary of "critical" is `<= 7` in alertas_inteligentes.py and `< 7` in app_final.py.

## Modules

Foundations:

- `Wrappers`: `Option`, the stand-in for `None`, `NaT` and "no row found".
- `Seqs`: boolean-mask filters and counts, column sums, `unique()` and `head(n)`.
- `Sorting`: one stable sort for every `sort_values`, `nsmallest` or `sorted` the scripts call.
- `Grouping`: `groupby(...).sum()`.
- `Stats`: sums, means, standard deviations, z-scores and clamping. The square root is a parameter.
- `Text`: the Python `str` operations the scripts use.
- `Decimal`: Python's `float()` on plain decimal literals.
- `Rounding`: Python's round-half-even `round(x, n)`.
- `Calendar`: dates, day numbers and the `now - timedelta(days=n)` windows.

Shared data and parameters:

- `LocaleNumbers`: the parser variants and the lancar_estoque.py write-back.
- `Formatting`: `formatar_numero_br`.
- `Config`: the shared constants and the alert-level table.
- `Ledger`: the typed ledger and index rows, the window sums and the coverage rule.
- `Sheets`: the raw cell text of both tabs.

Two number parsers read the sheets' text cells:

- `LocaleNumbers.ParseConditional` is the `converter_para_numero` of config.py (lines 67-81), copied into app_final.py and consulta_estoque.py. It drops the dots only when the text has a comma. It gives the reals of `Alerts`, `SafetyStock`, `Forecast`, `Anomalies`, `Purchases`, `Chatbot`, `Classifier`, `Dashboard`, `WebApp` and `Consultation`.
- `LocaleNumbers.ParseDotless` is the variant of analise_inteligente.py (lines 16-25), app_marfim.py (lines 14-23), lancar_estoque.py (lines 9-14), painel_critico.py and gestor.py (lines 516-517 and 966-970). It drops every dot. It gives the reals of `Gestor`, `ItemReport`, `Panel` and `Launch`.
- `LocaleNumbers.ParsersAgree` states when the two read the same number. `DotAsDecimalPoint` and `DotAsThousands` state the one text shape where they differ.

The `Ledger` rows hold the reals after one of these parsers ran.

One module per script:

- `Alerts`: alertas_inteligentes.py.
- `SafetyStock`: estoque_minimo.py.
- `Forecast`: previsao_demanda.py.
- `Anomalies`: detector_anomalias.py.
- `Purchases`: lista_compras_ia.py.
- `Gestor` and `Abc`: gestor.py. `Abc` is the curve that dashboard_ia.py and app_final.py share.
  - In gestor.py's `main` (lines 973-1006), the levels, idle tiers, audit and ABC curve all receive the consolidated frame, not the ledger. That frame has one row per item, taken from the item's last ledger row. So they see each item's latest state only.
  - `Gestor.Levels`, `IdleTier` and `CurveAbc` take the `Consolidated` rows. `Gestor.Audit` is the audit of whatever rows it is given, and `Gestor.AuditLatest` is the audit as `main` runs it, on `Gestor.LatestRows`.
  - The name checks (`IndexNames`) receive the index.
- `IndexNames`: the name checks of gestor.py.
- `WebApp`: app_final.py.
- `Dashboard`: dashboard_ia.py.
- `Chatbot`: chatbot_estoque.py.
- `Classifier`: classificador_ia.py.
- `Consultation`: consulta_estoque.py.
- `Launch`: lancar_estoque.py.
- `ItemReport`: analise_inteligente.py.
- `Recalibration`: recalibrar_indice.py.
- `Panel`: painel_critico.py.

The following enter every operation as parameters:

- the clock (`now`);
- the date parser, where a script parses free-form dates;
- the square root;
- the language model's reply.

Quantities are `real`s.

## Model

| member | source | states |
|---|---|---|
| Config.LevelTableOrdered | config.py:48-53 | In NIVEIS_ALERTA a lower priority number goes with fewer coverage days, each level has its own priority, and priorities run from 1 to 4. |
| LocaleNumbers.NormaliseConditional | config.py:74-78 | The rewrite leaves no comma, and a text without a comma passes through untouched (its dots stay decimal points). |
| LocaleNumbers.NormaliseDotless | lancar_estoque.py:12 | The rewrite leaves no comma and never makes the text longer. |
| LocaleNumbers.ParsersAgree | consulta_estoque.py:23-33 | The conditional parser and the always-strip-dots parser of lancar_estoque.py:9-14 read the same number whenever the stripped text has a comma or has no dot. |
| LocaleNumbers.DotAsDecimalPoint | consulta_estoque.py:10-33 | With no comma, `ds.fs` reads as ds plus fs tenths, hundredths, and so on: "2.6" is 2.6. |
| LocaleNumbers.DotAsThousands | app_marfim.py:14-25 | The always-strip parser reads `ds.fs` as the whole number with digits ds followed by fs: "2.6" is 26. |
| LocaleNumbers.ParseSignedFixed | lancar_estoque.py:12-13 | `float` of the text `[-]ds.fs` is the number it denotes. |
| LocaleNumbers.WriteBack | lancar_estoque.py:79-82 | The written text has the same length as `str(x)` and no dot left. |
| LocaleNumbers.WriteBackRoundTrip | lancar_estoque.py:9-14 | Reading back, with the file's own parser, a number that lines 79-82 wrote from `[-]ds.fs` gives back that number. |
| LocaleNumbers.WriteBackReadConditional | consulta_estoque.py:9-35 | The conditional parser reads a number that lancar_estoque.py wrote as `[-]ds,fs` back as `[-]ds.fs`: a lone comma is the decimal point. |
| Launch.MovementOf | lancar_estoque.py:70-71 | The balance change is +qty for type E, -qty for type S and 0 for any other type; at most one of entry and exit is non-zero. |
| Launch.Launch | lancar_estoque.py:28-72 | None when nothing is written. That is when no index row's upper-cased name equals the stripped, upper-cased input, or when `int()` refuses the Linha ESTOQUE of the first such row (line 40, caught at lines 126-127). Otherwise it uses that first row and records the line number it read. It builds a row with the row's group. The previous balance is that row's Saldo parsed, the new balance is previous + entry - exit, and the low-stock analysis fires exactly when the new balance is at most 10 (lines 106-107). |
| Launch.BlankLineAborts | lancar_estoque.py:40 | A matched index row with a blank Linha ESTOQUE stops the launch before any row is written. |
| Launch.LaunchedRowConsistent | lancar_estoque.py:70-72 | The row a launch writes always satisfies the ledger rule Saldo = S.Ant + Entrada - Saída, so the gestor.py audit never flags it. |
| Launch.UpdateIndex | lancar_estoque.py:95-101 | Only the found index row changes. Its Saldo and date are replaced, and its ledger line is written as a number that `int()` reads back. Its item, group and every other row stay. |
| Launch.LaunchInSync | lancar_estoque.py:77-101 | After a launch appends its row and points the index at it, consulta_estoque.py reads the new line number back and finds the item in sync, because both sheets hold the same balance text. |
| Consultation.Consult | consulta_estoque.py:51-77 | None exactly when no index name, upper-cased, contains the stripped, upper-cased query. Otherwise the matching rows are checked in index order. The run stops at the first row whose Linha ESTOQUE `int()` refuses, and it stops exactly when some matching row has such a line. Each check's index balance is the parsed Saldo Atual of its row, and its ledger balance the parsed Saldo of the ledger line the row points at. It is in sync exactly when the two differ by less than 0.001. Without a refused line, every matching row is checked. |
| Consultation.ConsultFacts | consulta_estoque.py:51-77 | Read against the index, the loop over the matching rows is cut short exactly when some matching row's Linha ESTOQUE is refused. Without such a row, every matching row's check is reported. Each check is the one of its matching row, at the line `int()` reads. |
| Consultation.CheckAll | consulta_estoque.py:61-77 | The loop checks the found rows in order up to the first whose Linha ESTOQUE is not an integer. It is cut short exactly when such a row exists, and then that row comes right after the last check. |
| Consultation.RecalibratedInSync | consulta_estoque.py:61-77 | Consulting the index that recalibrar_indice.py just rebuilt runs to the end and finds every item in sync. |
| Consultation.CarriedInSync | consulta_estoque.py:61-77 | Any index whose rows each carry the balance text and sheet line of their item's last ledger row consults to the end, all in sync. |
| Sheets.PyInt | consulta_estoque.py:65 | Python's `int()` on a cell: a blank cell, or one whose first character is neither a digit nor a sign, is refused. A plain digit string reads as the number it spells, and an accepted text has only digits after its first character. |
| Sheets.PyIntShowNat | recalibrar_indice.py:55 | A line number written to the sheet reads back through `int()` as that number. |
| Recalibration.Recalibrate | recalibrar_indice.py:33-58 | The rebuilt index is sorted by item with no repeats, and holds only non-blank items. Each row carries the Saldo, Data and Grupo of its item's last ledger row, with that row's sheet line (position + 2). Every non-blank ledger item has a row. |
| Ledger.Coverage | lista_compras_ia.py:85-88 | Dias_Cobertura: with a positive daily mean, coverage times mean is the balance; otherwise it is the sentinel 999. |
| Ledger.WindowExitsAbsent | lista_compras_ia.py:68-74 | An item with no dated row inside the window gets consumption 0 (the `.map(...).fillna(0)` of line 74). |
| Ledger.WindowExitsNonNegative | lista_compras_ia.py:68-74 | With non-negative Saída cells, a window's consumption is non-negative. |
| Ledger.WindowExitsMonotone | lista_compras_ia.py:68-74 | With non-negative exits, a wider window never reports less: Consumo_30d <= Consumo_60d <= Consumo_90d. |
| Ledger.CoverageMonotone | lista_compras_ia.py:85-88 | For a fixed positive mean, a larger balance never has less coverage. |
| Purchases.WeightedMean | lista_compras_ia.py:75-82 | Media_Diaria, the 0.5/0.3/0.2 weighting of the three per-day means, lies between the smallest and the largest of them. |
| Purchases.Largest | lista_compras_ia.py:91-93 | `max` of the purchase days: None exactly for no days; otherwise one of the days and at least every one of them. |
| Purchases.LastEntry | lista_compras_ia.py:91-94 | Ultima_Entrada is missing exactly when the item has no dated positive entry; otherwise it is no earlier than any dated positive entry of the item. |
| Purchases.PurchaseDays | lista_compras_ia.py:91-93 | Every dated positive entry's day is among the days `max` looks at, and those days are non-empty only if such an entry exists. |
| Purchases.MeanPurchase | lista_compras_ia.py:97-100 | Media_Compra is non-negative, and 0 for an item without a positive entry. |
| Purchases.LoadMetrics | lista_compras_ia.py:63-100 | One metrics row per index row, same item, in order. Each row's coverage is the coverage rule applied to its balance and weighted mean, and Consumo_30d is the item's exits of the last 30 days. |
| Purchases.MeanNonNegative | lista_compras_ia.py:68-88 | With non-negative exits the weighted mean is non-negative, and an item with no exits in 90 days gets coverage 999. |
| Purchases.Lots | lista_compras_ia.py:120 | `max(1, round(need / lot))` is at least 1 and no less than need/lot - 0.5. Unless it is the floor of 1, it is no more than need/lot + 0.5. |
| Purchases.LotAmount | lista_compras_ia.py:117-121 | Without a positive average lot the need is kept. With one, the amount is at least one lot and falls short of the need by at most half a lot. It is either exactly one lot or exceeds the need by at most half a lot. |
| Purchases.Quantity | lista_compras_ia.py:102-123 | 0 for an item without consumption, never negative. With consumption it is a whole number of units, within half a unit either way of the lot-rounded need (`round(..., 0)`). With a positive lot it is at least the rounded lot. |
| Purchases.QuantityCovers | lista_compras_ia.py:102-123 | With consumption, the balance plus the suggested quantity reaches the target days of the daily mean times the safety margin, short by at most half a lot and half a unit of rounding. |
| Purchases.UrgencyOf | lista_compras_ia.py:154-166 | CRITICO exactly when the coverage or the balance is negative. Otherwise URGENTE up to 7 days inclusive, ALTO over 7 up to 15 inclusive, and MEDIO over 15. |
| Purchases.UrgencyRank | lista_compras_ia.py:155-166 | The priority runs from 1 to 4 and is 1 exactly for CRITICO. |
| Purchases.Listed | lista_compras_ia.py:136-182 | A row gives an entry exactly when its coverage is under the limit, its mean is positive and its quantity is positive. The entry carries the item, that quantity, the urgency of its coverage and balance, and the matching priority. |
| Purchases.PurchaseList | lista_compras_ia.py:125-188 | The list is a permutation of the entries the index rows yield. Every entry is under the limit, has a positive mean and a positive quantity, and its new coverage is above the old. The list is sorted by priority, then by larger Consumo_30d. |
| Purchases.ListedWell | lista_compras_ia.py:136-179 | Every entry of the list meets the listing conditions, and its nova_cobertura exceeds its coverage. |
| Purchases.ListedOneWell | lista_compras_ia.py:147-179 | The entry one index row yields meets the listing conditions and raises the coverage. |
| Purchases.PurchasesSorted | lista_compras_ia.py:185 | Sorting by `(prioridade, -consumo_30d)` keeps every entry well listed and orders them by priority, then by larger consumption. |
| Purchases.NewCoverage | lista_compras_ia.py:179 | Buying a positive quantity strictly raises the coverage. |
| Purchases.ListedExactly | lista_compras_ia.py:136-188 | An index row is on the final list exactly when it is under the limit, has consumption and gets a positive quantity. |
| Alerts.LoadStock | alertas_inteligentes.py:40-57 | One stock row per index row, same item, in index order. |
| Alerts.ClassifyLevel | alertas_inteligentes.py:65-76 | CRITICO exactly when the balance is negative or the coverage is at most 7. Otherwise URGENTE for coverage over 7 up to 15, ATENCAO over 15 up to 30, and NORMAL over 30. |
| Alerts.SuggestedQty | alertas_inteligentes.py:107-112 | qtd_sugerida is never negative and is 0 without consumption. With consumption it is 45 days of the mean less the balance, or 0 when that is negative. |
| Alerts.MakeAlert | alertas_inteligentes.py:93-112 | An alert carries the row's item, balance, 30-day consumption and daily mean, its dias_cobertura, its level and that level's priority in NIVEIS_ALERTA. Its qtd_sugerida is exactly the suggested quantity for the row's daily mean and balance: never negative, nothing without consumption, and with consumption enough to bring the balance to 45 days of the daily mean. |
| Alerts.GenerateAlerts | alertas_inteligentes.py:78-119 | One alert per row whose level is not NORMAL: a permutation of those rows' alerts. Each carries its level's priority, a non-negative quantity, and a negative balance or at most 30 days of cover. Sorted by priority, then by larger Consumo_30d. |
| Alerts.AlertFor | alertas_inteligentes.py:91-114 | An index row's alert is in the list exactly when its level is not NORMAL. |
| Alerts.SentinelNeverAlerts | alertas_inteligentes.py:56-60 | A row without 30-day exits and with a non-negative balance gets coverage 999 and never raises an alert. |
| Alerts.AlertsOfLevel | alertas_inteligentes.py:132-134 | Every alert in a group has that group's level. |
| Alerts.GroupsPartition | alertas_inteligentes.py:121-136 | Since the list holds no NORMAL alert, the three groups together hold every alert exactly once. |
| Alerts.GroupsSorted | alertas_inteligentes.py:117-134 | Each group keeps the list's (priority, -consumption) order. |
| Gestor.PeriodWithinTotal | gestor.py:91-113 | With non-negative exits, Consumo_3M, the exits dated inside `[now - 90 days, now]`, is non-negative and never exceeds the item's total exits. |
| Gestor.LastIndex | gestor.py:141-155 | The `idxmax` of the original line: -1 for an item without rows; otherwise a row of the item with no row of it after. |
| Gestor.ConsolidateItem | gestor.py:151-195 | The consolidated row has the item and its movement count, and the balance and date of its last ledger row. Its coverage in months follows the coverage rule, and Consumo_3M is the period's exits. |
| Gestor.ItemKeys | gestor.py:151-154 | The `groupby('Item')` keys are strictly sorted, each names a ledger row, and every ledger item is among them. |
| Gestor.Consolidate | gestor.py:128-208 | One row per distinct item, in strictly increasing item order. Every ledger item has a row, and each row's balance is that of the item's last ledger row. |
| Gestor.Levels | gestor.py:538-583 | The negatives are a permutation of the rows with a negative balance, by ascending balance. The zeros are the zero-balance rows in table order. The lows are a permutation of the rows with 0 < balance < 21, by ascending balance. |
| Gestor.LevelsPartition | gestor.py:544-571 | The three levels are pairwise disjoint and together number exactly the rows with a balance under 21. |
| Gestor.LevelsCount | gestor.py:544-571 | Negatives, zeros and lows add up to the rows under the low-stock limit. |
| Gestor.IdleTier | gestor.py:590-620 | A tier is a permutation of the positive-balance, dated rows idle longer than its threshold, longest idle first. |
| Gestor.TiersNested | gestor.py:592-620 | The rows idle over 90 days are among those over 60, which are among those over 30. |
| Gestor.Audit | gestor.py:717-732 | The divergent rows are a permutation of the rows whose balance differs from Saldo Anterior + Entrada - Saída by more than 0.01, largest gap first. Surpluses and shortfalls are the divergent rows with a positive and a negative gap, in that order. |
| Gestor.AuditSplit | gestor.py:730-732 | Every divergent row is a surplus or a shortfall and never both, so the two lists add up to the divergent rows. |
| Gestor.LatestRows | gestor.py:151-154 | One row per `groupby('Item')` key, in key order: the last ledger row of that item, the one `idxmax` of the original line picks. |
| Gestor.LatestAreLast | gestor.py:151-154 | Each row kept is the last ledger row of its own item. |
| Gestor.LastIsLatest | gestor.py:151-154 | Every item's last ledger row is kept. |
| Gestor.AuditLatest | gestor.py:973-1003 | The audit as `main` runs it, on the consolidated frame. The divergent rows are a permutation of the kept rows that break the balance rule, largest gap first, and split into surpluses and shortfalls. A row is flagged exactly when it is the last ledger row of its item and breaks the rule. |
| Gestor.EarlierRowUnaudited | gestor.py:973-1003 | On a ledger whose first line breaks the balance rule and whose later line for the same item is consistent, the full audit flags one line and the audit `main` runs flags none. |
| Gestor.ConsistentRow | gestor.py:720-724 | A row whose balance is exactly Saldo Anterior + Entrada - Saída is never flagged as divergent. |
| Gestor.CurveAbc | gestor.py:754-770 | The curve holds every item with positive Consumo_3M once, by descending consumption. Each row's cumulative percentage is the running share of consumption up to and including it, its class is the band that share falls in, and the last item is class C. |
| Abc.ClassOf | gestor.py:768-770 | A exactly up to 80% cumulative, B over 80 up to 95, C over 95. |
| Abc.RunningTotalsIncrease | gestor.py:766 | With positive shares, `cumsum()` rises strictly, stays above its start, and its last value is the start plus the sum of the shares. |
| Abc.SharesTotal | gestor.py:764-765 | The `%` column adds up to the summed consumption over the total, times 100. |
| Abc.RunningTotals | gestor.py:766 | `cumsum()`: position i holds the start plus the first i + 1 terms. |
| Abc.PrefixShares | gestor.py:764-766 | The first i + 1 shares add up to the first i + 1 consumptions over the total, times 100: the cumulative column is the running share of consumption. |
| Abc.RankedUsage | gestor.py:758-763 | A permutation of the items with positive consumption, by descending consumption. |
| Abc.CurveOf | gestor.py:764-770 | With a non-zero total the classed rows keep the ranked items in order, each row's cumulative percentage is the consumption of the rows up to it as a percentage of the total, and its class is the band that percentage falls in. |
| Abc.Curve | gestor.py:754-770 | Every positive-consumption item appears exactly once (a permutation of them), by descending consumption. Each cumulative percentage is the running share of consumption, and each class the band it falls in: A up to 80, so the item that crosses 80 is B. |
| Abc.CurveOfClasses | gestor.py:763-770 | Along the ranked items the cumulative percentage rises strictly and the classes never fall back (A, then B, then C). The last cumulative is exactly 100, so the last item is C. |
| Abc.CumulativeEnds | gestor.py:764-766 | The running total of all shares ends at exactly 100. |
| Abc.ClassedInOrder | gestor.py:768-770 | Classing rows along strictly rising totals gives classes that never fall back. |
| Abc.CurveClasses | gestor.py:754-770 | On the full curve the cumulative percentage rises strictly and the classes never fall back. |
| Abc.CurveEndsInC | gestor.py:764-770 | A non-empty curve ends in class C. |
| Abc.SumPositive | gestor.py:764 | The total of positive consumptions is positive when there is any, so the division at line 765 is defined. |
| Dashboard.BinOf | dashboard_ia.py:185-189 | Each of the five labels of `pd.cut` holds exactly the coverages in its left-open, right-closed interval, a coverage over 60 (clipped to 100) falls in the last, and a coverage of zero or less falls in none. |
| Dashboard.BinCounts | dashboard_ia.py:185-190 | The five bin counts together count exactly the items whose coverage is positive. |
| Dashboard.StatusOf | dashboard_ia.py:462-467 | Normal exactly from 30 days up, Atenção on [15, 30), Urgente on [7, 15), Crítico below 7. |
| Dashboard.StatusPartition | dashboard_ia.py:462-467 | The four slice counts of the pie chart add up to the number of items. |
| Dashboard.Candidate | dashboard_ia.py:338-349 | An item is listed exactly when its coverage is under the target, its daily mean is positive and its clipped, rounded suggestion is positive; the row keeps its name and coverage. |
| Dashboard.CandidatesWellListed | dashboard_ia.py:340-349 | Every listed row has coverage under the target, a positive daily mean and a positive quantity. |
| Dashboard.ShoppingList | dashboard_ia.py:338-349 | The purchase table is a permutation of the listed candidates, sorted by ascending coverage, every row well listed. |
| Dashboard.PermutedWellListed | dashboard_ia.py:349 | Re-ordering the rows keeps every row well listed. |
| Dashboard.AbcReport | dashboard_ia.py:498-507 | The report is a permutation of the items with positive 30-day consumption, in descending consumption, each classed by its running share of consumption; the classes come in the order A, B, C, and the last row is C. |
| Chatbot.OverviewOf | chatbot_estoque.py:89-109 | The overview counts every item; its critical count is the number of items under 15 days of cover (the sentinel conjunct excludes nothing more); the zero count is the number of items with balance 0 and the negative count the number with a negative balance. |
| Chatbot.SignCounts | chatbot_estoque.py:95-96 | Items with a zero balance plus items with a negative balance are exactly the items with a balance of zero or below. |
| Chatbot.CriticalItems | chatbot_estoque.py:121-134 | Exactly `min(n, count under 30 days)` items, in ascending cover, drawn without repetition from the items under 30 days of cover (a sub-multiset of them). |
| Chatbot.CriticalLeastCovered | chatbot_estoque.py:126-129 | `nsmallest` keeps the least covered: an item under 30 days that was cut off has at least the cover of every item kept. |
| Chatbot.Found | chatbot_estoque.py:79-87 | The search returns, from the index and without repetition, exactly the rows whose upper-cased name contains the upper-cased term: none is missing. |
| Chatbot.WordMentions | chatbot_estoque.py:157-161 | A word of 3 characters or fewer, or one that finds no item or more than five, adds nothing. A longer word that finds between one and five items adds exactly as many names, the name of every item it finds among them. |
| Chatbot.Mentions | chatbot_estoque.py:155-161 | At most five names per word, and every name mentioned is justified by some word of the question longer than 3 characters that it contains. |
| Chatbot.Mentioned | chatbot_estoque.py:155-165 | Every item whose data enters the context is justified by a word of the upper-cased question, and when the words mention at most five names, every one of them enters. |
| Chatbot.MentionsComplete | chatbot_estoque.py:155-161 | Every name one word of the question contributes is among the question's mentions. |
| Chatbot.MentionedComplete | chatbot_estoque.py:155-165 | When the question's words mention at most five names, an item found by a word longer than 3 characters that finds between one and five items enters the context. |
| Chatbot.History | chatbot_estoque.py:204-209 | The history shows the last six messages (all of them when fewer), each text a prefix of its message of at most 200 characters, the user's role kept and every other role shown as the assistant. |
| Classifier.ByRules | classificador_ia.py:45-70 | The result is a listed category other than `PAPEL`; it is `OUTROS` exactly when no keyword of any rule occurs in the upper-cased name, and otherwise the category of the first rule, in table order, with a keyword in the name. |
| Classifier.ByRulesIgnoresCase | classificador_ia.py:47 | A name, its lower-case and its upper-case spelling get the same category. |
| Classifier.UpperCapitals | classificador_ia.py:47 | Upper-casing leaves a string of capitals unchanged. |
| Classifier.ContainsChars | classificador_ia.py:67 | Every character of a keyword found in a name is a character of the name. |
| Classifier.Lacks | classificador_ia.py:67 | A keyword with a character the name lacks does not occur in the name. |
| Classifier.Misses | classificador_ia.py:66-68 | A rule whose every keyword has a character missing from the name does not fire. |
| Classifier.PapelMisses | classificador_ia.py:66-68 | Keywords each with a letter outside "PAPEL" do not occur in "PAPEL". |
| Classifier.PapelMissesEarlyRules | classificador_ia.py:50-58 | No keyword of the nine rules before `EMBALAGEM` occurs in "PAPEL". |
| Classifier.PapelIsPackaging | classificador_ia.py:59 | The item named "PAPEL" is classified `EMBALAGEM`, so the listed category `PAPEL` is never produced by the rules. |
| Classifier.ValidateReply | classificador_ia.py:99-110 | The result is always a listed category: the stripped, upper-cased reply itself when it is one; otherwise the first listed category that contains it or is contained in it; `OUTROS` when none overlaps. |
| Classifier.CategoryClean | config.py:58-62 | A listed category is unchanged by stripping and upper-casing. |
| Classifier.ValidateReplyIdempotent | classificador_ia.py:99-110 | A validated category, validated again, comes back unchanged. |
| Classifier.BlankReplyIsTecido | classificador_ia.py:105-108 | A blank reply is contained in every category, so it becomes the first, `TECIDO`. |
| Classifier.Changed | classificador_ia.py:135 | The flag is clear exactly when the item has a group and the suggestion equals that group upper-cased. |
| Classifier.ChangedIgnoresCase | classificador_ia.py:135 | The flag does not depend on the case in which the group is written. |
| Classifier.ClassifyAll | classificador_ia.py:115-139 | One entry per distinct item, no item twice, every row's item present, and each entry built from the last row of its item. |
| Classifier.LastRows | classificador_ia.py:122-136 | For each key, in order, the classification of the last row with that item. |
| Classifier.LastOf | classificador_ia.py:131 | The position of an item's last row: it holds the item and no later row does. |
| Classifier.Analyse | classificador_ia.py:141-162 | One count per distinct suggested category, each the number of entries with that suggestion, and no category that no entry suggests; the total is the number of entries; the changes are drawn from the entries, each flagged, every flagged entry among them, and with the unflagged ones they number all entries. |
| Classifier.GroupCounts | classificador_ia.py:150-152 | Adding one per entry of a category counts the entries of that category. |
| Classifier.CountsAddUp | classificador_ia.py:147-159 | The per-category counts add up to the number of classified items. |
| Anomalies.ZScores | detector_anomalias.py:51-59 | One score per value; all zero for fewer than three values or a zero population deviation; otherwise each score times the deviation is the value's distance from the mean. |
| Anomalies.ZScoresCentred | detector_anomalias.py:51-59 | The z-scores of any sample sum to zero, in the degenerate cases as well. |
| Anomalies.ZScoreSign | detector_anomalias.py:55-59 | With a non-zero deviation, a value's z-score is positive exactly when the value lies above the sample mean. |
| Anomalies.Zip | detector_anomalias.py:73 | Each row is paired with the score at its own position. |
| Anomalies.Scores | detector_anomalias.py:65-73 | One scored row per selected row, in ledger order, each with the z-score of its value among the selected values. |
| Anomalies.FlaggedRows | detector_anomalias.py:76-88 | The anomalies of the extreme scored rows: one per extreme row, each that of a scored row, and a scored row's anomaly among them exactly when its score is beyond ±2.5. |
| Anomalies.Outliers | detector_anomalias.py:61-90 | Nothing below the minimum number of selected rows. Otherwise a selected row's anomaly, carrying its value, date and score, is reported exactly when the score is beyond ±2.5; there is one per such row and no other; its kind is the high one exactly when the score is positive. |
| Anomalies.ExitOutliers | detector_anomalias.py:61-90 | Nothing with fewer than five positive exits of the item. Otherwise a positive exit is reported, with its exit, date and score, exactly when its score is beyond ±2.5, once per such exit and nothing else: CONSUMO_ALTO with a positive score, CONSUMO_BAIXO with a negative one. |
| Anomalies.EntryOutliers | detector_anomalias.py:92-119 | Nothing with fewer than three positive entries. Otherwise a positive entry is reported, with its entry, date and score, exactly when its score is beyond ±2.5, once per such entry and nothing else: ENTRADA_ALTA with a positive score, ENTRADA_BAIXA with a negative one. |
| Anomalies.HighAboveMean | detector_anomalias.py:71-85 | A flagged exit is CONSUMO_ALTO exactly when it lies above the mean of the item's positive exits. |
| Anomalies.ScoredHigh | detector_anomalias.py:72-77 | For a flagged exit, a positive score is the same as an exit above the mean of the item's positive exits. |
| Anomalies.ValueCounts | detector_anomalias.py:133-134 | Each distinct exit value appears once, paired with its number of occurrences, and nothing else appears. |
| Anomalies.ValuesPermutation | detector_anomalias.py:134 | Re-ordering the counts keeps their values distinct. |
| Anomalies.Repeats | detector_anomalias.py:135-144 | Every anomaly of this check is VALOR_REPETIDO, for the item examined. |
| Anomalies.RepeatsExact | detector_anomalias.py:132-144 | A value is reported exactly when it is a positive exit seen at least five times, and it carries its number of occurrences. |
| Anomalies.BusyDays | detector_anomalias.py:146-156 | Every calendar day with at least three positive exits is reported, and only such days: each anomaly is MULTIPLAS_SAIDAS_DIA for the item, dated on its day, its value the number of positive exits that day, one per day in ascending day order. |
| Anomalies.DayCounts | detector_anomalias.py:147 | `groupby(date).size()`: one count per calendar day with a row, in ascending day order, each the number of rows that day, and every such day present. |
| Anomalies.BusyListed | detector_anomalias.py:148-156 | A day with at least three positive exits is among the busy-day anomalies. |
| Anomalies.BusyCounted | detector_anomalias.py:148-156 | Each busy-day anomaly is dated, and its value is the number of positive exits on its own day. |
| Anomalies.Negatives | detector_anomalias.py:158-168 | One SALDO_NEGATIVO anomaly per row with a negative balance, in the order of the date-sorted history it is given, each carrying that row's balance and date, and every such row reported. |
| Anomalies.Patterns | detector_anomalias.py:121-170 | An item with fewer than five rows gets no pattern anomaly at all, negative balances included; every pattern anomaly is about the item examined. |
| Anomalies.NegativesReported | detector_anomalias.py:127-168 | From five rows on, the SALDO_NEGATIVO anomalies are exactly as many as the item's rows with a negative balance. |
| Anomalies.AllOfKind | detector_anomalias.py:161-168 | Keeping the anomalies of a kind keeps a list made only of that kind. |
| Anomalies.MonthBack | detector_anomalias.py:199-204 | A real month, in the previous year exactly when the month count wraps, and `i` months before the current month modulo 12. |
| Anomalies.SeasonalBreaks | detector_anomalias.py:172-228 | Nothing with fewer than 30 positive exits or fewer than six (year, month) buckets. Otherwise an anomaly is reported exactly when it is the break of one of the three months checked; at most three, each CONSUMO_ACIMA_SAZONAL or CONSUMO_ABAIXO_SAZONAL for the item. |
| Anomalies.BreakExact | detector_anomalias.py:199-226 | A month back is flagged exactly when its historical mean is positive and its consumption deviates from it by more than half, and then CONSUMO_ACIMA_SAZONAL exactly when the consumption exceeds the mean. |
| Anomalies.BreakValue | detector_anomalias.py:199-226 | A flagged month's anomaly is dated on the first of that month, carries its consumption, and its detail is the deviation from the mean in percent. |
| Anomalies.BreaksListed | detector_anomalias.py:199-226 | The loop over the three months yields exactly the anomalies of the months found flagged. |
| Anomalies.BreaksKinds | detector_anomalias.py:214-226 | Every break the loop yields is CONSUMO_ACIMA_SAZONAL or CONSUMO_ABAIXO_SAZONAL, for the item examined. |
| Anomalies.ItemAnomalies | detector_anomalias.py:240-250 | Everything the four detectors report for an item is about that item. |
| Anomalies.Collect | detector_anomalias.py:237-250 | Every anomaly collected is about one of the items examined. |
| Anomalies.CollectExactly | detector_anomalias.py:237-250 | An anomaly is collected exactly when its item is one of those examined and it is among that item's own anomalies. |
| Anomalies.AnalyseAll | detector_anomalias.py:230-256 | A permutation of the anomalies of the first `limite` distinct items, newest first, undated anomalies last. |
| Forecast.ItemHistory | previsao_demanda.py:57-65 | The item's rows, compared without case, as a permutation sorted by date with undated rows last. |
| Forecast.PositiveExits | previsao_demanda.py:73 | Only positive exits are kept. |
| Forecast.UnitOf | previsao_demanda.py:67-70 | The unit is the last row's unit, or `UN` when that is blank, so never blank. |
| Forecast.DayDiffs | previsao_demanda.py:93 | At most one difference per row: differences involving an undated row are dropped. |
| Forecast.Frequency | previsao_demanda.py:90-96 | With at most one positive exit the interval is the 30-day default. |
| Forecast.StatsOf | previsao_demanda.py:72-109 | The count is the number of positive exits and the balance is the last row's, in date order. Without exits the mean and total are 0; otherwise the mean times the count is the total. With at most one exit the deviation is 0 and the frequency falls back to 30 days. |
| Forecast.Statistics | previsao_demanda.py:55-109 | No statistics exactly for an item without rows; otherwise the count is the number of positive exits. |
| Forecast.ConsumptionMonotone | previsao_demanda.py:99-107 | Consumption in a window is non-negative and never shrinks as the window widens. |
| Forecast.StatsSane | previsao_demanda.py:72-109 | The mean exit and deviation are non-negative and 0 <= consumption over 30 <= over 60 <= over 90 days. |
| Forecast.DayDiffsTelescope | previsao_demanda.py:93 | For dated rows the differences are one fewer than the rows and add up to the span from the first day to the last. |
| Forecast.FrequencySpan | previsao_demanda.py:90-94 | When all positive exits are dated, the interval is the span from the first to the last divided by the number of intervals. |
| Forecast.MonthTotals | previsao_demanda.py:120-124 | One total per month, in ascending month order: every month of a dated row appears, only such months appear, and each carries the summed exits of its month. |
| Forecast.SeasonOf | previsao_demanda.py:124-129 | Peak months are exactly those above 1.3 times the monthly mean, low months exactly those below 0.7 times it, and the mean is the average of the monthly totals. |
| Forecast.Seasonality | previsao_demanda.py:111-118 | No seasonality exactly for an item with fewer than 12 rows. |
| Forecast.Selected | previsao_demanda.py:128-129 | A month is selected exactly when its total passes the test. |
| Forecast.SeasonDisjoint | previsao_demanda.py:127-129 | With distinct months and non-negative totals no month is both a peak and a low. |
| Forecast.HistoryExitsNonNegative | previsao_demanda.py:57-65 | Selecting and sorting an item's rows keeps the ledger's non-negative exits. |
| Forecast.PeaksAndLowsDisjoint | previsao_demanda.py:111-142 | With non-negative exits no month is both a peak and a low. |
| Forecast.MonthTotalOf | previsao_demanda.py:166 | A month without a total reads as 0. |
| Forecast.SeasonalFactor | previsao_demanda.py:161-170 | The factor lies in [0.5, 2]. It is 1 without seasonality or when the yearly total is not positive, and otherwise the month's total over a twelfth of the yearly total, clamped to [0.5, 2]. |
| Forecast.SingleMonthFactor | previsao_demanda.py:167-170 | Because the year's total is divided by 12 whatever months are present, an item consumed only in the current month gets the maximum factor 2. |
| Forecast.BaseRate | previsao_demanda.py:150-159 | The weighted daily rate is non-negative for sane statistics. |
| Forecast.ConfidenceOf | previsao_demanda.py:188 | `alta` exactly above 20 exits, `media` from 6 to 20, `baixa` at 5 or fewer. |
| Forecast.Margin | previsao_demanda.py:175 | The error margin is non-negative for sane statistics. |
| Forecast.Project | previsao_demanda.py:172-183 | The prediction is the adjusted daily rate (base rate times factor) times the horizon, and the balance left is the balance minus it. The band reaches one margin per day above; below, it is the same distance unless clipped at zero. With sane statistics and a positive factor, 0 <= lower <= prediction <= upper. |
| Forecast.ForecastAlert | previsao_demanda.py:191-203 | CRITICO exactly for a negative projected balance; otherwise URGENTE below 15 days, ATENCAO on [15, 30), NORMAL from 30. |
| Forecast.Publish | previsao_demanda.py:177-203 | Coverage is 999 without consumption and otherwise the balance over the adjusted rate, rounded to one place; the alert follows the rounded projected balance and coverage; confidence follows the exit count. |
| Forecast.PredictFrom | previsao_demanda.py:177-179 | The forecast carries its item and horizon. |
| Forecast.Predict | previsao_demanda.py:144-205 | No forecast exactly for an item without rows; otherwise it carries its item and horizon. |
| Forecast.PredictionBand | previsao_demanda.py:180-182 | The published, rounded band keeps its order: 0 <= minimum <= forecast <= maximum. |
| Forecast.PredictHorizons | previsao_demanda.py:207-214 | None for an item without rows; otherwise one forecast per horizon of DIAS_PREVISAO, in order, each the single-horizon forecast for that horizon. |
| Forecast.PredictEach | previsao_demanda.py:209-213 | None for an item without rows; otherwise one forecast per horizon given, in order, each the single-horizon forecast for that horizon. |
| SafetyStock.DayNumbers | estoque_minimo.py:63-69 | At most one day per row: undated rows are dropped. |
| SafetyStock.Gaps | estoque_minimo.py:69 | One gap fewer than days, each the difference of two consecutive days. |
| SafetyStock.LeadTime | estoque_minimo.py:58-75 | The lead time lies in [3, 30]; it is the 7-day default with fewer than two purchases or no positive gap between them. |
| SafetyStock.GapsTelescope | estoque_minimo.py:69 | Consecutive gaps add up to the span from the first day to the last. |
| SafetyStock.TotalPositivePart | estoque_minimo.py:70 | Dropping zero gaps from non-negative gaps keeps their sum. |
| SafetyStock.MeanPositiveGap | estoque_minimo.py:69-75 | For sorted days, the mean positive gap is the span from the first day to the last over the number of positive gaps. |
| SafetyStock.LeadTimeSpan | estoque_minimo.py:58-75 | With two purchases and a positive gap, the lead time is the span from the first purchase to the last over the number of positive gaps, clamped to [3, 30]. |
| SafetyStock.RecentOrAll | estoque_minimo.py:96-100 | The rows are drawn from the history. When some row is dated in the last 90 days they are exactly those rows; when none is, the whole history is used, so an item with rows never gets an empty window. |
| SafetyStock.DailyExits | estoque_minimo.py:103 | One total per calendar day present. |
| SafetyStock.ZFactor | estoque_minimo.py:117-124 | The factor is positive, and any level outside the table gets 1.65. |
| SafetyStock.ClassifyStatus | estoque_minimo.py:146-156 | RUPTURA exactly at a balance of zero or below, then CRITICO below the safety stock, COMPRAR below the reorder point, NORMAL below the maximum, EXCESSO otherwise. |
| SafetyStock.Parameters | estoque_minimo.py:126-156 | The minimum equals the reorder point, the status is the ladder of the balance, and with a non-negative mean and lead time, safety <= reorder point <= maximum. |
| SafetyStock.DailyStdNonNegative | estoque_minimo.py:108-112 | With non-negative daily totals the mean and the daily deviation are non-negative. |
| SafetyStock.PlanItem | estoque_minimo.py:77-172 | No plan exactly when the chosen window has no dated day; a plan carries the index balance of the item and its lead time. |
| SafetyStock.IndexBalance | estoque_minimo.py:139-144 | The balance of the first index row whose upper-cased name equals the upper-cased item, parsed with the conditional parser; 0 when no row matches. |
| SafetyStock.WindowNonNegative | estoque_minimo.py:88-100 | The rows an item's statistics come from keep the ledger's non-negative exits. |
| SafetyStock.DailyNonNegative | estoque_minimo.py:103 | Daily totals of non-negative exits are non-negative. |
| SafetyStock.PlanOrdered | estoque_minimo.py:126-137 | With non-negative exits, 0 <= safety stock <= reorder point = minimum <= maximum. |
| SafetyStock.ParametersOrdered | estoque_minimo.py:126-137 | With non-negative inputs, 0 <= safety stock <= reorder point = minimum <= maximum. |
| SafetyStock.SafetyNonNegative | estoque_minimo.py:127 | The product z · σ · sqrt(LT) of non-negative factors is non-negative. |
| SafetyStock.SafetyMonotone | estoque_minimo.py:118-127 | Raising the service level within the table never lowers the safety stock. |
| SafetyStock.ReportOf | estoque_minimo.py:158-172 | Rounding keeps the plan's order 0 <= safety <= reorder = minimum <= maximum. The days of cover are 999 without consumption and otherwise within half a day of balance over daily mean. |
| Rounding.RoundError | estoque_minimo.py:160-170 | Python's `round(x, n)`, as the report applies it, is a whole number of units 10^-n, the nearest one to x: at most half a unit away. |
| Rounding.RoundMonotone | estoque_minimo.py:164-167 | Rounding never reverses the order of two values, so the report's rounded levels keep the plan's order. |
| Rounding.RoundNonNegative | estoque_minimo.py:164 | A non-negative value rounds to a non-negative value. |
| SafetyStock.ItemReport | estoque_minimo.py:185-187 | A kept report names its item and has a positive rounded daily mean. |
| SafetyStock.Reports | estoque_minimo.py:181-187 | A report is kept exactly when it is the kept report of one of the items. |
| SafetyStock.SortReports | estoque_minimo.py:190-191 | A permutation ordered by status rank, and by descending daily mean within a status. |
| SafetyStock.AllItems | estoque_minimo.py:174-196 | A permutation of the kept reports of every ledger item, each with a positive daily mean, RUPTURA first and EXCESSO last, higher consumption first within a status. |
| WebApp.LastKeyIndex | app_final.py:52 | The position of the last column with the key, and no later column has it; -1 when none does. |
| WebApp.ColumnsByKey | app_final.py:52 | A key is in the dictionary exactly when some column has it, and it maps to the last such column. |
| WebApp.MatchesLast | app_final.py:52-54 | A candidate matches some column exactly when the dictionary has its lower-cased key. |
| WebApp.FindColumn | app_final.py:50-56 | None exactly when no candidate matches; otherwise a column of the frame whose key is the first matching candidate, lower-cased. |
| WebApp.NoDatesFallback | app_final.py:147-157 | Without a single valid date the three windows all report the item's whole-history exits. |
| WebApp.WindowsOrdered | app_final.py:147-157 | With non-negative exits, consumption over 30 <= over 60 <= over 90 days, in either branch. |
| WebApp.LoadItems | app_final.py:58-166 | One item per index row, keeping its name, its parsed balance and its 30-day consumption. |
| WebApp.RoundedCoverage | app_final.py:163-166 | 999 without a positive mean; otherwise within 0.05 of the exact coverage. |
| WebApp.BandOf | app_final.py:220-225 | critico exactly below 7, urgente on [7, 15), atencao on [15, 30), normal on [30, 999), and no band from the sentinel 999 up. |
| WebApp.Distribution | app_final.py:207-225 | The four bands and the sentinel items together count every item, and the critical KPI (under 15 days) is the first two bands. |
| WebApp.Classify | app_final.py:388-393 | CRITICO exactly below 7 days (negative coverage included), URGENTE on [7, 15), ALTO on [15, 30), MEDIO from 30. |
| WebApp.LaddersDiffer | app_final.py:388-393 | At 5 days of cover this ladder says CRITICO where lista_compras_ia.py lines 155-160 say URGENTE: the two scripts disagree. |
| WebApp.SuggestedQty | app_final.py:381-383 | The quantity is non-negative, brings the balance to within half a unit of the target stock, and exceeds the clipped need by at most half a unit. |
| WebApp.Candidate | app_final.py:375-385 | An item is a candidate exactly when its coverage is under the target, its daily mean is positive and its rounded quantity is positive. |
| WebApp.ShoppingList | app_final.py:366-395 | A permutation of the candidates, sorted by ascending coverage, each line under the target with a positive mean and quantity and the urgency of its coverage. |
| WebApp.CoverageSorts | app_final.py:385 | Sorting the candidates by coverage yields a sorted list of well-listed lines. |
| WebApp.PermutedWellListed | app_final.py:385 | Re-ordering the lines keeps every line well listed. |
| WebApp.CandidatesWellListed | app_final.py:375-395 | Every candidate line is under the target, with a positive mean and quantity and the urgency of its coverage. |
| WebApp.CandidatesListed | app_final.py:375-385 | An item that passes the mask with a positive quantity is on the list, with its name, balance and coverage. |
| WebApp.SummaryCounts | app_final.py:399-404 | A non-empty list has a positive total of units, and its CRITICO plus URGENTE lines are exactly its lines under 15 days of cover. |
| WebApp.FindItem | app_final.py:454-458 | None exactly when no item matches ignoring case; otherwise the first such item. |
| WebApp.StatusOf | app_final.py:470 | CRITICO exactly for a negative projected balance, ATENCAO below 15 days of the mean, OK otherwise. |
| WebApp.Project | app_final.py:464-471 | The projection carries its horizon and the status of the unrounded projected balance. |
| WebApp.Projections | app_final.py:462-471 | One projection per horizon 15, 30, 45, 60 and 90, in that order. |
| WebApp.ProjectEach | app_final.py:463-471 | One projection per horizon given, in order, each with the status of its projected balance. |
| WebApp.ProjectionsWorsen | app_final.py:463-471 | With a non-negative mean a longer horizon is never less severe. |
| WebApp.WorsenAlong | app_final.py:463-471 | Projections whose status follows the projected balance grow no less severe as the horizon lengthens. |
| WebApp.StatusWorsens | app_final.py:465-470 | A later horizon's status is at least as severe as an earlier one's. |
| WebApp.AbcReport | app_final.py:484-500 | A permutation of the items with positive consumption, by descending Consumo_30d. Each is classed by its running share of consumption, the classes come in the order A, B, C, and the last row is C. |
| WebApp.ClassCounts | app_final.py:502-506 | The A, B and C counts of the summary add up to the number of ranked items. |
| ItemReport.UnitOf | analise_inteligente.py:80-83 | `UN` when the sheet has no Unidade column or the last row's cell is blank; otherwise that cell. |
| ItemReport.Analyse | analise_inteligente.py:64-83 | No report exactly when no ledger row matches the name ignoring case; otherwise the figures taken at the item's last row. |
| ItemReport.Summarise | analise_inteligente.py:75-83 | The balance and unit of the last row, the number of the item's positive exits, and their mean (mean times count equals their total; positive when there are exits, 0 otherwise). |
| ItemReport.MeanExit | analise_inteligente.py:77 | Mean times count is the total; positive exits have a positive mean; no exits give 0. |
| ItemReport.PositiveSum | analise_inteligente.py:76-77 | A non-empty list of positive exits has a positive total. |
| Panel.Panel | painel_critico.py:20-38 | Alert A holds exactly the index rows with a balance of zero or below. Alert B holds exactly the rows whose Última Data, read with its time of day, is more than fifteen days before now. Neither is longer than the index. |
| Panel.StaleGrows | painel_critico.py:30-38 | An item seen stale stays stale as the clock moves on. |
| Panel.TimeOfDayCounts | painel_critico.py:28-38 | The time of day of Última Data counts. At 08:00 on 10/10/2026, a row last moved at 14:00 on 25/09/2026 is not stale, though its date read at midnight would be. |
| Calendar.MidnightBefore | painel_critico.py:28-38 | A bare date, which the parser reads as midnight, compares against the cut-off as the date does. |
| Panel.WrittenBalanceRead | painel_critico.py:24-35 | A balance written back by the launcher is read by the panel as the number it stands for, so the item is critical exactly when that number is zero or below. |
| IndexNames.Normalise | gestor.py:80-85 | The key holds only word characters and spaces and is never longer than the name. |
| IndexNames.NormaliseNotIdempotent | gestor.py:82-84 | Dropping punctuation after collapsing spaces can leave a double space: "a - b" becomes "a  b", whose own key is "a b", so normalising twice differs from normalising once. |
| IndexNames.FirstIndex | gestor.py:359-369 | The position of the first occurrence: it holds the value and no earlier position does. |
| IndexNames.Duplicates | gestor.py:359-369 | At most one report per name, and every report pairs an earlier line with a later one, both lines of the index. |
| IndexNames.ExactDuplicates | gestor.py:350-369 | The `vistos` loop over the normalised names reports exactly the repeats of non-blank keys, each against the first line that carried its key. |
| IndexNames.ReportRepeats | gestor.py:356-369 | The loop with its dictionary of first sightings yields exactly the reports of the reference definition. |
| IndexNames.FirstIndexAt | gestor.py:369 | A value not seen before its position first occurs there. |
| IndexNames.DuplicatesCount | gestor.py:359-369 | The reports number the non-blank names less their distinct keys. |
| IndexNames.SpaceIssues | gestor.py:433-441 | At most one report per name. |
| IndexNames.SpaceIssuesExact | gestor.py:433-441 | A line is reported exactly when its name is non-blank and has leading or trailing spaces or a double space, and every report names its line of the index. |
| Formatting.Group | config.py:86 | The `,` format option keeps the first and last digit and inserts one separator per full group of three: a text of n digits grows to n + (n - 1) / 3 characters. |
| Formatting.GroupAbsent | config.py:86 | Grouping adds no character other than the separator. |
| Formatting.GroupRemove | config.py:86 | Deleting the separators from the grouped whole part gives back its digits. |
| Formatting.GroupReplace | config.py:86 | Renaming the group separator of a grouped text is the same as grouping with the new separator. |
| Formatting.SwapGrouped | config.py:86 | The three chained `replace` calls turn `[-]d,ddd.ff` into `[-]d.ddd,ff`: thousands dots and a decimal comma. |
| Formatting.FormatBrShape | config.py:84-88 | With at least one decimal, `formatar_numero_br` writes the sign, the dot-grouped whole units and a comma followed by exactly n decimals. |
| Formatting.ReadBrText | config.py:67-80 | `converter_para_numero` reads the Brazilian text `[-]d.ddd,ff` back as the number `[-]dddd.ff`. |
| Formatting.FormatBrRoundTrip | config.py:67-88 | Reading back with `converter_para_numero` any number written by `formatar_numero_br` with at least one decimal gives that number rounded half to even to that many decimals. |
| Decimal.ParseFixed | config.py:80 | `float` of the literal `ds.fs` is ds plus fs tenths, hundredths, and so on. |
| Decimal.ParseWhole | config.py:80 | `float` of a string of digits is the whole number they spell. |
| Calendar.ElapsedDays | gestor.py:194 | `(hoje - x).days` is the whole number of days between midnight of x and now: the largest r with x + r days not after now. |
| Recalibration.IndexAfter | recalibrar_indice.py:27-58 | A ledger sheet without a data row leaves the old index as it was. Otherwise the index becomes the rebuilt one: sorted with no repeats, each row carrying its item's last ledger row, every non-blank item present, and empty when every item cell is blank. |
| Recalibration.BlankLedgerEmpty | recalibrar_indice.py:41-44 | A ledger whose item cells are all blank rebuilds an empty index. |
| Recalibration.LastPosition | recalibrar_indice.py:44 | The row `groupby('Item').last()` takes for an item is one of its rows, and no later ledger row has that item. |
| Recalibration.Rebuild | recalibrar_indice.py:44-58 | One index row per key, in key order, each carrying the fields of its item's last ledger row. |
| Recalibration.NamedLinesKept | recalibrar_indice.py:41-44 | Every ledger row whose item is not blank has its item among the keys. |
| Recalibration.KeysNamed | recalibrar_indice.py:41-44 | Every key is a non-blank item that occurs in the ledger. |
| Purchases.LotBounds | lista_compras_ia.py:117-121 | A whole number of lots chosen by rounding the need over the lot size is at least one lot, and falls short of the need by at most half a lot. |

## Left out

- Google Sheets I/O is not modelled: connections, credentials, `get_all_values`, `append_row`, `update` and `batch_clear`. The model starts from the cell text (`Sheets`) or from the typed rows (`Ledger`) those calls return.
- The language-model calls are not modelled: Groq and Gemini clients, `consultar_ia*`, `gerar_relatorio_ia`, `gerar_resumo_ia`, and the prompt text built in `processar_pergunta` and `construir_contexto_dados`. Only the data handed to the prompt is modelled, and only the post-processing of a classifier reply. The reply itself is a parameter.
- Streamlit, Flask routes, plotly, `print` output and Excel/CSV export are not modelled, being presentation only. The same goes for `api_buscar` and `api_alertas` of app_final.py, which only select and display.
- motor_estoque.py is not part of this model. What it does is sheet I/O only.
- The clock is not modelled: `datetime.now()` is the parameter `now`.
- Multi-format date parsing is not modelled: `converter_data` in gestor.py, the `strptime` chains in app_final.py and `pd.to_datetime(errors='coerce')`. Ledger dates arrive already parsed, as `Option<Date>`. painel_critico.py takes the parser of Última Data as a parameter, and that parser keeps the time of day (`Option<Instant>`).
- Ledger dates are kept to the day and compared at midnight. For most scripts this is what they do: their `format='%d/%m/%Y'` turns a cell with a time into `NaT`, and `converter_data` keeps only the text before the first space. app_final.py is the exception. Its `'%d/%m/%Y %H:%M:%S'` format and its `dayfirst` fallback (lines 116-133) keep the time of a launcher-written Data cell. The model still compares those dates at midnight, so near a window edge it can count a movement that the script leaves out.
- `Sheets.PyInt` does not accept underscores between digits or non-ASCII digits, which Python's `int()` does. Linha ESTOQUE cells are written by the scripts as plain digits.
- A Linha ESTOQUE of 1 or below is read as a blank Saldo cell (parsed as 0). Line 1 is the header row, whose text also parses as 0. What `gspread` does with a row address below 1 is not part of this model.
- `difflib.SequenceMatcher` similarity is not modelled: the similar-names part of `analisar_duplicados_indice`, and `similaridade`. It is a library algorithm outside the scripts.
- Binary floating point is not modelled. Quantities are exact reals, so the model knows no accumulation error in `sum` or `cumsum`. Python's `round` is applied to the exact value, not to the nearest double. NaN does not arise on exact reals. So the `pd.isna` test of estoque_minimo.py line 111 drops out: the sample deviation of two or more days is always a number, and only the zero test is left.
- `float()` is modelled only on plain decimal literals: an optional sign, digits and at most one dot. Exponents, `inf`, `nan`, underscores and surrounding Unicode spaces above Latin-1 are not recognised. All of these fall into the scripts' `except: 0.0` branch.
- Integer and float cells (`isinstance(valor, (int, float))`) are modelled as a `Number` cell that passes through unchanged.
- Python's Unicode case mapping and whitespace tables are modelled on the Latin-1 range only. Above U+00FF, characters are left unchanged by `upper`/`lower` and count as word characters for `\w`.
- `np.sqrt` is a parameter. The only laws assumed are that it is non-negative, and positive on positive arguments.
- pandas' default sort is quicksort, which is not stable. Every sort here is stable, so rows whose keys tie keep their input order, where pandas may swap them.
- `value_counts()` orders tied counts in an unspecified way. The model compares its output as a multiset.
- The `head(n)` and `nlargest(n)` truncations that only limit what a prompt or a table shows are not modelled. The figures computed only for prompts or printed summaries are not modelled either: totals, the top-consumption lists, and `analisar_consumo_3_meses`, `comparar_estoque_indice`, `analisar_movimentacao_entrada_saida` and `analisar_por_grupo` of gestor.py. All of these are display and none feeds a decision.
- The `str.contains` calls with pandas' default `regex=True` are read as plain substring tests. The typed item text is treated as having no regular-expression metacharacters.
- The missing-column branches of app_final.py's `carregar_dados_completos` are not modelled. They fill in defaults when a sheet lacks a column, and the model's rows always have every column.
- The unit shown by chatbot_estoque.py, and the unit price prompted for in lancar_estoque.py lines 48-64, are not modelled. They are console and prompt text that no computation uses.
- The new ledger line number of lancar_estoque.py is a parameter. The script takes it as `len` of a sheet column that `gspread` reads.
- classificador_ia.py's `classificacoes` dictionary starts empty in the model. In the script it persists across calls on the same object.
- Python's `dict.get(status, 5)` default rank in estoque_minimo.py is not modelled. Every status the planner produces is in the table, so the default is never used.
- Alerts.LoadStock: states only that there is one row per index row, with the same item in order. That the balance is the parsed Saldo cell and the consumption is the 30-day window sum follows from its definition and is not restated.
- Chatbot.Mentioned: when the question's words mention more than five names, the model does not say which five `[:5]` keeps. It states only that every kept name is justified by a word of the question.
- WebApp.CandidatesListed: states one direction only (a qualifying item is on the list). Names may repeat, so an item on the list does not single out the row it came from. The converse is `WebApp.CandidatesWellListed`.

=== FILE: abc.dfy ===
/** The ABC curve gestor.py, dashboard_ia.py and app_final.py share: the
    items with positive consumption, largest first, each classed by the
    running total of their percentage shares (A up to 80, B up to 95, C
    beyond). */
module Abc {
  import opened Seqs
  import opened Sorting
  import opened Stats

  /** An item and its consumption over the analysed period. */
  datatype Usage = Usage(item: string, consumo: real)

  datatype AbcClass = A | B | C

  /** `'A' if x <= 80 else ('B' if x <= 95 else 'C')`. */
  function ClassOf(cumulative: real): (c: AbcClass)
    ensures c == A <==> cumulative <= 80.0
    ensures c == B <==> 80.0 < cumulative <= 95.0
    ensures c == C <==> cumulative > 95.0
  {
    if cumulative <= 80.0 then A else if cumulative <= 95.0 then B else C
  }

  /** A < B < C. */
  function ClassRank(c: AbcClass): int
  {
    match c
    case A => 0
    case B => 1
    case C => 2
  }

  /** A classed row of the curve. */
  datatype Ranked = Ranked(item: string, consumo: real, share: real, cumulative: real, curve: AbcClass)

  predicate Consumes(u: Usage)
  {
    u.consumo > 0.0
  }

  /** `sort_values(consumo, ascending=False)`. */
  function LargerFirst(a: Usage, b: Usage): bool
  {
    a.consumo >= b.consumo
  }

  function Consumption(u: Usage): real
  {
    u.consumo
  }

  /** `consumo / total * 100`. */
  function ShareOf(total: real): Usage -> real
    requires total != 0.0
  {
    (u: Usage) => u.consumo / total * 100.0
  }

  /** `cumsum()` started from `acc`: position `i` holds `acc` plus the
      first `i + 1` terms. */
  function RunningTotals(xs: seq<real>, acc: real): (r: seq<real>)
    ensures |r| == |xs|
    ensures forall i :: 0 <= i < |r| ==> r[i] == acc + Total(xs[..i + 1])
    decreases |xs|
  {
    if |xs| == 0 then []
    else
      var rest := RunningTotals(xs[1..], acc + xs[0]);
      forall i | 0 < i < |xs| ensures Total(xs[..i + 1]) == xs[0] + Total(xs[1..][..i]) {
        assert xs[..i + 1][1..] == xs[1..][..i];
      }
      [acc + xs[0]] + rest
  }

  /** Positive terms make the running totals strictly increasing, all above
      the start, and the last one is the start plus the sum. */
  lemma {:induction false} RunningTotalsIncrease(xs: seq<real>, acc: real)
    requires forall i :: 0 <= i < |xs| ==> xs[i] > 0.0
    ensures forall i, j :: 0 <= i < j < |xs| ==> RunningTotals(xs, acc)[i] < RunningTotals(xs, acc)[j]
    ensures forall i :: 0 <= i < |xs| ==> RunningTotals(xs, acc)[i] > acc
    ensures |xs| > 0 ==> RunningTotals(xs, acc)[|xs| - 1] == acc + Total(xs)
  {
    if |xs| > 0 {
      var r := RunningTotals(xs, acc);
      RunningTotalsIncrease(xs[1..], acc + xs[0]);
      assert r[1..] == RunningTotals(xs[1..], acc + xs[0]);
    }
  }

  /** The shares of all items add up to 100. */
  lemma {:induction false} SharesTotal(s: seq<Usage>, total: real)
    requires total != 0.0
    ensures Total(MapSeq(s, ShareOf(total))) == Sum(s, Consumption) / total * 100.0
  {
    if |s| > 0 {
      var xs := MapSeq(s, ShareOf(total));
      assert xs[1..] == MapSeq(s[1..], ShareOf(total));
      SharesTotal(s[1..], total);
      AddQuotients(s[0].consumo, Sum(s[1..], Consumption), total);
      assert xs[0] == s[0].consumo / total * 100.0;
      assert (s[0].consumo / total) * 100.0 + (Sum(s[1..], Consumption) / total) * 100.0
          == (s[0].consumo / total + Sum(s[1..], Consumption) / total) * 100.0;
    }
  }

  /** The first `i + 1` shares add up to the first `i + 1` consumptions
      over the total, times 100. */
  lemma PrefixShares(ranked: seq<Usage>, total: real, i: nat)
    requires total != 0.0 && i < |ranked|
    ensures Total(MapSeq(ranked, ShareOf(total))[..i + 1]) == Sum(ranked[..i + 1], Consumption) / total * 100.0
  {
    assert MapSeq(ranked, ShareOf(total))[..i + 1] == MapSeq(ranked[..i + 1], ShareOf(total));
    SharesTotal(ranked[..i + 1], total);
  }

  /** The cumulative percentage at row `i` of a ranking: the consumption
      of the rows up to and including `i` as a percentage of the whole. */
  function RunningShare(ranked: seq<Usage>, i: nat): real
    requires i < |ranked| && Sum(ranked, Consumption) != 0.0
  {
    Sum(ranked[..i + 1], Consumption) / Sum(ranked, Consumption) * 100.0
  }

  /** The item and consumption of a classed row. */
  function UsageOf(x: Ranked): Usage
  {
    Usage(x.item, x.consumo)
  }

  function Classed(ranked: seq<Usage>, shares: seq<real>, cumulative: seq<real>): (r: seq<Ranked>)
    requires |ranked| == |shares| == |cumulative|
    ensures |r| == |ranked|
    ensures MapSeq(r, UsageOf) == ranked
    ensures forall i :: 0 <= i < |r| ==>
      r[i] == Ranked(ranked[i].item, ranked[i].consumo, shares[i], cumulative[i], ClassOf(cumulative[i]))
  {
    var r := seq(|ranked|, i requires 0 <= i < |ranked| =>
      Ranked(ranked[i].item, ranked[i].consumo, shares[i], cumulative[i], ClassOf(cumulative[i])));
    assert MapSeq(r, UsageOf) == ranked;
    r
  }

  /** The positive-consumption items, largest first. */
  function RankedUsage(items: seq<Usage>): (r: seq<Usage>)
    ensures multiset(r) == multiset(Filter(items, Consumes))
    ensures forall i :: 0 <= i < |r| ==> r[i].consumo > 0.0
    ensures forall i, j :: 0 <= i < j < |r| ==> r[i].consumo >= r[j].consumo
  {
    var pos := Filter(items, Consumes);
    assert TotalPreorder(LargerFirst);
    var r := SortBy(pos, LargerFirst);
    forall i | 0 <= i < |r| ensures r[i].consumo > 0.0 {
      assert r[i] in multiset(pos);
    }
    assert Sorted(r, LargerFirst);
    r
  }

  /** The classed rows of an already ranked list: shares of the total,
      their running totals, and the class each total falls in. */
  function CurveOf(ranked: seq<Usage>): (r: seq<Ranked>)
    ensures Sum(ranked, Consumption) != 0.0 ==> MapSeq(r, UsageOf) == ranked && |r| == |ranked|
    ensures Sum(ranked, Consumption) != 0.0 ==>
      forall i :: 0 <= i < |ranked| ==> r[i].cumulative == RunningShare(ranked, i)
    ensures forall i :: 0 <= i < |r| ==> r[i].curve == ClassOf(r[i].cumulative)
  {
    var total := Sum(ranked, Consumption);
    if total == 0.0 then []
    else
      var shares := MapSeq(ranked, ShareOf(total));
      var r := Classed(ranked, shares, RunningTotals(shares, 0.0));
      forall i | 0 <= i < |ranked| ensures r[i].cumulative == RunningShare(ranked, i) {
        PrefixShares(ranked, total, i);
      }
      r
  }

  /** Each row's cumulative percentage is the running share of
      consumption up to and including it, and its class is the band that
      percentage falls in: A up to 80, so the row that crosses 80 is B. */
  predicate ClassedByShare(r: seq<Ranked>)
  {
    |r| > 0 ==>
      Sum(MapSeq(r, UsageOf), Consumption) > 0.0 &&
      forall i :: 0 <= i < |r| ==>
        r[i].cumulative == RunningShare(MapSeq(r, UsageOf), i) && r[i].curve == ClassOf(r[i].cumulative)
  }

  /** `analisar_curva_abc`: every positive-consumption item once, largest
      first, its class read off the running total of shares. */
  function Curve(items: seq<Usage>): (r: seq<Ranked>)
    ensures multiset(MapSeq(r, UsageOf)) == multiset(Filter(items, Consumes))
    ensures forall i, j :: 0 <= i < j < |r| ==> r[i].consumo >= r[j].consumo
    ensures ClassedByShare(r)
  {
    var ranked := RankedUsage(items);
    SumPositive(ranked);
    var r := CurveOf(ranked);
    assert MapSeq(r, UsageOf) == ranked;
    assert forall i :: 0 <= i < |r| ==> r[i].consumo == MapSeq(r, UsageOf)[i].consumo;
    r
  }

  /** Along a ranked list of positive consumptions the running total
      rises, so the classes run A, then B, then C, and the last item is
      always C. */
  lemma CurveOfClasses(ranked: seq<Usage>)
    requires forall i :: 0 <= i < |ranked| ==> ranked[i].consumo > 0.0
    ensures var r := CurveOf(ranked);
      forall i, j :: 0 <= i < j < |r| ==>
        r[i].cumulative < r[j].cumulative && ClassRank(r[i].curve) <= ClassRank(r[j].curve)
    ensures var r := CurveOf(ranked); |r| > 0 ==> r[|r| - 1].cumulative == 100.0 && r[|r| - 1].curve == C
  {
    var total := Sum(ranked, Consumption);
    SumPositive(ranked);
    if |ranked| > 0 {
      var shares := MapSeq(ranked, ShareOf(total));
      var cum := RunningTotals(shares, 0.0);
      SharesPositive(ranked, total);
      RunningTotalsIncrease(shares, 0.0);
      CumulativeEnds(ranked, total);
      assert CurveOf(ranked) == Classed(ranked, shares, cum);
      ClassedInOrder(ranked, shares, cum);
    }
  }

  /** The running total of all shares reaches exactly 100. */
  lemma CumulativeEnds(ranked: seq<Usage>, total: real)
    requires |ranked| > 0 && total == Sum(ranked, Consumption) && total > 0.0
    requires forall i :: 0 <= i < |ranked| ==> ranked[i].consumo > 0.0
    ensures RunningTotals(MapSeq(ranked, ShareOf(total)), 0.0)[|ranked| - 1] == 100.0
  {
    var shares := MapSeq(ranked, ShareOf(total));
    SharesPositive(ranked, total);
    RunningTotalsIncrease(shares, 0.0);
    SharesTotal(ranked, total);
    assert RunningTotals(shares, 0.0)[|shares| - 1] == 0.0 + Total(shares);
    assert Total(shares) == total / total * 100.0;
    WholeShare(total);
  }

  lemma WholeShare(total: real)
    requires total > 0.0
    ensures total / total * 100.0 == 100.0
  {
    assert total / total == 1.0;
  }

  lemma SharesPositive(ranked: seq<Usage>, total: real)
    requires total > 0.0 && forall i :: 0 <= i < |ranked| ==> ranked[i].consumo > 0.0
    ensures var shares := MapSeq(ranked, ShareOf(total));
      forall i :: 0 <= i < |shares| ==> shares[i] > 0.0
  {
    var shares := MapSeq(ranked, ShareOf(total));
    forall i | 0 <= i < |shares| ensures shares[i] > 0.0 {
      assert ranked[i].consumo / total > 0.0;
    }
  }

  /** Rows classed along strictly rising running totals rise in class. */
  lemma ClassedInOrder(ranked: seq<Usage>, shares: seq<real>, cum: seq<real>)
    requires |ranked| == |shares| == |cum|
    requires forall i, j :: 0 <= i < j < |cum| ==> cum[i] < cum[j]
    ensures var r := Classed(ranked, shares, cum);
      forall i, j :: 0 <= i < j < |r| ==>
        r[i].cumulative < r[j].cumulative && ClassRank(r[i].curve) <= ClassRank(r[j].curve)
    ensures var r := Classed(ranked, shares, cum); |r| > 0 ==> r[|r| - 1].cumulative == cum[|cum| - 1]
  {
    var r := Classed(ranked, shares, cum);
    forall i, j | 0 <= i < j < |r|
      ensures r[i].cumulative < r[j].cumulative && ClassRank(r[i].curve) <= ClassRank(r[j].curve)
    {
      assert r[i].cumulative == cum[i] && r[j].cumulative == cum[j];
    }
  }

  lemma CurveClasses(items: seq<Usage>)
    ensures var r := Curve(items);
      forall i, j :: 0 <= i < j < |r| ==>
        r[i].cumulative < r[j].cumulative && ClassRank(r[i].curve) <= ClassRank(r[j].curve)
  {
    CurveOfClasses(RankedUsage(items));
  }

  /** The curve, when not empty, ends in class C. */
  lemma CurveEndsInC(items: seq<Usage>)
    ensures var r := Curve(items); |r| > 0 ==> r[|r| - 1].curve == C
  {
    CurveOfClasses(RankedUsage(items));
  }

  lemma {:induction false} SumPositive(s: seq<Usage>)
    requires forall i :: 0 <= i < |s| ==> s[i].consumo > 0.0
    ensures |s| > 0 ==> Sum(s, Consumption) > 0.0
    ensures |s| == 0 ==> Sum(s, Consumption) == 0.0
  {
    if |s| > 0 {
      SumPositive(s[1..]);
    }
  }
}

=== FILE: alerts.dfy ===
/** alertas_inteligentes.py: per-item coverage from the last 30 days of
    exits, the alert-level ladder, the suggested purchase, the
    (priority, consumption) ordering of the alert list and its grouping by
    level. */
module Alerts {
  import opened Seqs
  import opened Sorting
  import opened Calendar
  import opened Ledger
  import opened LocaleNumbers
  import opened Config

  /** An index row after `carregar_dados`: Saldo and Consumo_30d. */
  datatype Stock = Stock(item: string, saldo: real, consumo30: real)

  /** `carregar_dados`: the balance through config.py's parser and the
      30-day exits from the ledger, 0 for items without any. */
  function LoadStock(index: seq<IndexEntry>, history: seq<Row>, now: Instant): (r: seq<Stock>)
    ensures |r| == |index|
    ensures forall i :: 0 <= i < |r| ==> r[i].item == index[i].item
  {
    MapSeq(index, (e: IndexEntry) => Stock(e.item, ParseConditional(e.saldo), WindowExits(history, e.item, now, 30)))
  }

  /** Media_Diaria: the 30-day consumption per day. */
  function MediaDiaria(s: Stock): real
  {
    s.consumo30 / 30.0
  }

  /** Dias_Cobertura. */
  function DiasCobertura(s: Stock): real
  {
    Coverage(s.saldo, MediaDiaria(s))
  }

  /** `classificar_nivel_alerta`: a negative balance is critical whatever
      the coverage; otherwise the coverage ladder with inclusive bounds
      7, 15 and 30. */
  function ClassifyLevel(dias: real, saldo: real): (l: AlertLevel)
    ensures l == Critico <==> saldo < 0.0 || dias <= 7.0
    ensures l == Urgente <==> saldo >= 0.0 && 7.0 < dias <= 15.0
    ensures l == Atencao <==> saldo >= 0.0 && 15.0 < dias <= 30.0
    ensures l == Normal <==> saldo >= 0.0 && dias > 30.0
  {
    if saldo < 0.0 then Critico
    else if dias <= 7.0 then Critico
    else if dias <= 15.0 then Urgente
    else if dias <= 30.0 then Atencao
    else Normal
  }

  /** For a fixed non-negative balance, more coverage never raises the
      urgency (a larger priority number is less urgent). */
  lemma LevelMonotone(d1: real, d2: real, saldo: real)
    requires d1 <= d2 && saldo >= 0.0
    ensures Priority(ClassifyLevel(d1, saldo)) <= Priority(ClassifyLevel(d2, saldo))
  {
  }

  /** `qtd_sugerida`: enough for 45 days of the daily mean, never negative,
      and nothing for an item without consumption. */
  function SuggestedQty(media: real, saldo: real): (q: real)
    ensures q >= 0.0
    ensures media <= 0.0 ==> q == 0.0
    ensures media > 0.0 ==> q >= 45.0 * media - saldo && (q == 0.0 || q == 45.0 * media - saldo)
  {
    if media > 0.0 then
      var need := media * 45.0 - saldo;
      if need > 0.0 then need else 0.0
    else 0.0
  }

  /** One entry of `self.alertas`. */
  datatype Alert = Alert(
    item: string,
    level: AlertLevel,
    saldo: real,
    dias: real,
    consumo30: real,
    media: real,
    priority: int,
    qty: real)

  /** The level an index row gets. */
  function LevelOf(s: Stock): AlertLevel
  {
    ClassifyLevel(DiasCobertura(s), s.saldo)
  }

  /** Rows that raise an alert: every level but NORMAL. */
  predicate Alerting(s: Stock)
  {
    LevelOf(s) != Normal
  }

  /** One alert record: the row's level and its priority in NIVEIS_ALERTA,
      the row's figures, and a purchase that brings the balance up to 45
      days of the daily mean (nothing without consumption). */
  function MakeAlert(s: Stock): (a: Alert)
    ensures a.item == s.item && a.level == ClassifyLevel(DiasCobertura(s), s.saldo)
    ensures a.priority == Priority(a.level)
    ensures a.saldo == s.saldo && a.consumo30 == s.consumo30 && a.media * 30.0 == s.consumo30
    ensures a.dias == DiasCobertura(s)
    ensures a.qty == SuggestedQty(MediaDiaria(s), s.saldo)
    ensures a.qty >= 0.0
    ensures s.consumo30 <= 0.0 ==> a.qty == 0.0
    ensures s.consumo30 > 0.0 ==> a.saldo + a.qty >= 45.0 * a.media
  {
    var l := LevelOf(s);
    Alert(s.item, l, s.saldo, DiasCobertura(s), s.consumo30, MediaDiaria(s),
      Priority(l), SuggestedQty(MediaDiaria(s), s.saldo))
  }

  /** The sort key `(prioridade, -consumo_30d)`. */
  function AlertOrder(a: Alert, b: Alert): bool
  {
    a.priority < b.priority || (a.priority == b.priority && a.consumo30 >= b.consumo30)
  }

  lemma AlertOrderTotal()
    ensures TotalPreorder(AlertOrder)
  {
  }

  /** `gerar_alertas`: an alert per non-NORMAL row, sorted by priority and
      then by descending 30-day consumption, ties in index order. */
  function GenerateAlerts(stock: seq<Stock>): (r: seq<Alert>)
    ensures |r| == Count(stock, Alerting)
    ensures multiset(r) == multiset(MapSeq(Filter(stock, Alerting), MakeAlert))
    ensures forall i :: 0 <= i < |r| ==>
      r[i].level != Normal && r[i].priority == Priority(r[i].level) && r[i].qty >= 0.0
    ensures forall i :: 0 <= i < |r| ==> r[i].saldo < 0.0 || r[i].dias <= 30.0
    ensures forall i, j :: 0 <= i < j < |r| ==>
      r[i].priority < r[j].priority || (r[i].priority == r[j].priority && r[i].consumo30 >= r[j].consumo30)
  {
    var c := MapSeq(Filter(stock, Alerting), MakeAlert);
    AlertOrderTotal();
    var r := SortBy(c, AlertOrder);
    forall i | 0 <= i < |r|
      ensures r[i].level != Normal && r[i].priority == Priority(r[i].level) && r[i].qty >= 0.0
      ensures r[i].saldo < 0.0 || r[i].dias <= 30.0
    {
      assert r[i] in multiset(c);
    }
    r
  }

  /** An index row is alerted exactly when its level is not NORMAL; in
      particular a row with the 999 sentinel and a non-negative balance is
      never alerted. */
  lemma AlertFor(stock: seq<Stock>, s: Stock)
    requires s in stock
    ensures MakeAlert(s) in GenerateAlerts(stock) <==> Alerting(s)
  {
    var f := Filter(stock, Alerting);
    var c := MapSeq(f, MakeAlert);
    FilterMembership(stock, Alerting, s);
    assert MakeAlert(s) in GenerateAlerts(stock) <==> MakeAlert(s) in multiset(c);
    if Alerting(s) {
      var k :| 0 <= k < |f| && f[k] == s;
      assert c[k] == MakeAlert(s);
    }
  }

  lemma SentinelNeverAlerts(stock: seq<Stock>, s: Stock)
    requires s in stock && s.consumo30 <= 0.0 && s.saldo >= 0.0
    ensures MakeAlert(s) !in GenerateAlerts(stock)
  {
    AlertFor(stock, s);
  }

  /** `alertas_por_nivel`: the alerts of one level, in list order. */
  function AlertsOfLevel(alerts: seq<Alert>, l: AlertLevel): (r: seq<Alert>)
    ensures forall i :: 0 <= i < |r| ==> r[i].level == l
  {
    Filter(alerts, (a: Alert) => a.level == l)
  }

  /** Every alert lands in exactly one of the three groups, and each group
      keeps the list's order. */
  lemma {:induction false} GroupsPartition(alerts: seq<Alert>)
    requires forall i :: 0 <= i < |alerts| ==> alerts[i].level != Normal
    ensures |AlertsOfLevel(alerts, Critico)| + |AlertsOfLevel(alerts, Urgente)|
          + |AlertsOfLevel(alerts, Atencao)| == |alerts|
  {
    if |alerts| > 0 {
      GroupsPartition(alerts[1..]);
    }
  }

  lemma GroupsSorted(stock: seq<Stock>, l: AlertLevel)
    ensures Sorted(AlertsOfLevel(GenerateAlerts(stock), l), AlertOrder)
  {
    var r := GenerateAlerts(stock);
    assert Sorted(r, AlertOrder);
    FilterSorted(r, (a: Alert) => a.level == l, AlertOrder);
  }
}

=== FILE: anomalies.dfy ===
/** detector_anomalias.py: population z-scores, exit and entry outliers,
    repeated exit values, several exits on one day, negative balances,
    seasonal breaks against the historical mean of the month, and the
    whole-ledger pass that concatenates them and orders them newest first. */
module Anomalies {
  import opened Wrappers
  import opened Seqs
  import opened Sorting
  import opened Stats
  import opened Grouping
  import opened Calendar
  import opened Ledger
  import opened Forecast
  import SafetyStock

  datatype Kind =
    | ConsumoAlto | ConsumoBaixo
    | EntradaAlta | EntradaBaixa
    | ValorRepetido | MultiplasSaidasDia | SaldoNegativo
    | ConsumoAcimaSazonal | ConsumoAbaixoSazonal

  /** One reported anomaly. `when` is the `data` field in seconds since the
      epoch (`None` for `NaT`); `detail` is the z-score, the number of
      occurrences or the percentage variation, depending on the kind. */
  datatype Anomaly = Anomaly(item: string, kind: Kind, when: Option<int>, value: real, detail: real)

  /** The `data` of a ledger row. */
  function RowWhen(r: Row): Option<int>
  {
    match r.date
    case Some(d) => Some(Midnight(d))
    case None => None
  }

  /** `calcular_zscore`: all zeros for fewer than three values or a zero
      population deviation, otherwise `(v - mean) / std` of each value; the
      value itself is part of the sample. */
  function ZScores(vals: seq<real>, sqrt: real -> real): (z: seq<real>)
    ensures |z| == |vals|
    ensures |vals| < 3 ==> forall i :: 0 <= i < |z| ==> z[i] == 0.0
    ensures |vals| >= 3 && PopulationStd(vals, sqrt) == 0.0 ==> forall i :: 0 <= i < |z| ==> z[i] == 0.0
    ensures |vals| >= 3 && PopulationStd(vals, sqrt) != 0.0 ==>
      forall i :: 0 <= i < |z| ==> z[i] * PopulationStd(vals, sqrt) == vals[i] - Mean(vals)
  {
    if |vals| < 3 then seq(|vals|, i => 0.0)
    else
      var sd := PopulationStd(vals, sqrt);
      if sd == 0.0 then seq(|vals|, i => 0.0)
      else MapSeq(vals, ZScoreOf(Mean(vals), sd))
  }

  lemma {:induction false} ZerosTotal(n: nat)
    ensures Total(seq(n, i => 0.0)) == 0.0
  {
    if n > 0 {
      assert seq(n, i => 0.0)[1..] == seq(n - 1, i => 0.0);
      ZerosTotal(n - 1);
    }
  }

  /** The z-scores always sum to zero. */
  lemma ZScoresCentred(vals: seq<real>, sqrt: real -> real)
    ensures Total(ZScores(vals, sqrt)) == 0.0
  {
    if |vals| < 3 || PopulationStd(vals, sqrt) == 0.0 {
      ZerosTotal(|vals|);
    } else {
      ZScoresSumToZero(vals, PopulationStd(vals, sqrt));
    }
  }

  /** A value has a positive z-score exactly when it lies above the mean of
      its sample. */
  lemma ZScoreSign(vals: seq<real>, sqrt: real -> real, i: nat)
    requires SqrtLaws(sqrt) && 3 <= |vals| && i < |vals|
    requires PopulationStd(vals, sqrt) != 0.0
    ensures ZScores(vals, sqrt)[i] > 0.0 <==> vals[i] > Mean(vals)
  {
    StdNonNegative(vals, sqrt);
  }

  /** A row paired with its z-score (`df_item['zscore'] = zscores`). */
  datatype Scored = Scored(row: Row, z: real)

  function Zip(rows: seq<Row>, z: seq<real>): (r: seq<Scored>)
    requires |rows| == |z|
    ensures |r| == |rows|
    ensures forall i :: 0 <= i < |r| ==> r[i] == Scored(rows[i], z[i])
  {
    seq(|rows|, i requires 0 <= i < |rows| => Scored(rows[i], z[i]))
  }

  /** `abs(zscore) > 2.5`. */
  predicate Extreme(s: Scored)
  {
    s.z > 2.5 || s.z < -2.5
  }

  /** The anomaly of a flagged row: `high` above the mean, `low` below. */
  function Flagged(item: string, high: Kind, low: Kind, value: Row -> real): Scored -> Anomaly
  {
    (s: Scored) => Anomaly(item, if s.z > 0.0 then high else low, RowWhen(s.row), value(s.row), s.z)
  }

  /** The rows `sel` selects, in ledger order, each with the z-score of
      its `value` among the selected rows (`df_item['zscore']`). */
  function Scores(rows: seq<Row>, sel: Row -> bool, value: Row -> real, sqrt: real -> real): (sc: seq<Scored>)
    ensures |sc| == Count(rows, sel)
    ensures forall i :: 0 <= i < |sc| ==>
      sc[i].row == Filter(rows, sel)[i] && sc[i].z == ZScores(MapSeq(Filter(rows, sel), value), sqrt)[i]
  {
    var df := Filter(rows, sel);
    Zip(df, ZScores(MapSeq(df, value), sqrt))
  }

  /** A scored row's anomaly is among the flagged ones exactly when its
      score is extreme, and every flagged anomaly is that of a scored row. */
  lemma FlaggedExactly(sc: seq<Scored>, item: string, high: Kind, low: Kind, value: Row -> real, x: Scored)
    ensures x in sc && Extreme(x) ==>
      Flagged(item, high, low, value)(x) in MapSeq(Filter(sc, Extreme), Flagged(item, high, low, value))
    ensures Flagged(item, high, low, value)(x) in MapSeq(Filter(sc, Extreme), Flagged(item, high, low, value)) ==>
      Extreme(x)
  {
    var F := Flagged(item, high, low, value);
    var f := Filter(sc, Extreme);
    var m := MapSeq(f, F);
    FilterMembership(sc, Extreme, x);
    if x in sc && Extreme(x) {
      var k :| 0 <= k < |f| && f[k] == x;
      assert m[k] == F(x);
    }
    if F(x) in m {
      var k :| 0 <= k < |m| && m[k] == F(x);
      assert F(f[k]).detail == f[k].z;
    }
  }

  /** The anomalies of the extreme scored rows: one per extreme row, each
      the anomaly of a scored row, and a scored row's anomaly among them
      exactly when its score is extreme. */
  lemma FlaggedRows(sc: seq<Scored>, item: string, high: Kind, low: Kind, value: Row -> real)
    ensures var m := MapSeq(Filter(sc, Extreme), Flagged(item, high, low, value));
      |m| == Count(sc, Extreme) &&
      (forall k :: 0 <= k < |m| ==> (exists i :: 0 <= i < |sc| && m[k] == Flagged(item, high, low, value)(sc[i]))) &&
      (forall i :: 0 <= i < |sc| ==> (Flagged(item, high, low, value)(sc[i]) in m <==> Extreme(sc[i])))
  {
    var f := Filter(sc, Extreme);
    var m := MapSeq(f, Flagged(item, high, low, value));
    forall k | 0 <= k < |m| ensures exists i :: 0 <= i < |sc| && m[k] == Flagged(item, high, low, value)(sc[i]) {
      FilterMembership(sc, Extreme, f[k]);
      var i :| 0 <= i < |sc| && sc[i] == f[k];
      assert m[k] == Flagged(item, high, low, value)(sc[i]);
    }
    forall i | 0 <= i < |sc| ensures Flagged(item, high, low, value)(sc[i]) in m <==> Extreme(sc[i]) {
      FlaggedExactly(sc, item, high, low, value, sc[i]);
    }
  }

  /** The rows `sel` selects, in ledger order, scored on `value`; nothing
      below `minimum` rows; otherwise the anomaly of each row whose score
      is beyond 2.5, and only those. */
  function Outliers(rows: seq<Row>, item: string, sel: Row -> bool, minimum: nat, value: Row -> real,
                    high: Kind, low: Kind, sqrt: real -> real): (r: seq<Anomaly>)
    ensures Count(rows, sel) < minimum ==> r == []
    ensures forall k :: 0 <= k < |r| ==> r[k].detail > 2.5 || r[k].detail < -2.5
    ensures forall k :: 0 <= k < |r| ==> (r[k].kind == high <==> r[k].detail > 0.0) || high == low
    ensures forall k :: 0 <= k < |r| ==> r[k].kind == high || r[k].kind == low
    ensures Count(rows, sel) >= minimum ==> |r| == Count(Scores(rows, sel, value, sqrt), Extreme)
    ensures Count(rows, sel) >= minimum ==>
      var sc := Scores(rows, sel, value, sqrt);
      forall i :: 0 <= i < |sc| ==> (Flagged(item, high, low, value)(sc[i]) in r <==> Extreme(sc[i]))
    ensures var sc := Scores(rows, sel, value, sqrt);
      forall k :: 0 <= k < |r| ==> (exists i :: 0 <= i < |sc| && r[k] == Flagged(item, high, low, value)(sc[i]))
  {
    var df := Filter(rows, sel);
    if |df| < minimum then []
    else
      var scored := Scores(rows, sel, value, sqrt);
      FlaggedRows(scored, item, high, low, value);
      MapSeq(Filter(scored, Extreme), Flagged(item, high, low, value))
  }

  /** The mask "row of `item` (any case) with a positive exit". */
  function PositiveExitOf(item: string): Row -> bool
  {
    (r: Row) => SameItem(item)(r) && r.exit > 0.0
  }

  /** `detectar_consumo_atipico`: no anomaly with fewer than five positive
      exits; otherwise each exit more than 2.5 deviations from the mean,
      CONSUMO_ALTO above it and CONSUMO_BAIXO below. */
  function ExitOutliers(rows: seq<Row>, item: string, sqrt: real -> real): (r: seq<Anomaly>)
    ensures Count(rows, PositiveExitOf(item)) < 5 ==> r == []
    ensures forall k :: 0 <= k < |r| ==> r[k].detail > 2.5 || r[k].detail < -2.5
    ensures forall k :: 0 <= k < |r| ==>
      (r[k].kind == ConsumoAlto && r[k].detail > 0.0) || (r[k].kind == ConsumoBaixo && r[k].detail < 0.0)
    ensures Count(rows, PositiveExitOf(item)) >= 5 ==>
      |r| == Count(Scores(rows, PositiveExitOf(item), Exit, sqrt), Extreme)
    ensures Count(rows, PositiveExitOf(item)) >= 5 ==>
      var sc := Scores(rows, PositiveExitOf(item), Exit, sqrt);
      forall i :: 0 <= i < |sc| ==>
        (Anomaly(item, if sc[i].z > 0.0 then ConsumoAlto else ConsumoBaixo, RowWhen(sc[i].row), sc[i].row.exit, sc[i].z) in r
         <==> sc[i].z > 2.5 || sc[i].z < -2.5)
    ensures var sc := Scores(rows, PositiveExitOf(item), Exit, sqrt);
      forall k :: 0 <= k < |r| ==>
        exists i :: 0 <= i < |sc| &&
          r[k] == Anomaly(item, if sc[i].z > 0.0 then ConsumoAlto else ConsumoBaixo, RowWhen(sc[i].row), sc[i].row.exit, sc[i].z)
  {
    Outliers(rows, item, PositiveExitOf(item), 5, Exit, ConsumoAlto, ConsumoBaixo, sqrt)
  }

  /** `detectar_picos_entrada`: no anomaly with fewer than three positive
      entries; otherwise ENTRADA_ALTA / ENTRADA_BAIXA beyond 2.5
      deviations. */
  function EntryOutliers(rows: seq<Row>, item: string, sqrt: real -> real): (r: seq<Anomaly>)
    ensures Count(rows, SafetyStock.PositiveEntryOf(item)) < 3 ==> r == []
    ensures forall k :: 0 <= k < |r| ==> r[k].detail > 2.5 || r[k].detail < -2.5
    ensures forall k :: 0 <= k < |r| ==>
      (r[k].kind == EntradaAlta && r[k].detail > 0.0) || (r[k].kind == EntradaBaixa && r[k].detail < 0.0)
    ensures Count(rows, SafetyStock.PositiveEntryOf(item)) >= 3 ==>
      |r| == Count(Scores(rows, SafetyStock.PositiveEntryOf(item), Entry, sqrt), Extreme)
    ensures Count(rows, SafetyStock.PositiveEntryOf(item)) >= 3 ==>
      var sc := Scores(rows, SafetyStock.PositiveEntryOf(item), Entry, sqrt);
      forall i :: 0 <= i < |sc| ==>
        (Anomaly(item, if sc[i].z > 0.0 then EntradaAlta else EntradaBaixa, RowWhen(sc[i].row), sc[i].row.entry, sc[i].z) in r
         <==> sc[i].z > 2.5 || sc[i].z < -2.5)
    ensures var sc := Scores(rows, SafetyStock.PositiveEntryOf(item), Entry, sqrt);
      forall k :: 0 <= k < |r| ==>
        exists i :: 0 <= i < |sc| &&
          r[k] == Anomaly(item, if sc[i].z > 0.0 then EntradaAlta else EntradaBaixa, RowWhen(sc[i].row), sc[i].row.entry, sc[i].z)
  {
    Outliers(rows, item, SafetyStock.PositiveEntryOf(item), 3, Entry, EntradaAlta, EntradaBaixa, sqrt)
  }

  /** A flagged exit is CONSUMO_ALTO exactly when it lies above the mean of
      the item's positive exits. */
  lemma HighAboveMean(rows: seq<Row>, item: string, sqrt: real -> real)
    requires SqrtLaws(sqrt)
    ensures var r := ExitOutliers(rows, item, sqrt);
      forall k :: 0 <= k < |r| ==>
        (r[k].kind == ConsumoAlto <==> r[k].value > Mean(MapSeq(Filter(rows, PositiveExitOf(item)), Exit)))
  {
    var df := Filter(rows, PositiveExitOf(item));
    var r := ExitOutliers(rows, item, sqrt);
    var vals := MapSeq(df, Exit);
    var sc := Scores(rows, PositiveExitOf(item), Exit, sqrt);
    forall i | 0 <= i < |sc| && Extreme(sc[i])
      ensures sc[i].z > 0.0 <==> sc[i].row.exit > Mean(vals)
    {
      ScoredHigh(rows, item, sqrt, i);
    }
    forall k | 0 <= k < |r|
      ensures r[k].kind == ConsumoAlto <==> r[k].value > Mean(vals)
    {
      var i :| 0 <= i < |sc| &&
        r[k] == Anomaly(item, if sc[i].z > 0.0 then ConsumoAlto else ConsumoBaixo, RowWhen(sc[i].row), sc[i].row.exit, sc[i].z);
      assert Extreme(sc[i]);
    }
  }

  /** An extreme exit scores above zero exactly when it lies above the
      mean of the item's positive exits. */
  lemma ScoredHigh(rows: seq<Row>, item: string, sqrt: real -> real, i: nat)
    requires SqrtLaws(sqrt) && i < Count(rows, PositiveExitOf(item))
    requires Extreme(Scores(rows, PositiveExitOf(item), Exit, sqrt)[i])
    ensures var sc := Scores(rows, PositiveExitOf(item), Exit, sqrt);
      sc[i].z > 0.0 <==> sc[i].row.exit > Mean(MapSeq(Filter(rows, PositiveExitOf(item)), Exit))
  {
    var vals := MapSeq(Filter(rows, PositiveExitOf(item)), Exit);
    var sc := Scores(rows, PositiveExitOf(item), Exit, sqrt);
    assert sc[i].z == ZScores(vals, sqrt)[i];
    assert |vals| >= 3 && PopulationStd(vals, sqrt) != 0.0;
    assert sc[i].row.exit == vals[i];
    ZScoreSign(vals, sqrt, i);
  }

  /** A distinct exit value and how often it occurs (`value_counts()`). */
  datatype ValueCount = ValueCount(value: real, count: nat)

  function CountIn(vals: seq<real>): real -> ValueCount
  {
    (v: real) => ValueCount(v, multiset(vals)[v])
  }

  /** `value_counts()` order: most frequent first, first appearance among
      equals. */
  function MoreFrequent(a: ValueCount, b: ValueCount): bool
  {
    a.count >= b.count
  }

  function ValueCounts(vals: seq<real>): (r: seq<ValueCount>)
    ensures NoDuplicates(MapSeq(r, (c: ValueCount) => c.value))
    ensures forall c :: c in r <==> c.value in vals && c.count == multiset(vals)[c.value]
  {
    var d := Distinct(vals);
    var counts := MapSeq(d, CountIn(vals));
    var r := SortBy(counts, MoreFrequent);
    assert MapSeq(counts, (c: ValueCount) => c.value) == d;
    ValuesPermutation(counts, r);
    forall c ensures c in r <==> c.value in vals && c.count == multiset(vals)[c.value] {
      assert c in r <==> c in multiset(r);
      assert c in counts <==> c in multiset(counts);
      if c.value in vals && c.count == multiset(vals)[c.value] {
        var i :| 0 <= i < |d| && d[i] == c.value;
        assert counts[i] == c;
      }
    }
    r
  }

  /** Permuting value counts permutes their values. */
  lemma ValuesPermutation(a: seq<ValueCount>, b: seq<ValueCount>)
    requires multiset(a) == multiset(b) && NoDuplicates(MapSeq(a, (c: ValueCount) => c.value))
    ensures NoDuplicates(MapSeq(b, (c: ValueCount) => c.value))
  {
    var va, vb := MapSeq(a, (c: ValueCount) => c.value), MapSeq(b, (c: ValueCount) => c.value);
    assert NoDuplicates(a) by {
      forall i, j | 0 <= i < j < |a| ensures a[i] != a[j] { assert va[i] != va[j]; }
    }
    NoDuplicatesPermutation(a, b);
    forall i, j | 0 <= i < j < |vb| ensures vb[i] != vb[j] {
      assert b[i] in multiset(a) && b[j] in multiset(a);
      var p :| 0 <= p < |a| && a[p] == b[i];
      var q :| 0 <= q < |a| && a[q] == b[j];
      assert p != q;
      assert va[p] != va[q];
    }
  }

  predicate Frequent(c: ValueCount)
  {
    c.count >= 5 && c.value > 0.0
  }

  function RepeatAnomaly(item: string, now: Instant): ValueCount -> Anomaly
  {
    (c: ValueCount) => Anomaly(item, ValorRepetido, Some(Seconds(now)), c.value, c.count as real)
  }

  /** VALOR_REPETIDO: one anomaly per positive exit value seen at least five
      times, carrying its number of occurrences and dated now. */
  function Repeats(h: seq<Row>, item: string, now: Instant): (r: seq<Anomaly>)
    ensures forall k :: 0 <= k < |r| ==> r[k].kind == ValorRepetido && r[k].item == item
  {
    MapSeq(Filter(ValueCounts(PositiveExits(h)), Frequent), RepeatAnomaly(item, now))
  }

  /** Each positive exit value is reported exactly when it occurs at least
      five times, and with its number of occurrences. */
  lemma RepeatsExact(h: seq<Row>, item: string, now: Instant, v: real)
    ensures (exists k :: 0 <= k < |Repeats(h, item, now)| && Repeats(h, item, now)[k].value == v)
        <==> v > 0.0 && multiset(PositiveExits(h))[v] >= 5
    ensures forall k :: 0 <= k < |Repeats(h, item, now)| ==>
      Repeats(h, item, now)[k].detail == multiset(PositiveExits(h))[Repeats(h, item, now)[k].value] as real
  {
    var vals := PositiveExits(h);
    var counts := ValueCounts(vals);
    var f := Filter(counts, Frequent);
    var r := Repeats(h, item, now);
    forall k | 0 <= k < |r|
      ensures r[k].detail == multiset(vals)[r[k].value] as real
      ensures r[k].value > 0.0 && multiset(vals)[r[k].value] >= 5
    {
      FilterMembership(counts, Frequent, f[k]);
    }
    if v > 0.0 && multiset(vals)[v] >= 5 {
      var c := ValueCount(v, multiset(vals)[v]);
      assert v in multiset(vals);
      FilterMembership(counts, Frequent, c);
      var k :| 0 <= k < |f| && f[k] == c;
      assert r[k].value == v;
    }
  }

  /** The day key of a row, as a day number. */
  function DayKey(r: Row): Option<int>
  {
    match r.date
    case Some(d) => Some(DayNumber(d))
    case None => None
  }

  datatype DayCount = DayCount(day: int, count: nat)

  function CountOnDay(rows: seq<Row>): int -> DayCount
  {
    (d: int) => DayCount(d, GroupSize(rows, DayKey, d))
  }

  predicate Busy(c: DayCount)
  {
    c.count >= 3
  }

  function BusyAnomaly(item: string): DayCount -> Anomaly
  {
    (c: DayCount) => Anomaly(item, MultiplasSaidasDia, Some(c.day * SecondsPerDay), c.count as real, c.count as real)
  }

  function CountDay(c: DayCount): int
  {
    c.day
  }

  /** `groupby(data.dt.date).size()`: one count per calendar day that has a
      row, in ascending day order. */
  function DayCounts(pos: seq<Row>): (cs: seq<DayCount>)
    ensures forall i, j :: 0 <= i < j < |cs| ==> cs[i].day < cs[j].day
    ensures forall i :: 0 <= i < |cs| ==> cs[i] == CountOnDay(pos)(cs[i].day)
    ensures forall d :: GroupSize(pos, DayKey, d) > 0 ==> CountOnDay(pos)(d) in cs
  {
    var keys := GroupKeys(pos, DayKey);
    var days := SortInts(keys);
    var cs := MapSeq(days, CountOnDay(pos));
    forall d | GroupSize(pos, DayKey, d) > 0 ensures CountOnDay(pos)(d) in cs {
      DayListed(pos, days, d);
    }
    cs
  }

  lemma DayListed(pos: seq<Row>, days: seq<int>, d: int)
    requires multiset(days) == multiset(GroupKeys(pos, DayKey)) && GroupSize(pos, DayKey, d) > 0
    ensures CountOnDay(pos)(d) in MapSeq(days, CountOnDay(pos))
  {
    GroupKeyPresent(pos, DayKey, d);
    assert d in multiset(days);
    var i :| 0 <= i < |days| && days[i] == d;
    assert MapSeq(days, CountOnDay(pos))[i] == CountOnDay(pos)(d);
  }

  /** MULTIPLAS_SAIDAS_DIA: one anomaly per calendar day, in day order,
      with at least three positive exits. */
  function BusyDays(h: seq<Row>, item: string): (r: seq<Anomaly>)
    ensures forall k :: 0 <= k < |r| ==> r[k].kind == MultiplasSaidasDia && r[k].value >= 3.0 && r[k].item == item
    ensures forall k :: 0 <= k < |r| ==>
      r[k].when.Some? && r[k].value == GroupSize(Filter(h, PositiveExit), DayKey, r[k].when.value / SecondsPerDay) as real
    ensures forall k, l :: 0 <= k < l < |r| ==> r[k].when.Some? && r[l].when.Some? && r[k].when.value < r[l].when.value
    ensures forall d :: GroupSize(Filter(h, PositiveExit), DayKey, d) >= 3 ==>
      BusyAnomaly(item)(CountOnDay(Filter(h, PositiveExit))(d)) in r
  {
    var pos := Filter(h, PositiveExit);
    BusyCounted(pos, item);
    BusyRise(DayCounts(pos), item);
    forall d | GroupSize(pos, DayKey, d) >= 3
      ensures BusyAnomaly(item)(CountOnDay(pos)(d)) in BusyReport(DayCounts(pos), item)
    {
      BusyListed(pos, item, d);
    }
    BusyReport(DayCounts(pos), item)
  }

  /** The anomalies of the busy days among `cs`. */
  function BusyReport(cs: seq<DayCount>, item: string): seq<Anomaly>
  {
    MapSeq(Filter(cs, Busy), BusyAnomaly(item))
  }

  /** Each busy-day anomaly counts the positive exits of its own day. */
  lemma BusyCounted(pos: seq<Row>, item: string)
    ensures forall k :: 0 <= k < |BusyReport(DayCounts(pos), item)| ==>
      BusyReport(DayCounts(pos), item)[k].when.Some? &&
      BusyReport(DayCounts(pos), item)[k].value
        == GroupSize(pos, DayKey, BusyReport(DayCounts(pos), item)[k].when.value / SecondsPerDay) as real
  {
    var cs := DayCounts(pos);
    var f := Filter(cs, Busy);
    var r := BusyReport(cs, item);
    forall k | 0 <= k < |r|
      ensures r[k].when.Some? && r[k].value == GroupSize(pos, DayKey, r[k].when.value / SecondsPerDay) as real
    {
      FilterMembership(cs, Busy, f[k]);
      assert (f[k].day * SecondsPerDay) / SecondsPerDay == f[k].day;
    }
  }

  /** Days that rise strictly give busy-day anomalies whose dates rise
      strictly. */
  lemma BusyRise(cs: seq<DayCount>, item: string)
    requires forall i, j :: 0 <= i < j < |cs| ==> cs[i].day < cs[j].day
    ensures forall k, l :: 0 <= k < l < |BusyReport(cs, item)| ==>
      BusyReport(cs, item)[k].when.Some? && BusyReport(cs, item)[l].when.Some? &&
      BusyReport(cs, item)[k].when.value < BusyReport(cs, item)[l].when.value
  {
    var f := Filter(cs, Busy);
    var r := BusyReport(cs, item);
    FilterIncreasing(cs, Busy, CountDay);
    forall k, l | 0 <= k < l < |r| ensures r[k].when.Some? && r[l].when.Some? && r[k].when.value < r[l].when.value {
      assert CountDay(f[k]) < CountDay(f[l]);
      assert f[k].day * SecondsPerDay < f[l].day * SecondsPerDay;
    }
  }

  /** A day with at least three positive exits is reported. */
  lemma BusyListed(pos: seq<Row>, item: string, d: int)
    requires GroupSize(pos, DayKey, d) >= 3
    ensures BusyAnomaly(item)(CountOnDay(pos)(d)) in BusyReport(DayCounts(pos), item)
  {
    var cs := DayCounts(pos);
    var f := Filter(cs, Busy);
    FilterMembership(cs, Busy, CountOnDay(pos)(d));
    var k :| 0 <= k < |f| && f[k] == CountOnDay(pos)(d);
    assert BusyReport(cs, item)[k] == BusyAnomaly(item)(f[k]);
  }

  predicate NegativeBalance(r: Row)
  {
    r.balance < 0.0
  }

  function NegativeAnomaly(item: string): Row -> Anomaly
  {
    (r: Row) => Anomaly(item, SaldoNegativo, RowWhen(r), r.balance, 0.0)
  }

  /** SALDO_NEGATIVO: one anomaly per row with a negative balance, without
      deduplication. */
  function Negatives(h: seq<Row>, item: string): (r: seq<Anomaly>)
    ensures |r| == Count(h, NegativeBalance)
    ensures forall k :: 0 <= k < |r| ==> r[k].kind == SaldoNegativo && r[k].value < 0.0 && r[k].item == item
    ensures forall k :: 0 <= k < |r| ==>
      r[k].value == Filter(h, NegativeBalance)[k].balance && r[k].when == RowWhen(Filter(h, NegativeBalance)[k])
    ensures forall x :: x in h && NegativeBalance(x) ==> NegativeAnomaly(item)(x) in r
  {
    var f := Filter(h, NegativeBalance);
    forall x | x in h && NegativeBalance(x) ensures NegativeAnomaly(item)(x) in MapSeq(f, NegativeAnomaly(item)) {
      FilterMembership(h, NegativeBalance, x);
      var k :| 0 <= k < |f| && f[k] == x;
      assert MapSeq(f, NegativeAnomaly(item))[k] == NegativeAnomaly(item)(x);
    }
    MapSeq(f, NegativeAnomaly(item))
  }

  /** `detectar_padroes_suspeitos`: nothing at all for an item with fewer
      than five rows, negative balances included; otherwise the repeated
      values, then the busy days, then the negative balances. */
  function Patterns(rows: seq<Row>, item: string, now: Instant): (r: seq<Anomaly>)
    ensures Count(rows, SameItem(item)) < 5 ==> r == []
    ensures About(r, item)
  {
    var h := ItemHistory(rows, item);
    if |h| < 5 then []
    else
      var a := Repeats(h, item, now);
      var b := BusyDays(h, item);
      var c := Negatives(h, item);
      AboutAppend(a, b, item);
      AboutAppend(a + b, c, item);
      a + b + c
  }

  function IsKind(k: Kind): Anomaly -> bool
  {
    (a: Anomaly) => a.kind == k
  }

  /** From five rows on, every row of the item with a negative balance is
      reported once. */
  lemma NegativesReported(rows: seq<Row>, item: string, now: Instant)
    requires Count(rows, SameItem(item)) >= 5
    ensures Count(Patterns(rows, item, now), IsKind(SaldoNegativo))
         == Count(ItemHistory(rows, item), NegativeBalance)
  {
    var h := ItemHistory(rows, item);
    var a, b, c := Repeats(h, item, now), BusyDays(h, item), Negatives(h, item);
    FilterAppend(a + b, c, IsKind(SaldoNegativo));
    FilterAppend(a, b, IsKind(SaldoNegativo));
    FilterNone(a, IsKind(SaldoNegativo));
    FilterNone(b, IsKind(SaldoNegativo));
    AllOfKind(c, SaldoNegativo);
  }

  lemma {:induction false} AllOfKind(s: seq<Anomaly>, k: Kind)
    requires forall i :: 0 <= i < |s| ==> s[i].kind == k
    ensures Filter(s, IsKind(k)) == s
  {
    if |s| > 0 {
      AllOfKind(s[1..], k);
      assert s == [s[0]] + s[1..];
    }
  }

  /** A (year, month) bucket. */
  datatype YearMonth = YearMonth(year: int, month: int)

  function BucketKey(r: Row): Option<YearMonth>
  {
    match r.date
    case Some(d) => Some(YearMonth(d.year, d.month))
    case None => None
  }

  function InMonth(m: int): YearMonth -> bool
  {
    (b: YearMonth) => b.month == m
  }

  function BucketTotal(df: seq<Row>): YearMonth -> real
  {
    (b: YearMonth) => GroupSum(df, BucketKey, b, Exit)
  }

  /** `media_por_mes.get(m, 0)`: the mean over the buckets of month `m` of
      their totals, 0 when the month never occurs. */
  function MonthMean(df: seq<Row>, buckets: seq<YearMonth>, m: int): real
  {
    var ms := Filter(buckets, InMonth(m));
    if |ms| == 0 then 0.0 else Sum(ms, BucketTotal(df)) / |ms| as real
  }

  /** The `i`-th month back from `now`'s month, wrapping into the previous
      year. */
  function MonthBack(now: Instant, i: int): (b: YearMonth)
    requires 0 <= i < 3 && 1 <= now.date.month <= 12
    ensures 1 <= b.month <= 12
    ensures b.year == now.date.year - 1 <==> now.date.month <= i
    ensures (b.month + i - now.date.month) % 12 == 0
  {
    var m := now.date.month - i;
    if m <= 0 then YearMonth(now.date.year - 1, m + 12) else YearMonth(now.date.year, m)
  }

  /** The three months checked are three different months. */
  lemma MonthsBackDistinct(now: Instant, i: int, j: int)
    requires 0 <= i < j < 3 && 1 <= now.date.month <= 12
    ensures MonthBack(now, i) != MonthBack(now, j)
  {
  }

  /** The test of the `i`-th month back: flagged when its historical mean
      is positive and its consumption deviates from it by more than half. */
  function Break(df: seq<Row>, buckets: seq<YearMonth>, item: string, now: Instant, i: int): Option<Anomaly>
    requires 1 <= now.date.month <= 12
  {
    if 0 <= i < 3 then
      var b := MonthBack(now, i);
      var mean := MonthMean(df, buckets, b.month);
      var actual := GroupSum(df, BucketKey, b, Exit);
      if mean > 0.0 then
        var v := (actual - mean) / mean;
        if v > 0.5 || v < -0.5 then
          Some(Anomaly(item, if v > 0.0 then ConsumoAcimaSazonal else ConsumoAbaixoSazonal,
            Some(Midnight(Date(b.year, b.month, 1))), actual, v * 100.0))
        else None
      else None
    else None
  }

  /** The test of each month back, as the loop body over `range(3)`. */
  function BreakAt(df: seq<Row>, buckets: seq<YearMonth>, item: string, now: Instant): int -> Option<Anomaly>
    requires 1 <= now.date.month <= 12
  {
    i => Break(df, buckets, item, now, i)
  }

  /** A month is flagged exactly when its historical mean is positive and
      the relative deviation exceeds one half, and then with the sign of
      the deviation. */
  lemma BreakExact(df: seq<Row>, buckets: seq<YearMonth>, item: string, now: Instant, i: int)
    requires 1 <= now.date.month <= 12 && 0 <= i < 3
    ensures var b := MonthBack(now, i);
      var mean := MonthMean(df, buckets, b.month);
      var actual := GroupSum(df, BucketKey, b, Exit);
      (Break(df, buckets, item, now, i).Some?
       <==> mean > 0.0 && ((actual - mean) / mean > 0.5 || (actual - mean) / mean < -0.5))
    ensures var b := MonthBack(now, i);
      var mean := MonthMean(df, buckets, b.month);
      var actual := GroupSum(df, BucketKey, b, Exit);
      Break(df, buckets, item, now, i).Some? ==>
        (Break(df, buckets, item, now, i).value.kind == ConsumoAcimaSazonal <==> actual > mean)
  {
    var b := MonthBack(now, i);
    var mean := MonthMean(df, buckets, b.month);
    var actual := GroupSum(df, BucketKey, b, Exit);
    if mean > 0.0 {
      assert (actual - mean) / mean > 0.0 <==> actual > mean;
    }
  }

  /** `detectar_sazonalidade_quebrada`: nothing with fewer than 30 positive
      exits or fewer than six (year, month) buckets; otherwise the breaks of
      the current month and the two before it. */
  function SeasonalBreaks(rows: seq<Row>, item: string, now: Instant): (r: seq<Anomaly>)
    requires 1 <= now.date.month <= 12
    ensures Count(rows, PositiveExitOf(item)) < 30 ==> r == []
    ensures |GroupKeys(Filter(rows, PositiveExitOf(item)), BucketKey)| < 6 ==> r == []
    ensures |r| <= 3
    ensures forall k :: 0 <= k < |r| ==>
      (r[k].kind == ConsumoAcimaSazonal || r[k].kind == ConsumoAbaixoSazonal) && r[k].item == item
    ensures Count(rows, PositiveExitOf(item)) >= 30 && |GroupKeys(Filter(rows, PositiveExitOf(item)), BucketKey)| >= 6 ==>
      forall x :: x in r <==> BreakFound(Filter(rows, PositiveExitOf(item)), GroupKeys(Filter(rows, PositiveExitOf(item)), BucketKey), item, now, x)
  {
    var df := Filter(rows, PositiveExitOf(item));
    var buckets := GroupKeys(df, BucketKey);
    if |df| < 30 || |buckets| < 6 then []
    else
      BreaksListed(df, buckets, item, now);
      BreaksKinds(df, buckets, item, now);
      FilterMap([0, 1, 2], BreakAt(df, buckets, item, now))
  }

  /** One of the three months checked is flagged with `x`. */
  predicate BreakFound(df: seq<Row>, buckets: seq<YearMonth>, item: string, now: Instant, x: Anomaly)
    requires 1 <= now.date.month <= 12
  {
    exists i :: 0 <= i < 3 && Break(df, buckets, item, now, i) == Some(x)
  }

  /** The months checked yield exactly the breaks `BreakAt` finds. */
  lemma BreaksListed(df: seq<Row>, buckets: seq<YearMonth>, item: string, now: Instant)
    requires 1 <= now.date.month <= 12
    ensures forall x :: x in FilterMap([0, 1, 2], BreakAt(df, buckets, item, now)) <==> BreakFound(df, buckets, item, now, x)
  {
    forall x ensures x in FilterMap([0, 1, 2], BreakAt(df, buckets, item, now)) <==> BreakFound(df, buckets, item, now, x) {
      BreakListed(df, buckets, item, now, x);
    }
  }

  lemma BreakListed(df: seq<Row>, buckets: seq<YearMonth>, item: string, now: Instant, x: Anomaly)
    requires 1 <= now.date.month <= 12
    ensures x in FilterMap([0, 1, 2], BreakAt(df, buckets, item, now)) <==> BreakFound(df, buckets, item, now, x)
  {
    var f := BreakAt(df, buckets, item, now);
    var s := [0, 1, 2];
    FilterMapMembership(s, f, x);
    forall i | 0 <= i < 3 ensures s[i] == i && f(s[i]) == Break(df, buckets, item, now, i) {
    }
  }

  /** Every break found is of a seasonal kind and about the item. */
  lemma BreaksKinds(df: seq<Row>, buckets: seq<YearMonth>, item: string, now: Instant)
    requires 1 <= now.date.month <= 12
    ensures forall k :: 0 <= k < |FilterMap([0, 1, 2], BreakAt(df, buckets, item, now))| ==>
      FilterMap([0, 1, 2], BreakAt(df, buckets, item, now))[k].kind in {ConsumoAcimaSazonal, ConsumoAbaixoSazonal} &&
      FilterMap([0, 1, 2], BreakAt(df, buckets, item, now))[k].item == item
  {
    var r := FilterMap([0, 1, 2], BreakAt(df, buckets, item, now));
    BreaksListed(df, buckets, item, now);
    forall k | 0 <= k < |r| ensures r[k].kind in {ConsumoAcimaSazonal, ConsumoAbaixoSazonal} && r[k].item == item {
      assert r[k] in r;
      var i :| 0 <= i < 3 && Break(df, buckets, item, now, i) == Some(r[k]);
    }
  }

  /** A flagged month's anomaly, written out. */
  lemma BreakValue(df: seq<Row>, buckets: seq<YearMonth>, item: string, now: Instant, i: int)
    requires 1 <= now.date.month <= 12 && 0 <= i < 3
    ensures var b := MonthBack(now, i);
      var mean := MonthMean(df, buckets, b.month);
      var actual := GroupSum(df, BucketKey, b, Exit);
      mean > 0.0 && ((actual - mean) / mean > 0.5 || (actual - mean) / mean < -0.5) ==>
        Break(df, buckets, item, now, i) ==
          Some(Anomaly(item, if actual > mean then ConsumoAcimaSazonal else ConsumoAbaixoSazonal,
            Some(Midnight(Date(b.year, b.month, 1))), actual, (actual - mean) / mean * 100.0))
  {
    var b := MonthBack(now, i);
    var mean := MonthMean(df, buckets, b.month);
    var actual := GroupSum(df, BucketKey, b, Exit);
    if mean > 0.0 {
      assert (actual - mean) / mean > 0.0 <==> actual > mean;
    }
  }

  /** Every anomaly of `s` is about `item`. */
  predicate About(s: seq<Anomaly>, item: string)
  {
    forall k :: 0 <= k < |s| ==> s[k].item == item
  }

  lemma AboutAppend(a: seq<Anomaly>, b: seq<Anomaly>, item: string)
    requires About(a, item) && About(b, item)
    ensures About(a + b, item)
  {
  }

  /** Every anomaly of one item, in the order the four detectors run. */
  function ItemAnomalies(rows: seq<Row>, item: string, now: Instant, sqrt: real -> real): (r: seq<Anomaly>)
    requires 1 <= now.date.month <= 12
    ensures About(r, item)
  {
    var a := ExitOutliers(rows, item, sqrt);
    var b := EntryOutliers(rows, item, sqrt);
    var c := Patterns(rows, item, now);
    var d := SeasonalBreaks(rows, item, now);
    AboutAppend(a, b, item);
    AboutAppend(a + b, c, item);
    AboutAppend(a + b + c, d, item);
    a + b + c + d
  }

  /** The anomalies of `items`, one item after the other. */
  function Collect(rows: seq<Row>, items: seq<string>, now: Instant, sqrt: real -> real): (r: seq<Anomaly>)
    requires 1 <= now.date.month <= 12
    ensures forall k :: 0 <= k < |r| ==> r[k].item in items
  {
    if |items| == 0 then []
    else ItemAnomalies(rows, items[0], now, sqrt) + Collect(rows, items[1..], now, sqrt)
  }

  /** An anomaly is collected exactly when its item is one of those
      examined and it is among that item's own anomalies. */
  lemma {:induction false} CollectExactly(rows: seq<Row>, items: seq<string>, now: Instant, sqrt: real -> real, x: Anomaly)
    requires 1 <= now.date.month <= 12
    ensures x in Collect(rows, items, now, sqrt) <==> x.item in items && x in ItemAnomalies(rows, x.item, now, sqrt)
  {
    if |items| > 0 {
      CollectExactly(rows, items[1..], now, sqrt, x);
      var first := ItemAnomalies(rows, items[0], now, sqrt);
      if x in first {
        var k :| 0 <= k < |first| && first[k] == x;
        assert x.item == items[0];
      }
    }
  }

  /** The sort key `data`, with `NaT` as `datetime.min`, descending. */
  function NewerFirst(a: Anomaly, b: Anomaly): bool
  {
    match b.when
    case None => true
    case Some(y) => a.when.Some? && a.when.value >= y
  }

  lemma NewerFirstTotal()
    ensures TotalPreorder(NewerFirst)
  {
  }

  /** `analisar_todos_itens(limite)`: the anomalies of the first `limite`
      distinct items, newest first, undated ones last; anomalies with the
      same date keep their order. */
  function AnalyseAll(rows: seq<Row>, now: Instant, limite: nat, sqrt: real -> real): (r: seq<Anomaly>)
    requires 1 <= now.date.month <= 12
    ensures multiset(r) == multiset(Collect(rows, Take(SafetyStock.LedgerItems(rows), limite), now, sqrt))
    ensures forall i, j :: 0 <= i < j < |r| && r[i].when.None? ==> r[j].when.None?
    ensures forall i, j :: 0 <= i < j < |r| && r[j].when.Some? ==>
      r[i].when.Some? && r[i].when.value >= r[j].when.value
  {
    var all := Collect(rows, Take(SafetyStock.LedgerItems(rows), limite), now, sqrt);
    NewerFirstTotal();
    var r := SortBy(all, NewerFirst);
    assert forall i, j :: 0 <= i < j < |r| ==> NewerFirst(r[i], r[j]);
    r
  }
}

=== FILE: calendar.dfy ===
/** Calendar dates as `strptime` yields them and the comparisons the scripts
    make against `datetime.now() - timedelta(days=n)`. */
module Calendar {

  /** A date as parsed from the sheet (`dd/mm/yyyy` and its variants). */
  datatype Date = Date(year: int, month: int, day: int)

  /** A reading of the clock: a date plus seconds elapsed since its midnight. */
  datatype Instant = Instant(date: Date, second: int)

  const SecondsPerDay: int := 86400

  predicate ValidInstant(now: Instant)
  {
    0 <= now.second < SecondsPerDay
  }

  /** Days from 1970-01-01 to `d` in the proleptic Gregorian calendar
      (H. Hinnant's days-from-civil, with floor division). */
  function DayNumber(d: Date): int
  {
    var y := if d.month <= 2 then d.year - 1 else d.year;
    var era := y / 400;
    var yoe := y % 400;
    var mp := if d.month > 2 then d.month - 3 else d.month + 9;
    var doy := (153 * mp + 2) / 5 + d.day - 1;
    var doe := yoe * 365 + yoe / 4 - yoe / 100 + doy;
    era * 146097 + doe - 719468
  }

  /** Seconds since the epoch of the instant `now`. */
  function Seconds(now: Instant): int
  {
    DayNumber(now.date) * SecondsPerDay + now.second
  }

  /** Seconds since the epoch of midnight at the start of `d`. */
  function Midnight(d: Date): int
  {
    DayNumber(d) * SecondsPerDay
  }

  /** `d >= now - timedelta(days=n)` for a date read at midnight. */
  predicate OnOrAfterDaysAgo(d: Date, now: Instant, n: int)
  {
    Midnight(d) >= Seconds(now) - n * SecondsPerDay
  }

  /** `d < now - timedelta(days=n)`. */
  predicate BeforeDaysAgo(d: Date, now: Instant, n: int)
  {
    !OnOrAfterDaysAgo(d, now, n)
  }

  /** `t < now - timedelta(days=n)` for a reading `t` that keeps its time
      of day. */
  predicate InstantBeforeDaysAgo(t: Instant, now: Instant, n: int)
  {
    Seconds(t) < Seconds(now) - n * SecondsPerDay
  }

  /** A bare date read as midnight compares as the date does. */
  lemma MidnightBefore(d: Date, now: Instant, n: int)
    ensures InstantBeforeDaysAgo(Instant(d, 0), now, n) <==> BeforeDaysAgo(d, now, n)
  {
  }

  /** `d <= now`. */
  predicate NotAfter(d: Date, now: Instant)
  {
    Midnight(d) <= Seconds(now)
  }

  /** `(now - d).days`: whole days elapsed since midnight of `d`. */
  function ElapsedDays(d: Date, now: Instant): (r: int)
    requires ValidInstant(now)
    ensures Midnight(d) + r * SecondsPerDay <= Seconds(now) < Midnight(d) + (r + 1) * SecondsPerDay
  {
    DayNumber(now.date) - DayNumber(d)
  }

  /** The `n`-day window contains exactly the dates less than `n` days
      before today, and today's date only if `n` is positive or the clock
      reads midnight. */
  lemma WindowByDayNumber(d: Date, now: Instant, n: int)
    requires ValidInstant(now)
    ensures OnOrAfterDaysAgo(d, now, n) <==>
      (if now.second == 0 then DayNumber(d) >= DayNumber(now.date) - n
       else DayNumber(d) > DayNumber(now.date) - n)
  {
  }

  /** A wider window contains a narrower one. */
  lemma WindowsNested(d: Date, now: Instant, n: int, m: int)
    requires n <= m && OnOrAfterDaysAgo(d, now, n)
    ensures OnOrAfterDaysAgo(d, now, m)
  {
  }
}

=== FILE: chatbot.dfy ===
/** chatbot_estoque.py: the overview figures, the most critical items,
    the items a question mentions and the conversation window handed to
    the model. Its `carregar_dados` is the alert module's computation, so
    the index rows are `Alerts.Stock`. */
module Chatbot {
  import opened Seqs
  import opened Sorting
  import opened Text
  import Alerts

  function Cover(s: Alerts.Stock): real
  {
    Alerts.DiasCobertura(s)
  }

  /** `obter_estatisticas_gerais`. */
  datatype Overview = Overview(total: nat, zerados: nat, negativos: nat, criticos: nat)

  function IsZero(s: Alerts.Stock): bool
  {
    s.saldo == 0.0
  }

  function IsNegative(s: Alerts.Stock): bool
  {
    s.saldo < 0.0
  }

  function NotPositive(s: Alerts.Stock): bool
  {
    s.saldo <= 0.0
  }

  /** The source's critical mask: under 15 days and under the sentinel. */
  function CriticalMask(s: Alerts.Stock): bool
  {
    Cover(s) < 15.0 && Cover(s) < 999.0
  }

  function UnderFifteen(s: Alerts.Stock): bool
  {
    Cover(s) < 15.0
  }

  /** The overview: the sentinel conjunct of the critical count changes
      nothing, and zero and negative balances are counted apart. */
  function OverviewOf(stock: seq<Alerts.Stock>): (o: Overview)
    ensures o.total == |stock|
    ensures o.criticos == Count(stock, UnderFifteen)
    ensures o.zerados == Count(stock, IsZero) && o.negativos == Count(stock, IsNegative)
    ensures o.zerados + o.negativos == Count(stock, NotPositive)
  {
    FilterCongruent(stock, CriticalMask, UnderFifteen);
    SignCounts(stock);
    Overview(|stock|, Count(stock, IsZero), Count(stock, IsNegative), Count(stock, CriticalMask))
  }

  lemma {:induction false} SignCounts(stock: seq<Alerts.Stock>)
    ensures Count(stock, IsZero) + Count(stock, IsNegative) == Count(stock, NotPositive)
  {
    if |stock| > 0 {
      SignCounts(stock[1..]);
    }
  }

  /** The mask of `obter_itens_criticos`. */
  function UnderThirty(s: Alerts.Stock): bool
  {
    Cover(s) < 30.0 && Cover(s) < 999.0
  }

  function LessCovered(a: Alerts.Stock, b: Alerts.Stock): bool
  {
    Cover(a) <= Cover(b)
  }

  /** `obter_itens_criticos(n)`: the at most `n` items under 30 days of
      cover with the least cover, least first; no item left out has less
      cover than one kept. */
  function CriticalItems(stock: seq<Alerts.Stock>, n: nat): (r: seq<Alerts.Stock>)
    ensures |r| == if n < Count(stock, UnderThirty) then n else Count(stock, UnderThirty)
    ensures forall i :: 0 <= i < |r| ==> Cover(r[i]) < 30.0
    ensures forall i, j :: 0 <= i < j < |r| ==> Cover(r[i]) <= Cover(r[j])
    ensures forall i :: 0 <= i < |r| ==> r[i] in stock
    ensures multiset(r) <= multiset(Filter(stock, UnderThirty))
  {
    var f := Filter(stock, UnderThirty);
    assert TotalPreorder(LessCovered);
    var sorted := SortBy(f, LessCovered);
    FilterSubMultiset(stock, UnderThirty);
    forall i | 0 <= i < |sorted| ensures UnderThirty(sorted[i]) && sorted[i] in stock {
      assert sorted[i] in multiset(f);
    }
    TakeSubMultiset(sorted, n);
    Take(sorted, n)
  }

  /** An item under 30 days of cover that was cut off has at least the
      cover of every item kept. */
  lemma CriticalLeastCovered(stock: seq<Alerts.Stock>, n: nat, s: Alerts.Stock)
    requires s in stock && UnderThirty(s) && s !in CriticalItems(stock, n)
    ensures forall i :: 0 <= i < |CriticalItems(stock, n)| ==> Cover(CriticalItems(stock, n)[i]) <= Cover(s)
  {
    var f := Filter(stock, UnderThirty);
    assert TotalPreorder(LessCovered);
    var sorted := SortBy(f, LessCovered);
    var r := CriticalItems(stock, n);
    assert r == Take(sorted, n);
    FilterMembership(stock, UnderThirty, s);
    assert s in multiset(sorted);
    var k :| 0 <= k < |sorted| && sorted[k] == s;
    assert forall i :: 0 <= i < |r| ==> sorted[i] == r[i] && r[i] != s;
    assert k >= |r|;
    forall i | 0 <= i < |r| ensures Cover(r[i]) <= Cover(s) {
      assert r[i] == sorted[i];
    }
  }

  /** The index rows whose upper-cased name contains the upper-cased word
      (`buscar_item`). */
  function Found(stock: seq<Alerts.Stock>, word: string): (r: seq<Alerts.Stock>)
    ensures forall i :: 0 <= i < |r| ==> Contains(Upper(r[i].item), Upper(word))
    ensures multiset(r) <= multiset(stock)
    ensures forall s :: s in stock && Contains(Upper(s.item), Upper(word)) ==> s in r
  {
    FilterSubMultiset(stock, HasTerm(word));
    forall s | s in stock && Contains(Upper(s.item), Upper(word)) ensures s in Filter(stock, HasTerm(word)) {
      FilterMembership(stock, HasTerm(word), s);
    }
    Filter(stock, HasTerm(word))
  }

  /** The mask of `buscar_item`: the upper-cased name contains the
      upper-cased term. */
  function HasTerm(word: string): Alerts.Stock -> bool
  {
    (s: Alerts.Stock) => Contains(Upper(s.item), Upper(word))
  }

  function ItemName(s: Alerts.Stock): string
  {
    s.item
  }

  /** What one word of the question adds: the names it finds, when it is
      longer than 3 characters and finds between 1 and 5 items. */
  function WordMentions(stock: seq<Alerts.Stock>, word: string): (r: seq<string>)
    ensures |r| <= 5
    ensures |word| <= 3 ==> r == []
    ensures |Found(stock, word)| == 0 || |Found(stock, word)| > 5 ==> r == []
    ensures forall i :: 0 <= i < |r| ==> Contains(Upper(r[i]), Upper(word))
    ensures |word| > 3 && 1 <= |Found(stock, word)| <= 5 ==>
      |r| == |Found(stock, word)| &&
      forall s :: s in stock && Contains(Upper(s.item), Upper(word)) ==> s.item in r
  {
    var f := Found(stock, word);
    forall s | s in f ensures s.item in MapSeq(f, ItemName) {
      var k :| 0 <= k < |f| && f[k] == s;
      assert MapSeq(f, ItemName)[k] == s.item;
    }
    if |word| > 3 && 1 <= |f| <= 5 then MapSeq(f, ItemName) else []
  }

  /** Some word of the question longer than 3 characters occurs in the
      name, ignoring case. */
  predicate Justified(name: string, words: seq<string>)
  {
    exists k :: 0 <= k < |words| && |words[k]| > 3 && Contains(Upper(name), Upper(words[k]))
  }

  /** `itens_mencionados` over the words of the question, in order. */
  function Mentions(stock: seq<Alerts.Stock>, words: seq<string>): (r: seq<string>)
    ensures |r| <= 5 * |words|
    ensures forall i :: 0 <= i < |r| ==> Justified(r[i], words)
  {
    if |words| == 0 then []
    else
      var head := WordMentions(stock, words[0]);
      var tail := Mentions(stock, words[1..]);
      MentionsStep(words, head, tail);
      head + tail
  }

  lemma MentionsStep(words: seq<string>, head: seq<string>, tail: seq<string>)
    requires |words| > 0
    requires head != [] ==> |words[0]| > 3
    requires forall i :: 0 <= i < |head| ==> Contains(Upper(head[i]), Upper(words[0]))
    requires forall i :: 0 <= i < |tail| ==> Justified(tail[i], words[1..])
    ensures forall i :: 0 <= i < |head + tail| ==> Justified((head + tail)[i], words)
  {
    forall i | 0 <= i < |head + tail| ensures Justified((head + tail)[i], words) {
      if i < |head| {
        assert (head + tail)[i] == head[i];
        assert Contains(Upper(head[i]), Upper(words[0]));
      } else {
        var t := tail[i - |head|];
        assert (head + tail)[i] == t;
        assert Justified(t, words[1..]);
        var k :| 0 <= k < |words[1..]| && |words[1..][k]| > 3 && Contains(Upper(t), Upper(words[1..][k]));
        assert words[1..][k] == words[k + 1];
      }
    }
  }

  /** `set(itens_mencionados[:5])` for a question: the words are those of
      the upper-cased question. */
  function Mentioned(stock: seq<Alerts.Stock>, question: string): (r: set<string>)
    ensures forall m :: m in r ==> Justified(m, Words(Upper(question)))
    ensures |Mentions(stock, Words(Upper(question)))| <= 5 ==>
      forall m :: m in Mentions(stock, Words(Upper(question))) ==> m in r
  {
    var words := Words(Upper(question));
    var ms := Take(Mentions(stock, words), 5);
    set m | m in ms
  }

  /** Every name a word contributes is among the mentions of the
      question's words. */
  lemma {:induction false} MentionsComplete(stock: seq<Alerts.Stock>, words: seq<string>, k: int, name: string)
    requires 0 <= k < |words| && name in WordMentions(stock, words[k])
    ensures name in Mentions(stock, words)
  {
    MentionsUnfold(stock, words, name);
    if k > 0 {
      MentionsShift(stock, words, k, name);
      MentionsComplete(stock, words[1..], k - 1, name);
    }
  }

  lemma MentionsUnfold(stock: seq<Alerts.Stock>, words: seq<string>, name: string)
    requires |words| > 0
    ensures name in Mentions(stock, words) <==>
      name in WordMentions(stock, words[0]) || name in Mentions(stock, words[1..])
  {
    assert Mentions(stock, words) == WordMentions(stock, words[0]) + Mentions(stock, words[1..]);
  }

  lemma MentionsShift(stock: seq<Alerts.Stock>, words: seq<string>, k: int, name: string)
    requires 0 < k < |words| && name in WordMentions(stock, words[k])
    ensures name in WordMentions(stock, words[1..][k - 1])
  {
    assert words[1..][k - 1] == words[k];
  }

  /** When the question's words mention at most five names, every item a
      word longer than 3 characters finds, with between 1 and 5 matches, is
      mentioned. */
  lemma MentionedComplete(stock: seq<Alerts.Stock>, question: string, k: int, s: Alerts.Stock)
    requires 0 <= k < |Words(Upper(question))|
    requires |Words(Upper(question))[k]| > 3 && 1 <= |Found(stock, Words(Upper(question))[k])| <= 5
    requires s in stock && Contains(Upper(s.item), Upper(Words(Upper(question))[k]))
    requires |Mentions(stock, Words(Upper(question)))| <= 5
    ensures s.item in Mentioned(stock, question)
  {
    MentionsComplete(stock, Words(Upper(question)), k, s.item);
  }

  datatype Speaker = User | Assistant

  /** One entry of `contexto_conversa`. */
  datatype Message = Message(role: string, content: string)

  /** One line of the history handed to the model. */
  datatype Turn = Turn(speaker: Speaker, text: string)

  function TurnOf(m: Message): Turn
  {
    Turn(if m.role == "user" then User else Assistant, Truncate(m.content, 200))
  }

  /** The conversation window: the last 6 messages, each cut to 200
      characters, the user's own and every other role as the
      assistant's. */
  function History(messages: seq<Message>): (r: seq<Turn>)
    ensures |r| == if |messages| < 6 then |messages| else 6
    ensures forall i :: 0 <= i < |r| ==>
      var m := messages[|messages| - |r| + i];
      |r[i].text| <= 200 && |r[i].text| <= |m.content| && r[i].text == m.content[..|r[i].text|]
      && (r[i].speaker == User <==> m.role == "user")
  {
    MapSeq(Last(messages, 6), TurnOf)
  }
}

=== FILE: classifier.dfy ===
/** The item category classifier of `classificador_ia.py`: the keyword
    rules, the clean-up of a language model's one-word reply, the "would
    change group" flag and the per-category counts. The model call itself
    is a parameter. */
module Classifier {
  import opened Wrappers
  import opened Seqs
  import opened Text
  import opened Stats
  import opened Grouping
  import Config

  /** One entry of the rule table: a category and its keywords. */
  datatype Rule = Rule(category: string, keywords: seq<string>)

  /** The rule table, in the dictionary's insertion order. */
  const Rules: seq<Rule> := [
    Rule("TECIDO", ["TECIDO", "MALHA", "JEANS", "SARJA", "TRICOLINE", "VISCOSE", "ALGODAO", "POLIESTER", "LINHO"]),
    Rule("LINHA", ["LINHA", "FIO", "COSTURA"]),
    Rule("BOTAO", ["BOTAO", "BOTÕES", "BOTOES"]),
    Rule("ZIPER", ["ZIPER", "ZIPPER", "ZÍPER"]),
    Rule("ELASTICO", ["ELASTICO", "ELÁSTICO", "LASTEX"]),
    Rule("FITA", ["FITA", "VIÉS", "VIES", "CADARÇO", "CADARCO"]),
    Rule("ETIQUETA", ["ETIQUETA", "TAG", "LABEL"]),
    Rule("ENTRETELA", ["ENTRETELA", "INTERLINING"]),
    Rule("QUIMICO", ["CORANTE", "TINTA", "SOLVENTE", "AMACIANTE", "BRANQUEADOR", "QUIMICO"]),
    Rule("EMBALAGEM", ["SACO", "CAIXA", "SACOLA", "EMBALAGEM", "PLASTICO", "PAPEL"]),
    Rule("AVIAMENTO", ["REBITE", "ILHOS", "COLCHETE", "VELCRO", "FIVELA", "REGULADOR"]),
    Rule("AGULHA", ["AGULHA", "ALFINETE"]),
    Rule("FORRO", ["FORRO", "ENTREFORRO"])]

  const Outros: string := "OUTROS"

  /** Some keyword of the rule occurs in the (upper-cased) name. */
  predicate Fires(name: string, rule: Rule)
  {
    exists k :: 0 <= k < |rule.keywords| && Contains(name, rule.keywords[k])
  }

  function FiresOn(name: string): Rule -> bool
  {
    rule => Fires(name, rule)
  }

  /** Every rule category is a listed category other than `OUTROS` and
      `PAPEL`. */
  lemma RuleCategories()
    ensures forall i :: 0 <= i < |Rules| ==> Rules[i].category in Config.Categories
    ensures forall i :: 0 <= i < |Rules| ==> Rules[i].category != Outros && Rules[i].category != "PAPEL"
  {
  }

  /** `classificar_por_regras`: the category of the first rule, in table
      order, one of whose keywords occurs in the upper-cased name;
      `OUTROS` when none does. */
  function ByRules(name: string): (r: string)
    ensures r in Config.Categories && r != "PAPEL"
    ensures r == Outros <==> forall i :: 0 <= i < |Rules| ==> !Fires(Upper(name), Rules[i])
    ensures r != Outros ==>
      exists i :: 0 <= i < |Rules| && r == Rules[i].category && Fires(Upper(name), Rules[i]) &&
        forall j :: 0 <= j < i ==> !Fires(Upper(name), Rules[j])
  {
    RuleCategories();
    match FindFirst(Rules, FiresOn(Upper(name)))
    case Some(i) => Rules[i].category
    case None => Outros
  }

  /** The rules ignore case: a name, its lower-case and its upper-case
      spelling get the same category. */
  lemma ByRulesIgnoresCase(name: string)
    ensures ByRules(Lower(name)) == ByRules(name)
    ensures ByRules(Upper(name)) == ByRules(name)
  {
    UpperOfLower(name);
    UpperIdempotent(name);
  }

  /** Upper-case letters only. */
  predicate Capitals(s: string)
  {
    forall i :: 0 <= i < |s| ==> 'A' <= s[i] <= 'Z'
  }

  lemma {:induction false} UpperCapitals(s: string)
    requires Capitals(s)
    ensures Upper(s) == s
  {
    if |s| > 0 {
      UpperCapitals(s[1..]);
    }
  }

  /** A string contains only strings made of its own characters. */
  lemma {:induction false} ContainsChars(s: string, needle: string, k: nat)
    requires Contains(s, needle) && k < |needle|
    ensures needle[k] in s
  {
    if StartsWith(s, needle) {
      assert needle[k] == s[k];
    } else {
      ContainsChars(s[1..], needle, k);
    }
  }

  /** A keyword with a character the name lacks does not occur in it. */
  lemma Lacks(s: string, needle: string, k: nat)
    requires k < |needle| && needle[k] !in s
    ensures !Contains(s, needle)
  {
    if Contains(s, needle) {
      ContainsChars(s, needle, k);
    }
  }

  /** A rule none of whose keywords occurs in `s`: keyword `k` has the
      character at position `at[k]` missing from `s`. */
  lemma Misses(s: string, rule: Rule, at: seq<nat>)
    requires |at| == |rule.keywords|
    requires forall k :: 0 <= k < |at| ==> at[k] < |rule.keywords[k]| && rule.keywords[k][at[k]] !in s
    ensures !Fires(s, rule)
  {
    forall k | 0 <= k < |at| ensures !Contains(s, rule.keywords[k]) {
      Lacks(s, rule.keywords[k], at[k]);
    }
  }

  /** A letter of "PAPEL". */
  predicate PapelLetter(c: char)
  {
    c == 'P' || c == 'A' || c == 'E' || c == 'L'
  }

  lemma PapelLetters()
    ensures forall i :: 0 <= i < |"PAPEL"| ==> PapelLetter("PAPEL"[i])
  {
  }

  /** A keyword list none of which occurs in "PAPEL": keyword `k` has a
      letter outside "PAPEL" at position `at[k]`. */
  lemma PapelMisses(keywords: seq<string>, at: seq<nat>)
    requires |at| == |keywords|
    requires forall k :: 0 <= k < |at| ==> at[k] < |keywords[k]| && !PapelLetter(keywords[k][at[k]])
    ensures forall k :: 0 <= k < |keywords| ==> !Contains("PAPEL", keywords[k])
  {
    PapelLetters();
    forall k | 0 <= k < |at| ensures !Contains("PAPEL", keywords[k]) {
      Lacks("PAPEL", keywords[k], at[k]);
    }
  }

  lemma PapelMissesFirst()
    ensures forall j :: 0 <= j < 3 ==> !Fires("PAPEL", Rules[j])
  {
    PapelMisses(Rules[0].keywords, [0, 0, 0, 0, 0, 0, 2, 1, 1]);
    PapelMisses(Rules[1].keywords, [1, 0, 0]);
    PapelMisses(Rules[2].keywords, [0, 0, 0]);
  }

  lemma PapelMissesMiddle()
    ensures forall j :: 3 <= j < 6 ==> !Fires("PAPEL", Rules[j])
  {
    PapelMisses(Rules[3].keywords, [0, 0, 0]);
    PapelMisses(Rules[4].keywords, [3, 3, 2]);
    PapelMisses(Rules[5].keywords, [0, 0, 0, 0, 0]);
  }

  lemma PapelMissesLast()
    ensures forall j :: 6 <= j < 9 ==> !Fires("PAPEL", Rules[j])
  {
    PapelMisses(Rules[6].keywords, [1, 0, 2]);
    PapelMisses(Rules[7].keywords, [1, 0]);
    PapelMisses(Rules[8].keywords, [0, 0, 0, 1, 0, 0]);
  }

  /** No keyword of a rule before `EMBALAGEM` occurs in "PAPEL". */
  lemma PapelMissesEarlyRules()
    ensures forall j :: 0 <= j < 9 ==> !Fires("PAPEL", Rules[j])
  {
    PapelMissesFirst();
    PapelMissesMiddle();
    PapelMissesLast();
  }

  /** `PAPEL` is a listed category the rules never produce: its own
      keyword sits in the `EMBALAGEM` rule. */
  lemma PapelIsPackaging()
    ensures ByRules("PAPEL") == "EMBALAGEM"
  {
    assert Capitals("PAPEL");
    UpperCapitals("PAPEL");
    PapelMissesEarlyRules();
    ContainsSelf("PAPEL");
    assert Rules[9].keywords[5] == "PAPEL";
    assert Fires("PAPEL", Rules[9]);
    FindFirstAt(Rules, FiresOn("PAPEL"), 9);
  }

  /** The reply and a category overlap: one is a substring of the other. */
  predicate Near(reply: string, cat: string)
  {
    Contains(reply, cat) || Contains(cat, reply)
  }

  function NearTo(reply: string): string -> bool
  {
    cat => Near(reply, cat)
  }

  /** The reply as compared: stripped and upper-cased. */
  function Cleaned(reply: string): string
  {
    Upper(Strip(reply))
  }

  /** The reply post-processing of `classificar_com_ia`: an exact category
      is kept; otherwise the first listed category that overlaps the reply;
      otherwise `OUTROS`. */
  function ValidateReply(reply: string): (r: string)
    ensures r in Config.Categories
    ensures Cleaned(reply) in Config.Categories ==> r == Cleaned(reply)
    ensures Cleaned(reply) !in Config.Categories && r != Outros ==>
      exists i :: 0 <= i < |Config.Categories| && r == Config.Categories[i] &&
        Near(Cleaned(reply), r) &&
        forall j :: 0 <= j < i ==> !Near(Cleaned(reply), Config.Categories[j])
    ensures (forall i :: 0 <= i < |Config.Categories| ==> !Near(Cleaned(reply), Config.Categories[i])) ==>
      r == Outros
  {
    var c := Cleaned(reply);
    if c in Config.Categories then c
    else
      match FindFirst(Config.Categories, NearTo(c))
      case Some(i) => Config.Categories[i]
      case None => Outros
  }

  /** Every listed category is non-empty, upper-case and unpadded. */
  lemma CategoriesClean()
    ensures forall i :: 0 <= i < |Config.Categories| ==>
      |Config.Categories[i]| > 0 && Capitals(Config.Categories[i])
  {
  }

  /** A category comes back unchanged when fed in again as a reply. */
  lemma ValidateReplyIdempotent(reply: string)
    ensures ValidateReply(ValidateReply(reply)) == ValidateReply(reply)
  {
    var r := ValidateReply(reply);
    CategoryClean(r);
  }

  lemma CategoryClean(c: string)
    requires c in Config.Categories
    ensures Cleaned(c) == c
  {
    CategoriesClean();
    assert |c| > 0 && Capitals(c);
    UpperCapitals(c);
    StripTrimmed(c);
  }

  /** An empty or blank reply overlaps every category (the empty string is
      in every string), so it becomes the first one, `TECIDO`. */
  lemma BlankReplyIsTecido(reply: string)
    requires Strip(reply) == ""
    ensures ValidateReply(reply) == "TECIDO"
  {
    CategoriesClean();
    assert Cleaned(reply) == "";
    assert "" !in Config.Categories;
    ContainsSelf("TECIDO");
    assert Near("", Config.Categories[0]);
  }

  /** An index sheet row: the item name and its current group (`''` when
      the column is missing). */
  datatype Source = Source(item: string, group: string)

  /** One entry of `classificacoes`. */
  datatype Classification = Classification(
    item: string,
    suggested: string,
    group: string,
    changed: bool)

  /** The `mudou` flag: an item without a group always changes; otherwise
      it changes unless the suggestion equals the upper-cased group. */
  function Changed(suggested: string, group: string): (r: bool)
    ensures !r ==> group != "" && Upper(group) == suggested
    ensures group != "" && Upper(group) == suggested ==> !r
  {
    if group == "" then true else suggested != Upper(group)
  }

  /** The flag does not depend on the case the group is written in. */
  lemma ChangedIgnoresCase(suggested: string, group: string)
    ensures Changed(suggested, Lower(group)) == Changed(suggested, group)
  {
    UpperOfLower(group);
  }

  function ItemOf(s: Source): string
  {
    s.item
  }

  function Named(item: string): Source -> bool
  {
    (s: Source) => s.item == item
  }

  function Classify(s: Source, suggest: string -> string): Classification
  {
    Classification(s.item, suggest(s.item), s.group, Changed(suggest(s.item), s.group))
  }

  /** `classificar_todos` from an empty dictionary: one entry per distinct
      item, in order of first appearance, built from that item's last row
      (a later row overwrites the value but keeps the key's place).
      `suggest` is the rule classifier or the model call. */
  function ClassifyAll(rows: seq<Source>, suggest: string -> string): (r: seq<Classification>)
    ensures |r| == |Distinct(MapSeq(rows, ItemOf))|
    ensures NoDuplicates(MapSeq(r, NameOf))
    ensures forall i :: 0 <= i < |r| ==> FromLastRow(rows, suggest, r[i])
    ensures forall j :: 0 <= j < |rows| ==> rows[j].item in MapSeq(r, NameOf)
  {
    var keys := Distinct(MapSeq(rows, ItemOf));
    var r := LastRows(rows, keys, suggest);
    NamesAreKeys(r, keys);
    r
  }

  lemma NamesAreKeys(r: seq<Classification>, keys: seq<string>)
    requires |r| == |keys| && forall i :: 0 <= i < |r| ==> r[i].item == keys[i]
    ensures MapSeq(r, NameOf) == keys
  {
  }

  /** `c` classifies the last row of its item. */
  predicate FromLastRow(rows: seq<Source>, suggest: string -> string, c: Classification)
  {
    exists j :: 0 <= j < |rows| && Classify(rows[j], suggest) == c &&
      forall k :: j < k < |rows| ==> rows[k].item != c.item
  }

  /** For each key, the classification of its last row. */
  function LastRows(rows: seq<Source>, keys: seq<string>, suggest: string -> string): (r: seq<Classification>)
    requires forall i :: 0 <= i < |keys| ==> keys[i] in MapSeq(rows, ItemOf)
    ensures |r| == |keys|
    ensures forall i :: 0 <= i < |r| ==> r[i].item == keys[i]
    ensures forall i :: 0 <= i < |r| ==> FromLastRow(rows, suggest, r[i])
  {
    if |keys| == 0 then []
    else
      var j := LastOf(rows, keys[0]);
      [Classify(rows[j], suggest)] + LastRows(rows, keys[1..], suggest)
  }

  function NameOf(c: Classification): string
  {
    c.item
  }

  /** The last row of an item that occurs. */
  function LastOf(rows: seq<Source>, item: string): (j: nat)
    requires item in MapSeq(rows, ItemOf)
    ensures j < |rows| && rows[j].item == item
    ensures forall k :: j < k < |rows| ==> rows[k].item != item
  {
    var i :| 0 <= i < |rows| && MapSeq(rows, ItemOf)[i] == item;
    assert Named(item)(rows[i]);
    FindLast(rows, Named(item)).value
  }

  /** The grouping key of `contagem`: the suggested category. */
  function SuggestedKey(c: Classification): Option<string>
  {
    Some(c.suggested)
  }

  function One(c: Classification): real
  {
    1.0
  }

  function IsChanged(c: Classification): bool
  {
    c.changed
  }

  /** The result of `analisar_classificacoes`. */
  datatype Analysis = Analysis(
    categories: seq<string>,
    counts: seq<real>,
    total: nat,
    changes: seq<Classification>)

  /** `analisar_classificacoes`: one count per suggested category, the
      number of entries, and the entries whose flag is set. */
  function Analyse(cs: seq<Classification>): (r: Analysis)
    ensures |r.counts| == |r.categories| && NoDuplicates(r.categories)
    ensures forall i :: 0 <= i < |cs| ==> cs[i].suggested in r.categories
    ensures forall i :: 0 <= i < |r.counts| ==>
      r.counts[i] == Count(cs, InGroup(SuggestedKey, r.categories[i])) as real
    ensures r.total == |cs|
    ensures forall i :: 0 <= i < |r.changes| ==> r.changes[i].changed
    ensures |r.changes| + Count(cs, c => !IsChanged(c)) == |cs|
    ensures forall k :: k in r.categories ==> exists i :: 0 <= i < |cs| && cs[i].suggested == k
    ensures multiset(r.changes) <= multiset(cs)
    ensures forall c :: c in cs && c.changed ==> c in r.changes
  {
    var cats := GroupKeys(cs, SuggestedKey);
    forall k | k in cats ensures exists i :: 0 <= i < |cs| && cs[i].suggested == k {
      GroupKeyFrom(cs, SuggestedKey, k);
      var j :| 0 <= j < |cs| && SuggestedKey(cs[j]) == Some(k);
    }
    FilterSubMultiset(cs, IsChanged);
    forall c | c in cs && c.changed ensures c in Filter(cs, IsChanged) {
      FilterMembership(cs, IsChanged, c);
    }
    var counts := GroupSums(cats, cs, SuggestedKey, One);
    GroupCounts(cats, cs);
    CountSplit(cs, IsChanged, c => !IsChanged(c));
    Analysis(cats, counts, |cs|, Filter(cs, IsChanged))
  }

  /** Summing ones over a group counts its members. */
  lemma GroupCounts(cats: seq<string>, cs: seq<Classification>)
    ensures forall i :: 0 <= i < |cats| ==>
      GroupSums(cats, cs, SuggestedKey, One)[i] == Count(cs, InGroup(SuggestedKey, cats[i])) as real
  {
    forall i | 0 <= i < |cats|
      ensures GroupSums(cats, cs, SuggestedKey, One)[i] == Count(cs, InGroup(SuggestedKey, cats[i])) as real
    {
      SumOnes(Filter(cs, InGroup(SuggestedKey, cats[i])));
    }
  }

  lemma {:induction false} SumOnes(s: seq<Classification>)
    ensures Sum(s, One) == |s| as real
  {
    if |s| > 0 {
      SumOnes(s[1..]);
    }
  }

  lemma {:induction false} FilterAll(s: seq<Classification>, p: Classification -> bool)
    requires forall i :: 0 <= i < |s| ==> p(s[i])
    ensures Filter(s, p) == s
  {
    if |s| > 0 {
      FilterAll(s[1..], p);
    }
  }

  /** The per-category counts add up to the number of classified items. */
  lemma CountsAddUp(cs: seq<Classification>)
    ensures Total(Analyse(cs).counts) == Analyse(cs).total as real
  {
    var a := Analyse(cs);
    GroupByTotal(cs, SuggestedKey, One);
    FilterAll(cs, Keyed(SuggestedKey));
    SumOnes(cs);
  }
}

=== FILE: config.dfy ===
/** The shared parameters of config.py: analysis thresholds, forecast
    horizons, purchase margin, the alert-level table and the item
    categories. */
module Config {

  /** LIMITE_ESTOQUE_BAIXO: balances under this are "low". */
  const LowStockLimit: real := 21.0
  /** DIAS_SEM_MOVIMENTO, DIAS_ATENCAO, DIAS_OBSOLETO: idle-day tiers. */
  const IdleDays: int := 30
  const AttentionDays: int := 60
  const ObsoleteDays: int := 90
  /** MESES_ANALISE_CONSUMO: months in the consumption window. */
  const ConsumptionMonths: nat := 3
  /** DIAS_PREVISAO: forecast horizons in days. */
  const ForecastHorizons: seq<nat> := [15, 30, 60, 90]
  /** COBERTURA_MINIMA_DIAS and COBERTURA_IDEAL_DIAS. */
  const MinimumCoverage: real := 15.0
  const IdealCoverage: real := 30.0
  /** MARGEM_SEGURANCA: 20% on top of the target consumption. */
  const SafetyMargin: real := 1.2

  /** The keys of NIVEIS_ALERTA. */
  datatype AlertLevel = Critico | Urgente | Atencao | Normal

  /** NIVEIS_ALERTA[level]['prioridade']. */
  function Priority(l: AlertLevel): int
  {
    match l
    case Critico => 1
    case Urgente => 2
    case Atencao => 3
    case Normal => 4
  }

  /** NIVEIS_ALERTA[level]['dias_cobertura']. */
  function LevelDays(l: AlertLevel): int
  {
    match l
    case Critico => 7
    case Urgente => 15
    case Atencao => 30
    case Normal => 999
  }

  /** The table's priorities and day thresholds run in the same order, and
      each level has its own priority. */
  lemma LevelTableOrdered(a: AlertLevel, b: AlertLevel)
    ensures Priority(a) < Priority(b) <==> LevelDays(a) < LevelDays(b)
    ensures Priority(a) == Priority(b) <==> a == b
    ensures 1 <= Priority(a) <= 4
  {
  }

  /** CATEGORIAS_ITEM. */
  const Categories: seq<string> := [
    "TECIDO", "LINHA", "AVIAMENTO", "QUIMICO", "EMBALAGEM",
    "ETIQUETA", "BOTAO", "ZIPER", "ELASTICO", "FITA",
    "ENTRETELA", "PAPEL", "AGULHA", "FORRO", "OUTROS"]
}

=== FILE: consultation.dfy ===
/** `realizar_consulta` of consulta_estoque.py: the index rows whose name
    contains the typed text, each checked against the Saldo cell of the
    ledger row the index points at. */
module Consultation {
  import opened Wrappers
  import opened Seqs
  import opened Text
  import opened LocaleNumbers
  import opened Sheets
  import Recalibration

  /** `abs(saldo_index - saldo_estoque_real) < 0.001`. */
  predicate InSync(indexSaldo: real, ledgerSaldo: real)
  {
    -0.001 < indexSaldo - ledgerSaldo < 0.001
  }

  /** One consulted item: both balances and the verdict. */
  datatype Check = Check(item: string, indexSaldo: real, ledgerSaldo: real, synced: bool)

  /** The search text: `input().strip().upper()`. */
  function Query(typed: string): string
  {
    Upper(Strip(typed))
  }

  /** `df_indice['Item'].str.upper().str.contains(q)`, read as a plain
      substring test. */
  function Matches(q: string): IndexLine -> bool
  {
    (e: IndexLine) => Contains(Upper(e.item), q)
  }

  /** Both balances of an index row whose Linha ESTOQUE reads as `line`,
      each read with the file's parser. */
  function CheckAt(ledger: seq<LedgerLine>, e: IndexLine, line: int): Check
  {
    var a := ParseConditional(Textual(e.saldo));
    var b := ParseConditional(SaldoCell(ledger, line));
    Check(e.item, a, b, InSync(a, b))
  }

  /** `int(row['Linha ESTOQUE'])` raises for this row. */
  predicate BadLine(e: IndexLine)
  {
    PyInt(e.line).None?
  }

  /** What a consultation that found rows prints: the checks made before
      any failure, and whether a row whose Linha ESTOQUE is not an integer
      stopped the loop (the script prints the error and returns). */
  datatype Outcome = Outcome(checks: seq<Check>, aborted: bool)

  /** The loop over the found rows: each row checked in turn until the
      first one whose Linha ESTOQUE `int` refuses. */
  function CheckAll(ledger: seq<LedgerLine>, found: seq<IndexLine>): (o: Outcome)
    ensures |o.checks| <= |found|
    ensures o.aborted <==> exists i :: 0 <= i < |found| && BadLine(found[i])
    ensures !o.aborted ==> |o.checks| == |found|
    ensures o.aborted ==> |o.checks| < |found| && BadLine(found[|o.checks|])
    ensures forall i :: 0 <= i < |o.checks| ==>
      PyInt(found[i].line).Some? && o.checks[i] == CheckAt(ledger, found[i], PyInt(found[i].line).value)
  {
    var first := FindFirst(found, BadLine);
    var stop := if first.Some? then first.value else |found|;
    Outcome(seq(stop, i requires 0 <= i < stop => CheckAt(ledger, found[i], PyInt(found[i].line).value)), first.Some?)
  }

  /** The consultation: `None` when no index row matches ("nenhum item
      encontrado"); otherwise the matching rows, in index order, checked
      until the first whose Linha ESTOQUE is not an integer. */
  function Consult(index: seq<IndexLine>, ledger: seq<LedgerLine>, typed: string): (r: Option<Outcome>)
    ensures r.None? <==> forall i :: 0 <= i < |index| ==> !Contains(Upper(index[i].item), Query(typed))
    ensures r.Some? ==> |r.value.checks| <= Count(index, Matches(Query(typed)))
    ensures r.Some? ==> (r.value.aborted <==> exists e :: e in index && Contains(Upper(e.item), Query(typed)) && BadLine(e))
    ensures r.Some? && !r.value.aborted ==> |r.value.checks| == Count(index, Matches(Query(typed)))
    ensures r.Some? && r.value.aborted ==>
      |r.value.checks| < |Filter(index, Matches(Query(typed)))| && BadLine(Filter(index, Matches(Query(typed)))[|r.value.checks|])
    ensures r.Some? ==> forall i :: 0 <= i < |r.value.checks| ==> Contains(Upper(r.value.checks[i].item), Query(typed))
    ensures r.Some? ==> forall i :: 0 <= i < |r.value.checks| ==>
      (r.value.checks[i].synced <==> InSync(r.value.checks[i].indexSaldo, r.value.checks[i].ledgerSaldo))
    ensures r.Some? ==> forall i :: 0 <= i < |r.value.checks| ==>
      var e := Filter(index, Matches(Query(typed)))[i];
      PyInt(e.line).Some? && r.value.checks[i] == CheckAt(ledger, e, PyInt(e.line).value) &&
      r.value.checks[i].item == e.item &&
      r.value.checks[i].indexSaldo == ParseConditional(Textual(e.saldo)) &&
      r.value.checks[i].ledgerSaldo == ParseConditional(SaldoCell(ledger, PyInt(e.line).value))
    ensures r.Some? && !r.value.aborted ==> forall e :: e in index && Contains(Upper(e.item), Query(typed)) ==>
      PyInt(e.line).Some? && CheckAt(ledger, e, PyInt(e.line).value) in r.value.checks
  {
    var q := Query(typed);
    var found := Filter(index, Matches(q));
    FilterEmpty(index, Matches(q));
    if |found| == 0 then None
    else
      var o := CheckAll(ledger, found);
      ConsultFacts(index, ledger, q, o);
      Some(o)
  }

  /** What the loop over the rows matching `q` reports, stated against the
      index. */
  lemma ConsultFacts(index: seq<IndexLine>, ledger: seq<LedgerLine>, q: string, o: Outcome)
    requires o == CheckAll(ledger, Filter(index, Matches(q)))
    ensures |o.checks| <= Count(index, Matches(q))
    ensures o.aborted <==> exists e :: e in index && Contains(Upper(e.item), q) && BadLine(e)
    ensures !o.aborted ==> |o.checks| == Count(index, Matches(q))
    ensures o.aborted ==>
      |o.checks| < |Filter(index, Matches(q))| && BadLine(Filter(index, Matches(q))[|o.checks|])
    ensures forall i :: 0 <= i < |o.checks| ==> Contains(Upper(o.checks[i].item), q)
    ensures forall i :: 0 <= i < |o.checks| ==>
      (o.checks[i].synced <==> InSync(o.checks[i].indexSaldo, o.checks[i].ledgerSaldo))
    ensures forall i :: 0 <= i < |o.checks| ==>
      var e := Filter(index, Matches(q))[i];
      PyInt(e.line).Some? && o.checks[i] == CheckAt(ledger, e, PyInt(e.line).value) &&
      o.checks[i].item == e.item &&
      o.checks[i].indexSaldo == ParseConditional(Textual(e.saldo)) &&
      o.checks[i].ledgerSaldo == ParseConditional(SaldoCell(ledger, PyInt(e.line).value))
    ensures !o.aborted ==> forall e :: e in index && Contains(Upper(e.item), q) ==>
      PyInt(e.line).Some? && CheckAt(ledger, e, PyInt(e.line).value) in o.checks
  {
    FoundBad(index, q);
    FoundChecked(index, ledger, q, o);
  }

  /** A matching row has a bad line exactly when some found row does. */
  lemma FoundBad(index: seq<IndexLine>, q: string)
    ensures (exists i :: 0 <= i < |Filter(index, Matches(q))| && BadLine(Filter(index, Matches(q))[i]))
        <==> exists e :: e in index && Contains(Upper(e.item), q) && BadLine(e)
  {
    var found := Filter(index, Matches(q));
    if exists e :: e in index && Contains(Upper(e.item), q) && BadLine(e) {
      var e :| e in index && Contains(Upper(e.item), q) && BadLine(e);
      FilterMembership(index, Matches(q), e);
      var i :| 0 <= i < |found| && found[i] == e;
    }
    if exists i :: 0 <= i < |found| && BadLine(found[i]) {
      var i :| 0 <= i < |found| && BadLine(found[i]);
      FilterMembership(index, Matches(q), found[i]);
    }
  }

  /** Without a bad line, every matching row's check is among the checks. */
  lemma FoundChecked(index: seq<IndexLine>, ledger: seq<LedgerLine>, q: string, o: Outcome)
    requires o == CheckAll(ledger, Filter(index, Matches(q)))
    ensures !o.aborted ==> forall e :: e in index && Contains(Upper(e.item), q) ==>
      PyInt(e.line).Some? && CheckAt(ledger, e, PyInt(e.line).value) in o.checks
  {
    var found := Filter(index, Matches(q));
    if !o.aborted {
      forall e | e in index && Contains(Upper(e.item), q)
        ensures PyInt(e.line).Some? && CheckAt(ledger, e, PyInt(e.line).value) in o.checks
      {
        FilterMembership(index, Matches(q), e);
        var k :| 0 <= k < |found| && found[k] == e;
        assert o.checks[k] == CheckAt(ledger, e, PyInt(e.line).value);
      }
    }
  }

  /** An index row holding the very text of the Saldo cell it points at is
      in sync. */
  lemma SameTextInSync(ledger: seq<LedgerLine>, e: IndexLine, line: int)
    requires 2 <= line < |ledger| + 2 && ledger[line - 2].saldo == e.saldo
    ensures CheckAt(ledger, e, line).synced
  {
  }

  /** Right after `reconstruir_indice`, a consultation runs to the end and
      finds every item in sync. */
  lemma RecalibratedInSync(ledger: seq<LedgerLine>, now: string, typed: string)
    ensures var r := Consult(Recalibration.Recalibrate(ledger, now), ledger, typed);
      r.Some? ==> !r.value.aborted && forall i :: 0 <= i < |r.value.checks| ==> r.value.checks[i].synced
  {
    CarriedInSync(Recalibration.Recalibrate(ledger, now), ledger, now, typed);
  }

  /** An index whose every row carries its item's last ledger row consults
      to the end, all in sync. */
  lemma CarriedInSync(index: seq<IndexLine>, ledger: seq<LedgerLine>, now: string, typed: string)
    requires forall i :: 0 <= i < |index| ==> Recalibration.Carries(ledger, now, index[i])
    ensures var r := Consult(index, ledger, typed);
      r.Some? ==> !r.value.aborted && forall i :: 0 <= i < |r.value.checks| ==> r.value.checks[i].synced
  {
    var q := Query(typed);
    forall e | e in index ensures !BadLine(e) && CheckAt(ledger, e, PyInt(e.line).value).synced {
      var k :| 0 <= k < |index| && index[k] == e;
      CarriedRowInSync(ledger, now, e);
    }
    var found := Filter(index, Matches(q));
    forall i | 0 <= i < |found| ensures found[i] in index {
      FilterMembership(index, Matches(q), found[i]);
    }
  }

  /** A row that carries its item's last ledger row has a good line and is
      in sync. */
  lemma CarriedRowInSync(ledger: seq<LedgerLine>, now: string, e: IndexLine)
    requires Recalibration.Carries(ledger, now, e)
    ensures !BadLine(e) && CheckAt(ledger, e, PyInt(e.line).value).synced
  {
    SameTextInSync(ledger, e, PyInt(e.line).value);
  }
}

=== FILE: dashboard.dfy ===
/** dashboard_ia.py: the coverage histogram, the purchase list, the
    status partition and the ABC report of the Streamlit dashboard. Its
    `calcular_metricas` is the same computation as the alert module's
    `carregar_dados` (config.py's parser, exits dated inside the last 30
    days, unrounded coverage), so the index rows are `Alerts.Stock`. */
module Dashboard {
  import opened Wrappers
  import opened Seqs
  import opened Sorting
  import opened Stats
  import Alerts
  import WebApp
  import Abc

  /** The five labels of `pd.cut(..., bins=[0, 7, 15, 30, 60, 100])`. */
  datatype Bin = UpTo7 | UpTo15 | UpTo30 | UpTo60 | UpTo100

  /** The bin of a coverage clipped at 100; intervals are closed on the
      right and open on the left, so a coverage of 0 or less falls in
      none. */
  function BinOf(dias: real): (b: Option<Bin>)
    ensures b.None? <==> dias <= 0.0
    ensures b == Some(UpTo7) <==> 0.0 < dias <= 7.0
    ensures b == Some(UpTo15) <==> 7.0 < dias <= 15.0
    ensures b == Some(UpTo30) <==> 15.0 < dias <= 30.0
    ensures b == Some(UpTo60) <==> 30.0 < dias <= 60.0
    ensures b == Some(UpTo100) <==> dias > 60.0
  {
    var c := if dias > 100.0 then 100.0 else dias;
    if c <= 0.0 then None
    else if c <= 7.0 then Some(UpTo7)
    else if c <= 15.0 then Some(UpTo15)
    else if c <= 30.0 then Some(UpTo30)
    else if c <= 60.0 then Some(UpTo60)
    else Some(UpTo100)
  }

  /** The sentinel coverage of an item without consumption lands in the
      last bin. */
  lemma SentinelInLastBin()
    ensures BinOf(999.0) == Some(UpTo100)
  {
  }

  function InBin(b: Bin): Alerts.Stock -> bool
  {
    (s: Alerts.Stock) => BinOf(Alerts.DiasCobertura(s)) == Some(b)
  }

  function PositiveCover(s: Alerts.Stock): bool
  {
    Alerts.DiasCobertura(s) > 0.0
  }

  /** `value_counts()` of the bins: together they count exactly the items
      with positive coverage. */
  lemma {:induction false} BinCounts(stock: seq<Alerts.Stock>)
    ensures Count(stock, InBin(UpTo7)) + Count(stock, InBin(UpTo15)) + Count(stock, InBin(UpTo30))
      + Count(stock, InBin(UpTo60)) + Count(stock, InBin(UpTo100)) == Count(stock, PositiveCover)
  {
    if |stock| > 0 {
      BinCounts(stock[1..]);
    }
  }

  /** The four slices of the "Visão Geral" pie chart. */
  datatype Status = Normal | Atencao | Urgente | Critico

  /** The slice of a coverage: the four filters of the report are
      complementary, so every coverage, the sentinel included, has one. */
  function StatusOf(dias: real): (s: Status)
    ensures s == Normal <==> dias >= 30.0
    ensures s == Atencao <==> 15.0 <= dias < 30.0
    ensures s == Urgente <==> 7.0 <= dias < 15.0
    ensures s == Critico <==> dias < 7.0
  {
    if dias >= 30.0 then Normal
    else if dias >= 15.0 then Atencao
    else if dias >= 7.0 then Urgente
    else Critico
  }

  function InStatus(st: Status): Alerts.Stock -> bool
  {
    (s: Alerts.Stock) => StatusOf(Alerts.DiasCobertura(s)) == st
  }

  /** The four slice counts add up to the number of items. */
  lemma {:induction false} StatusPartition(stock: seq<Alerts.Stock>)
    ensures Count(stock, InStatus(Normal)) + Count(stock, InStatus(Atencao))
      + Count(stock, InStatus(Urgente)) + Count(stock, InStatus(Critico)) == |stock|
  {
    if |stock| > 0 {
      StatusPartition(stock[1..]);
    }
  }

  /** One row of the dashboard's purchase table. */
  datatype Line = Line(item: string, saldo: real, media: real, dias: real, qty: real)

  /** The table's mask and quantity for one item: the same rule as the web
      app's list, on the unrounded coverage, without an urgency. */
  function Candidate(target: real, margem: real): (f: Alerts.Stock -> Option<Line>)
    ensures forall s :: f(s).Some? <==>
      Alerts.DiasCobertura(s) < target && Alerts.MediaDiaria(s) > 0.0
      && WebApp.SuggestedQty(s.saldo, Alerts.MediaDiaria(s), target, margem / 100.0) > 0.0
    ensures forall s :: f(s).Some? ==>
      f(s).value.item == s.item && f(s).value.dias == Alerts.DiasCobertura(s)
  {
    (s: Alerts.Stock) =>
      var media := Alerts.MediaDiaria(s);
      var dias := Alerts.DiasCobertura(s);
      if dias < target && media > 0.0 then
        var q := WebApp.SuggestedQty(s.saldo, media, target, margem / 100.0);
        if q > 0.0 then Some(Line(s.item, s.saldo, media, dias, q)) else None
      else None
  }

  function ByCoverage(a: Line, b: Line): bool
  {
    a.dias <= b.dias
  }

  predicate WellListed(l: Line, target: real)
  {
    l.dias < target && l.media > 0.0 && l.qty > 0.0
  }

  lemma {:induction false} CandidatesWellListed(stock: seq<Alerts.Stock>, target: real, margem: real)
    ensures forall l :: l in FilterMap(stock, Candidate(target, margem)) ==> WellListed(l, target)
  {
    if |stock| > 0 {
      CandidatesWellListed(stock[1..], target, margem);
    }
  }

  /** The "Lista de Compras" page: the candidates, lowest coverage
      first. */
  function ShoppingList(stock: seq<Alerts.Stock>, target: real, margem: real): (r: seq<Line>)
    ensures multiset(r) == multiset(FilterMap(stock, Candidate(target, margem)))
    ensures Sorted(r, ByCoverage)
    ensures forall i :: 0 <= i < |r| ==> WellListed(r[i], target)
  {
    var c := FilterMap(stock, Candidate(target, margem));
    CandidatesWellListed(stock, target, margem);
    assert TotalPreorder(ByCoverage);
    var r := SortBy(c, ByCoverage);
    PermutedWellListed(c, r, target);
    r
  }

  lemma PermutedWellListed(c: seq<Line>, r: seq<Line>, target: real)
    requires multiset(c) == multiset(r)
    requires forall l :: l in c ==> WellListed(l, target)
    ensures forall i :: 0 <= i < |r| ==> WellListed(r[i], target)
  {
    forall i | 0 <= i < |r| ensures WellListed(r[i], target) {
      assert r[i] in multiset(c);
    }
  }

  function UsageOf(s: Alerts.Stock): Abc.Usage
  {
    Abc.Usage(s.item, s.consumo30)
  }

  /** The "Curva ABC" report over Consumo_30d. */
  function AbcReport(stock: seq<Alerts.Stock>): (r: seq<Abc.Ranked>)
    ensures multiset(MapSeq(r, Abc.UsageOf)) == multiset(Filter(MapSeq(stock, UsageOf), Abc.Consumes))
    ensures forall i, j :: 0 <= i < j < |r| ==> r[i].consumo >= r[j].consumo
    ensures forall i, j :: 0 <= i < j < |r| ==> Abc.ClassRank(r[i].curve) <= Abc.ClassRank(r[j].curve)
    ensures |r| > 0 ==> r[|r| - 1].curve == Abc.C
    ensures Abc.ClassedByShare(r)
  {
    var u := MapSeq(stock, UsageOf);
    var r := Abc.Curve(u);
    Abc.CurveClasses(u);
    Abc.CurveEndsInC(u);
    r
  }
}

=== FILE: decimal.dfy ===
/** Python's `float(s)` restricted to plain decimal literals, and the
    decimal digit strings the formatters produce. */
module Decimal {
  import opened Wrappers
  import opened Text
  import opened Rounding

  predicate IsDigit(c: char)
  {
    '0' <= c <= '9'
  }

  predicate AllDigits(s: string)
  {
    forall i :: 0 <= i < |s| ==> IsDigit(s[i])
  }

  /** The natural number a digit string denotes (leading zeros allowed). */
  function DigitsValue(s: string): nat
    requires AllDigits(s)
  {
    if |s| == 0 then 0
    else 10 * DigitsValue(s[..|s| - 1]) + (s[|s| - 1] as int - '0' as int)
  }

  function DigitChar(d: int): (c: char)
    requires 0 <= d < 10
    ensures IsDigit(c) && c as int - '0' as int == d
  {
    ('0' as int + d) as char
  }

  /** `str(m)` for a natural number: its shortest decimal digit string. */
  function ShowNat(m: nat): (r: string)
    ensures |r| > 0 && AllDigits(r)
    ensures DigitsValue(r) == m
    ensures m > 0 ==> r[0] != '0'
  {
    if m < 10 then [DigitChar(m)]
    else
      var r := ShowNat(m / 10) + [DigitChar(m % 10)];
      assert r[..|r| - 1] == ShowNat(m / 10);
      r
  }

  /** The last `n` digits of `m`, zero-padded to exactly `n` characters
      (the fraction part of a fixed-point rendering). */
  function FixedDigits(m: nat, n: nat): (r: string)
    requires m < Pow10(n)
    ensures |r| == n && AllDigits(r)
    ensures DigitsValue(r) == m
  {
    if n == 0 then ""
    else
      var r := FixedDigits(m / 10, n - 1) + [DigitChar(m % 10)];
      assert r[..|r| - 1] == FixedDigits(m / 10, n - 1);
      r
  }

  /** Position of the first `c` in `s`, or `|s|` when there is none. */
  function IndexOf(s: string, c: char): (i: nat)
    ensures i <= |s|
    ensures i < |s| ==> s[i] == c
    ensures forall j :: 0 <= j < i ==> s[j] != c
  {
    if |s| == 0 then 0
    else if s[0] == c then 0
    else 1 + IndexOf(s[1..], c)
  }

  /** An unsigned decimal literal: `digits`, `digits.`, `digits.digits`
      or `.digits`. */
  function ParseUnsigned(u: string): (r: Option<real>)
    ensures r.Some? ==> r.value >= 0.0
    ensures r.Some? ==> |u| > 0 && (IsDigit(u[0]) || u[0] == '.')
  {
    var i := IndexOf(u, '.');
    if i == |u| then
      if |u| > 0 && AllDigits(u) then Some(DigitsValue(u) as real) else None
    else ParseParts(u[..i], u[i + 1..])
  }

  /** The literal `ip.fp`: both parts digits, not both empty. */
  function ParseParts(ip: string, fp: string): (r: Option<real>)
    ensures r.Some? ==> r.value >= 0.0
    ensures r.Some? ==> |ip| > 0 ==> IsDigit(ip[0])
  {
    if AllDigits(ip) && AllDigits(fp) && (|ip| > 0 || |fp| > 0) then
      UnscaledNonNegative(DigitsValue(fp) as real, |fp|);
      Some(DigitsValue(ip) as real + Unscaled(DigitsValue(fp) as real, |fp|))
    else None
  }

  /** `float(s)` on the decimal grammar `[+-]?unsigned`, surrounding white
      space ignored; `None` where Python raises `ValueError`. */
  function ParseFloat(s: string): (r: Option<real>)
    ensures r.Some? ==> |Strip(s)| > 0
  {
    var t := Strip(s);
    if |t| > 0 && t[0] == '-' then
      match ParseUnsigned(t[1..])
      case Some(v) => Some(-v)
      case None => None
    else if |t| > 0 && t[0] == '+' then ParseUnsigned(t[1..])
    else ParseUnsigned(t)
  }

  /** `try: float(s) except: 0.0`, the fallback every parser variant uses. */
  function FloatOrZero(s: string): real
  {
    ParseFloat(s).GetOr(0.0)
  }

  /** A rendered `digits.digits` literal parses back to the number it
      renders. */
  lemma {:induction false} ParseFixed(ds: string, fs: string)
    requires |ds| > 0 && AllDigits(ds) && AllDigits(fs)
    ensures ParseUnsigned(ds + "." + fs)
         == Some(DigitsValue(ds) as real + Unscaled(DigitsValue(fs) as real, |fs|))
  {
    var u := ds + "." + fs;
    assert u == ds + ("." + fs);
    assert '.' !in ds by {
      forall k | 0 <= k < |ds| ensures ds[k] != '.' { assert IsDigit(ds[k]); }
    }
    IndexOfPrefix(ds, "." + fs, '.');
    assert IndexOf(u, '.') == |ds|;
    assert u[..|ds|] == ds;
    assert u[|ds| + 1..] == fs;
  }

  lemma {:induction false} IndexOfAbsent(s: string, c: char)
    requires c !in s
    ensures IndexOf(s, c) == |s|
  {
    if |s| > 0 {
      assert c !in s[1..];
      IndexOfAbsent(s[1..], c);
    }
  }

  /** A plain digit string parses to its value. */
  lemma ParseWhole(ds: string)
    requires |ds| > 0 && AllDigits(ds)
    ensures ParseUnsigned(ds) == Some(DigitsValue(ds) as real)
  {
    assert '.' !in ds by {
      forall k | 0 <= k < |ds| ensures ds[k] != '.' { assert IsDigit(ds[k]); }
    }
    IndexOfAbsent(ds, '.');
  }

  lemma {:induction false} IndexOfPrefix(a: string, b: string, c: char)
    requires c !in a && (|b| > 0 ==> b[0] == c)
    ensures IndexOf(a + b, c) == |a|
  {
    if |a| > 0 {
      assert (a + b)[1..] == a[1..] + b;
      IndexOfPrefix(a[1..], b, c);
    } else {
      assert a + b == b;
    }
  }
}

=== FILE: forecast.dfy ===
/** previsao_demanda.py: the per-item statistics (positive exits, the
    interval between them, the 30/60/90-day windows), the month-of-year
    seasonality, and the forecast built on them: weighted base rate,
    clamped seasonal factor, confidence band, coverage, confidence label and
    alert, for every horizon of DIAS_PREVISAO. */
module Forecast {
  import opened Wrappers
  import opened Seqs
  import opened Sorting
  import opened Stats
  import opened Grouping
  import opened Calendar
  import opened Rounding
  import opened Text
  import opened Ledger
  import opened Config

  /** `sort_values('_data')`: dated rows by day, undated rows (`NaT`) last. */
  function DateOrder(a: Row, b: Row): bool
  {
    match a.date
    case Some(x) => b.date.None? || DayNumber(x) <= DayNumber(b.date.value)
    case None => b.date.None?
  }

  lemma DateOrderTotal()
    ensures TotalPreorder(DateOrder)
  {
  }

  /** The rows of `item` (any case), sorted by date. */
  function ItemHistory(rows: seq<Row>, item: string): (h: seq<Row>)
    ensures multiset(h) == multiset(Filter(rows, SameItem(item)))
    ensures |h| == Count(rows, SameItem(item))
    ensures Sorted(h, DateOrder)
  {
    DateOrderTotal();
    SortBy(Filter(rows, SameItem(item)), DateOrder)
  }

  predicate PositiveExit(r: Row)
  {
    r.exit > 0.0
  }

  /** `df_item[df_item['Saída'] > 0]['Saída']`. */
  function PositiveExits(h: seq<Row>): (s: seq<real>)
    ensures forall i :: 0 <= i < |s| ==> s[i] > 0.0
  {
    MapSeq(Filter(h, PositiveExit), Exit)
  }

  /** The unit of the last row, `'UN'` when it is blank. */
  function UnitOf(h: seq<Row>): (u: string)
    requires |h| > 0
    ensures |u| > 0
    ensures |Strip(h[|h| - 1].unit)| == 0 ==> u == "UN"
    ensures |Strip(h[|h| - 1].unit)| > 0 ==> u == h[|h| - 1].unit
  {
    var unit := h[|h| - 1].unit;
    if |Strip(unit)| == 0 then "UN" else unit
  }

  /** `datas_saida.diff().dropna().dt.days`: the day differences between
      consecutive rows, dropping every difference that involves an undated
      row. */
  function DayDiffs(rs: seq<Row>): (g: seq<real>)
    ensures |g| <= |rs|
  {
    if |rs| <= 1 then []
    else
      (if rs[0].date.Some? && rs[1].date.Some?
       then [(DayNumber(rs[1].date.value) - DayNumber(rs[0].date.value)) as real]
       else [])
      + DayDiffs(rs[1..])
  }

  /** `frequencia_dias`: 30 with at most one positive exit; otherwise the
      mean interval, `None` (NaN) when no interval survives. */
  function Frequency(h: seq<Row>): (f: Option<real>)
    ensures Count(h, PositiveExit) <= 1 ==> f == Some(30.0)
  {
    var exits := Filter(h, PositiveExit);
    if |exits| > 1 then
      var g := DayDiffs(exits);
      if |g| > 0 then Some(Mean(g)) else None
    else Some(30.0)
  }

  /** The mask "positive exit inside the `days` window". */
  function PositiveInWindow(now: Instant, days: int): Row -> bool
  {
    (r: Row) => DatedWithin(r, now, days) && r.exit > 0.0
  }

  /** `consumo_{days}d`: positive exits dated on or after `now - days`. */
  function Consumption(h: seq<Row>, now: Instant, days: int): real
  {
    Sum(Filter(h, PositiveInWindow(now, days)), Exit)
  }

  /** The statistics `calcular_estatisticas_item` returns and the forecast
      reads. */
  datatype ItemStats = ItemStats(
    unit: string,
    saldo: real,
    total: real,
    count: nat,
    mediaSaida: real,
    desvio: real,
    frequency: Option<real>,
    consumo30: real,
    consumo60: real,
    consumo90: real)

  /** The statistics of a non-empty, date-sorted history. */
  function StatsOf(h: seq<Row>, now: Instant, sqrt: real -> real): (st: ItemStats)
    requires |h| > 0
    ensures st.count == Count(h, PositiveExit)
    ensures st.saldo == h[|h| - 1].balance
    ensures st.count == 0 ==> st.mediaSaida == 0.0 && st.total == 0.0
    ensures st.count > 0 ==> st.mediaSaida * st.count as real == st.total
    ensures st.count <= 1 ==> st.desvio == 0.0
    ensures st.count <= 1 ==> st.frequency == Some(30.0)
  {
    var s := PositiveExits(h);
    var mean := if |s| > 0 then Mean(s) else 0.0;
    assert |s| > 0 ==> mean * |s| as real == Total(s) by {
      if |s| > 0 {
        MeanTimesCount(s);
      }
    }
    ItemStats(
      UnitOf(h),
      h[|h| - 1].balance,
      Total(s),
      |s|,
      mean,
      if |s| > 1 then SampleStd(s, sqrt) else 0.0,
      Frequency(h),
      Consumption(h, now, 30),
      Consumption(h, now, 60),
      Consumption(h, now, 90))
  }

  /** `calcular_estatisticas_item`: `None` for an item without rows. */
  function Statistics(rows: seq<Row>, item: string, now: Instant, sqrt: real -> real): (r: Option<ItemStats>)
    ensures r.None? <==> Count(rows, SameItem(item)) == 0
    ensures r.Some? ==> r.value.count == Count(ItemHistory(rows, item), PositiveExit)
  {
    var h := ItemHistory(rows, item);
    if |h| == 0 then None else Some(StatsOf(h, now, sqrt))
  }

  /** The facts about the statistics the forecast relies on. */
  predicate Sane(st: ItemStats)
  {
    st.mediaSaida >= 0.0 && st.desvio >= 0.0
    && 0.0 <= st.consumo30 <= st.consumo60 <= st.consumo90
  }

  /** A wider window never holds less consumption. */
  lemma ConsumptionMonotone(h: seq<Row>, now: Instant, n: int, m: int)
    requires n <= m
    ensures 0.0 <= Consumption(h, now, n) <= Consumption(h, now, m)
  {
    var p, q := PositiveInWindow(now, n), PositiveInWindow(now, m);
    SumFilter(h, p, Exit);
    SumFilter(h, q, Exit);
    forall i | 0 <= i < |h|
      ensures 0.0 <= Masked(p, Exit)(h[i]) <= Masked(q, Exit)(h[i])
    {
      if p(h[i]) {
        WindowsNested(h[i].date.value, now, n, m);
      }
    }
    SumNonNegative(h, Masked(p, Exit));
    SumMonotone(h, Masked(p, Exit), Masked(q, Exit));
  }

  /** The statistics of every history satisfy `Sane`. */
  lemma StatsSane(h: seq<Row>, now: Instant, sqrt: real -> real)
    requires SqrtLaws(sqrt) && |h| > 0
    ensures Sane(StatsOf(h, now, sqrt))
  {
    var s := PositiveExits(h);
    if |s| > 0 {
      TotalNonNegative(s);
    }
    if |s| > 1 {
      StdNonNegative(s, sqrt);
    }
    ConsumptionMonotone(h, now, 30, 60);
    ConsumptionMonotone(h, now, 60, 90);
  }

  /** Consecutive day differences of dated rows add up to the span from the
      first row's day to the last row's. */
  lemma {:induction false} DayDiffsTelescope(rs: seq<Row>)
    requires |rs| > 0
    requires forall i :: 0 <= i < |rs| ==> rs[i].date.Some?
    ensures |DayDiffs(rs)| == |rs| - 1
    ensures Total(DayDiffs(rs))
         == (DayNumber(rs[|rs| - 1].date.value) - DayNumber(rs[0].date.value)) as real
  {
    if |rs| > 1 {
      DayDiffsTelescope(rs[1..]);
      var head := [(DayNumber(rs[1].date.value) - DayNumber(rs[0].date.value)) as real];
      assert DayDiffs(rs) == head + DayDiffs(rs[1..]);
      TotalAppend(head, DayDiffs(rs[1..]));
    }
  }

  /** When every positive exit is dated, `frequencia_dias` is the span from
      the first positive exit to the last divided by the number of
      intervals. */
  lemma FrequencySpan(h: seq<Row>)
    requires Count(h, PositiveExit) > 1
    requires forall i :: 0 <= i < |Filter(h, PositiveExit)| ==> Filter(h, PositiveExit)[i].date.Some?
    ensures var d := Filter(h, PositiveExit);
      Frequency(h)
        == Some((DayNumber(d[|d| - 1].date.value) - DayNumber(d[0].date.value)) as real / (|d| - 1) as real)
  {
    DayDiffsTelescope(Filter(h, PositiveExit));
  }

  /** The month key `df_item['_data'].dt.month`. */
  function MonthKey(r: Row): Option<int>
  {
    match r.date
    case Some(d) => Some(d.month)
    case None => None
  }

  datatype MonthTotal = MonthTotal(month: int, total: real)

  function TotalOf(t: MonthTotal): real
  {
    t.total
  }

  function MonthOf(t: MonthTotal): int
  {
    t.month
  }

  /** The exits of month `m`. */
  function MonthTotalIn(h: seq<Row>): int -> MonthTotal
  {
    m => MonthTotal(m, GroupSum(h, MonthKey, m, Exit))
  }

  /** `groupby('mes')['Saída'].sum()`: one total per month that has a dated
      row, in month order. */
  function MonthTotals(h: seq<Row>): (r: seq<MonthTotal>)
    ensures NoDuplicates(MapSeq(r, MonthOf))
    ensures forall i, j :: 0 <= i < j < |r| ==> r[i].month < r[j].month
    ensures forall i :: 0 <= i < |r| ==> r[i].total == GroupSum(h, MonthKey, r[i].month, Exit)
    ensures forall i :: 0 <= i < |r| ==> exists j :: 0 <= j < |h| && MonthKey(h[j]) == Some(r[i].month)
    ensures forall j :: 0 <= j < |h| && h[j].date.Some? ==> MonthTotalIn(h)(h[j].date.value.month) in r
  {
    var keys := GroupKeys(h, MonthKey);
    var months := SortInts(keys);
    var r := MapSeq(months, MonthTotalIn(h));
    forall i | 0 <= i < |r| ensures exists j :: 0 <= j < |h| && MonthKey(h[j]) == Some(r[i].month) {
      MonthFromRow(h, months, i);
    }
    forall j | 0 <= j < |h| && h[j].date.Some? ensures MonthTotalIn(h)(h[j].date.value.month) in r {
      MonthListed(h, months, j);
    }
    r
  }

  /** Every month listed is the month of some row. */
  lemma MonthFromRow(h: seq<Row>, months: seq<int>, i: int)
    requires multiset(months) == multiset(GroupKeys(h, MonthKey)) && 0 <= i < |months|
    ensures exists j :: 0 <= j < |h| && MonthKey(h[j]) == Some(months[i])
  {
    assert months[i] in multiset(GroupKeys(h, MonthKey));
    GroupKeyFrom(h, MonthKey, months[i]);
  }

  /** The month of a dated row has its total among the totals. */
  lemma MonthListed(h: seq<Row>, months: seq<int>, j: int)
    requires multiset(months) == multiset(GroupKeys(h, MonthKey))
    requires 0 <= j < |h| && h[j].date.Some?
    ensures MonthTotalIn(h)(h[j].date.value.month) in MapSeq(months, MonthTotalIn(h))
  {
    var m := h[j].date.value.month;
    assert MonthKey(h[j]) == Some(m);
    assert m in multiset(months);
    var i :| 0 <= i < |months| && months[i] == m;
    assert MapSeq(months, MonthTotalIn(h))[i] == MonthTotalIn(h)(m);
  }

  function Above(x: real): MonthTotal -> bool
  {
    (t: MonthTotal) => t.total > x
  }

  function Below(x: real): MonthTotal -> bool
  {
    (t: MonthTotal) => t.total < x
  }

  /** What `detectar_sazonalidade` returns: the monthly totals, their mean,
      and the peak and low months. */
  datatype Season = Season(totals: seq<MonthTotal>, mean: real, peaks: seq<int>, lows: seq<int>)

  /** Peak months exceed 1.3 times the monthly mean and low months fall
      under 0.7 times it. With no dated row the mean is NaN and nothing is a
      peak or a low. */
  function SeasonOf(totals: seq<MonthTotal>): (s: Season)
    ensures s.totals == totals
    ensures forall m :: m in s.peaks <==>
      exists t :: t in totals && t.month == m && t.total > 1.3 * s.mean
    ensures forall m :: m in s.lows <==>
      exists t :: t in totals && t.month == m && t.total < 0.7 * s.mean
    ensures |totals| > 0 ==> s.mean == Sum(totals, TotalOf) / |totals| as real
  {
    if |totals| == 0 then Season(totals, 0.0, [], [])
    else
      var mean := Sum(totals, TotalOf) / |totals| as real;
      Season(totals, mean, Selected(totals, Above(1.3 * mean)), Selected(totals, Below(0.7 * mean)))
  }

  /** `detectar_sazonalidade`: `None` for an item with fewer than 12 rows
      (rows, not months, are counted). */
  function Seasonality(rows: seq<Row>, item: string): (r: Option<Season>)
    ensures r.None? <==> Count(rows, SameItem(item)) < 12
  {
    var h := ItemHistory(rows, item);
    if |h| < 12 then None else Some(SeasonOf(MonthTotals(h)))
  }

  /** The months of the totals `p` selects. */
  function Selected(totals: seq<MonthTotal>, p: MonthTotal -> bool): (r: seq<int>)
    ensures forall m :: m in r <==> exists t :: t in totals && t.month == m && p(t)
  {
    var f := Filter(totals, p);
    var r := MapSeq(f, MonthOf);
    forall m ensures m in r <==> exists t :: t in totals && t.month == m && p(t) {
      if m in r {
        var i :| 0 <= i < |r| && r[i] == m;
        FilterMembership(totals, p, f[i]);
      }
      if exists t :: t in totals && t.month == m && p(t) {
        var t :| t in totals && t.month == m && p(t);
        FilterMembership(totals, p, t);
        var i :| 0 <= i < |f| && f[i] == t;
        assert r[i] == m;
      }
    }
    r
  }

  /** Among distinct months with non-negative totals, no month is both a
      peak and a low. */
  lemma SeasonDisjoint(totals: seq<MonthTotal>)
    requires NoDuplicates(MapSeq(totals, MonthOf))
    requires forall i :: 0 <= i < |totals| ==> TotalOf(totals[i]) >= 0.0
    ensures forall m :: m in SeasonOf(totals).peaks ==> m !in SeasonOf(totals).lows
  {
    var s := SeasonOf(totals);
    if |totals| > 0 {
      SumNonNegative(totals, TotalOf);
      var months := MapSeq(totals, MonthOf);
      forall m | m in s.peaks ensures m !in s.lows {
        var t :| t in totals && t.month == m && t.total > 1.3 * s.mean;
        var i :| 0 <= i < |totals| && totals[i] == t;
        forall u | u in totals && u.month == m ensures u.total >= 0.7 * s.mean {
          var j :| 0 <= j < |totals| && totals[j] == u;
          assert months[j] == months[i];
        }
      }
    }
  }

  /** The sorted rows of an item keep the ledger's non-negative exits. */
  lemma HistoryExitsNonNegative(rows: seq<Row>, item: string)
    requires ExitsNonNegative(rows)
    ensures ExitsNonNegative(ItemHistory(rows, item))
  {
    var h := ItemHistory(rows, item);
    FilterSubMultiset(rows, SameItem(item));
    forall i | 0 <= i < |h| ensures h[i].exit >= 0.0 {
      assert h[i] in multiset(Filter(rows, SameItem(item)));
      assert h[i] in multiset(rows);
    }
  }

  /** With non-negative exits no month is both a peak and a low. */
  lemma PeaksAndLowsDisjoint(rows: seq<Row>, item: string)
    requires ExitsNonNegative(rows) && Seasonality(rows, item).Some?
    ensures var s := Seasonality(rows, item).value;
      forall m :: m in s.peaks ==> m !in s.lows
  {
    var h := ItemHistory(rows, item);
    var totals := MonthTotals(h);
    HistoryExitsNonNegative(rows, item);
    forall i | 0 <= i < |totals| ensures TotalOf(totals[i]) >= 0.0 {
      GroupSumNonNegative(h, MonthKey, totals[i].month, Exit);
    }
    SeasonDisjoint(totals);
  }

  /** `consumo_por_mes.get(mes, 0)`. */
  function MonthTotalOf(totals: seq<MonthTotal>, month: int): (r: real)
    ensures (forall i :: 0 <= i < |totals| ==> totals[i].month != month) ==> r == 0.0
  {
    if |totals| == 0 then 0.0
    else if totals[0].month == month then totals[0].total
    else MonthTotalOf(totals[1..], month)
  }

  /** `fator_sazonal`: 1 without seasonality or without consumption,
      otherwise the current month's total over a twelfth of the year's
      total (whatever months are present), clamped to [0.5, 2]. */
  function SeasonalFactor(season: Option<Season>, month: int): (f: real)
    ensures 0.5 <= f <= 2.0
    ensures season.None? ==> f == 1.0
    ensures season.Some? && Sum(season.value.totals, TotalOf) <= 0.0 ==> f == 1.0
    ensures season.Some? && Sum(season.value.totals, TotalOf) > 0.0 ==>
      var ratio := MonthTotalOf(season.value.totals, month) / (Sum(season.value.totals, TotalOf) / 12.0);
      (0.5 <= ratio <= 2.0 ==> f == ratio) && (ratio < 0.5 ==> f == 0.5) && (ratio > 2.0 ==> f == 2.0)
  {
    match season
    case None => 1.0
    case Some(s) =>
      var g := Sum(s.totals, TotalOf) / 12.0;
      if g > 0.0 then Clamp(MonthTotalOf(s.totals, month) / g, 0.5, 2.0) else 1.0
  }

  /** Dividing by twelve whatever months are present: an item whose
      consumption all falls in the current month gets the maximum factor. */
  lemma SingleMonthFactor(t: real, month: int)
    requires t > 0.0
    ensures SeasonalFactor(Some(Season([MonthTotal(month, t)], t, [], [])), month) == 2.0
  {
    var s := [MonthTotal(month, t)];
    assert Sum(s, TotalOf) == t;
    assert MonthTotalOf(s, month) == t;
    assert t / (t / 12.0) == 12.0;
  }

  /** `media_ponderada`: the daily means of the three windows weighted
      0.5, 0.3 and 0.2. */
  function BaseRate(st: ItemStats): (r: real)
    ensures Sane(st) ==> r >= 0.0
  {
    st.consumo30 / 30.0 * 0.5 + st.consumo60 / 60.0 * 0.3 + st.consumo90 / 90.0 * 0.2
  }

  datatype Confidence = Alta | Media | Baixa

  /** `confianca`, from the number of positive exits. */
  function ConfidenceOf(n: nat): (c: Confidence)
    ensures c == Alta <==> n > 20
    ensures c == Media <==> 5 < n <= 20
    ensures c == Baixa <==> n <= 5
  {
    if n > 20 then Alta else if n > 5 then Media else Baixa
  }

  /** The unrounded quantities of one forecast. */
  datatype Projection = Projection(pred: real, lower: real, upper: real, rate: real, remaining: real)

  /** The error margin: 1.96 standard errors of the mean exit, or a fifth
      of the mean exit without exits. */
  function Margin(st: ItemStats, sqrt: real -> real): (m: real)
    requires SqrtLaws(sqrt)
    ensures Sane(st) ==> m >= 0.0
  {
    if st.count > 0 then
      assert sqrt(st.count as real) > 0.0;
      st.desvio * 1.96 / sqrt(st.count as real)
    else st.mediaSaida * 0.2
  }

  /** The forecast over `days`: the adjusted daily rate times the horizon,
      a band of one margin per day on either side (its floor clipped at
      zero), and the balance left once the prediction is consumed. */
  function Project(st: ItemStats, factor: real, days: nat, sqrt: real -> real): (p: Projection)
    requires SqrtLaws(sqrt)
    ensures p.pred == p.rate * days as real && p.rate == BaseRate(st) * factor
    ensures p.remaining + p.pred == st.saldo
    ensures p.upper - p.pred == Margin(st, sqrt) * days as real
    ensures p.lower >= 0.0 && (p.lower > 0.0 ==> p.pred - p.lower == p.upper - p.pred)
    ensures Sane(st) && factor > 0.0 ==> 0.0 <= p.lower <= p.pred <= p.upper
  {
    var pred := BaseRate(st) * days as real * factor;
    var m := Margin(st, sqrt);
    assert Sane(st) && factor > 0.0 ==> pred >= 0.0 && m * days as real >= 0.0 by {
      if Sane(st) && factor > 0.0 {
        assert BaseRate(st) * days as real >= 0.0;
      }
    }
    Projection(pred, PosPart(pred - m * days as real), pred + m * days as real,
      BaseRate(st) * factor, st.saldo - pred)
  }

  /** What `prever_consumo` returns. */
  datatype Prediction = Prediction(
    item: string,
    days: nat,
    consumo: real,
    minimo: real,
    maximo: real,
    media: real,
    saldo: real,
    saldoPrevisto: real,
    cobertura: real,
    fator: real,
    confianca: Confidence,
    alerta: AlertLevel)

  /** The forecast's alert: a negative projected balance is critical;
      otherwise the coverage ladder with strict bounds 15 and 30. */
  function ForecastAlert(saldoPrevisto: real, cobertura: real): (l: AlertLevel)
    ensures l == Critico <==> saldoPrevisto < 0.0
    ensures l == Urgente <==> saldoPrevisto >= 0.0 && cobertura < 15.0
    ensures l == Atencao <==> saldoPrevisto >= 0.0 && 15.0 <= cobertura < 30.0
    ensures l == Normal <==> saldoPrevisto >= 0.0 && cobertura >= 30.0
  {
    if saldoPrevisto < 0.0 then Critico
    else if cobertura < 15.0 then Urgente
    else if cobertura < 30.0 then Atencao
    else Normal
  }

  /** The rounded record, as `prever_consumo` builds it. */
  function Publish(item: string, days: nat, st: ItemStats, factor: real, p: Projection): (r: Prediction)
    requires factor > 0.0 && p.rate == BaseRate(st) * factor
    ensures BaseRate(st) <= 0.0 ==> r.cobertura == 999.0
    ensures BaseRate(st) > 0.0 ==> r.cobertura == Round(st.saldo / (BaseRate(st) * factor), 1)
    ensures r.alerta == ForecastAlert(r.saldoPrevisto, r.cobertura)
    ensures r.confianca == ConfidenceOf(st.count)
  {
    var cobertura := if BaseRate(st) > 0.0 then Round(st.saldo / p.rate, 1) else 999.0;
    Prediction(item, days, Round(p.pred, 2), Round(p.lower, 2), Round(p.upper, 2),
      Round(p.rate, 2), st.saldo, Round(p.remaining, 2), cobertura, Round(factor, 2),
      ConfidenceOf(st.count), ForecastAlert(Round(p.remaining, 2), cobertura))
  }

  /** The forecast of given statistics and seasonal factor. */
  function PredictFrom(item: string, days: nat, st: ItemStats, factor: real, sqrt: real -> real): (r: Prediction)
    requires SqrtLaws(sqrt) && factor > 0.0
    ensures r.days == days && r.item == item
  {
    var p := Project(st, factor, days, sqrt);
    Publish(item, days, st, factor, p)
  }

  /** `prever_consumo(item, days)`: `None` for an item without rows. */
  function Predict(rows: seq<Row>, item: string, now: Instant, days: nat, sqrt: real -> real): (r: Option<Prediction>)
    requires SqrtLaws(sqrt)
    ensures r.None? <==> Count(rows, SameItem(item)) == 0
    ensures r.Some? ==> r.value.days == days && r.value.item == item
  {
    match Statistics(rows, item, now, sqrt)
    case None => None
    case Some(st) =>
      var factor := SeasonalFactor(Seasonality(rows, item), now.date.month);
      Some(PredictFrom(item, days, st, factor, sqrt))
  }

  /** The published band keeps its order after rounding:
      0 <= consumo_minimo <= consumo_previsto <= consumo_maximo. */
  lemma PredictionBand(rows: seq<Row>, item: string, now: Instant, days: nat, sqrt: real -> real)
    requires SqrtLaws(sqrt) && Predict(rows, item, now, days, sqrt).Some?
    ensures var f := Predict(rows, item, now, days, sqrt).value;
      0.0 <= f.minimo <= f.consumo <= f.maximo
  {
    var st := Statistics(rows, item, now, sqrt).value;
    var factor := SeasonalFactor(Seasonality(rows, item), now.date.month);
    var p := Project(st, factor, days, sqrt);
    StatsSane(ItemHistory(rows, item), now, sqrt);
    RoundNonNegative(p.lower, 2);
    RoundMonotone(p.lower, p.pred, 2);
    RoundMonotone(p.pred, p.upper, 2);
  }

  /** `prever_multiplos_periodos`: one forecast per horizon, in the order of
      DIAS_PREVISAO, for an item with rows; none otherwise. */
  function PredictHorizons(rows: seq<Row>, item: string, now: Instant, sqrt: real -> real): (r: seq<Prediction>)
    requires SqrtLaws(sqrt)
    ensures Count(rows, SameItem(item)) == 0 ==> r == []
    ensures Count(rows, SameItem(item)) > 0 ==>
      |r| == |ForecastHorizons| && forall i :: 0 <= i < |r| ==> r[i].days == ForecastHorizons[i]
    ensures Count(rows, SameItem(item)) > 0 ==>
      forall i :: 0 <= i < |r| ==> Some(r[i]) == Predict(rows, item, now, ForecastHorizons[i], sqrt)
  {
    PredictEach(rows, item, now, ForecastHorizons, sqrt)
  }

  function PredictEach(rows: seq<Row>, item: string, now: Instant, horizons: seq<nat>,
                       sqrt: real -> real): (r: seq<Prediction>)
    requires SqrtLaws(sqrt)
    ensures Count(rows, SameItem(item)) == 0 ==> r == []
    ensures Count(rows, SameItem(item)) > 0 ==>
      |r| == |horizons| && forall i :: 0 <= i < |r| ==> r[i].days == horizons[i]
    ensures Count(rows, SameItem(item)) > 0 ==>
      forall i :: 0 <= i < |r| ==> Some(r[i]) == Predict(rows, item, now, horizons[i], sqrt)
  {
    if |horizons| == 0 then []
    else
      var rest := PredictEach(rows, item, now, horizons[1..], sqrt);
      match Predict(rows, item, now, horizons[0], sqrt)
      case Some(p) => [p] + rest
      case None => rest
  }
}

=== FILE: formatting.dfy ===
/** `formatar_numero_br` of config.py: `f"{v:,.{n}f}"` (comma thousands
    groups, `n` decimals rounded half to even) followed by swapping the two
    separators through a placeholder, so 1234.5 becomes "1.234,50". */
module Formatting {
  import opened Text
  import opened Decimal
  import opened Rounding
  import opened LocaleNumbers

  /** The digits `ds` with `sep` between groups of three, counted from the
      right (the `,` option of Python's format mini-language). */
  function Group(ds: string, sep: char): (r: string)
    ensures |ds| > 0 ==> |r| > 0 && r[0] == ds[0] && r[|r| - 1] == ds[|ds| - 1]
    ensures |ds| > 0 ==> |r| == |ds| + (|ds| - 1) / 3
    decreases |ds|
  {
    if |ds| <= 3 then ds
    else Group(ds[..|ds| - 3], sep) + [sep] + ds[|ds| - 3..]
  }

  /** The number of units of 10^-n in `|v|` rounded half to even. */
  function Units(v: real, n: nat): nat
  {
    ScaledNonNegative(Abs(v), n);
    NearestIntNonNegative(Scaled(Abs(v), n));
    NearestInt(Scaled(Abs(v), n))
  }

  /** `k` units of 10^-n written with a sign, a comma-grouped whole part
      and, when `n > 0`, a dot and exactly `n` decimals. */
  function FormatUnits(neg: bool, k: nat, n: nat): string
  {
    var p := Pow10(n);
    DivModBound(k, p);
    Sign(neg) + (Group(ShowNat(k / p), ',')
      + (if n == 0 then "" else "." + FixedDigits(k % p, n)))
  }

  lemma DivModBound(k: nat, p: int)
    requires p >= 1
    ensures k / p >= 0 && 0 <= k % p < p
  {
  }

  /** `f"{v:,.{n}f}"`; a negative value that rounds to zero keeps its sign,
      as Python prints "-0.00". */
  function FormatUS(v: real, n: nat): string
  {
    FormatUnits(v < 0.0, Units(v, n), n)
  }

  /** `.replace(",", "X").replace(".", ",").replace("X", ".")`. */
  function SwapSeparators(s: string): string
  {
    ReplaceChar(ReplaceChar(ReplaceChar(s, ',', 'X'), '.', ','), 'X', '.')
  }

  /** `formatar_numero_br(v, n)`. */
  function FormatBr(v: real, n: nat): string
  {
    SwapSeparators(FormatUS(v, n))
  }

  /** The Brazilian text `[-]d.ddd,ff`: dot-grouped whole digits `ds`, a
      comma, then the decimals `fs`. */
  function BrText(neg: bool, ds: string, fs: string): string
  {
    Sign(neg) + (Group(ds, '.') + "," + fs)
  }

  /** A character that is neither in the digits nor the separator is not in
      the grouped text. */
  lemma {:induction false} GroupAbsent(ds: string, sep: char, c: char)
    requires c !in ds && c != sep
    ensures c !in Group(ds, sep)
    decreases |ds|
  {
    if |ds| > 3 {
      assert c !in ds[..|ds| - 3] && c !in ds[|ds| - 3..];
      GroupAbsent(ds[..|ds| - 3], sep, c);
    }
  }

  /** Deleting the separators from the grouped text gives back the digits. */
  lemma {:induction false} GroupRemove(ds: string, sep: char)
    requires sep !in ds
    ensures RemoveChar(Group(ds, sep), sep) == ds
    decreases |ds|
  {
    if |ds| <= 3 {
      RemoveAbsent(ds, sep);
    } else {
      var a, b := ds[..|ds| - 3], ds[|ds| - 3..];
      assert sep !in a && sep !in b;
      GroupRemove(a, sep);
      RemoveAppend(Group(a, sep) + [sep], b, sep);
      RemoveAppend(Group(a, sep), [sep], sep);
      RemoveAbsent(b, sep);
      assert RemoveChar([sep], sep) == [];
      assert a + b == ds;
    }
  }

  /** Renaming the separator of a grouped text regroups with the new one. */
  lemma {:induction false} GroupReplace(ds: string, a: char, b: char)
    requires a !in ds
    ensures ReplaceChar(Group(ds, a), a, b) == Group(ds, b)
    decreases |ds|
  {
    if |ds| > 3 {
      var x, y := ds[..|ds| - 3], ds[|ds| - 3..];
      assert a !in x && a !in y;
      GroupReplace(x, a, b);
      ReplaceAppend(Group(x, a) + [a], y, a, b);
      ReplaceAppend(Group(x, a), [a], a, b);
      ReplaceAbsent(y, a, b);
    } else {
      ReplaceAbsent(ds, a, b);
    }
  }

  /** Replacing a character in `p + (g + m + f)` replaces it part by part. */
  lemma ReplaceParts(p: string, g: string, m: string, f: string, a: char, b: char)
    ensures ReplaceChar(p + (g + m + f), a, b)
         == ReplaceChar(p, a, b) + (ReplaceChar(g, a, b) + ReplaceChar(m, a, b) + ReplaceChar(f, a, b))
  {
    ReplaceAppend(p, g + m + f, a, b);
    ReplaceAppend(g + m, f, a, b);
    ReplaceAppend(g, m, a, b);
  }

  /** Digits are not separators, signs or the placeholder. */
  lemma DigitsFree(ds: string)
    requires AllDigits(ds)
    ensures ',' !in ds && '.' !in ds && 'X' !in ds && '-' !in ds
  {
    forall k | 0 <= k < |ds|
      ensures ds[k] != ',' && ds[k] != '.' && ds[k] != 'X' && ds[k] != '-'
    {
      assert IsDigit(ds[k]);
    }
  }

  /** The separator swap turns `[-]d,ddd.ff` into `[-]d.ddd,ff`. */
  lemma SwapGrouped(neg: bool, ds: string, fs: string)
    requires AllDigits(ds) && AllDigits(fs)
    ensures SwapSeparators(Sign(neg) + (Group(ds, ',') + "." + fs)) == BrText(neg, ds, fs)
  {
    DigitsFree(ds);
    DigitsFree(fs);
    var p := Sign(neg);
    ReplaceAbsent(p, ',', 'X');
    ReplaceAbsent(p, '.', ',');
    ReplaceAbsent(p, 'X', '.');
    ReplaceAbsent(fs, ',', 'X');
    ReplaceAbsent(fs, '.', ',');
    ReplaceAbsent(fs, 'X', '.');
    ReplaceParts(p, Group(ds, ','), ".", fs, ',', 'X');
    GroupReplace(ds, ',', 'X');
    ReplaceAbsent(".", ',', 'X');
    ReplaceParts(p, Group(ds, 'X'), ".", fs, '.', ',');
    GroupAbsent(ds, 'X', '.');
    ReplaceAbsent(Group(ds, 'X'), '.', ',');
    assert ReplaceChar(".", '.', ',') == ",";
    ReplaceParts(p, Group(ds, 'X'), ",", fs, 'X', '.');
    GroupReplace(ds, 'X', '.');
    ReplaceAbsent(",", 'X', '.');
  }

  /** With at least one decimal, `formatar_numero_br` writes the Brazilian
      text of the units of 10^-n in `|v|`. */
  lemma FormatBrShape(neg: bool, k: nat, n: nat)
    requires n >= 1
    ensures k % Pow10(n) < Pow10(n)
    ensures SwapSeparators(FormatUnits(neg, k, n))
         == BrText(neg, ShowNat(k / Pow10(n)), FixedDigits(k % Pow10(n), n))
  {
    DivModBound(k, Pow10(n));
    SwapGrouped(neg, ShowNat(k / Pow10(n)), FixedDigits(k % Pow10(n), n));
  }

  /** The conditional parser reads a Brazilian text back as `[-]ds.fs`. */
  lemma ReadBrText(neg: bool, ds: string, fs: string)
    requires |ds| > 0 && |fs| > 0 && AllDigits(ds) && AllDigits(fs)
    ensures ParseConditional(Textual(BrText(neg, ds, fs))) == FixedValue(neg, ds, fs)
  {
    var s := BrText(neg, ds, fs);
    DigitsFree(ds);
    DigitsFree(fs);
    assert s[0] == (if neg then '-' else ds[0]) && IsDigit(ds[0]);
    assert s[|s| - 1] == fs[|fs| - 1] && IsDigit(fs[|fs| - 1]);
    StripTrimmed(s);
    assert ',' in s by {
      assert s[|Sign(neg)| + |Group(ds, '.')|] == ',';
    }
    GroupRemove(ds, '.');
    RemoveAppend(Sign(neg), Group(ds, '.') + "," + fs, '.');
    RemoveAppend(Group(ds, '.') + ",", fs, '.');
    RemoveAppend(Group(ds, '.'), ",", '.');
    RemoveAbsent(Sign(neg), '.');
    RemoveAbsent(",", '.');
    RemoveAbsent(fs, '.');
    assert RemoveChar(s, '.') == FixedComma(neg, ds, fs);
    ReplaceSeparator(neg, ds, fs, ',', '.');
    if '.' !in s {
      RemoveAbsent(s, '.');
    }
    assert NormaliseConditional(Strip(s)) == Fixed(neg, ds, fs);
    ParseSignedFixed(neg, ds, fs);
  }

  /** Reading back with `converter_para_numero` a number formatted by
      `formatar_numero_br` with at least one decimal gives the number
      rounded to that many decimals. */
  lemma FormatBrRoundTrip(v: real, n: nat)
    requires n >= 1
    ensures ParseConditional(Textual(FormatBr(v, n))) == Round(v, n)
  {
    var k := Units(v, n);
    FormatBrShape(v < 0.0, k, n);
    var ds, fs := ShowNat(k / Pow10(n)), FixedDigits(k % Pow10(n), n);
    ReadBrText(v < 0.0, ds, fs);
    UnitsSplit(k, n);
    RoundBySign(v, n);
  }
}

=== FILE: gestor.dfy ===
/** gestor.py: the consumption of the last months, the consolidation of
    the ledger into one row per item, the stock-level and idle-time lists,
    the arithmetic audit of each item's last ledger row and the ABC curve. */
module Gestor {
  import opened Wrappers
  import opened Seqs
  import opened Sorting
  import opened Stats
  import opened Calendar
  import opened Ledger
  import opened Config
  import Abc

  /** Dated inside `[now - 30 * meses days, now]`. */
  predicate InPeriod(r: Row, now: Instant, meses: nat)
  {
    r.date.Some? && OnOrAfterDaysAgo(r.date.value, now, 30 * meses) && NotAfter(r.date.value, now)
  }

  function PeriodOf(item: string, now: Instant, meses: nat): Row -> bool
  {
    (r: Row) => r.item == item && InPeriod(r, now, meses)
  }

  /** `calcular_consumo_periodo`: the exits of `item` dated inside the
      period, 0 for an item without any (the `fillna(0)` of the merge). */
  function PeriodExits(rows: seq<Row>, item: string, now: Instant, meses: nat): real
  {
    Sum(Filter(rows, PeriodOf(item, now, meses)), Exit)
  }

  /** With non-negative exits, the period's consumption never exceeds the
      item's total exits. */
  lemma PeriodWithinTotal(rows: seq<Row>, item: string, now: Instant, meses: nat)
    requires ExitsNonNegative(rows)
    ensures 0.0 <= PeriodExits(rows, item, now, meses) <= Sum(Filter(rows, OfItem(item)), Exit)
  {
    var p, q := PeriodOf(item, now, meses), OfItem(item);
    SumFilter(rows, p, Exit);
    SumFilter(rows, q, Exit);
    SumMonotone(rows, Masked(p, Exit), Masked(q, Exit));
    SumNonNegative(rows, Masked(p, Exit));
  }

  /** The position of the item's last ledger row (`idxmax` of the original
      line index), -1 when it has none. */
  function LastIndex(rows: seq<Row>, item: string): (i: int)
    ensures -1 <= i < |rows|
    ensures i >= 0 ==> rows[i].item == item
    ensures forall j :: i < j < |rows| ==> rows[j].item != item
  {
    if |rows| == 0 then -1
    else if rows[|rows| - 1].item == item then |rows| - 1
    else LastIndex(rows[..|rows| - 1], item)
  }

  /** One row of `df_consolidado`. */
  datatype Consolidated = Consolidated(
    item: string,
    saldo: real,
    lastDate: Option<Date>,
    movements: nat,
    totalIn: real,
    totalOut: real,
    consumo3m: real,
    mediaMensal: real,
    coberturaMeses: real,
    idleDays: int)

  /** Dias_Sem_Mov: days since the last row's date, 9999 when it has
      none. */
  function IdleSince(date: Option<Date>, now: Instant): int
    requires ValidInstant(now)
  {
    match date
    case Some(d) => ElapsedDays(d, now)
    case None => 9999
  }

  /** The consolidated row of an item that has ledger rows: the fields of
      its last row, its movement count and totals, and its consumption and
      coverage in months. */
  function ConsolidateItem(rows: seq<Row>, now: Instant, item: string): (c: Consolidated)
    requires ValidInstant(now)
    requires item in MapSeq(rows, ItemName)
    ensures c.item == item && c.movements == Count(rows, OfItem(item))
    ensures var last := LastIndex(rows, item);
      0 <= last && c.saldo == rows[last].balance && c.lastDate == rows[last].date
    ensures c.coberturaMeses == Coverage(c.saldo, c.mediaMensal)
    ensures c.consumo3m == PeriodExits(rows, item, now, ConsumptionMonths)
  {
    var last := rows[LastIndex(rows, item)];
    var consumo := PeriodExits(rows, item, now, ConsumptionMonths);
    var media := consumo / ConsumptionMonths as real;
    Consolidated(item, last.balance, last.date, Count(rows, OfItem(item)),
      Sum(Filter(rows, OfItem(item)), Entry), Sum(Filter(rows, OfItem(item)), Exit),
      consumo, media, Coverage(last.balance, media), IdleSince(last.date, now))
  }

  function ItemName(r: Row): string
  {
    r.item
  }

  /** The `groupby('Item')` keys: each item once, in string order. */
  function ItemKeys(rows: seq<Row>): (keys: seq<string>)
    ensures forall i, j :: 0 <= i < j < |keys| ==> StringLe(keys[i], keys[j]) && keys[i] != keys[j]
    ensures forall i :: 0 <= i < |keys| ==> exists j :: 0 <= j < |rows| && rows[j].item == keys[i]
    ensures forall j :: 0 <= j < |rows| ==> rows[j].item in keys
  {
    var keys := SortedKeys(rows, ItemName);
    keys
  }

  /** `consolidar_estoque`: one row per distinct item, in item order, each
      carrying the balance of the item's last ledger row. */
  function Consolidate(rows: seq<Row>, now: Instant): (r: seq<Consolidated>)
    requires ValidInstant(now)
    ensures forall i, j :: 0 <= i < j < |r| ==> StringLe(r[i].item, r[j].item) && r[i].item != r[j].item
    ensures forall j :: 0 <= j < |rows| ==> rows[j].item in MapSeq(r, ItemOf)
    ensures forall i :: 0 <= i < |r| ==>
      var last := LastIndex(rows, r[i].item);
      0 <= last && r[i].saldo == rows[last].balance
  {
    var keys := ItemKeys(rows);
    var r := ConsolidateAll(rows, now, keys);
    assert MapSeq(r, ItemOf) == keys;
    r
  }

  /** The consolidated row of every key, in key order. */
  function ConsolidateAll(rows: seq<Row>, now: Instant, keys: seq<string>): (r: seq<Consolidated>)
    requires ValidInstant(now)
    requires forall i :: 0 <= i < |keys| ==> keys[i] in MapSeq(rows, ItemName)
    ensures |r| == |keys|
    ensures forall i :: 0 <= i < |r| ==> r[i].item == keys[i]
    ensures forall i :: 0 <= i < |r| ==>
      var last := LastIndex(rows, r[i].item);
      0 <= last && r[i].saldo == rows[last].balance
  {
    if |keys| == 0 then []
    else [ConsolidateItem(rows, now, keys[0])] + ConsolidateAll(rows, now, keys[1..])
  }

  function ItemOf(c: Consolidated): string
  {
    c.item
  }

  /** Ascending balance (`sort_values('Saldo')`). */
  function LowerBalanceFirst(a: Consolidated, b: Consolidated): bool
  {
    a.saldo <= b.saldo
  }

  predicate Negative(c: Consolidated)
  {
    c.saldo < 0.0
  }

  predicate Zero(c: Consolidated)
  {
    c.saldo == 0.0
  }

  predicate Low(c: Consolidated)
  {
    0.0 < c.saldo < LowStockLimit
  }

  predicate UnderLimit(c: Consolidated)
  {
    c.saldo < LowStockLimit
  }

  /** The three lists of `analisar_niveis_estoque`: negative balances and
      low balances by ascending balance, zero balances in table order. */
  function Levels(cs: seq<Consolidated>): (r: (seq<Consolidated>, seq<Consolidated>, seq<Consolidated>))
    ensures multiset(r.0) == multiset(Filter(cs, Negative)) && Sorted(r.0, LowerBalanceFirst)
    ensures r.1 == Filter(cs, Zero)
    ensures multiset(r.2) == multiset(Filter(cs, Low)) && Sorted(r.2, LowerBalanceFirst)
  {
    assert TotalPreorder(LowerBalanceFirst);
    (SortBy(Filter(cs, Negative), LowerBalanceFirst), Filter(cs, Zero), SortBy(Filter(cs, Low), LowerBalanceFirst))
  }

  /** The three levels are disjoint and together hold exactly the items
      under the low-stock limit. */
  lemma LevelsPartition(cs: seq<Consolidated>)
    ensures var r := Levels(cs); |r.0| + |r.1| + |r.2| == Count(cs, UnderLimit)
    ensures forall c :: !(Negative(c) && Zero(c)) && !(Negative(c) && Low(c)) && !(Zero(c) && Low(c))
  {
    LevelsCount(cs);
  }

  lemma {:induction false} LevelsCount(cs: seq<Consolidated>)
    ensures Count(cs, Negative) + Count(cs, Zero) + Count(cs, Low) == Count(cs, UnderLimit)
  {
    if |cs| > 0 {
      LevelsCount(cs[1..]);
    }
  }

  /** `df_valido` and the `> days` idle filter. */
  function IdleFor(days: int): Consolidated -> bool
  {
    (c: Consolidated) => c.saldo > 0.0 && c.idleDays < 9999 && c.idleDays > days
  }

  /** Longest idle first (`sort_values('Dias_Sem_Mov', ascending=False)`). */
  function LongerIdleFirst(a: Consolidated, b: Consolidated): bool
  {
    a.idleDays >= b.idleDays
  }

  /** One tier of `analisar_movimentacao_temporal`. */
  function IdleTier(cs: seq<Consolidated>, days: int): (r: seq<Consolidated>)
    ensures multiset(r) == multiset(Filter(cs, IdleFor(days)))
    ensures Sorted(r, LongerIdleFirst)
  {
    assert TotalPreorder(LongerIdleFirst);
    SortBy(Filter(cs, IdleFor(days)), LongerIdleFirst)
  }

  /** Obsolete items are attention items, which are idle items. */
  lemma TiersNested(cs: seq<Consolidated>)
    ensures multiset(IdleTier(cs, ObsoleteDays)) <= multiset(IdleTier(cs, AttentionDays))
    ensures multiset(IdleTier(cs, AttentionDays)) <= multiset(IdleTier(cs, IdleDays))
  {
    FilterImplies(cs, IdleFor(ObsoleteDays), IdleFor(AttentionDays));
    FilterImplies(cs, IdleFor(AttentionDays), IdleFor(IdleDays));
  }

  /** Diferenca: the recorded balance less Saldo Anterior + Entrada - Saída. */
  function Difference(r: Row): real
  {
    r.balance - (r.prev + r.entry - r.exit)
  }

  /** `abs(Diferenca) > 0.01`. */
  predicate Divergent(r: Row)
  {
    Difference(r) > 0.01 || Difference(r) < -0.01
  }

  /** A row that follows the balance rule is never divergent. */
  lemma ConsistentRow(r: Row)
    requires r.balance == r.prev + r.entry - r.exit
    ensures !Divergent(r)
  {
  }

  /** Largest absolute difference first. */
  function LargerGapFirst(a: Row, b: Row): bool
  {
    Abs(Difference(a)) >= Abs(Difference(b))
  }

  function Abs(x: real): real
  {
    if x < 0.0 then -x else x
  }

  predicate Surplus(r: Row)
  {
    Difference(r) > 0.0
  }

  predicate Shortfall(r: Row)
  {
    Difference(r) < 0.0
  }

  /** `analisar_divergencias`: the divergent rows, largest gap first, and
      their split into surpluses and shortfalls. */
  function Audit(rows: seq<Row>): (r: (seq<Row>, seq<Row>, seq<Row>))
    ensures multiset(r.0) == multiset(Filter(rows, Divergent)) && Sorted(r.0, LargerGapFirst)
    ensures r.1 == Filter(r.0, Surplus) && r.2 == Filter(r.0, Shortfall)
  {
    assert TotalPreorder(LargerGapFirst);
    var d := SortBy(Filter(rows, Divergent), LargerGapFirst);
    (d, Filter(d, Surplus), Filter(d, Shortfall))
  }

  /** Every divergent row is either a surplus or a shortfall, never
      both. */
  lemma AuditSplit(rows: seq<Row>)
    ensures var r := Audit(rows); |r.1| + |r.2| == |r.0|
    ensures forall x :: !(Surplus(x) && Shortfall(x))
  {
    var d := Audit(rows).0;
    forall i | 0 <= i < |d| ensures Surplus(d[i]) <==> !Shortfall(d[i]) {
      assert d[i] in multiset(Filter(rows, Divergent));
    }
    CountSplit(d, Surplus, Shortfall);
  }

  /** The row `consolidar_estoque` keeps for each item (`idxmax` of the
      original line), in item order: the frame `main` hands to the audit
      still carries that row's Saldo Anterior, Entrada, Saída and Saldo. */
  function LatestRows(rows: seq<Row>): (l: seq<Row>)
    ensures |l| == |ItemKeys(rows)|
    ensures forall i :: 0 <= i < |l| ==>
      0 <= LastIndex(rows, ItemKeys(rows)[i]) && l[i] == rows[LastIndex(rows, ItemKeys(rows)[i])]
  {
    var keys := ItemKeys(rows);
    seq(|keys|, i requires 0 <= i < |keys| => LatestOf(rows, keys[i]))
  }

  /** The last row of an item that has one. */
  function LatestOf(rows: seq<Row>, item: string): (x: Row)
    requires exists j :: 0 <= j < |rows| && rows[j].item == item
    ensures 0 <= LastIndex(rows, item) && x == rows[LastIndex(rows, item)] && x.item == item
  {
    rows[LastIndex(rows, item)]
  }

  /** Each row `LatestRows` keeps is the last ledger row of its own item. */
  lemma LatestAreLast(rows: seq<Row>, x: Row)
    requires x in LatestRows(rows)
    ensures 0 <= LastIndex(rows, x.item) && x == rows[LastIndex(rows, x.item)]
  {
    var l := LatestRows(rows);
    var i :| 0 <= i < |l| && l[i] == x;
    assert rows[LastIndex(rows, ItemKeys(rows)[i])].item == ItemKeys(rows)[i];
  }

  /** Every item's last ledger row is among the rows `LatestRows` keeps. */
  lemma LastIsLatest(rows: seq<Row>, j: nat)
    requires j < |rows| && j == LastIndex(rows, rows[j].item)
    ensures rows[j] in LatestRows(rows)
  {
    var keys := ItemKeys(rows);
    var i :| 0 <= i < |keys| && keys[i] == rows[j].item;
    assert LatestRows(rows)[i] == rows[j];
  }

  /** The audit as `main` runs it: `analisar_divergencias(df)` receives the
      consolidated frame, so each item's last ledger row is checked and no
      earlier one. A row is flagged exactly when it is the last row of its
      item and breaks the balance rule. */
  function AuditLatest(rows: seq<Row>): (r: (seq<Row>, seq<Row>, seq<Row>))
    ensures multiset(r.0) == multiset(Filter(LatestRows(rows), Divergent)) && Sorted(r.0, LargerGapFirst)
    ensures r.1 == Filter(r.0, Surplus) && r.2 == Filter(r.0, Shortfall)
    ensures forall x :: x in r.0 ==> Divergent(x) && 0 <= LastIndex(rows, x.item) && x == rows[LastIndex(rows, x.item)]
    ensures forall j :: 0 <= j < |rows| && j == LastIndex(rows, rows[j].item) && Divergent(rows[j]) ==> rows[j] in r.0
  {
    var l := LatestRows(rows);
    var r := Audit(l);
    forall x | x in r.0
      ensures Divergent(x) && 0 <= LastIndex(rows, x.item) && x == rows[LastIndex(rows, x.item)]
    {
      assert x in multiset(Filter(l, Divergent));
      FilterMembership(l, Divergent, x);
      LatestAreLast(rows, x);
    }
    forall j | 0 <= j < |rows| && j == LastIndex(rows, rows[j].item) && Divergent(rows[j])
      ensures rows[j] in r.0
    {
      LastIsLatest(rows, j);
      FilterMembership(l, Divergent, rows[j]);
      assert rows[j] in multiset(r.0);
    }
    r
  }

  /** A ledger whose first line breaks the balance rule and whose later
      line for the same item is consistent: the full audit flags the first
      line, the audit `main` runs flags nothing. */
  lemma EarlierRowUnaudited()
    ensures var rows := [Row("A", "", "", None, 0.0, 0.0, 0.0, 5.0), Row("A", "", "", None, 5.0, 0.0, 1.0, 4.0)];
      |Audit(rows).0| == 1 && |AuditLatest(rows).0| == 0
  {
    var rows := [Row("A", "", "", None, 0.0, 0.0, 0.0, 5.0), Row("A", "", "", None, 5.0, 0.0, 1.0, 4.0)];
    assert Divergent(rows[0]) && !Divergent(rows[1]);
    assert rows[1..][1..] == [];
    assert Filter(rows, Divergent) == [rows[0]];
    var l := LatestRows(rows);
    assert LastIndex(rows, "A") == 1;
    assert forall k :: 0 <= k < |ItemKeys(rows)| ==> ItemKeys(rows)[k] == "A";
    assert forall x :: x in l ==> x == rows[1];
    FilterNone(l, Divergent);
  }

  function UsageOf(c: Consolidated): Abc.Usage
  {
    Abc.Usage(c.item, c.consumo3m)
  }

  /** `analisar_curva_abc` on Consumo_3M. */
  function CurveAbc(cs: seq<Consolidated>): (r: seq<Abc.Ranked>)
    ensures forall i :: 0 <= i < |r| ==> r[i].consumo > 0.0
    ensures forall i, j :: 0 <= i < j < |r| ==> r[i].consumo >= r[j].consumo
    ensures |r| > 0 ==> r[|r| - 1].curve == Abc.C
    ensures multiset(MapSeq(r, Abc.UsageOf)) == multiset(Filter(MapSeq(cs, UsageOf), Abc.Consumes))
    ensures Abc.ClassedByShare(r)
  {
    var r := Abc.Curve(MapSeq(cs, UsageOf));
    Abc.CurveEndsInC(MapSeq(cs, UsageOf));
    forall i | 0 <= i < |r| ensures r[i].consumo > 0.0 {
      var u := MapSeq(r, Abc.UsageOf);
      assert u[i] in multiset(Filter(MapSeq(cs, UsageOf), Abc.Consumes));
    }
    r
  }
}

=== FILE: grouping.dfy ===
/** pandas `groupby(key)[col].sum()` over a sequence of rows: the distinct
    keys in order of first appearance (rows whose key is missing, like
    `NaT`, belong to no group) and one sum per key. */
module Grouping {
  import opened Wrappers
  import opened Seqs
  import opened Stats

  /** The keys of the rows that have one, in row order, repeats included. */
  function KeysOf<T, K>(rows: seq<T>, key: T -> Option<K>): (r: seq<K>)
    ensures forall i :: 0 <= i < |r| ==> exists j :: 0 <= j < |rows| && key(rows[j]) == Some(r[i])
    ensures forall j :: 0 <= j < |rows| && key(rows[j]).Some? ==> key(rows[j]).value in r
  {
    if |rows| == 0 then []
    else
      var rest := KeysOf(rows[1..], key);
      assert forall i :: 0 <= i < |rest| ==> exists j :: 0 <= j < |rows| && key(rows[j]) == Some(rest[i]) by {
        forall i | 0 <= i < |rest|
          ensures exists j :: 0 <= j < |rows| && key(rows[j]) == Some(rest[i])
        {
          var j :| 0 <= j < |rows[1..]| && key(rows[1..][j]) == Some(rest[i]);
          assert key(rows[j + 1]) == Some(rest[i]);
        }
      }
      match key(rows[0])
      case Some(k) => [k] + rest
      case None => rest
  }

  /** The group keys: each key once, in order of first appearance. */
  function GroupKeys<T, K(==)>(rows: seq<T>, key: T -> Option<K>): (r: seq<K>)
    ensures NoDuplicates(r)
    ensures forall j :: 0 <= j < |rows| && key(rows[j]).Some? ==> key(rows[j]).value in r
  {
    Distinct(KeysOf(rows, key))
  }

  /** The mask "row in group `k`". */
  function InGroup<T, K(==)>(key: T -> Option<K>, k: K): T -> bool
  {
    x => key(x) == Some(k)
  }

  /** A group with a row is one of the keys. */
  lemma GroupKeyPresent<T, K>(rows: seq<T>, key: T -> Option<K>, k: K)
    requires GroupSize(rows, key, k) > 0
    ensures k in GroupKeys(rows, key)
  {
    var f := Filter(rows, InGroup(key, k));
    assert InGroup(key, k)(f[0]);
    FilterMembership(rows, InGroup(key, k), f[0]);
    var j :| 0 <= j < |rows| && rows[j] == f[0];
  }

  /** Every key is the key of some row. */
  lemma GroupKeyFrom<T, K>(rows: seq<T>, key: T -> Option<K>, k: K)
    requires k in GroupKeys(rows, key)
    ensures exists j :: 0 <= j < |rows| && key(rows[j]) == Some(k)
  {
    var ks := KeysOf(rows, key);
    var i :| 0 <= i < |ks| && ks[i] == k;
  }

  /** The mask "row has a key". */
  function Keyed<T, K>(key: T -> Option<K>): T -> bool
  {
    x => key(x).Some?
  }

  /** `f` summed over the rows of group `k`. */
  function GroupSum<T, K(==)>(rows: seq<T>, key: T -> Option<K>, k: K, f: T -> real): real
  {
    Sum(Filter(rows, InGroup(key, k)), f)
  }

  /** One sum per key of `keys`, in that order. */
  function GroupSums<T, K(==)>(keys: seq<K>, rows: seq<T>, key: T -> Option<K>, f: T -> real): (r: seq<real>)
    ensures |r| == |keys|
    ensures forall i :: 0 <= i < |keys| ==> r[i] == GroupSum(rows, key, keys[i], f)
  {
    if |keys| == 0 then []
    else [GroupSum(rows, key, keys[0], f)] + GroupSums(keys[1..], rows, key, f)
  }

  /** The size of group `k` (`groupby(key).size()`). */
  function GroupSize<T, K(==)>(rows: seq<T>, key: T -> Option<K>, k: K): nat
  {
    Count(rows, InGroup(key, k))
  }

  /** Adding one row in front adds its value to its own group's sum and to
      no other. */
  lemma {:induction false} GroupSumsCons<T, K>(keys: seq<K>, x: T, rows: seq<T>, key: T -> Option<K>, f: T -> real)
    requires NoDuplicates(keys)
    ensures Total(GroupSums(keys, [x] + rows, key, f))
         == Total(GroupSums(keys, rows, key, f))
          + (if key(x).Some? && key(x).value in keys then f(x) else 0.0)
  {
    if |keys| > 0 {
      assert ([x] + rows)[1..] == rows;
      var ks := keys[1..];
      assert NoDuplicates(ks) by {
        forall i, j | 0 <= i < j < |ks| ensures ks[i] != ks[j] {
          assert ks[i] == keys[i + 1] && ks[j] == keys[j + 1];
        }
      }
      GroupSumsCons(ks, x, rows, key, f);
      assert GroupSums(keys, [x] + rows, key, f)[1..] == GroupSums(ks, [x] + rows, key, f);
      assert GroupSums(keys, rows, key, f)[1..] == GroupSums(ks, rows, key, f);
      if key(x) == Some(keys[0]) {
        assert keys[0] !in ks by {
          forall i | 0 <= i < |ks| ensures ks[i] != keys[0] {
            assert ks[i] == keys[i + 1];
          }
        }
      }
      assert key(x).Some? && key(x).value in keys <==>
        key(x) == Some(keys[0]) || (key(x).Some? && key(x).value in ks);
    }
  }

  /** Summing each group's sum over keys that cover every keyed row is
      summing over the keyed rows. */
  lemma {:induction false} GroupSumsCover<T, K>(keys: seq<K>, rows: seq<T>, key: T -> Option<K>, f: T -> real)
    requires NoDuplicates(keys)
    requires forall j :: 0 <= j < |rows| && key(rows[j]).Some? ==> key(rows[j]).value in keys
    ensures Total(GroupSums(keys, rows, key, f)) == Sum(Filter(rows, Keyed(key)), f)
  {
    if |rows| == 0 {
      ZeroSums(keys, rows, key, f);
    } else {
      GroupSumsCover(keys, rows[1..], key, f);
      assert [rows[0]] + rows[1..] == rows;
      GroupSumsCons(keys, rows[0], rows[1..], key, f);
    }
  }

  lemma {:induction false} ZeroSums<T, K>(keys: seq<K>, rows: seq<T>, key: T -> Option<K>, f: T -> real)
    requires |rows| == 0
    ensures Total(GroupSums(keys, rows, key, f)) == 0.0
  {
    if |keys| > 0 {
      ZeroSums(keys[1..], rows, key, f);
      assert GroupSums(keys, rows, key, f)[1..] == GroupSums(keys[1..], rows, key, f);
    }
  }

  /** `groupby(key)[f].sum()` loses nothing: its sums add up to the sum over
      every row that has a key. */
  lemma GroupByTotal<T, K>(rows: seq<T>, key: T -> Option<K>, f: T -> real)
    ensures Total(GroupSums(GroupKeys(rows, key), rows, key, f)) == Sum(Filter(rows, Keyed(key)), f)
  {
    GroupSumsCover(GroupKeys(rows, key), rows, key, f);
  }

  /** Groups of rows with non-negative values have non-negative sums. */
  lemma GroupSumNonNegative<T, K>(rows: seq<T>, key: T -> Option<K>, k: K, f: T -> real)
    requires forall j :: 0 <= j < |rows| ==> f(rows[j]) >= 0.0
    ensures GroupSum(rows, key, k, f) >= 0.0
  {
    var g := Filter(rows, InGroup(key, k));
    FilterSubMultiset(rows, InGroup(key, k));
    forall i | 0 <= i < |g| ensures f(g[i]) >= 0.0 {
      assert g[i] in multiset(rows);
    }
    SumNonNegative(g, f);
  }
}

=== FILE: item_report.dfy ===
/** `analisar_item_estrategico` of analise_inteligente.py: the figures of
    one item's technical report, computed before the prompt is built. */
module ItemReport {
  import opened Wrappers
  import opened Seqs
  import opened Text
  import opened Stats
  import opened Ledger

  /** Saldo Atual, mean exit, number of exits and unit of measure. */
  datatype Report = Report(saldo: real, meanExit: real, exits: nat, unit: string)

  const DefaultUnit: string := "UN"

  /** A row of the item with a positive exit (`historico[historico['Saída'] > 0]`). */
  function PositiveExitOf(item: string): Row -> bool
  {
    (r: Row) => SameItem(item)(r) && PositiveExit(r)
  }

  function PositiveExit(r: Row): bool
  {
    r.exit > 0.0
  }

  /** The unit shown: the last row's Unidade, or `UN` when the sheet has no
      such column or the cell is blank. */
  function UnitOf(last: Row, hasUnitColumn: bool): (u: string)
    ensures !hasUnitColumn || Strip(last.unit) == "" ==> u == DefaultUnit
    ensures hasUnitColumn && Strip(last.unit) != "" ==> u == last.unit
  {
    if !hasUnitColumn || last.unit == "" || Strip(last.unit) == "" then DefaultUnit else last.unit
  }

  /** `j` is the position of the last row of `name`. */
  predicate LastRowOf(rows: seq<Row>, name: string, j: int)
  {
    0 <= j < |rows| && SameItem(name)(rows[j]) &&
    forall k :: j < k < |rows| ==> !SameItem(name)(rows[k])
  }

  /** The report of `name`, matched case-insensitively; `None` when the
      ledger has no row of it ("não encontrado"); otherwise the figures of
      `Summarise` taken at the item's last row. */
  function Analyse(rows: seq<Row>, name: string, hasUnitColumn: bool): (r: Option<Report>)
    ensures r.None? <==> forall j :: 0 <= j < |rows| ==> Upper(rows[j].item) != Upper(name)
    ensures r.Some? ==> exists j :: LastRowOf(rows, name, j) && r.value == Summarise(rows, name, j, hasUnitColumn)
  {
    FilterEmpty(rows, SameItem(name));
    var p := FindLast(rows, SameItem(name));
    if p.None? then None
    else
      assert LastRowOf(rows, name, p.value);
      Some(Summarise(rows, name, p.value, hasUnitColumn))
  }

  /** The report figures, given the position of the item's last row: its
      balance and unit, the number of the item's positive exits and their
      mean (0 when there are none). */
  function Summarise(rows: seq<Row>, name: string, last: int, hasUnitColumn: bool): (rep: Report)
    requires 0 <= last < |rows|
    ensures rep.saldo == rows[last].balance && rep.unit == UnitOf(rows[last], hasUnitColumn)
    ensures rep.exits == Count(rows, PositiveExitOf(name))
    ensures rep.meanExit * rep.exits as real == Sum(Filter(rows, PositiveExitOf(name)), Exit)
    ensures rep.exits > 0 ==> rep.meanExit > 0.0
    ensures rep.exits == 0 ==> rep.meanExit == 0.0
  {
    var saidas := Filter(rows, PositiveExitOf(name));
    Report(rows[last].balance, MeanExit(saidas), |saidas|, UnitOf(rows[last], hasUnitColumn))
  }

  /** `saidas.mean() if not saidas.empty else 0`: positive exits have a
      positive mean. */
  function MeanExit(saidas: seq<Row>): (m: real)
    requires forall i :: 0 <= i < |saidas| ==> PositiveExit(saidas[i])
    ensures m * |saidas| as real == Sum(saidas, Exit)
    ensures |saidas| > 0 ==> m > 0.0
    ensures |saidas| == 0 ==> m == 0.0
  {
    if |saidas| == 0 then 0.0
    else
      PositiveSum(saidas);
      Sum(saidas, Exit) / |saidas| as real
  }

  lemma {:induction false} PositiveSum(s: seq<Row>)
    requires |s| > 0 && forall i :: 0 <= i < |s| ==> PositiveExit(s[i])
    ensures Sum(s, Exit) > 0.0
  {
    if |s| > 1 {
      PositiveSum(s[1..]);
    } else {
      assert Sum(s[1..], Exit) == 0.0;
    }
  }
}

=== FILE: launch.dfy ===
/** `realizar_lancamento` of lancar_estoque.py: one entry or exit typed at
    the console becomes a new ledger row, the item's index row is updated,
    and a low balance asks for an analysis. Console input, the sheet calls
    and the clock are parameters. */
module Launch {
  import opened Wrappers
  import opened Seqs
  import opened Text
  import opened Calendar
  import opened LocaleNumbers
  import opened Ledger
  import opened Sheets
  import opened Decimal
  import Gestor
  import Consultation

  /** The item as typed: `input().strip().upper()`. */
  function ItemKey(typed: string): string
  {
    Upper(Strip(typed))
  }

  /** `row[0].upper() == item_nome`. */
  function Listed(item: string): IndexLine -> bool
  {
    (e: IndexLine) => Upper(e.item) == item
  }

  /** The quantities of a movement. */
  datatype Movement = Movement(entry: real, exit: real)

  /** `entrada`/`saida`: the quantity goes in for type `E`, out for type
      `S`; any other type moves nothing. */
  function MovementOf(tipo: string, qty: real): (m: Movement)
    ensures m.entry - m.exit == (if tipo == "E" then qty else if tipo == "S" then -qty else 0.0)
    ensures m.entry == 0.0 || m.exit == 0.0
    ensures tipo != "E" && tipo != "S" ==> m == Movement(0.0, 0.0)
  {
    Movement(if tipo == "E" then qty else 0.0, if tipo == "S" then qty else 0.0)
  }

  /** `ponto_critico`. */
  const CriticalPoint: real := 10.0

  /** `p` is the first index row naming `item`: the row `df_indice[0]`. */
  predicate FirstListed(index: seq<IndexLine>, item: string, p: int)
  {
    0 <= p < |index| && Upper(index[p].item) == item
    && forall i :: 0 <= i < p ==> Upper(index[i].item) != item
  }

  /** The search finds the first index row naming the item. */
  lemma FirstListedFound(index: seq<IndexLine>, item: string)
    ensures forall p :: FirstListed(index, item, p) ==> FindFirst(index, Listed(item)) == Some(p)
  {
    forall p | FirstListed(index, item, p)
      ensures FindFirst(index, Listed(item)) == Some(p)
    {
      FindFirstAt(index, Listed(item), p);
    }
  }

  /** The outcome of a launch: the index position found, the Linha ESTOQUE
      read from it (`linha_antiga`), the ledger row appended and whether
      the low-stock analysis is requested. */
  datatype Launched = Launched(position: nat, previousLine: int, row: Row, lowStock: bool)

  /** The launch of `qty` of type `tipo` (already stripped and upper-cased)
      for the typed item on `today`. `None` when nothing is written: no
      index row names the item ("não encontrado"), or `int()` refuses the
      Linha ESTOQUE of the first row that does, and the `ValueError` ends
      the run in the outer `except`. The previous balance is the index
      row's Saldo Atual read with the file's parser. */
  function Launch(index: seq<IndexLine>, typed: string, tipo: string, qty: real, today: Date): (r: Option<Launched>)
    ensures (forall i :: 0 <= i < |index| ==> Upper(index[i].item) != ItemKey(typed)) ==> r.None?
    ensures forall p :: FirstListed(index, ItemKey(typed), p) ==> (r.None? <==> PyInt(index[p].line).None?)
    ensures r.Some? ==> r.value.position < |index| && Upper(index[r.value.position].item) == ItemKey(typed)
    ensures r.Some? ==> forall i :: 0 <= i < r.value.position ==> Upper(index[i].item) != ItemKey(typed)
    ensures r.Some? ==> PyInt(index[r.value.position].line) == Some(r.value.previousLine)
    ensures r.Some? ==> r.value.row.item == ItemKey(typed) && r.value.row.date == Some(today)
    ensures r.Some? ==> r.value.row.group == index[r.value.position].group
    ensures r.Some? ==> r.value.row.prev == ParseDotless(Textual(index[r.value.position].saldo))
    ensures r.Some? ==> r.value.row.balance == r.value.row.prev + r.value.row.entry - r.value.row.exit
    ensures r.Some? ==> (r.value.lowStock <==> r.value.row.balance <= CriticalPoint)
  {
    FirstListedFound(index, ItemKey(typed));
    match FindFirst(index, Listed(ItemKey(typed)))
    case None => None
    case Some(p) =>
      var e := index[p];
      match PyInt(e.line)
      case None => None
      case Some(n) =>
        var prev := ParseDotless(Textual(e.saldo));
        var m := MovementOf(tipo, qty);
        var balance := prev + m.entry - m.exit;
        Some(Launched(p, n, Row(ItemKey(typed), e.group, "", Some(today), prev, m.entry, m.exit, balance),
          balance <= CriticalPoint))
  }

  /** A matched index row whose Linha ESTOQUE is blank stops the launch
      before anything is written. */
  lemma BlankLineAborts(today: Date)
    ensures Launch([IndexLine("ABC", "5", "", "G", "", "")], "abc", "S", 2.0, today).None?
  {
    assert ItemKey("abc") == "ABC";
    assert Upper("ABC") == "ABC";
    assert PyInt("").None?;
  }

  /** A launched row never shows up in the ledger audit. */
  lemma LaunchedRowConsistent(index: seq<IndexLine>, typed: string, tipo: string, qty: real, today: Date)
    ensures var r := Launch(index, typed, tipo, qty, today);
      r.Some? ==> !Gestor.Divergent(r.value.row)
  {
    var r := Launch(index, typed, tipo, qty, today);
    if r.Some? {
      Gestor.ConsistentRow(r.value.row);
    }
  }

  /** The index update: Saldo Atual and Última Data of the found row become
      the new balance text and the launch time, and Linha ESTOQUE the new
      ledger line, written as a number; every other row and cell stays. */
  function UpdateIndex(index: seq<IndexLine>, position: nat, saldo: string, when: string, line: nat): (r: seq<IndexLine>)
    requires position < |index|
    ensures |r| == |index|
    ensures forall i :: 0 <= i < |index| && i != position ==> r[i] == index[i]
    ensures r[position].item == index[position].item && r[position].group == index[position].group
    ensures r[position].updated == index[position].updated
    ensures r[position].saldo == saldo && r[position].date == when && PyInt(r[position].line) == Some(line)
  {
    PyIntShowNat(line);
    index[position := index[position].(saldo := saldo, date := when, line := ShowNat(line))]
  }

  /** After a launch that appends a row to the ledger and points the index
      at it, the consultation finds the item in sync: both sheets hold the
      same balance text. */
  lemma LaunchInSync(index: seq<IndexLine>, ledger: seq<LedgerLine>, position: nat, group: string, item: string, saldo: string, when: string)
    requires position < |index|
    ensures var ledger' := ledger + [LedgerLine(group, item, when, saldo)];
      var index' := UpdateIndex(index, position, saldo, when, SheetLine(|ledger|));
      var n := PyInt(index'[position].line);
      n == Some(SheetLine(|ledger|)) && Consultation.CheckAt(ledger', index'[position], n.value).synced
  {
    var ledger' := ledger + [LedgerLine(group, item, when, saldo)];
    var index' := UpdateIndex(index, position, saldo, when, SheetLine(|ledger|));
    Consultation.SameTextInSync(ledger', index'[position], SheetLine(|ledger|));
  }
}

=== FILE: ledger.dfy ===
/** The two sheets every script reads: the ESTOQUE ledger (one row per
    movement, appended in time order) and the ÍNDICE_ITENS index (one row
    per item with its current balance), after their cells went through a
    `converter_para_numero` and their dates through `strptime`. The window
    sums and the coverage rule the scripts share are defined here once. */
module Ledger {
  import opened Wrappers
  import opened Seqs
  import opened Calendar
  import opened Text
  import opened LocaleNumbers

  /** A ledger row: Item, Grupo, Unidade, Data (`None` when the cell does
      not parse, pandas' `NaT`), Saldo Anterior, Entrada, Saída, Saldo. */
  datatype Row = Row(
    item: string,
    group: string,
    unit: string,
    date: Option<Date>,
    prev: real,
    entry: real,
    exit: real,
    balance: real)

  /** An index row as read: Item and the raw Saldo Atual cell. */
  datatype IndexEntry = IndexEntry(item: string, saldo: Cell)

  /** `df['Item'].str.upper() == item.upper()`: the case-insensitive item
      match of the per-item analyses. */
  function SameItem(item: string): Row -> bool
  {
    (r: Row) => Upper(r.item) == Upper(item)
  }

  /** The group key `df['Data'].dt.date`; undated rows have none. */
  function DateKey(r: Row): Option<Date>
  {
    r.date
  }

  /** `df[df['Data'] >= now - timedelta(days)]` for one row: an undated row
      compares false. */
  predicate DatedWithin(r: Row, now: Instant, days: int)
  {
    r.date.Some? && OnOrAfterDaysAgo(r.date.value, now, days)
  }

  /** The mask "row of `item` inside the `days` window". */
  function InWindow(item: string, now: Instant, days: int): Row -> bool
  {
    (r: Row) => r.item == item && DatedWithin(r, now, days)
  }

  /** The mask "row of `item`" (`df[df['Item'] == item]`). */
  function OfItem(item: string): Row -> bool
  {
    (r: Row) => r.item == item
  }

  function Exit(r: Row): real
  {
    r.exit
  }

  function Entry(r: Row): real
  {
    r.entry
  }

  /** `df[df['Data'] >= now - timedelta(days)].groupby('Item')['Saída'].sum()`
      looked up with `.map(...).fillna(0)`: the exits of `item` inside the
      window, 0 for an item without such rows. */
  function WindowExits(rows: seq<Row>, item: string, now: Instant, days: int): real
  {
    Sum(Filter(rows, InWindow(item, now, days)), Exit)
  }

  /** The coverage every script computes: `saldo / media` when the mean
      is positive, otherwise the sentinel 999. */
  function Coverage(saldo: real, media: real): (r: real)
    ensures media > 0.0 ==> r * media == saldo
    ensures media <= 0.0 ==> r == 999.0
  {
    if media > 0.0 then saldo / media else 999.0
  }

  /** Ledger rows whose exits are non-negative. */
  predicate ExitsNonNegative(rows: seq<Row>)
  {
    forall i :: 0 <= i < |rows| ==> rows[i].exit >= 0.0
  }

  /** An item with no row in the window consumed nothing in it. */
  lemma WindowExitsAbsent(rows: seq<Row>, item: string, now: Instant, days: int)
    requires forall i :: 0 <= i < |rows| ==> !InWindow(item, now, days)(rows[i])
    ensures WindowExits(rows, item, now, days) == 0.0
  {
    FilterNone(rows, InWindow(item, now, days));
  }

  /** With non-negative exits, a window's consumption is non-negative. */
  lemma WindowExitsNonNegative(rows: seq<Row>, item: string, now: Instant, days: int)
    requires ExitsNonNegative(rows)
    ensures WindowExits(rows, item, now, days) >= 0.0
  {
    var f := Filter(rows, InWindow(item, now, days));
    FilterSubMultiset(rows, InWindow(item, now, days));
    forall i | 0 <= i < |f| ensures f[i].exit >= 0.0 {
      assert f[i] in multiset(rows);
    }
    SumNonNegative(f, Exit);
  }

  /** With non-negative exits, a wider window never reports less
      consumption (so Consumo_30d <= Consumo_60d <= Consumo_90d). */
  lemma WindowExitsMonotone(rows: seq<Row>, item: string, now: Instant, n: int, m: int)
    requires n <= m && ExitsNonNegative(rows)
    ensures WindowExits(rows, item, now, n) <= WindowExits(rows, item, now, m)
  {
    var p, q := InWindow(item, now, n), InWindow(item, now, m);
    SumFilter(rows, p, Exit);
    SumFilter(rows, q, Exit);
    forall i | 0 <= i < |rows|
      ensures Masked(p, Exit)(rows[i]) <= Masked(q, Exit)(rows[i])
    {
      if p(rows[i]) {
        WindowsNested(rows[i].date.value, now, n, m);
      }
    }
    SumMonotone(rows, Masked(p, Exit), Masked(q, Exit));
  }

  /** Coverage is monotone in the balance for a fixed positive mean. */
  lemma CoverageMonotone(a: real, b: real, media: real)
    requires a <= b && media > 0.0
    ensures Coverage(a, media) <= Coverage(b, media)
  {
  }
}

=== FILE: locale_numbers.dfy ===
/** The scripts' `converter_para_numero` variants, which read Brazilian
    formatted numbers ("1.200,50") from sheet cells, and the writers that
    turn numbers back into sheet text. */
module LocaleNumbers {
  import opened Wrappers
  import opened Text
  import opened Decimal
  import opened Rounding

  /** A cell value as the parsers receive it: `None`, an `int`/`float`, or
      a string. */
  datatype Cell = Blank | Number(value: real) | Textual(text: string)

  /** The conditional rewrite of config.py, consulta_estoque.py and
      app_final.py: dots are thousands separators only when a comma is also
      present. */
  function NormaliseConditional(s: string): (t: string)
    ensures ',' !in t
    ensures ',' !in s ==> t == s
  {
    if ',' in s && '.' in s then ReplaceChar(RemoveChar(s, '.'), ',', '.')
    else if ',' in s then ReplaceChar(s, ',', '.')
    else s
  }

  /** The unconditional rewrite of app_marfim.py, analise_inteligente.py,
      lancar_estoque.py and painel_critico.py: every dot is a thousands
      separator. */
  function NormaliseDotless(s: string): (t: string)
    ensures ',' !in t
    ensures |t| <= |s|
  {
    ReplaceChar(RemoveChar(s, '.'), ',', '.')
  }

  /** `converter_para_numero` of config.py, consulta_estoque.py and
      app_final.py (the last checks blankness after `strip()` and has no
      number branch, but `float(str(v))` is `v` and a stripped-empty string
      fails `float`, so the three agree on every cell). */
  function ParseConditional(c: Cell): real
  {
    match c
    case Blank => 0.0
    case Number(v) => v
    case Textual(s) => if s == "" then 0.0 else FloatOrZero(NormaliseConditional(Strip(s)))
  }

  /** `converter_para_numero` of app_marfim.py and analise_inteligente.py,
      and of lancar_estoque.py on the strings it is given; also the balance
      column conversion of painel_critico.py. */
  function ParseDotless(c: Cell): real
  {
    match c
    case Blank => 0.0
    case Number(v) => v
    case Textual(s) => if s == "" then 0.0 else FloatOrZero(NormaliseDotless(Strip(s)))
  }

  lemma {:induction false} ReplaceAbsent(s: string, a: char, b: char)
    requires a !in s
    ensures ReplaceChar(s, a, b) == s
  {
  }

  /** Both rewrites agree whenever the text has a comma or has no dot. */
  lemma ParsersAgree(s: string)
    requires ',' in Strip(s) || '.' !in Strip(s)
    ensures ParseConditional(Textual(s)) == ParseDotless(Textual(s))
  {
    var t := Strip(s);
    if '.' !in t {
      RemoveAbsent(t, '.');
      if ',' !in t {
        ReplaceAbsent(t, ',', '.');
      }
    }
  }

  /** `ds.fs` is already trimmed and has no comma. */
  lemma DottedShape(ds: string, fs: string)
    requires |ds| > 0 && AllDigits(ds) && AllDigits(fs)
    ensures Strip(ds + "." + fs) == ds + "." + fs
    ensures ',' !in ds + "." + fs
  {
    var s := ds + "." + fs;
    assert s[0] == ds[0] && IsDigit(ds[0]);
    if |fs| > 0 {
      assert s[|s| - 1] == fs[|fs| - 1] && IsDigit(fs[|fs| - 1]);
    }
    StripTrimmed(s);
    NoSeparators(ds);
    NoSeparators(fs);
    assert s == ds + ("." + fs);
  }

  /** With no comma, the conditional parser reads a dot as the decimal
      point: "2.6" is 2.6. */
  lemma DotAsDecimalPoint(ds: string, fs: string)
    requires |ds| > 0 && AllDigits(ds) && AllDigits(fs)
    ensures ParseConditional(Textual(ds + "." + fs))
         == DigitsValue(ds) as real + Unscaled(DigitsValue(fs) as real, |fs|)
  {
    DottedShape(ds, fs);
    ParseFixed(ds, fs);
    var s := ds + "." + fs;
    assert NormaliseConditional(Strip(s)) == s;
    StripTrimmed(s);
  }

  /** The dotless parser reads every dot as a thousands separator: "2.6"
      is 26.0. */
  lemma DotAsThousands(ds: string, fs: string)
    requires |ds| > 0 && AllDigits(ds) && AllDigits(fs)
    ensures ParseDotless(Textual(ds + "." + fs)) == DigitsValue(ds + fs) as real
  {
    DottedShape(ds, fs);
    RemoveDot(ds, fs);
    NoSeparators(ds + fs);
    ReplaceAbsent(ds + fs, ',', '.');
    assert NormaliseDotless(ds + "." + fs) == ds + fs;
    FloatOfDigits(ds + fs);
  }

  lemma RemoveDot(ds: string, fs: string)
    requires AllDigits(ds) && AllDigits(fs)
    ensures RemoveChar(ds + "." + fs, '.') == ds + fs
  {
    NoSeparators(ds);
    NoSeparators(fs);
    RemoveAppend(ds + ".", fs, '.');
    RemoveAppend(ds, ".", '.');
    RemoveAbsent(ds, '.');
    RemoveAbsent(fs, '.');
    assert RemoveChar(".", '.') == "";
  }

  /** `float` of a non-empty digit string is its value. */
  lemma FloatOfDigits(ds: string)
    requires |ds| > 0 && AllDigits(ds)
    ensures FloatOrZero(ds) == DigitsValue(ds) as real
  {
    assert IsDigit(ds[0]) && IsDigit(ds[|ds| - 1]);
    StripTrimmed(ds);
    ParseWhole(ds);
  }

  /** Digit strings carry no separator of either kind. */
  lemma NoSeparators(ds: string)
    requires AllDigits(ds)
    ensures ',' !in ds && '.' !in ds
  {
    forall k | 0 <= k < |ds|
      ensures ds[k] != ',' && ds[k] != '.'
    {
      assert IsDigit(ds[k]);
    }
  }

  /** The minus sign Python prints before a negative value. */
  function Sign(neg: bool): string
  {
    if neg then "-" else ""
  }

  /** The text `[-]ds.fs`. */
  function Fixed(neg: bool, ds: string, fs: string): string
  {
    Sign(neg) + (ds + "." + fs)
  }

  /** The number `[-]ds.fs` denotes. */
  function FixedValue(neg: bool, ds: string, fs: string): real
    requires AllDigits(ds) && AllDigits(fs)
  {
    var x := DigitsValue(ds) as real + Unscaled(DigitsValue(fs) as real, |fs|);
    if neg then -x else x
  }

  /** `float` of a rendered `[-]ds.fs` is the number it renders. */
  lemma ParseSignedFixed(neg: bool, ds: string, fs: string)
    requires |ds| > 0 && AllDigits(ds) && AllDigits(fs)
    ensures FloatOrZero(Fixed(neg, ds, fs)) == FixedValue(neg, ds, fs)
  {
    var u := ds + "." + fs;
    ParseFixed(ds, fs);
    DottedShape(ds, fs);
    if neg {
      ParseNegated(u);
    } else {
      assert Fixed(neg, ds, fs) == u;
      assert u[0] == ds[0] && IsDigit(ds[0]);
      ParsePlain(u);
    }
  }

  /** Without a sign, `float` is the unsigned literal's value. */
  lemma ParsePlain(u: string)
    requires Strip(u) == u && ParseUnsigned(u).Some? && u[0] != '-' && u[0] != '+'
    ensures FloatOrZero(u) == ParseUnsigned(u).value
  {
  }

  /** A leading minus negates what the rest parses to. */
  lemma ParseNegated(u: string)
    requires Strip(u) == u && ParseUnsigned(u).Some?
    ensures FloatOrZero("-" + u) == -ParseUnsigned(u).value
  {
    var t := "-" + u;
    assert t[|t| - 1] == u[|u| - 1];
    StripTrimmed(t);
    assert t[1..] == u;
  }

  /** `str(x).replace('.', ',')`: how lancar_estoque.py writes a number
      back to the sheet. */
  function WriteBack(s: string): (w: string)
    ensures |w| == |s| && '.' !in w
  {
    ReplaceChar(s, '.', ',')
  }

  /** `[-]ds,fs`: the Brazilian spelling of `[-]ds.fs`. */
  function FixedComma(neg: bool, ds: string, fs: string): string
  {
    Sign(neg) + (ds + "," + fs)
  }

  /** Swapping one separator character for another in `[-]ds?fs`. */
  lemma ReplaceSeparator(neg: bool, ds: string, fs: string, a: char, b: char)
    requires AllDigits(ds) && AllDigits(fs) && !IsDigit(a) && a != '-'
    ensures ReplaceChar(Sign(neg) + (ds + [a] + fs), a, b) == Sign(neg) + (ds + [b] + fs)
  {
    assert a !in ds by {
      forall k | 0 <= k < |ds| ensures ds[k] != a { assert IsDigit(ds[k]); }
    }
    assert a !in fs by {
      forall k | 0 <= k < |fs| ensures fs[k] != a { assert IsDigit(fs[k]); }
    }
    ReplaceAbsent(ds, a, b);
    ReplaceAbsent(fs, a, b);
    ReplaceAbsent(Sign(neg), a, b);
    ReplaceAppend(Sign(neg), ds + [a] + fs, a, b);
    ReplaceAppend(ds + [a], fs, a, b);
    ReplaceAppend(ds, [a], a, b);
  }

  /** `[-]ds,fs` is trimmed and has no dot. */
  lemma CommaShape(neg: bool, ds: string, fs: string)
    requires |ds| > 0 && AllDigits(ds) && AllDigits(fs)
    ensures Strip(FixedComma(neg, ds, fs)) == FixedComma(neg, ds, fs)
    ensures '.' !in FixedComma(neg, ds, fs)
  {
    var w := FixedComma(neg, ds, fs);
    assert w[0] == (if neg then '-' else ds[0]);
    assert IsDigit(ds[0]);
    if |fs| > 0 {
      assert w[|w| - 1] == fs[|fs| - 1] && IsDigit(fs[|fs| - 1]);
    }
    StripTrimmed(w);
    NoSeparators(ds);
    NoSeparators(fs);
  }

  /** Re-reading with lancar_estoque.py's own parser a number it wrote as
      `[-]ds.fs` gives back the number. */
  lemma WriteBackRoundTrip(neg: bool, ds: string, fs: string)
    requires |ds| > 0 && AllDigits(ds) && AllDigits(fs)
    ensures ParseDotless(Textual(WriteBack(Fixed(neg, ds, fs)))) == FixedValue(neg, ds, fs)
  {
    var w := WriteBack(Fixed(neg, ds, fs));
    ReplaceSeparator(neg, ds, fs, '.', ',');
    assert w == FixedComma(neg, ds, fs);
    CommaShape(neg, ds, fs);
    RemoveAbsent(w, '.');
    ReplaceSeparator(neg, ds, fs, ',', '.');
    assert NormaliseDotless(Strip(w)) == Fixed(neg, ds, fs);
    ParseSignedFixed(neg, ds, fs);
  }

  /** The conditional parser of consulta_estoque.py reads a number written
      by lancar_estoque.py the same way lancar_estoque.py does: a comma
      alone is the decimal point. */
  lemma WriteBackReadConditional(neg: bool, ds: string, fs: string)
    requires |ds| > 0 && AllDigits(ds) && AllDigits(fs)
    ensures ParseConditional(Textual(WriteBack(Fixed(neg, ds, fs)))) == FixedValue(neg, ds, fs)
  {
    var w := WriteBack(Fixed(neg, ds, fs));
    ReplaceSeparator(neg, ds, fs, '.', ',');
    assert w == FixedComma(neg, ds, fs);
    CommaShape(neg, ds, fs);
    assert w[|Sign(neg)| + |ds|] == ',';
    ReplaceSeparator(neg, ds, fs, ',', '.');
    assert NormaliseConditional(Strip(w)) == Fixed(neg, ds, fs);
    ParseSignedFixed(neg, ds, fs);
  }
}

=== FILE: names.dfy ===
/** The item-name checks of gestor.py: the comparison key of a name, the
    exact duplicates of the index (names equal once normalised) and the
    names with stray spaces. Lines are numbered as the spreadsheet shows
    them: the header is line 1, the first item line 2. */
module IndexNames {
  import opened Wrappers
  import opened Seqs
  import opened Text

  /** `normalizar_texto`: lower-cased, stripped, each run of spaces made
      one `' '`, then every character that is neither a word character
      nor a space dropped. */
  function Normalise(s: string): (r: string)
    ensures forall i :: 0 <= i < |r| ==> IsWordChar(r[i]) || IsSpace(r[i])
    ensures |r| <= |s|
  {
    DropPunctuation(CollapseSpaces(Strip(Lower(s))))
  }

  /** Dropping punctuation after collapsing spaces can leave a double
      space, so the key is not idempotent: `"a - b"` and `"a b"` get
      different keys. */
  lemma NormaliseNotIdempotent()
    ensures Normalise("a - b") == "a  b"
    ensures Normalise("a  b") == "a b"
    ensures Normalise(Normalise("a - b")) != Normalise("a - b")
  {
    NormaliseDash();
    NormaliseDoubleSpace();
  }

  lemma NormaliseDash()
    ensures Normalise("a - b") == "a  b"
  {
    LowerDash();
    StripDash();
    CollapseDash();
    DropDash();
  }

  lemma DropDash()
    ensures DropPunctuation("a - b") == "a  b"
  {
    var p := (c: char) => IsWordChar(c) || IsSpace(c);
    assert p('a') && p(' ') && !p('-') && p('b');
    assert Filter("b", p) == "b";
    assert Filter(" b", p) == " b";
    assert Filter("- b", p) == " b";
    assert Filter(" - b", p) == "  b";
    assert Filter("a - b", p) == "a  b";
  }

  lemma LowerDash()
    ensures Lower("a - b") == "a - b"
  {
    assert Lower("b") == "b";
    assert Lower(" b") == " b";
    assert Lower("- b") == "- b";
    assert Lower(" - b") == " - b";
  }

  lemma StripDash()
    ensures Strip("a - b") == "a - b"
  {
    assert LStrip("a - b") == "a - b";
    assert RStrip("a - b") == "a - b";
  }

  lemma CollapseDash()
    ensures CollapseSpaces("a - b") == "a - b"
  {
    assert LStrip("b") == "b";
    assert CollapseSpaces("b") == "b";
    assert CollapseSpaces(" b") == " b";
    assert LStrip("- b") == "- b";
    assert CollapseSpaces("- b") == "- b";
    assert CollapseSpaces(" - b") == " - b";
  }

  lemma NormaliseDoubleSpace()
    ensures Normalise("a  b") == "a b"
  {
    assert Lower("a  b") == "a  b" by {
      assert Lower("b") == "b";
      assert Lower(" b") == " b";
    }
    assert Strip("a  b") == "a  b" by {
      assert LStrip("a  b") == "a  b";
      assert RStrip("a  b") == "a  b";
    }
    assert CollapseSpaces("a  b") == "a b" by {
      assert CollapseSpaces("b") == "b";
      assert LStrip(" b") == "b";
      assert CollapseSpaces("  b") == " b";
    }
    assert DropPunctuation("a b") == "a b";
  }

  /** `normalizado.strip() == ''`. */
  predicate Blank(n: string)
  {
    Strip(n) == ""
  }

  function NonBlank(n: string): bool
  {
    !Blank(n)
  }

  /** One `EXATO` report: the first line carrying the key and a later
      line repeating it. */
  datatype Duplicate = Duplicate(first: string, firstLine: int, second: string, secondLine: int)

  /** Where `x` first occurs in `s`. */
  function FirstIndex<T(==)>(s: seq<T>, x: T): (i: nat)
    requires x in s
    ensures i < |s| && s[i] == x
    ensures forall j :: 0 <= j < i ==> s[j] != x
  {
    if s[0] == x then 0 else 1 + FirstIndex(s[1..], x)
  }

  /** The reports for the first `k` names: a key that `keep` accepts,
      met again, is reported against the first line that carried it. */
  function Duplicates<K(==)>(items: seq<string>, keys: seq<K>, keep: K -> bool, k: nat): (r: seq<Duplicate>)
    requires |keys| == |items| && k <= |items|
    ensures |r| <= k
    ensures forall j :: 0 <= j < |r| ==> 2 <= r[j].firstLine < r[j].secondLine <= k + 1
  {
    if k == 0 then []
    else
      var prev := Duplicates(items, keys, keep, k - 1);
      var n := keys[k - 1];
      if n in keys[..k - 1] && keep(n) then
        var f := FirstIndex(keys, n);
        assert f < k - 1 by {
          var j :| 0 <= j < k - 1 && keys[..k - 1][j] == n;
          assert keys[j] == n;
        }
        prev + [Duplicate(items[f], f + 2, items[k - 1], k + 1)]
      else prev
  }

  /** The first time a key was stored in `vistos`. */
  datatype Seen = Seen(original: string, line: int)

  /** The `vistos` loop of `verificar_duplicados` on the normalised names,
      blank keys never reported. */
  method ExactDuplicates(items: seq<string>) returns (dups: seq<Duplicate>)
    ensures dups == Duplicates(items, MapSeq(items, Normalise), NonBlank, |items|)
  {
    dups := ReportRepeats(items, MapSeq(items, Normalise), NonBlank);
  }

  /** The loop itself, over precomputed keys: a repeated key that `keep`
      accepts is reported, any other key (re)stored. */
  method ReportRepeats<K(==)>(items: seq<string>, keys: seq<K>, keep: K -> bool) returns (dups: seq<Duplicate>)
    requires |keys| == |items|
    ensures dups == Duplicates(items, keys, keep, |items|)
  {
    var seen: map<K, Seen> := map[];
    dups := [];
    var i := 0;
    while i < |items|
      invariant 0 <= i <= |items|
      invariant forall n :: n in seen <==> n in keys[..i]
      invariant forall n :: n in seen && n in keys && keep(n) ==>
        seen[n] == Seen(items[FirstIndex(keys, n)], FirstIndex(keys, n) + 2)
      invariant dups == Duplicates(items, keys, keep, i)
    {
      var n := keys[i];
      PrefixStep(keys, i);
      DuplicatesStep(items, keys, keep, i);
      if n in seen && keep(n) {
        dups := dups + [Duplicate(seen[n].original, seen[n].line, items[i], i + 2)];
      } else {
        if keep(n) {
          FirstIndexAt(keys, i);
        }
        seen := seen[n := Seen(items[i], i + 2)];
      }
      i := i + 1;
    }
    assert keys[..|items|] == keys;
  }

  /** One more name adds a report exactly when its key is kept and seen. */
  lemma DuplicatesStep<K>(items: seq<string>, keys: seq<K>, keep: K -> bool, i: nat)
    requires |keys| == |items| && i < |items|
    ensures keys[i] in keys[..i] && keep(keys[i]) ==>
      Duplicates(items, keys, keep, i + 1) == Duplicates(items, keys, keep, i)
        + [Duplicate(items[FirstIndex(keys, keys[i])], FirstIndex(keys, keys[i]) + 2, items[i], i + 2)]
    ensures !(keys[i] in keys[..i] && keep(keys[i])) ==>
      Duplicates(items, keys, keep, i + 1) == Duplicates(items, keys, keep, i)
  {
  }

  lemma PrefixStep<T>(s: seq<T>, i: nat)
    requires i < |s|
    ensures s[..i + 1] == s[..i] + [s[i]]
    ensures forall x :: x in s[..i + 1] <==> x in s[..i] || x == s[i]
  {
  }

  lemma FirstIndexAt<T>(s: seq<T>, i: nat)
    requires i < |s| && s[i] !in s[..i]
    ensures FirstIndex(s, s[i]) == i
  {
    assert forall j :: 0 <= j < i ==> s[..i][j] == s[j];
  }

  /** Every repeat of a non-blank key is one report: the reports number
      the non-blank names less their distinct keys. */
  lemma {:induction false} DuplicatesCount(items: seq<string>, norms: seq<string>, k: nat)
    requires |norms| == |items| && k <= |items|
    ensures |Duplicates(items, norms, NonBlank, k)| + |Distinct(Filter(norms[..k], NonBlank))|
         == Count(norms[..k], NonBlank)
  {
    if k > 0 {
      DuplicatesCount(items, norms, k - 1);
      var pre, n := norms[..k - 1], norms[k - 1];
      assert norms[..k] == pre + [n];
      FilterAppend(pre, [n], NonBlank);
      var f := Filter(pre, NonBlank);
      if NonBlank(n) {
        assert Filter([n], NonBlank) == [n];
        var g := f + [n];
        assert g[..|g| - 1] == f;
        FilterMembership(pre, NonBlank, n);
        assert n in Distinct(f) <==> n in f;
      } else {
        assert Filter([n], NonBlank) == [];
        assert f + [] == f;
      }
    }
  }

  /** The whitespace test of `verificar_duplicados`: a non-blank name with
      leading or trailing spaces or a double space inside. */
  predicate SpaceProblem(s: string)
  {
    Strip(s) != "" && (s != Strip(s) || Contains(s, "  "))
  }

  /** One row of the whitespace report; `edges` is the `espaço início/fim`
      problem, otherwise `espaços duplos`. */
  datatype SpaceIssue = SpaceIssue(item: string, line: int, edges: bool)

  function IssueAt(items: seq<string>): int -> Option<SpaceIssue>
  {
    (i: int) =>
      if 0 <= i < |items| && SpaceProblem(items[i])
      then Some(SpaceIssue(items[i], i + 2, items[i] != Strip(items[i])))
      else None
  }

  function Indices(n: nat): (r: seq<int>)
    ensures |r| == n && forall i :: 0 <= i < n ==> r[i] == i
  {
    seq(n, i => i)
  }

  /** The names with space problems, in index order. */
  function SpaceIssues(items: seq<string>): (r: seq<SpaceIssue>)
    ensures |r| <= |items|
  {
    FilterMap(Indices(|items|), IssueAt(items))
  }

  /** A line is reported exactly when its name has a space problem, and
      every report names a line of the index. */
  lemma SpaceIssuesExact(items: seq<string>, i: nat)
    requires i < |items|
    ensures SpaceIssue(items[i], i + 2, items[i] != Strip(items[i])) in SpaceIssues(items)
        <==> SpaceProblem(items[i])
    ensures forall x :: x in SpaceIssues(items) ==>
      2 <= x.line < |items| + 2 && x.item == items[x.line - 2] && SpaceProblem(x.item)
  {
    var ix := Indices(|items|);
    var x := SpaceIssue(items[i], i + 2, items[i] != Strip(items[i]));
    FilterMapMembership(ix, IssueAt(items), x);
    if SpaceProblem(items[i]) {
      assert IssueAt(items)(ix[i]) == Some(x);
    }
    forall y | y in SpaceIssues(items)
      ensures 2 <= y.line < |items| + 2 && y.item == items[y.line - 2] && SpaceProblem(y.item)
    {
      FilterMapMembership(ix, IssueAt(items), y);
    }
  }
}

=== FILE: panel.dfy ===
/** `gerar_painel` of painel_critico.py: the alert report read off
    ÍNDICE_ITENS — items whose balance is zero or negative, and items whose
    last movement is more than fifteen days old. */
module Panel {
  import opened Wrappers
  import opened Seqs
  import opened Calendar
  import opened LocaleNumbers
  import opened Sheets
  import opened Decimal

  /** The age past which an item counts as not updated. */
  const StaleDays: int := 15

  /** Saldo Atual as the panel reads it: dots dropped, the comma made the
      decimal point, and anything unreadable taken as 0. */
  function Balance(e: IndexLine): real
  {
    ParseDotless(Textual(e.saldo))
  }

  /** Alert A: a balance of zero or below. */
  predicate Critical(e: IndexLine)
  {
    Balance(e) <= 0.0
  }

  /** Alert B: Última Data parsed with its time of day (the launcher
      writes `dd/mm/yyyy HH:MM:SS`, a bare date reads as midnight, an
      unreadable cell is `NaT`, which compares false) and earlier than
      fifteen days before `now`. */
  predicate Stale(parseDate: string -> Option<Instant>, now: Instant, e: IndexLine)
  {
    var t := parseDate(e.date);
    t.Some? && InstantBeforeDaysAgo(t.value, now, StaleDays)
  }

  /** The two alert lists, each in index order. */
  datatype Alerts = Alerts(critical: seq<IndexLine>, stale: seq<IndexLine>)

  /** Both alert lists of the index read at `now`; `parseDate` stands for
      `pd.to_datetime(..., dayfirst=True, errors='coerce')`, which keeps
      the time of day. */
  function Panel(index: seq<IndexLine>, parseDate: string -> Option<Instant>, now: Instant): (r: Alerts)
    ensures |r.critical| <= |index| && |r.stale| <= |index|
    ensures forall e :: e in r.critical <==> e in index && Critical(e)
    ensures forall e :: e in r.stale <==> e in index && Stale(parseDate, now, e)
  {
    var critical := Filter(index, (e: IndexLine) => Critical(e));
    var stale := Filter(index, (e: IndexLine) => Stale(parseDate, now, e));
    assert forall e :: e in critical <==> e in index && Critical(e) by {
      forall e: IndexLine {
        FilterMembership(index, (e: IndexLine) => Critical(e), e);
      }
    }
    assert forall e :: e in stale <==> e in index && Stale(parseDate, now, e) by {
      forall e: IndexLine {
        FilterMembership(index, (e: IndexLine) => Stale(parseDate, now, e), e);
      }
    }
    Alerts(critical, stale)
  }

  /** An item seen stale stays stale as the clock moves on. */
  lemma StaleGrows(index: seq<IndexLine>, parseDate: string -> Option<Instant>, now: Instant, later: Instant)
    requires Seconds(now) <= Seconds(later)
    ensures multiset(Panel(index, parseDate, now).stale) <= multiset(Panel(index, parseDate, later).stale)
  {
    FilterImplies(index, (e: IndexLine) => Stale(parseDate, now, e), (e: IndexLine) => Stale(parseDate, later, e));
  }

  /** The time of day of Última Data counts: at 08:00 on 10/10/2026 a
      row last moved at 14:00 on 25/09/2026 is not yet stale, though its
      date read at midnight would be. */
  lemma TimeOfDayCounts(parseDate: string -> Option<Instant>, e: IndexLine)
    requires parseDate(e.date) == Some(Instant(Date(2026, 9, 25), 14 * 3600))
    ensures !Stale(parseDate, Instant(Date(2026, 10, 10), 8 * 3600), e)
    ensures BeforeDaysAgo(Date(2026, 9, 25), Instant(Date(2026, 10, 10), 8 * 3600), StaleDays)
  {
    assert DayNumber(Date(2026, 10, 10)) - DayNumber(Date(2026, 9, 25)) == 15;
  }

  /** A balance written back by lancar_estoque.py as `[-]ds,fs` is read
      by the panel as the number it stands for, so the item is critical
      exactly when that number is zero or below. */
  lemma WrittenBalanceRead(e: IndexLine, neg: bool, ds: string, fs: string)
    requires |ds| > 0 && AllDigits(ds) && AllDigits(fs)
    requires e.saldo == WriteBack(Fixed(neg, ds, fs))
    ensures Balance(e) == FixedValue(neg, ds, fs)
    ensures Critical(e) <==> FixedValue(neg, ds, fs) <= 0.0
  {
    WriteBackRoundTrip(neg, ds, fs);
  }
}

=== FILE: purchases.dfy ===
/** lista_compras_ia.py: per-item consumption metrics (three windows, a
    weighted daily mean, coverage, last purchase and mean purchase lot), the
    purchase quantity rule with lot rounding, and the urgency-sorted
    purchase list. */
module Purchases {
  import opened Wrappers
  import opened Seqs
  import opened Sorting
  import opened Stats
  import opened Calendar
  import opened Rounding
  import opened Ledger
  import opened LocaleNumbers
  import Config

  /** One index row after `_calcular_metricas`. */
  datatype Metrics = Metrics(
    item: string,
    saldo: real,
    consumo30: real,
    consumo60: real,
    consumo90: real,
    media: real,
    cobertura: real,
    lastEntry: Option<int>,
    mediaCompra: real)

  /** `0.5 * m30 + 0.3 * m60 + 0.2 * m90` of the per-day means of the three
      windows. */
  function WeightedMean(c30: real, c60: real, c90: real): (m: real)
    ensures var lo := Min3(c30 / 30.0, c60 / 60.0, c90 / 90.0);
      var hi := Max3(c30 / 30.0, c60 / 60.0, c90 / 90.0);
      lo <= m <= hi
  {
    (c30 / 30.0) * 0.5 + (c60 / 60.0) * 0.3 + (c90 / 90.0) * 0.2
  }

  function Min3(a: real, b: real, c: real): real
  {
    if a <= b && a <= c then a else if b <= c then b else c
  }

  function Max3(a: real, b: real, c: real): real
  {
    if a >= b && a >= c then a else if b >= c then b else c
  }

  /** The mask "positive entry of exactly `item`". */
  function PurchaseOf(item: string): Row -> bool
  {
    (r: Row) => r.item == item && r.entry > 0.0
  }

  /** The day number of a dated row. */
  function DayOf(r: Row): Option<int>
  {
    match r.date
    case Some(d) => Some(DayNumber(d))
    case None => None
  }

  /** The largest element, `None` for an empty sequence. */
  function Largest(s: seq<int>): (r: Option<int>)
    ensures r.None? <==> |s| == 0
    ensures r.Some? ==> r.value in s && forall i :: 0 <= i < |s| ==> s[i] <= r.value
  {
    if |s| == 0 then None
    else
      match Largest(s[1..])
      case None => Some(s[0])
      case Some(m) => Some(if s[0] >= m then s[0] else m)
  }

  /** Ultima_Entrada: the latest dated positive entry of the item (`max`
      skips `NaT`; an item without one gets `NaT`). */
  function LastEntry(rows: seq<Row>, item: string): (r: Option<int>)
    ensures r.None? <==> forall i :: 0 <= i < |rows| ==> !(PurchaseOf(item)(rows[i]) && rows[i].date.Some?)
    ensures r.Some? ==> forall i :: 0 <= i < |rows| && PurchaseOf(item)(rows[i]) && rows[i].date.Some? ==>
      DayNumber(rows[i].date.value) <= r.value
  {
    var days := FilterMap(Filter(rows, PurchaseOf(item)), DayOf);
    PurchaseDays(rows, item);
    Largest(days)
  }

  /** The days of the item's dated positive entries are exactly the
      purchase days. */
  lemma PurchaseDays(rows: seq<Row>, item: string)
    ensures forall i :: 0 <= i < |rows| && PurchaseOf(item)(rows[i]) && rows[i].date.Some? ==>
      DayNumber(rows[i].date.value) in FilterMap(Filter(rows, PurchaseOf(item)), DayOf)
    ensures |FilterMap(Filter(rows, PurchaseOf(item)), DayOf)| > 0 ==>
      exists i :: 0 <= i < |rows| && PurchaseOf(item)(rows[i]) && rows[i].date.Some?
  {
    var f := Filter(rows, PurchaseOf(item));
    var days := FilterMap(f, DayOf);
    forall i | 0 <= i < |rows| && PurchaseOf(item)(rows[i]) && rows[i].date.Some?
      ensures DayNumber(rows[i].date.value) in days
    {
      FilterMembership(rows, PurchaseOf(item), rows[i]);
      var k :| 0 <= k < |f| && f[k] == rows[i];
      FilterMapMembership(f, DayOf, DayNumber(rows[i].date.value));
    }
    if |days| > 0 {
      FilterMapMembership(f, DayOf, days[0]);
      var k :| 0 <= k < |f| && DayOf(f[k]) == Some(days[0]);
      FilterMembership(rows, PurchaseOf(item), f[k]);
      var i :| 0 <= i < |rows| && rows[i] == f[k];
    }
  }

  /** Media_Compra: the mean positive entry of the item, 0 without one. */
  function MeanPurchase(rows: seq<Row>, item: string): (m: real)
    ensures m >= 0.0
    ensures Count(rows, PurchaseOf(item)) == 0 ==> m == 0.0
  {
    var e := MapSeq(Filter(rows, PurchaseOf(item)), Entry);
    if |e| == 0 then 0.0
    else
      TotalNonNegative(e);
      Mean(e)
  }

  /** `_calcular_metricas` for one index row: the balance through
      config.py's parser and the exits of the last 30, 60 and 90 days, 0
      for an item without any. */
  function MetricsOf(history: seq<Row>, now: Instant): IndexEntry -> Metrics
  {
    (e: IndexEntry) =>
      var c30 := WindowExits(history, e.item, now, 30);
      var c60 := WindowExits(history, e.item, now, 60);
      var c90 := WindowExits(history, e.item, now, 90);
      var saldo := ParseConditional(e.saldo);
      var media := WeightedMean(c30, c60, c90);
      Metrics(e.item, saldo, c30, c60, c90, media, Coverage(saldo, media),
        LastEntry(history, e.item), MeanPurchase(history, e.item))
  }

  function LoadMetrics(index: seq<IndexEntry>, history: seq<Row>, now: Instant): (r: seq<Metrics>)
    ensures |r| == |index|
    ensures forall i :: 0 <= i < |r| ==> r[i].item == index[i].item
    ensures forall i :: 0 <= i < |r| ==>
      r[i].cobertura == Coverage(r[i].saldo, r[i].media)
      && r[i].consumo30 == WindowExits(history, index[i].item, now, 30)
  {
    MapSeq(index, MetricsOf(history, now))
  }

  /** With non-negative exits the weighted mean is non-negative, and an
      item without exits in the last 90 days has coverage 999. */
  lemma MeanNonNegative(history: seq<Row>, now: Instant, e: IndexEntry)
    requires ExitsNonNegative(history)
    ensures MetricsOf(history, now)(e).media >= 0.0
    ensures MetricsOf(history, now)(e).consumo90 == 0.0 ==> MetricsOf(history, now)(e).cobertura == 999.0
  {
    WindowExitsNonNegative(history, e.item, now, 30);
    WindowExitsNonNegative(history, e.item, now, 60);
    WindowExitsNonNegative(history, e.item, now, 90);
    WindowExitsMonotone(history, e.item, now, 30, 90);
    WindowExitsMonotone(history, e.item, now, 60, 90);
  }

  /** The base need: enough for `target` days of the mean plus the safety
      margin, less the balance, never negative. */
  function BaseNeed(saldo: real, media: real, target: real): real
  {
    PosPart(media * target * Config.SafetyMargin - saldo)
  }

  /** `max(1, round(need / lot))`: at least one lot. */
  function Lots(need: real, lot: real): (n: int)
    requires lot > 0.0
    ensures n >= 1
    ensures n as real >= need / lot - 0.5
    ensures n == 1 || n as real <= need / lot + 0.5
  {
    NearestIntBound(need / lot);
    var k := NearestInt(need / lot);
    if k > 1 then k else 1
  }

  /** The amount before the final rounding: the need itself, or a whole
      number of lots, at least one, when the average lot is positive. */
  function LotAmount(need: real, lot: real): (a: real)
    requires need >= 0.0
    ensures a >= 0.0
    ensures lot <= 0.0 ==> a == need
    ensures lot > 0.0 ==> a >= lot && a >= need - lot / 2.0
    ensures lot > 0.0 ==> a == lot || a <= need + lot / 2.0
  {
    if lot > 0.0 then
      var n := Lots(need, lot);
      LotBounds(need, lot, n);
      LotUpper(need, lot, n);
      n as real * lot
    else need
  }

  lemma LotBounds(need: real, lot: real, n: int)
    requires lot > 0.0 && n >= 1 && n as real >= need / lot - 0.5
    ensures n as real * lot >= lot
    ensures n as real * lot >= need - lot / 2.0
  {
    var x := need / lot;
    assert x * lot == need;
    MulMonotoneLeft(1.0, n as real, lot);
    MulMonotoneLeft(x - 0.5, n as real, lot);
    assert (x - 0.5) * lot == x * lot - 0.5 * lot;
  }

  /** A rounded number of lots, above one, exceeds the need by at most half a lot. */
  lemma LotUpper(need: real, lot: real, n: int)
    requires lot > 0.0 && (n == 1 || n as real <= need / lot + 0.5)
    ensures n as real * lot == lot || n as real * lot <= need + lot / 2.0
  {
    if n != 1 {
      var x := need / lot;
      assert x * lot == need;
      MulMonotoneLeft(n as real, x + 0.5, lot);
      assert (x + 0.5) * lot == x * lot + 0.5 * lot;
    }
  }

  /** `round(x, 0)` is the nearest integer. */
  lemma RoundWhole(x: real)
    ensures Round(x, 0) == NearestInt(x) as real
  {
  }

  /** `calcular_quantidade_compra`: nothing for an item without
      consumption; otherwise the base need, as a whole number of average
      purchase lots when that average is positive, rounded to a unit. */
  function Quantity(saldo: real, media: real, lot: real, target: real): (q: real)
    ensures media <= 0.0 ==> q == 0.0
    ensures q >= 0.0
    ensures media > 0.0 && lot > 0.0 ==> q >= Round(lot, 0)
    ensures media > 0.0 ==> q >= LotAmount(BaseNeed(saldo, media, target), lot) - 0.5
    ensures media > 0.0 ==> q <= LotAmount(BaseNeed(saldo, media, target), lot) + 0.5
    ensures media > 0.0 ==> q == q.Floor as real
  {
    if media <= 0.0 then 0.0
    else
      var amount := LotAmount(BaseNeed(saldo, media, target), lot);
      RoundWhole(amount);
      RoundWhole(lot);
      NearestIntMonotone(lot, amount);
      NearestIntNonNegative(amount);
      NearestIntBound(amount);
      Round(amount, 0)
  }

  /** After buying the suggested quantity the balance covers the target
      plus margin, short by at most half a lot and half a unit of
      rounding. */
  lemma QuantityCovers(saldo: real, media: real, lot: real, target: real)
    requires media > 0.0
    ensures saldo + Quantity(saldo, media, lot, target)
         >= media * target * Config.SafetyMargin - 0.5 - (if lot > 0.0 then lot / 2.0 else 0.0)
  {
  }

  datatype Urgency = Critico | Urgente | Alto | Medio

  /** The urgency ladder of `gerar_lista_compras`: a negative coverage or
      balance is critical, then inclusive bounds 7 and 15. */
  function UrgencyOf(dias: real, saldo: real): (u: Urgency)
    ensures u == Critico <==> dias < 0.0 || saldo < 0.0
    ensures u == Urgente <==> !(dias < 0.0 || saldo < 0.0) && dias <= 7.0
    ensures u == Alto <==> !(dias < 0.0 || saldo < 0.0) && 7.0 < dias <= 15.0
    ensures u == Medio <==> !(dias < 0.0 || saldo < 0.0) && dias > 15.0
  {
    if dias < 0.0 || saldo < 0.0 then Critico
    else if dias <= 7.0 then Urgente
    else if dias <= 15.0 then Alto
    else Medio
  }

  /** `prioridade`, 1 for CRITICO to 4 for MEDIO. */
  function UrgencyRank(u: Urgency): (p: int)
    ensures 1 <= p <= 4
    ensures u == Critico <==> p == 1
  {
    match u
    case Critico => 1
    case Urgente => 2
    case Alto => 3
    case Medio => 4
  }

  /** One entry of the purchase list. */
  datatype Purchase = Purchase(
    item: string,
    saldo: real,
    media: real,
    dias: real,
    qty: real,
    urgency: Urgency,
    priority: int,
    consumo30: real,
    lastEntry: Option<int>,
    novaCobertura: real)

  /** The list entry of one index row: rows under the coverage limit with
      consumption and a positive quantity. */
  function Listed(target: real, limit: real): (f: Metrics -> Option<Purchase>)
    ensures forall m :: f(m).Some? <==>
      m.cobertura < limit && m.media > 0.0 && Quantity(m.saldo, m.media, m.mediaCompra, target) > 0.0
    ensures forall m :: f(m).Some? ==>
      f(m).value.item == m.item
      && f(m).value.qty == Quantity(m.saldo, m.media, m.mediaCompra, target)
      && f(m).value.urgency == UrgencyOf(m.cobertura, m.saldo)
      && f(m).value.priority == UrgencyRank(f(m).value.urgency)
  {
    (m: Metrics) =>
      if m.cobertura < limit && m.media > 0.0 then
        var q := Quantity(m.saldo, m.media, m.mediaCompra, target);
        if q <= 0.0 then None
        else
          var u := UrgencyOf(m.cobertura, m.saldo);
          Some(Purchase(m.item, m.saldo, m.media, m.cobertura, q, u, UrgencyRank(u),
            m.consumo30, m.lastEntry, Coverage(m.saldo + q, m.media)))
      else None
  }

  /** The sort key `(prioridade, -consumo_30d)`. */
  function PurchaseOrder(a: Purchase, b: Purchase): bool
  {
    a.priority < b.priority || (a.priority == b.priority && a.consumo30 >= b.consumo30)
  }

  lemma PurchaseOrderTotal()
    ensures TotalPreorder(PurchaseOrder)
  {
  }

  /** A listed item is below the coverage limit, consumes, gets a positive
      quantity, and its coverage after the purchase exceeds the current
      one. */
  predicate WellListed(p: Purchase, limit: real)
  {
    p.dias < limit && p.media > 0.0 && p.qty > 0.0 && p.novaCobertura > p.dias
  }

  /** `gerar_lista_compras(dias_cobertura_alvo, limite_dias_cobertura)`. */
  function PurchaseList(metrics: seq<Metrics>, target: real, limit: real): (r: seq<Purchase>)
    requires forall i :: 0 <= i < |metrics| ==>
      metrics[i].cobertura == Coverage(metrics[i].saldo, metrics[i].media)
    ensures multiset(r) == multiset(FilterMap(metrics, Listed(target, limit)))
    ensures forall i :: 0 <= i < |r| ==> WellListed(r[i], limit)
    ensures forall i, j :: 0 <= i < j < |r| ==>
      r[i].priority < r[j].priority || (r[i].priority == r[j].priority && r[i].consumo30 >= r[j].consumo30)
  {
    ListedWell(metrics, target, limit);
    PurchasesSorted(FilterMap(metrics, Listed(target, limit)), limit);
    SortBy(FilterMap(metrics, Listed(target, limit)), PurchaseOrder)
  }

  /** Every listed line meets the listing conditions. */
  lemma ListedWell(metrics: seq<Metrics>, target: real, limit: real)
    requires forall i :: 0 <= i < |metrics| ==>
      metrics[i].cobertura == Coverage(metrics[i].saldo, metrics[i].media)
    ensures forall p :: p in FilterMap(metrics, Listed(target, limit)) ==> WellListed(p, limit)
  {
    var f := Listed(target, limit);
    forall p | p in FilterMap(metrics, f) ensures WellListed(p, limit) {
      FilterMapMembership(metrics, f, p);
      var k :| 0 <= k < |metrics| && f(metrics[k]) == Some(p);
      ListedOneWell(metrics[k], target, limit);
    }
  }

  lemma ListedOneWell(m: Metrics, target: real, limit: real)
    requires m.cobertura == Coverage(m.saldo, m.media)
    requires Listed(target, limit)(m).Some?
    ensures WellListed(Listed(target, limit)(m).value, limit)
  {
    NewCoverage(m.saldo, Listed(target, limit)(m).value.qty, m.media);
  }

  /** Sorting the listed lines keeps them well listed and orders them by
      priority, then by larger consumption. */
  lemma PurchasesSorted(all: seq<Purchase>, limit: real)
    requires forall p :: p in all ==> WellListed(p, limit)
    ensures forall i :: 0 <= i < |all| ==> WellListed(SortBy(all, PurchaseOrder)[i], limit)
    ensures var r := SortBy(all, PurchaseOrder);
      forall i, j :: 0 <= i < j < |r| ==>
        r[i].priority < r[j].priority || (r[i].priority == r[j].priority && r[i].consumo30 >= r[j].consumo30)
  {
    PurchaseOrderTotal();
    var r := SortBy(all, PurchaseOrder);
    forall i | 0 <= i < |r| ensures WellListed(r[i], limit) {
      assert r[i] in multiset(all);
    }
  }

  /** Buying a positive quantity raises the coverage. */
  lemma NewCoverage(saldo: real, qty: real, media: real)
    requires media > 0.0 && qty > 0.0
    ensures Coverage(saldo + qty, media) > Coverage(saldo, media)
  {
    assert (saldo + qty) / media - saldo / media == qty / media;
  }

  /** An index row is on the list exactly when it is under the limit, has
      consumption and a positive quantity. */
  lemma ListedExactly(metrics: seq<Metrics>, target: real, limit: real, m: Metrics)
    requires m in metrics
    requires forall i :: 0 <= i < |metrics| ==>
      metrics[i].cobertura == Coverage(metrics[i].saldo, metrics[i].media)
    ensures (exists p :: p in PurchaseList(metrics, target, limit) && Listed(target, limit)(m) == Some(p))
        <==> m.cobertura < limit && m.media > 0.0 && Quantity(m.saldo, m.media, m.mediaCompra, target) > 0.0
  {
    var f := Listed(target, limit);
    var r := PurchaseList(metrics, target, limit);
    if f(m).Some? {
      var k :| 0 <= k < |metrics| && metrics[k] == m;
      FilterMapMembership(metrics, f, f(m).value);
      assert f(m).value in multiset(r);
    }
  }
}

=== FILE: recalibration.dfy ===
/** `reconstruir_indice` of recalibrar_indice.py: the index rebuilt from
    the ledger, one row per item carrying that item's last ledger row. */
module Recalibration {
  import opened Wrappers
  import opened Seqs
  import opened Sorting
  import opened Text
  import opened Sheets
  import opened Decimal

  /** `df['Item'].str.strip() != ""`. */
  predicate NamedLine(l: LedgerLine)
  {
    Strip(l.item) != ""
  }

  function LineItem(l: LedgerLine): string
  {
    l.item
  }

  function IndexItem(e: IndexLine): string
  {
    e.item
  }

  function ItemIs(item: string): LedgerLine -> bool
  {
    (l: LedgerLine) => l.item == item
  }

  /** `e` is the index row of `e.item` built from its last ledger row: the
      cells of that row, its sheet line written as a number and the time of
      the rebuild. */
  predicate Carries(ledger: seq<LedgerLine>, now: string, e: IndexLine)
  {
    var n := PyInt(e.line);
    n.Some? && 2 <= n.value < |ledger| + 2 &&
    (var l := ledger[n.value - 2];
     e == IndexLine(l.item, l.saldo, l.date, l.group, e.line, now)) &&
    forall k :: n.value - 2 < k < |ledger| ==> ledger[k].item != e.item
  }

  /** The rows written to ÍNDICE_ITENS: for each distinct non-blank item
      (not normalised), in string order, the layout
      [Item, Saldo, Data, Grupo, Linha_Real, now] of its last ledger row. */
  function Recalibrate(ledger: seq<LedgerLine>, now: string): (r: seq<IndexLine>)
    ensures forall i, j :: 0 <= i < j < |r| ==> StringLe(r[i].item, r[j].item) && r[i].item != r[j].item
    ensures forall i :: 0 <= i < |r| ==> Strip(r[i].item) != "" && Carries(ledger, now, r[i])
    ensures forall j :: 0 <= j < |ledger| && NamedLine(ledger[j]) ==> ledger[j].item in MapSeq(r, IndexItem)
  {
    var keys := SortedKeys(Filter(ledger, NamedLine), LineItem);
    KeysNamed(ledger, keys);
    var r := Rebuild(ledger, keys, now);
    ItemsAreKeys(r, keys);
    NamedLinesKept(ledger, keys);
    r
  }

  lemma ItemsAreKeys(r: seq<IndexLine>, keys: seq<string>)
    requires |r| == |keys| && forall i :: 0 <= i < |r| ==> r[i].item == keys[i]
    ensures MapSeq(r, IndexItem) == keys
  {
  }

  /** Every non-blank ledger item is among the keys. */
  lemma NamedLinesKept(ledger: seq<LedgerLine>, keys: seq<string>)
    requires forall j :: 0 <= j < |Filter(ledger, NamedLine)| ==> LineItem(Filter(ledger, NamedLine)[j]) in keys
    ensures forall j :: 0 <= j < |ledger| && NamedLine(ledger[j]) ==> ledger[j].item in keys
  {
    var named := Filter(ledger, NamedLine);
    forall j | 0 <= j < |ledger| && NamedLine(ledger[j]) ensures ledger[j].item in keys {
      FilterMembership(ledger, NamedLine, ledger[j]);
      var k :| 0 <= k < |named| && named[k] == ledger[j];
      assert LineItem(named[k]) in keys;
    }
  }

  /** The sorted keys are non-blank items of the ledger. */
  lemma KeysNamed(ledger: seq<LedgerLine>, keys: seq<string>)
    requires forall i :: 0 <= i < |keys| ==> keys[i] in MapSeq(Filter(ledger, NamedLine), LineItem)
    ensures forall i :: 0 <= i < |keys| ==> Strip(keys[i]) != "" && keys[i] in MapSeq(ledger, LineItem)
  {
    var named := Filter(ledger, NamedLine);
    forall i | 0 <= i < |keys| ensures Strip(keys[i]) != "" && keys[i] in MapSeq(ledger, LineItem) {
      var k :| 0 <= k < |named| && MapSeq(named, LineItem)[k] == keys[i];
      FilterMembership(ledger, NamedLine, named[k]);
      var j :| 0 <= j < |ledger| && ledger[j] == named[k];
      assert MapSeq(ledger, LineItem)[j] == keys[i];
    }
  }

  /** Position of the last ledger row of an item that occurs. */
  function LastPosition(ledger: seq<LedgerLine>, item: string): (p: nat)
    requires item in MapSeq(ledger, LineItem)
    ensures p < |ledger| && ledger[p].item == item
    ensures forall k :: p < k < |ledger| ==> ledger[k].item != item
  {
    var k :| 0 <= k < |ledger| && MapSeq(ledger, LineItem)[k] == item;
    assert ItemIs(item)(ledger[k]);
    FindLast(ledger, ItemIs(item)).value
  }

  /** The index row built from ledger position `p`; Linha_Real is written
      as a number, which the sheet shows as its digits. */
  function FromPosition(ledger: seq<LedgerLine>, p: nat, now: string): IndexLine
    requires p < |ledger|
  {
    var l := ledger[p];
    IndexLine(l.item, l.saldo, l.date, l.group, ShowNat(SheetLine(p)), now)
  }

  /** One index row per key, from the key's last ledger row. */
  function Rebuild(ledger: seq<LedgerLine>, keys: seq<string>, now: string): (r: seq<IndexLine>)
    requires forall i :: 0 <= i < |keys| ==> Strip(keys[i]) != "" && keys[i] in MapSeq(ledger, LineItem)
    ensures |r| == |keys|
    ensures forall i :: 0 <= i < |r| ==> r[i].item == keys[i] && Carries(ledger, now, r[i])
  {
    if |keys| == 0 then []
    else
      var e := FromPosition(ledger, LastPosition(ledger, keys[0]), now);
      LastCarried(ledger, keys[0], now);
      var rest := Rebuild(ledger, keys[1..], now);
      ConsCarried(ledger, now, keys, e, rest);
      [e] + rest
  }

  /** The first key's row in front of the rows of the other keys. */
  lemma ConsCarried(ledger: seq<LedgerLine>, now: string, keys: seq<string>, e: IndexLine, rest: seq<IndexLine>)
    requires |keys| > 0 && e.item == keys[0] && Carries(ledger, now, e)
    requires |rest| == |keys| - 1
    requires forall i :: 0 <= i < |rest| ==> rest[i].item == keys[1..][i] && Carries(ledger, now, rest[i])
    ensures forall i :: 0 <= i < |keys| ==> ([e] + rest)[i].item == keys[i] && Carries(ledger, now, ([e] + rest)[i])
  {
    forall i | 0 < i < |keys| ensures ([e] + rest)[i].item == keys[i] && Carries(ledger, now, ([e] + rest)[i]) {
      assert ([e] + rest)[i] == rest[i - 1];
    }
  }

  lemma LastCarried(ledger: seq<LedgerLine>, item: string, now: string)
    requires item in MapSeq(ledger, LineItem)
    ensures var e := FromPosition(ledger, LastPosition(ledger, item), now);
      e.item == item && Carries(ledger, now, e)
  {
    PyIntShowNat(SheetLine(LastPosition(ledger, item)));
  }

  /** The ÍNDICE_ITENS rows after a run of `reconstruir_indice` over the
      ESTOQUE data rows: with no data row (`len(dados_estoque) < 2`) the
      script returns before touching the index; otherwise the old index is
      cleared and replaced by the rebuilt one, which is empty when every
      item cell is blank. */
  function IndexAfter(ledger: seq<LedgerLine>, previous: seq<IndexLine>, now: string): (r: seq<IndexLine>)
    ensures |ledger| == 0 ==> r == previous
    ensures |ledger| > 0 ==> forall i, j :: 0 <= i < j < |r| ==> StringLe(r[i].item, r[j].item) && r[i].item != r[j].item
    ensures |ledger| > 0 ==> forall i :: 0 <= i < |r| ==> Strip(r[i].item) != "" && Carries(ledger, now, r[i])
    ensures forall j :: 0 <= j < |ledger| && NamedLine(ledger[j]) ==> ledger[j].item in MapSeq(r, IndexItem)
    ensures |ledger| > 0 && (forall j :: 0 <= j < |ledger| ==> !NamedLine(ledger[j])) ==> r == []
  {
    if |ledger| == 0 then previous
    else
      var r := Recalibrate(ledger, now);
      BlankLedgerEmpty(ledger, now, r);
      r
  }

  /** A ledger whose item cells are all blank rebuilds an empty index. */
  lemma BlankLedgerEmpty(ledger: seq<LedgerLine>, now: string, r: seq<IndexLine>)
    requires forall i :: 0 <= i < |r| ==> Strip(r[i].item) != "" && Carries(ledger, now, r[i])
    ensures (forall j :: 0 <= j < |ledger| ==> !NamedLine(ledger[j])) ==> r == []
  {
    if |r| > 0 {
      var n := PyInt(r[0].line).value;
      assert r[0].item == ledger[n - 2].item;
    }
  }
}

=== FILE: rounding.dfy ===
/** Python's `round(x, n)` (and pandas' `Series.round(n)`): the multiple of
    10^-n nearest to `x`, ties going to the even multiple. It is applied to
    exact reals here; see README for binary floating point. Scaling by
    10^n is written as `n` multiplications by ten so that every step stays
    linear. */
module Rounding {

  function Pow10(n: nat): (r: int)
    ensures r >= 1
  {
    if n == 0 then 1 else 10 * Pow10(n - 1)
  }

  /** `x * 10**n`. */
  function Scaled(x: real, n: nat): real
  {
    if n == 0 then x else 10.0 * Scaled(x, n - 1)
  }

  /** `y / 10**n`. */
  function Unscaled(y: real, n: nat): real
  {
    if n == 0 then y else Unscaled(y, n - 1) / 10.0
  }

  function Abs(x: real): (r: real)
    ensures r >= 0.0 && (r == x || r == -x)
  {
    if x < 0.0 then -x else x
  }

  /** The integer nearest to `y`, ties to even. */
  function NearestInt(y: real): int
  {
    var f := y.Floor;
    var frac := y - f as real;
    if frac < 0.5 then f
    else if frac > 0.5 then f + 1
    else if f % 2 == 0 then f
    else f + 1
  }

  /** `round(x, n)`. */
  function Round(x: real, n: nat): real
  {
    Unscaled(NearestInt(Scaled(x, n)) as real, n)
  }

  lemma {:induction false} ScaledMonotone(x: real, y: real, n: nat)
    requires x <= y
    ensures Scaled(x, n) <= Scaled(y, n)
  {
    if n > 0 {
      ScaledMonotone(x, y, n - 1);
    }
  }

  lemma {:induction false} UnscaledMonotone(x: real, y: real, n: nat)
    requires x <= y
    ensures Unscaled(x, n) <= Unscaled(y, n)
  {
    if n > 0 {
      UnscaledMonotone(x, y, n - 1);
    }
  }

  lemma {:induction false} ScaledNegate(x: real, n: nat)
    ensures Scaled(-x, n) == -Scaled(x, n)
  {
    if n > 0 {
      ScaledNegate(x, n - 1);
    }
  }

  lemma {:induction false} UnscaledNegate(y: real, n: nat)
    ensures Unscaled(-y, n) == -Unscaled(y, n)
  {
    if n > 0 {
      UnscaledNegate(y, n - 1);
    }
  }

  lemma {:induction false} UnscaledAdd(a: real, b: real, n: nat)
    ensures Unscaled(a + b, n) == Unscaled(a, n) + Unscaled(b, n)
  {
    if n > 0 {
      UnscaledAdd(a, b, n - 1);
    }
  }

  /** Scaling undoes unscaling. */
  lemma {:induction false} ScaledUnscaled(y: real, n: nat)
    ensures Scaled(Unscaled(y, n), n) == y
    decreases n
  {
    if n > 0 {
      UnscaledShift(y, n);
      ScaledUnscaled(y / 10.0, n - 1);
      ScaledShift(Unscaled(y / 10.0, n - 1), n);
    }
  }

  /** Dividing by ten first or last is the same. */
  lemma {:induction false} UnscaledShift(y: real, n: nat)
    requires n > 0
    ensures Unscaled(y, n) == Unscaled(y / 10.0, n - 1)
  {
    if n > 1 {
      UnscaledShift(y, n - 1);
    }
  }

  /** Multiplying by ten first or last is the same. */
  lemma {:induction false} ScaledShift(x: real, n: nat)
    requires n > 0
    ensures Scaled(x, n) == Scaled(10.0 * x, n - 1)
  {
    if n > 1 {
      ScaledShift(x, n - 1);
    }
  }

  /** `m * 10**n / 10**n == m`. */
  lemma {:induction false} UnscaledPow(m: int, n: nat)
    ensures Unscaled((m * Pow10(n)) as real, n) == m as real
  {
    if n > 0 {
      var w := Pow10(n - 1);
      assert m * Pow10(n) == 10 * (m * w);
      UnscaledShift((m * Pow10(n)) as real, n);
      assert (m * Pow10(n)) as real / 10.0 == (m * w) as real;
      UnscaledPow(m, n - 1);
    }
  }

  /** `k` units of 10^-n are `k / 10**n` whole units plus the remainder. */
  lemma UnitsSplit(k: nat, n: nat)
    ensures Unscaled(k as real, n)
         == (k / Pow10(n)) as real + Unscaled((k % Pow10(n)) as real, n)
  {
    var q, r := k / Pow10(n), k % Pow10(n);
    assert k == q * Pow10(n) + r;
    UnscaledAdd((q * Pow10(n)) as real, r as real, n);
    UnscaledPow(q, n);
  }

  /** The nearest integer is at most one half away. */
  lemma NearestIntBound(y: real)
    ensures -0.5 <= NearestInt(y) as real - y <= 0.5
  {
  }

  lemma NearestIntMonotone(a: real, b: real)
    requires a <= b
    ensures NearestInt(a) <= NearestInt(b)
  {
    assert a.Floor <= b.Floor;
  }

  /** Half-even rounding is symmetric about zero. */
  lemma NearestIntNegate(y: real)
    ensures NearestInt(-y) == -NearestInt(y)
  {
    var f := y.Floor;
    var frac := y - f as real;
    if frac == 0.0 {
      assert (-y).Floor == -f;
    } else {
      assert (-y).Floor == -f - 1;
      if frac == 0.5 {
        assert (-f - 1) % 2 == 0 <==> f % 2 != 0;
      }
    }
  }

  /** `round(x, n)` is a whole number of units 10^-n, at most half a unit
      away from `x`. */
  lemma RoundError(x: real, n: nat)
    ensures Scaled(Round(x, n), n) == NearestInt(Scaled(x, n)) as real
    ensures -0.5 <= Scaled(Round(x, n), n) - Scaled(x, n) <= 0.5
  {
    ScaledUnscaled(NearestInt(Scaled(x, n)) as real, n);
    NearestIntBound(Scaled(x, n));
  }

  /** A value that already has at most `n` decimals is left unchanged. */
  lemma RoundExact(m: int, n: nat)
    ensures Round(Unscaled(m as real, n), n) == Unscaled(m as real, n)
  {
    ScaledUnscaled(m as real, n);
    assert (m as real).Floor == m;
  }

  /** Rounding never reverses the order of two values. */
  lemma RoundMonotone(x: real, y: real, n: nat)
    requires x <= y
    ensures Round(x, n) <= Round(y, n)
  {
    ScaledMonotone(x, y, n);
    NearestIntMonotone(Scaled(x, n), Scaled(y, n));
    UnscaledMonotone(NearestInt(Scaled(x, n)) as real, NearestInt(Scaled(y, n)) as real, n);
  }

  /** Rounding keeps a value's sign: non-negative values stay non-negative. */
  lemma RoundNonNegative(x: real, n: nat)
    requires x >= 0.0
    ensures Round(x, n) >= 0.0
  {
    RoundExact(0, n);
    UnscaledZero(n);
    RoundMonotone(0.0, x, n);
  }

  lemma {:induction false} UnscaledZero(n: nat)
    ensures Unscaled(0.0, n) == 0.0
  {
    if n > 0 {
      UnscaledZero(n - 1);
    }
  }

  /** `round(x, n)` is `|x|` rounded, with `x`'s sign. */
  lemma RoundBySign(x: real, n: nat)
    ensures Round(x, n) == var m := Unscaled(NearestInt(Scaled(Abs(x), n)) as real, n);
      if x < 0.0 then -m else m
  {
    if x < 0.0 {
      ScaledNegate(Abs(x), n);
      assert Scaled(x, n) == -Scaled(Abs(x), n);
      NearestIntNegate(Scaled(Abs(x), n));
      UnscaledNegate(NearestInt(Scaled(Abs(x), n)) as real, n);
    }
  }

  lemma NearestIntNonNegative(y: real)
    requires y >= 0.0
    ensures NearestInt(y) >= 0
  {
    assert y.Floor >= 0;
  }

  lemma {:induction false} ScaledNonNegative(x: real, n: nat)
    requires x >= 0.0
    ensures Scaled(x, n) >= 0.0
  {
    if n > 0 {
      ScaledNonNegative(x, n - 1);
    }
  }

  lemma UnscaledNonNegative(y: real, n: nat)
    requires y >= 0.0
    ensures Unscaled(y, n) >= 0.0
  {
    UnscaledMonotone(0.0, y, n);
    UnscaledZero(n);
  }
}

=== FILE: safety_stock.dfy ===
/** estoque_minimo.py: lead time from the gaps between purchases, the daily
    consumption statistics of the last 90 days, the z-table, safety stock,
    reorder point, minimum and maximum stock, the five-way status, and the
    filtered and sorted batch over every item. */
module SafetyStock {
  import opened Wrappers
  import opened Seqs
  import opened Sorting
  import opened Stats
  import opened Grouping
  import opened Calendar
  import opened Rounding
  import opened LocaleNumbers
  import opened Ledger
  import opened Text

  /** Rows of `item` (any case) with a positive entry. */
  function PositiveEntryOf(item: string): Row -> bool
  {
    (r: Row) => SameItem(item)(r) && r.entry > 0.0
  }

  /** Day numbers of the dated rows, in row order. */
  function DayNumbers(rows: seq<Row>): (d: seq<int>)
    ensures |d| <= |rows|
  {
    if |rows| == 0 then []
    else
      (match rows[0].date
       case Some(x) => [DayNumber(x)]
       case None => [])
      + DayNumbers(rows[1..])
  }

  /** `Series.diff().dt.days` of consecutive days. */
  function Gaps(days: seq<int>): (g: seq<real>)
    ensures |g| == if |days| == 0 then 0 else |days| - 1
    ensures forall i :: 0 <= i < |g| ==> g[i] == (days[i + 1] - days[i]) as real
  {
    if |days| <= 1 then []
    else [(days[1] - days[0]) as real] + Gaps(days[1..])
  }

  function IsPositive(x: real): bool
  {
    x > 0.0
  }

  /** The positive gaps between the sorted purchase dates. */
  function PositiveGaps(rows: seq<Row>, item: string): seq<real>
  {
    Filter(Gaps(PurchaseDays(rows, item)), IsPositive)
  }

  /** `calcular_lead_time`: 7 days with fewer than two purchases or no
      positive gap between them, otherwise the mean gap clamped to
      [3, 30]. */
  function LeadTime(rows: seq<Row>, item: string): (lt: real)
    ensures 3.0 <= lt <= 30.0
    ensures Count(rows, PositiveEntryOf(item)) < 2 ==> lt == 7.0
    ensures |PositiveGaps(rows, item)| == 0 ==> lt == 7.0
  {
    if Count(rows, PositiveEntryOf(item)) < 2 then 7.0
    else
      var g := PositiveGaps(rows, item);
      if |g| == 0 then 7.0 else Clamp(Mean(g), 3.0, 30.0)
  }

  /** Consecutive gaps add up to the span from the first day to the last. */
  lemma {:induction false} GapsTelescope(days: seq<int>)
    requires |days| > 0
    ensures Total(Gaps(days)) == (days[|days| - 1] - days[0]) as real
  {
    if |days| > 1 {
      GapsTelescope(days[1..]);
      assert Gaps(days)[1..] == Gaps(days[1..]);
    }
  }

  /** Dropping zero terms from non-negative terms keeps the sum. */
  lemma {:induction false} TotalPositivePart(g: seq<real>)
    requires forall i :: 0 <= i < |g| ==> g[i] >= 0.0
    ensures Total(Filter(g, IsPositive)) == Total(g)
  {
    if |g| > 0 {
      TotalPositivePart(g[1..]);
      if IsPositive(g[0]) {
        assert Filter(g, IsPositive)[1..] == Filter(g[1..], IsPositive);
      }
    }
  }

  /** The mean positive gap between sorted days is the span from the first
      day to the last divided by the number of positive gaps. */
  lemma MeanPositiveGap(d: seq<int>)
    requires Sorted(d, IntLe) && |Filter(Gaps(d), IsPositive)| > 0
    ensures |d| > 0
    ensures Mean(Filter(Gaps(d), IsPositive))
         == (d[|d| - 1] - d[0]) as real / |Filter(Gaps(d), IsPositive)| as real
  {
    var g := Gaps(d);
    forall i | 0 <= i < |g| ensures g[i] >= 0.0 {
      assert IntLe(d[i], d[i + 1]);
    }
    TotalPositivePart(g);
    GapsTelescope(d);
  }

  /** The purchase days of `item`, sorted. */
  function PurchaseDays(rows: seq<Row>, item: string): seq<int>
  {
    SortBy(DayNumbers(Filter(rows, PositiveEntryOf(item))), IntLe)
  }

  /** With purchases on at least two distinct days, the lead time is the
      span between the first and the last purchase divided by the number of
      positive gaps, clamped to [3, 30]. */
  lemma LeadTimeSpan(rows: seq<Row>, item: string)
    requires Count(rows, PositiveEntryOf(item)) >= 2 && |PositiveGaps(rows, item)| > 0
    ensures |PurchaseDays(rows, item)| > 0
    ensures LeadTime(rows, item)
         == Clamp((LastDay(PurchaseDays(rows, item)) - PurchaseDays(rows, item)[0]) as real
                  / |PositiveGaps(rows, item)| as real, 3.0, 30.0)
  {
    var d := PurchaseDays(rows, item);
    assert TotalPreorder(IntLe);
    assert Sorted(d, IntLe);
    assert PositiveGaps(rows, item) == Filter(Gaps(d), IsPositive);
    MeanPositiveGap(d);
  }

  function LastDay(d: seq<int>): int
    requires |d| > 0
  {
    d[|d| - 1]
  }

  /** The mask "dated in the last 90 days". */
  function Recent(now: Instant): Row -> bool
  {
    (r: Row) => DatedWithin(r, now, 90)
  }

  /** Rows of the 90-day window, or every row when the window is empty. */
  function RecentOrAll(rows: seq<Row>, now: Instant): (r: seq<Row>)
    ensures |rows| > 0 ==> |r| > 0
    ensures multiset(r) <= multiset(rows)
    ensures (forall i :: 0 <= i < |rows| ==> !DatedWithin(rows[i], now, 90)) ==> r == rows
    ensures (exists i :: 0 <= i < |rows| && DatedWithin(rows[i], now, 90)) ==>
      forall x :: x in r <==> x in rows && DatedWithin(x, now, 90)
  {
    var w := Filter(rows, Recent(now));
    FilterEmpty(rows, Recent(now));
    FilterSubMultiset(rows, Recent(now));
    forall x ensures x in w <==> x in rows && DatedWithin(x, now, 90) {
      FilterMembership(rows, Recent(now), x);
    }
    if |w| == 0 then rows else w
  }

  /** `groupby(df['Data'].dt.date)['Saída'].sum()`: one total per day that
      has rows. */
  function DailyExits(rows: seq<Row>): (t: seq<real>)
    ensures |t| == |GroupKeys(rows, DateKey)|
  {
    GroupSums(GroupKeys(rows, DateKey), rows, DateKey, Exit)
  }

  /** The z-table, with 1.65 for any other service level. */
  function ZFactor(level: real): (z: real)
    ensures z > 0.0
    ensures level != 0.90 && level != 0.95 && level != 0.97 && level != 0.99 ==> z == 1.65
  {
    if level == 0.90 then 1.28
    else if level == 0.95 then 1.65
    else if level == 0.97 then 1.88
    else if level == 0.99 then 2.33
    else 1.65
  }

  predicate TableLevel(level: real)
  {
    level == 0.90 || level == 0.95 || level == 0.97 || level == 0.99
  }

  /** Over the tabulated service levels the factor increases. */
  lemma ZFactorMonotone(a: real, b: real)
    requires TableLevel(a) && TableLevel(b) && a <= b
    ensures ZFactor(a) <= ZFactor(b)
  {
  }

  datatype Status = Ruptura | Critico | Comprar | Normal | Excesso

  /** `ordem_status`. */
  function StatusRank(s: Status): int
  {
    match s
    case Ruptura => 0
    case Critico => 1
    case Comprar => 2
    case Normal => 3
    case Excesso => 4
  }

  /** The status ladder, checked in order. */
  function ClassifyStatus(saldo: real, safety: real, reorder: real, maximum: real): (s: Status)
    ensures s == Ruptura <==> saldo <= 0.0
    ensures s == Critico <==> 0.0 < saldo < safety
    ensures s == Comprar <==> 0.0 < saldo && safety <= saldo < reorder
    ensures s == Normal <==> 0.0 < saldo && safety <= saldo && reorder <= saldo < maximum
    ensures s == Excesso <==> 0.0 < saldo && safety <= saldo && reorder <= saldo && maximum <= saldo
  {
    if saldo <= 0.0 then Ruptura
    else if saldo < safety then Critico
    else if saldo < reorder then Comprar
    else if saldo < maximum then Normal
    else Excesso
  }

  /** With ordered thresholds, each status is one band of the balance. */
  lemma StatusBands(saldo: real, safety: real, reorder: real, maximum: real)
    requires 0.0 <= safety <= reorder <= maximum
    ensures var s := ClassifyStatus(saldo, safety, reorder, maximum);
      (s == Critico <==> 0.0 < saldo < safety) &&
      (s == Comprar <==> 0.0 < saldo && safety <= saldo < reorder) &&
      (s == Normal <==> 0.0 < saldo && reorder <= saldo < maximum) &&
      (s == Excesso <==> 0.0 < saldo && maximum <= saldo)
  {
  }

  /** The first index balance of `item` (any case), 0 when it is missing. */
  function IndexBalance(index: seq<IndexEntry>, item: string): (b: real)
    ensures (forall i :: 0 <= i < |index| ==> Upper(index[i].item) != Upper(item)) ==> b == 0.0
    ensures forall i :: 0 <= i < |index| && Upper(index[i].item) == Upper(item) ==>
      (forall j :: 0 <= j < i ==> Upper(index[j].item) != Upper(item)) ==>
      b == ParseConditional(index[i].saldo)
  {
    if |index| == 0 then 0.0
    else if Upper(index[0].item) == Upper(item) then ParseConditional(index[0].saldo)
    else IndexBalance(index[1..], item)
  }

  /** The unrounded parameters of one item. */
  datatype Plan = Plan(
    saldo: real,
    media: real,
    desvio: real,
    leadTime: real,
    safety: real,
    reorder: real,
    minimum: real,
    maximum: real,
    lot: real,
    status: Status)

  /** The safety stock `z * σ * sqrt(LT)` and what follows from it. */
  function Parameters(saldo: real, media: real, desvio: real, lt: real, z: real, sqrt: real -> real): (p: Plan)
    ensures p.reorder == p.minimum
    ensures p.status == ClassifyStatus(saldo, p.safety, p.reorder, p.maximum)
    ensures media >= 0.0 && lt >= 0.0 ==> p.safety <= p.reorder <= p.maximum
  {
    var safety := z * desvio * sqrt(lt);
    MulNonNegative(media, lt);
    var reorder := media * lt + safety;
    var lot := media * 30.0;
    var maximum := reorder + lot;
    Plan(saldo, media, desvio, lt, safety, reorder, reorder, maximum, lot,
      ClassifyStatus(saldo, safety, reorder, maximum))
  }

  /** The daily standard deviation: the sample deviation of the daily
      totals, or a fifth of the mean when there is a single day or the
      deviation is zero. */
  function DailyStd(daily: seq<real>, sqrt: real -> real): real
    requires |daily| > 0
  {
    var media := Mean(daily);
    var d := if |daily| > 1 then SampleStd(daily, sqrt) else media * 0.2;
    if d == 0.0 then media * 0.2 else d
  }

  lemma DailyStdNonNegative(daily: seq<real>, sqrt: real -> real)
    requires |daily| > 0 && SqrtLaws(sqrt)
    requires forall i :: 0 <= i < |daily| ==> daily[i] >= 0.0
    ensures Mean(daily) >= 0.0 && DailyStd(daily, sqrt) >= 0.0
  {
    TotalNonNegative(daily);
    StdNonNegative(daily, sqrt);
  }

  /** `calcular_parametros_item`: `None` for an item without rows or
      without a dated row in the chosen window. */
  function PlanItem(rows: seq<Row>, index: seq<IndexEntry>, item: string, level: real,
                    now: Instant, sqrt: real -> real): (r: Option<Plan>)
    ensures r.None? <==> |DailyExits(RecentOrAll(Filter(rows, SameItem(item)), now))| == 0
    ensures r.Some? ==> r.value.saldo == IndexBalance(index, item)
    ensures r.Some? ==> r.value.leadTime == LeadTime(rows, item)
  {
    var daily := DailyExits(RecentOrAll(Filter(rows, SameItem(item)), now));
    if |daily| == 0 then None
    else
      Some(Parameters(IndexBalance(index, item), Mean(daily), DailyStd(daily, sqrt),
        LeadTime(rows, item), ZFactor(level), sqrt))
  }

  /** The rows an item's statistics are taken from keep non-negative exits. */
  lemma WindowNonNegative(rows: seq<Row>, item: string, now: Instant)
    requires ExitsNonNegative(rows)
    ensures ExitsNonNegative(RecentOrAll(Filter(rows, SameItem(item)), now))
  {
    var mine := Filter(rows, SameItem(item));
    var w := RecentOrAll(mine, now);
    FilterSubMultiset(rows, SameItem(item));
    forall j | 0 <= j < |w| ensures w[j].exit >= 0.0 {
      assert w[j] in multiset(rows);
    }
  }

  /** The daily totals of rows with non-negative exits are non-negative. */
  lemma DailyNonNegative(w: seq<Row>)
    requires ExitsNonNegative(w)
    ensures forall i :: 0 <= i < |DailyExits(w)| ==> DailyExits(w)[i] >= 0.0
  {
    forall i | 0 <= i < |DailyExits(w)| ensures DailyExits(w)[i] >= 0.0 {
      GroupSumNonNegative(w, DateKey, GroupKeys(w, DateKey)[i], Exit);
    }
  }

  /** With non-negative exits, every plan has
      0 <= safety stock <= reorder point = minimum <= maximum. */
  lemma PlanOrdered(rows: seq<Row>, index: seq<IndexEntry>, item: string, level: real,
                    now: Instant, sqrt: real -> real)
    requires SqrtLaws(sqrt) && ExitsNonNegative(rows)
    requires PlanItem(rows, index, item, level, now, sqrt).Some?
    ensures var p := PlanItem(rows, index, item, level, now, sqrt).value;
      0.0 <= p.safety <= p.reorder && p.reorder == p.minimum && p.minimum <= p.maximum
  {
    var w := RecentOrAll(Filter(rows, SameItem(item)), now);
    var daily := DailyExits(w);
    WindowNonNegative(rows, item, now);
    DailyNonNegative(w);
    DailyStdNonNegative(daily, sqrt);
    var lt := LeadTime(rows, item);
    assert sqrt(lt) >= 0.0;
    ParametersOrdered(IndexBalance(index, item), Mean(daily), DailyStd(daily, sqrt), lt, ZFactor(level), sqrt);
  }

  lemma ParametersOrdered(saldo: real, media: real, desvio: real, lt: real, z: real, sqrt: real -> real)
    requires media >= 0.0 && desvio >= 0.0 && lt >= 0.0 && z >= 0.0 && sqrt(lt) >= 0.0
    ensures var p := Parameters(saldo, media, desvio, lt, z, sqrt);
      0.0 <= p.safety <= p.reorder && p.reorder == p.minimum && p.minimum <= p.maximum
  {
    SafetyNonNegative(z, desvio, sqrt(lt));
  }

  lemma SafetyNonNegative(z: real, d: real, s: real)
    requires z >= 0.0 && d >= 0.0 && s >= 0.0
    ensures z * d * s >= 0.0
  {
    MulNonNegative(z, d);
    MulNonNegative(z * d, s);
  }

  /** Raising the service level within the table never lowers the safety
      stock. */
  lemma SafetyMonotone(a: real, b: real, d: real, s: real)
    requires TableLevel(a) && TableLevel(b) && a <= b && d >= 0.0 && s >= 0.0
    ensures ZFactor(a) * d * s <= ZFactor(b) * d * s
  {
    ZFactorMonotone(a, b);
    MulNonNegative(d, s);
    assert ZFactor(a) * d * s == ZFactor(a) * (d * s);
    assert ZFactor(b) * d * s == ZFactor(b) * (d * s);
    MulMonotoneLeft(ZFactor(a), ZFactor(b), d * s);
  }

  /** The dictionary `calcular_parametros_item` returns, rounded as it
      rounds. */
  datatype Report = Report(
    item: string,
    saldo: real,
    media: real,
    desvio: real,
    leadTime: real,
    safety: real,
    reorder: real,
    minimum: real,
    maximum: real,
    lot: real,
    dias: real,
    status: Status)

  /** The rounded report: rounding keeps the plan's ordering, and the days
      of cover are 999 without consumption and otherwise the balance over
      the daily mean, to the nearest day. */
  function ReportOf(item: string, p: Plan): (r: Report)
    ensures r.status == p.status && r.item == item
    ensures r.media == Round(p.media, 2)
    ensures 0.0 <= p.safety <= p.reorder && p.reorder == p.minimum && p.minimum <= p.maximum ==>
      0.0 <= r.safety <= r.reorder && r.reorder == r.minimum && r.minimum <= r.maximum
    ensures p.media <= 0.0 ==> r.dias == 999.0
    ensures p.media > 0.0 ==> -0.5 <= r.dias - p.saldo / p.media <= 0.5
  {
    assert 0.0 <= p.safety <= p.reorder && p.minimum <= p.maximum ==>
      0.0 <= Round(p.safety, 0) <= Round(p.reorder, 0) && Round(p.minimum, 0) <= Round(p.maximum, 0)
    by {
      if 0.0 <= p.safety <= p.reorder && p.minimum <= p.maximum {
        RoundNonNegative(p.safety, 0);
        RoundMonotone(p.safety, p.reorder, 0);
        RoundMonotone(p.minimum, p.maximum, 0);
      }
    }
    assert p.media > 0.0 ==> -0.5 <= Round(p.saldo / p.media, 0) - p.saldo / p.media <= 0.5 by {
      if p.media > 0.0 {
        RoundError(p.saldo / p.media, 0);
      }
    }
    Report(item, Round(p.saldo, 0), Round(p.media, 2), Round(p.desvio, 2), Round(p.leadTime, 0),
      Round(p.safety, 0), Round(p.reorder, 0), Round(p.minimum, 0), Round(p.maximum, 0),
      Round(p.lot, 0), if p.media > 0.0 then Round(p.saldo / p.media, 0) else 999.0, p.status)
  }

  /** Item names of the ledger in order of first appearance. */
  function LedgerItems(rows: seq<Row>): seq<string>
  {
    Distinct(MapSeq(rows, (r: Row) => r.item))
  }

  /** The report of one item, kept only when its rounded daily mean is
      positive. */
  function ItemReport(rows: seq<Row>, index: seq<IndexEntry>, level: real, now: Instant,
                      sqrt: real -> real): (f: string -> Option<Report>)
    ensures forall item :: f(item).Some? ==> f(item).value.item == item && f(item).value.media > 0.0
  {
    item =>
      match PlanItem(rows, index, item, level, now, sqrt)
      case Some(p) =>
        var report := ReportOf(item, p);
        if report.media > 0.0 then Some(report) else None
      case None => None
  }

  /** The kept reports of `items`, in order. */
  function Reports(items: seq<string>, rows: seq<Row>, index: seq<IndexEntry>, level: real,
                   now: Instant, sqrt: real -> real): (r: seq<Report>)
    ensures |r| <= |items|
    ensures forall x :: x in r <==>
      exists k :: 0 <= k < |items| && ItemReport(rows, index, level, now, sqrt)(items[k]) == Some(x)
  {
    var f := ItemReport(rows, index, level, now, sqrt);
    var r := FilterMap(items, f);
    forall x ensures x in r <==> exists k :: 0 <= k < |items| && f(items[k]) == Some(x) {
      FilterMapMembership(items, f, x);
    }
    r
  }

  /** Every kept report has a positive daily mean and belongs to one of the
      requested items. */
  lemma ReportsKept(items: seq<string>, rows: seq<Row>, index: seq<IndexEntry>, level: real,
                    now: Instant, sqrt: real -> real)
    ensures forall x :: x in Reports(items, rows, index, level, now, sqrt) ==>
      x.media > 0.0 && x.item in items
  {
  }

  /** The sort key `(ordem_status, -media_diaria)`. */
  function ReportOrder(a: Report, b: Report): bool
  {
    StatusRank(a.status) < StatusRank(b.status)
    || (StatusRank(a.status) == StatusRank(b.status) && a.media >= b.media)
  }

  lemma ReportOrderTotal()
    ensures TotalPreorder(ReportOrder)
  {
  }

  /** `sort_values` on the key `(ordem_status, -media_diaria)`. */
  function SortReports(all: seq<Report>): (r: seq<Report>)
    ensures multiset(r) == multiset(all)
    ensures forall i, j :: 0 <= i < j < |r| ==>
      StatusRank(r[i].status) < StatusRank(r[j].status)
      || (r[i].status == r[j].status && r[i].media >= r[j].media)
  {
    ReportOrderTotal();
    var r := SortBy(all, ReportOrder);
    forall i, j | 0 <= i < j < |r|
      ensures StatusRank(r[i].status) < StatusRank(r[j].status)
        || (r[i].status == r[j].status && r[i].media >= r[j].media)
    {
      assert ReportOrder(r[i], r[j]);
    }
    r
  }

  /** `calcular_todos_itens`: reports with a positive rounded daily mean,
      RUPTURA first and EXCESSO last, higher consumption first within a
      status. */
  function AllItems(rows: seq<Row>, index: seq<IndexEntry>, level: real, now: Instant,
                    sqrt: real -> real): (r: seq<Report>)
    ensures multiset(r) == multiset(Reports(LedgerItems(rows), rows, index, level, now, sqrt))
    ensures forall i :: 0 <= i < |r| ==> r[i].media > 0.0
    ensures forall i, j :: 0 <= i < j < |r| ==>
      StatusRank(r[i].status) < StatusRank(r[j].status)
      || (r[i].status == r[j].status && r[i].media >= r[j].media)
  {
    var all := Reports(LedgerItems(rows), rows, index, level, now, sqrt);
    ReportsKept(LedgerItems(rows), rows, index, level, now, sqrt);
    var r := SortReports(all);
    forall i | 0 <= i < |r| ensures r[i].media > 0.0 {
      assert r[i] in multiset(all);
    }
    r
  }
}

=== FILE: seqs.dfy ===
/** Sequence helpers shared by every analytics module: the dataframe
    operations the scripts lean on (boolean-mask filtering, `len` of a mask,
    column sums, `unique()`, `head(n)`), written once over `seq`. */
module Seqs {
  import opened Wrappers

  /** The elements of `s` satisfying `p`, in their original order
      (a boolean mask `df[p]`). */
  function Filter<T>(s: seq<T>, p: T -> bool): (r: seq<T>)
    ensures |r| <= |s|
    ensures forall i :: 0 <= i < |r| ==> p(r[i])
  {
    if |s| == 0 then []
    else if p(s[0]) then [s[0]] + Filter(s[1..], p)
    else Filter(s[1..], p)
  }

  /** Number of elements satisfying `p` (`len(df[p])`). */
  function Count<T>(s: seq<T>, p: T -> bool): nat
  {
    |Filter(s, p)|
  }

  /** Sum of `f` over `s` (`df[col].sum()`; 0 for an empty frame). */
  function Sum<T>(s: seq<T>, f: T -> real): real
  {
    if |s| == 0 then 0.0 else f(s[0]) + Sum(s[1..], f)
  }

  /** `f` applied to every element, in order (`[f(x) for x in s]`). */
  function MapSeq<T, U>(s: seq<T>, f: T -> U): (r: seq<U>)
    ensures |r| == |s|
    ensures forall i :: 0 <= i < |s| ==> r[i] == f(s[i])
  {
    seq(|s|, i requires 0 <= i < |s| => f(s[i]))
  }

  /** `s[:n]` in Python: at most the first `n` elements. */
  function Take<T>(s: seq<T>, n: nat): (r: seq<T>)
    ensures |r| == if n < |s| then n else |s|
    ensures forall i :: 0 <= i < |r| ==> r[i] == s[i]
  {
    if n < |s| then s[..n] else s
  }

  /** `s[-n:]` in Python: at most the last `n` elements. */
  function Last<T>(s: seq<T>, n: nat): (r: seq<T>)
    ensures |r| == if n < |s| then n else |s|
    ensures forall i :: 0 <= i < |r| ==> r[i] == s[|s| - |r| + i]
  {
    if n < |s| then s[|s| - n..] else s
  }

  /** No element occurs twice. */
  predicate NoDuplicates<T(==)>(s: seq<T>)
  {
    forall i, j :: 0 <= i < j < |s| ==> s[i] != s[j]
  }

  /** The distinct elements of `s` in order of first appearance
      (pandas `Series.unique()`). */
  function Distinct<T(==)>(s: seq<T>): (r: seq<T>)
    ensures NoDuplicates(r)
    ensures forall i :: 0 <= i < |s| ==> s[i] in r
    ensures forall i :: 0 <= i < |r| ==> r[i] in s
    ensures |r| <= |s|
  {
    if |s| == 0 then []
    else
      var d := Distinct(s[..|s| - 1]);
      assert forall i :: 0 <= i < |s| - 1 ==> s[i] == s[..|s| - 1][i];
      if s[|s| - 1] in d then d else d + [s[|s| - 1]]
  }

  lemma {:induction false} FilterAppend<T>(a: seq<T>, b: seq<T>, p: T -> bool)
    ensures Filter(a + b, p) == Filter(a, p) + Filter(b, p)
  {
    if |a| == 0 {
      assert a + b == b;
    } else {
      assert (a + b)[1..] == a[1..] + b;
      FilterAppend(a[1..], b, p);
    }
  }

  lemma {:induction false} FilterMembership<T>(s: seq<T>, p: T -> bool, x: T)
    ensures x in Filter(s, p) <==> x in s && p(x)
  {
    if |s| > 0 {
      FilterMembership(s[1..], p, x);
      assert x in s <==> x == s[0] || x in s[1..];
    }
  }

  /** A mask that rejects every element selects nothing. */
  lemma {:induction false} FilterNone<T>(s: seq<T>, p: T -> bool)
    requires forall i :: 0 <= i < |s| ==> !p(s[i])
    ensures Filter(s, p) == []
  {
    if |s| > 0 {
      FilterNone(s[1..], p);
    }
  }

  /** Filtering keeps a sub-multiset of the input. */
  lemma {:induction false} FilterSubMultiset<T>(s: seq<T>, p: T -> bool)
    ensures multiset(Filter(s, p)) <= multiset(s)
  {
    if |s| > 0 {
      FilterSubMultiset(s[1..], p);
      assert s == [s[0]] + s[1..];
    }
  }

  /** Two masks that agree on every element select the same rows. */
  lemma {:induction false} FilterCongruent<T>(s: seq<T>, p: T -> bool, q: T -> bool)
    requires forall i :: 0 <= i < |s| ==> p(s[i]) == q(s[i])
    ensures Filter(s, p) == Filter(s, q)
  {
    if |s| > 0 {
      FilterCongruent(s[1..], p, q);
    }
  }

  /** A mask implied by another selects at least as many rows. */
  lemma {:induction false} CountMonotone<T>(s: seq<T>, p: T -> bool, q: T -> bool)
    requires forall i :: 0 <= i < |s| ==> p(s[i]) ==> q(s[i])
    ensures Count(s, p) <= Count(s, q)
  {
    if |s| > 0 {
      CountMonotone(s[1..], p, q);
    }
  }

  /** Every element satisfies exactly one of two complementary masks. */
  lemma {:induction false} CountSplit<T>(s: seq<T>, p: T -> bool, q: T -> bool)
    requires forall i :: 0 <= i < |s| ==> (p(s[i]) <==> !q(s[i]))
    ensures Count(s, p) + Count(s, q) == |s|
  {
    if |s| > 0 {
      CountSplit(s[1..], p, q);
    }
  }

  lemma {:induction false} SumAppend<T>(a: seq<T>, b: seq<T>, f: T -> real)
    ensures Sum(a + b, f) == Sum(a, f) + Sum(b, f)
  {
    if |a| == 0 {
      assert a + b == b;
    } else {
      assert (a + b)[1..] == a[1..] + b;
      SumAppend(a[1..], b, f);
    }
  }

  /** A sum of non-negative terms is non-negative. */
  lemma {:induction false} SumNonNegative<T>(s: seq<T>, f: T -> real)
    requires forall i :: 0 <= i < |s| ==> f(s[i]) >= 0.0
    ensures Sum(s, f) >= 0.0
  {
    if |s| > 0 {
      SumNonNegative(s[1..], f);
    }
  }

  /** `f` on the rows `p` selects, zero elsewhere. */
  function Masked<T>(p: T -> bool, f: T -> real): T -> real
  {
    x => if p(x) then f(x) else 0.0
  }

  /** Summing only the selected rows is summing every row with the others
      counted as zero. */
  lemma {:induction false} SumFilter<T>(s: seq<T>, p: T -> bool, f: T -> real)
    ensures Sum(Filter(s, p), f) == Sum(s, Masked(p, f))
  {
    if |s| > 0 {
      SumFilter(s[1..], p, f);
      if p(s[0]) {
        assert Filter(s, p) == [s[0]] + Filter(s[1..], p);
        assert ([s[0]] + Filter(s[1..], p))[1..] == Filter(s[1..], p);
      }
    }
  }

  /** Sums of pointwise-ordered terms are ordered. */
  lemma {:induction false} SumMonotone<T>(s: seq<T>, f: T -> real, g: T -> real)
    requires forall i :: 0 <= i < |s| ==> f(s[i]) <= g(s[i])
    ensures Sum(s, f) <= Sum(s, g)
  {
    if |s| > 0 {
      SumMonotone(s[1..], f, g);
    }
  }

  /** Sums of pointwise-equal terms are equal. */
  lemma {:induction false} SumCongruent<T>(s: seq<T>, f: T -> real, g: T -> real)
    requires forall i :: 0 <= i < |s| ==> f(s[i]) == g(s[i])
    ensures Sum(s, f) == Sum(s, g)
  {
    if |s| > 0 {
      SumCongruent(s[1..], f, g);
    }
  }

  /** The values `f` yields, in order, skipping the elements it maps to
      `None` (`[y for x in s if (y := f(x)) is not None]`). */
  function FilterMap<T, U>(s: seq<T>, f: T -> Option<U>): (r: seq<U>)
    ensures |r| <= |s|
  {
    if |s| == 0 then []
    else
      match f(s[0])
      case Some(y) => [y] + FilterMap(s[1..], f)
      case None => FilterMap(s[1..], f)
  }

  /** A value is kept exactly when some element yields it. */
  lemma {:induction false} FilterMapMembership<T, U>(s: seq<T>, f: T -> Option<U>, y: U)
    ensures y in FilterMap(s, f) <==> exists i :: 0 <= i < |s| && f(s[i]) == Some(y)
  {
    if |s| > 0 {
      FilterMapMembership(s[1..], f, y);
      if exists i :: 0 <= i < |s| && f(s[i]) == Some(y) {
        var i :| 0 <= i < |s| && f(s[i]) == Some(y);
        if i > 0 {
          assert f(s[1..][i - 1]) == Some(y);
        }
      }
      if exists i :: 0 <= i < |s[1..]| && f(s[1..][i]) == Some(y) {
        var i :| 0 <= i < |s[1..]| && f(s[1..][i]) == Some(y);
        assert f(s[i + 1]) == Some(y);
      }
    }
  }

  /** Without repeats, every value occurs at most once. */
  lemma {:induction false} NoDuplicatesCount<T>(s: seq<T>, x: T)
    requires NoDuplicates(s)
    ensures multiset(s)[x] <= 1
  {
    if |s| > 0 {
      assert s == [s[0]] + s[1..];
      assert NoDuplicates(s[1..]);
      NoDuplicatesCount(s[1..], x);
      if x == s[0] {
        assert x !in s[1..];
      }
    }
  }

  /** A permutation of a sequence without repeats has none either. */
  lemma NoDuplicatesPermutation<T>(a: seq<T>, b: seq<T>)
    requires NoDuplicates(a) && multiset(a) == multiset(b)
    ensures NoDuplicates(b)
  {
    forall i, j | 0 <= i < j < |b| ensures b[i] != b[j] {
      NoDuplicatesCount(a, b[i]);
      assert b == b[..i] + [b[i]] + b[i + 1..j] + [b[j]] + b[j + 1..];
    }
  }

  /** A mask implied by another selects a super-multiset of its rows. */
  lemma {:induction false} FilterImplies<T>(s: seq<T>, p: T -> bool, q: T -> bool)
    requires forall i :: 0 <= i < |s| ==> p(s[i]) ==> q(s[i])
    ensures multiset(Filter(s, p)) <= multiset(Filter(s, q))
  {
    if |s| > 0 {
      FilterImplies(s[1..], p, q);
    }
  }

  /** Index of the first element satisfying `p`, if any (a `for` loop that
      returns at its first hit). */
  function FindFirst<T>(s: seq<T>, p: T -> bool): (r: Option<nat>)
    ensures r.Some? ==> r.value < |s| && p(s[r.value])
    ensures r.Some? ==> forall j :: 0 <= j < r.value ==> !p(s[j])
    ensures r.None? <==> forall j :: 0 <= j < |s| ==> !p(s[j])
  {
    if |s| == 0 then None
    else if p(s[0]) then Some(0)
    else
      match FindFirst(s[1..], p)
      case Some(i) => Some(i + 1)
      case None => None
  }

  /** `FindFirst` finds the first element satisfying `p`. */
  lemma FindFirstAt<T>(s: seq<T>, p: T -> bool, i: nat)
    requires i < |s| && p(s[i]) && forall j :: 0 <= j < i ==> !p(s[j])
    ensures FindFirst(s, p) == Some(i)
  {
  }

  /** Index of the last element satisfying `p`, if any (the row a dict
      assignment in a loop leaves behind). */
  function FindLast<T>(s: seq<T>, p: T -> bool): (r: Option<nat>)
    ensures r.Some? ==> r.value < |s| && p(s[r.value])
    ensures r.Some? ==> forall j :: r.value < j < |s| ==> !p(s[j])
    ensures r.None? <==> forall j :: 0 <= j < |s| ==> !p(s[j])
  {
    if |s| == 0 then None
    else if p(s[|s| - 1]) then Some(|s| - 1)
    else FindLast(s[..|s| - 1], p)
  }

  /** A mask selects nothing exactly when it rejects every element. */
  lemma {:induction false} FilterEmpty<T>(s: seq<T>, p: T -> bool)
    ensures Filter(s, p) == [] <==> forall i :: 0 <= i < |s| ==> !p(s[i])
  {
    if |s| > 0 {
      FilterEmpty(s[1..], p);
      assert (forall i :: 0 <= i < |s| ==> !p(s[i])) <==>
        !p(s[0]) && forall i :: 0 <= i < |s[1..]| ==> !p(s[1..][i]);
    }
  }

  /** A mask keeps a sequence whose keys strictly increase strictly
      increasing. */
  lemma {:induction false} FilterIncreasing<T>(s: seq<T>, p: T -> bool, key: T -> int)
    requires forall i, j :: 0 <= i < j < |s| ==> key(s[i]) < key(s[j])
    ensures forall i, j :: 0 <= i < j < |Filter(s, p)| ==> key(Filter(s, p)[i]) < key(Filter(s, p)[j])
  {
    if |s| > 0 {
      FilterIncreasing(s[1..], p, key);
      var t := Filter(s[1..], p);
      if p(s[0]) {
        forall j | 0 <= j < |t| ensures key(s[0]) < key(t[j]) {
          FilterMembership(s[1..], p, t[j]);
        }
      }
    }
  }

  /** A prefix keeps a sub-multiset. */
  lemma TakeSubMultiset<T>(s: seq<T>, n: nat)
    ensures multiset(Take(s, n)) <= multiset(s)
  {
    if n < |s| {
      assert s == s[..n] + s[n..];
    }
  }
}

=== FILE: sheets.dfy ===
/** The two sheets as the maintenance scripts see them: raw cell text, as
    `get_all_values()` returns it, before any number conversion. */
module Sheets {
  import opened Wrappers
  import opened Text
  import opened Decimal
  import opened LocaleNumbers

  /** The ESTOQUE columns the index scripts use: A Grupo, B Item, D Data
      and J Saldo. */
  datatype LedgerLine = LedgerLine(group: string, item: string, date: string, saldo: string)

  /** An ÍNDICE_ITENS row, columns A to F: Item, Saldo Atual, Última Data,
      Grupo, Linha ESTOQUE and Última Atualização, each as the cell's text. */
  datatype IndexLine = IndexLine(
    item: string,
    saldo: string,
    date: string,
    group: string,
    line: string,
    updated: string)

  /** Python's `int(s)` on a cell's text: surrounding whitespace dropped,
      an optional sign, then one or more ASCII digits; `None` where `int`
      raises `ValueError`. */
  function PyInt(s: string): (r: Option<int>)
    ensures Strip(s) == "" ==> r.None?
    ensures |Strip(s)| > 0 && AllDigits(Strip(s)) ==> r == Some(DigitsValue(Strip(s)))
    ensures r.Some? ==> forall i :: 0 < i < |Strip(s)| ==> IsDigit(Strip(s)[i])
    ensures |Strip(s)| > 0 && !IsDigit(Strip(s)[0]) && Strip(s)[0] != '-' && Strip(s)[0] != '+' ==> r.None?
  {
    var t := Strip(s);
    if |t| > 1 && (t[0] == '-' || t[0] == '+') && AllDigits(t[1..]) then
      var v: int := DigitsValue(t[1..]);
      Some(if t[0] == '-' then -v else v)
    else if |t| > 0 && AllDigits(t) then Some(DigitsValue(t))
    else None
  }

  /** A number written to the sheet, `str(n)`, reads back through `int`
      as that number. */
  lemma PyIntShowNat(n: nat)
    ensures PyInt(ShowNat(n)) == Some(n)
  {
    var t := ShowNat(n);
    StripTrimmed(t);
  }

  /** Sheet row number of a data row: one for the header, one because
      sheet rows count from 1. */
  function SheetLine(position: nat): (line: int)
    ensures line >= 2
  {
    position + 2
  }

  /** `sheet_estoque.cell(line, 10).value`: the Saldo cell of ESTOQUE row
      `line`; a row past the data is empty. */
  function SaldoCell(ledger: seq<LedgerLine>, line: int): (c: Cell)
    ensures 2 <= line < |ledger| + 2 ==> c == Textual(ledger[line - 2].saldo)
    ensures !(2 <= line < |ledger| + 2) ==> c == Blank
  {
    if 2 <= line < |ledger| + 2 then Textual(ledger[line - 2].saldo) else Blank
  }
}

=== FILE: sorting.dfy ===
/** One stable sort for every ordering the scripts ask pandas for
    (`sort_values`, `nsmallest`, `sorted(..., key=...)`): insertion of
    each row, in input order, before the first row that must follow it. */
module Sorting {
  import opened Seqs

  /** `le` is total and transitive: a comparison built from keys. */
  ghost predicate TotalPreorder<T(!new)>(le: (T, T) -> bool)
  {
    (forall a, b :: le(a, b) || le(b, a)) &&
    (forall a, b, c :: le(a, b) && le(b, c) ==> le(a, c))
  }

  /** Every earlier element may precede every later one. */
  ghost predicate Sorted<T>(s: seq<T>, le: (T, T) -> bool)
  {
    forall i, j :: 0 <= i < j < |s| ==> le(s[i], s[j])
  }

  /** The ascending order on integers. */
  function IntLe(a: int, b: int): bool
  {
    a <= b
  }

  lemma IntLeTotal()
    ensures TotalPreorder(IntLe)
  {
  }

  /** `sorted()` of integer keys: ascending, and strictly so when no key
      repeats. */
  function SortInts(keys: seq<int>): (r: seq<int>)
    ensures multiset(r) == multiset(keys)
    ensures Sorted(r, IntLe)
    ensures NoDuplicates(keys) ==> forall i, j :: 0 <= i < j < |r| ==> r[i] < r[j]
  {
    var r := SortBy(keys, IntLe);
    IntLeTotal();
    SortedDistinctRise(keys, r);
    r
  }

  lemma SortedDistinctRise(keys: seq<int>, r: seq<int>)
    requires multiset(r) == multiset(keys) && Sorted(r, IntLe)
    ensures NoDuplicates(keys) ==> forall i, j :: 0 <= i < j < |r| ==> r[i] < r[j]
  {
    if NoDuplicates(keys) {
      NoDuplicatesPermutation(keys, r);
      forall i, j | 0 <= i < j < |r| ensures r[i] < r[j] {
        assert IntLe(r[i], r[j]) && r[i] != r[j];
      }
    }
  }

  /** The elements whose sort key ties with `y`'s. */
  function Ties<T>(le: (T, T) -> bool, y: T): T -> bool
  {
    x => le(x, y) && le(y, x)
  }

  /** `s` with `x` placed before its first element that must follow `x`. */
  function Insert<T>(x: T, s: seq<T>, le: (T, T) -> bool): (r: seq<T>)
    ensures |r| == |s| + 1
    ensures multiset(r) == multiset(s) + multiset{x}
  {
    if |s| == 0 then [x]
    else if !le(s[0], x) then [x] + s
    else
      assert s == [s[0]] + s[1..];
      [s[0]] + Insert(x, s[1..], le)
  }

  /** The rows of `s` ordered by `le`; rows that tie keep their input order. */
  function SortBy<T(!new)>(s: seq<T>, le: (T, T) -> bool): (r: seq<T>)
    ensures |r| == |s|
    ensures multiset(r) == multiset(s)
    ensures TotalPreorder(le) ==> Sorted(r, le)
  {
    if |s| == 0 then []
    else
      var t := SortBy(s[..|s| - 1], le);
      assert s == s[..|s| - 1] + [s[|s| - 1]];
      InsertSorted(s[|s| - 1], t, le);
      Insert(s[|s| - 1], t, le)
  }

  /** A property every input element has, every inserted-into element has. */
  lemma {:induction false} InsertAll<T>(x: T, s: seq<T>, le: (T, T) -> bool, P: T -> bool)
    requires P(x) && forall j :: 0 <= j < |s| ==> P(s[j])
    ensures forall i :: 0 <= i < |Insert(x, s, le)| ==> P(Insert(x, s, le)[i])
  {
    if |s| > 0 && le(s[0], x) {
      InsertAll(x, s[1..], le, P);
    }
  }

  lemma {:induction false} InsertSorted<T(!new)>(x: T, s: seq<T>, le: (T, T) -> bool)
    ensures TotalPreorder(le) && Sorted(s, le) ==> Sorted(Insert(x, s, le), le)
  {
    if TotalPreorder(le) && Sorted(s, le) && |s| > 0 {
      var r := Insert(x, s, le);
      if !le(s[0], x) {
        assert le(x, s[0]);
        assert forall j :: 0 <= j < |s| ==> le(x, s[j]);
        assert forall i, j :: 0 < i < j < |r| ==> r[i] == s[i - 1] && r[j] == s[j - 1];
      } else {
        InsertSorted(x, s[1..], le);
        InsertAll(x, s[1..], le, e => le(s[0], e));
      }
    }
  }

  /** Inserting `x` into a sorted sequence puts it after every row tying
      with it and leaves the order among the others unchanged. */
  lemma {:induction false} InsertTies<T(!new)>(x: T, s: seq<T>, le: (T, T) -> bool, y: T)
    requires TotalPreorder(le) && Sorted(s, le)
    ensures Filter(Insert(x, s, le), Ties(le, y))
         == Filter(s, Ties(le, y)) + (if Ties(le, y)(x) then [x] else [])
  {
    var E := Ties(le, y);
    if |s| == 0 {
    } else if !le(s[0], x) {
      assert Insert(x, s, le) == [x] + s;
      FilterAppend([x], s, E);
      if E(x) {
        forall j | 0 <= j < |s|
          ensures !E(s[j])
        {
          assert le(s[0], s[j]) || j == 0;
        }
        FilterNone(s, E);
      }
    } else {
      InsertTies(x, s[1..], le, y);
      assert Insert(x, s, le) == [s[0]] + Insert(x, s[1..], le);
      FilterAppend([s[0]], Insert(x, s[1..], le), E);
      assert s == [s[0]] + s[1..];
      FilterAppend([s[0]], s[1..], E);
    }
  }

  /** Stability: the rows tying with any `y` come out in input order. */
  lemma {:induction false} SortByStable<T(!new)>(s: seq<T>, le: (T, T) -> bool, y: T)
    requires TotalPreorder(le)
    ensures Filter(SortBy(s, le), Ties(le, y)) == Filter(s, Ties(le, y))
  {
    if |s| > 0 {
      SortByStable(s[..|s| - 1], le, y);
      SortByLast(s, le);
      StableStep(s, SortBy(s[..|s| - 1], le), le, y);
    }
  }

  /** `SortBy` inserts the last row into the sorted rest. */
  lemma SortByLast<T(!new)>(s: seq<T>, le: (T, T) -> bool)
    requires |s| > 0
    ensures SortBy(s, le) == Insert(s[|s| - 1], SortBy(s[..|s| - 1], le), le)
  {
  }

  /** One insertion step of `SortBy` keeps the tying rows in input order. */
  lemma StableStep<T(!new)>(s: seq<T>, t: seq<T>, le: (T, T) -> bool, y: T)
    requires |s| > 0 && TotalPreorder(le) && Sorted(t, le)
    requires Filter(t, Ties(le, y)) == Filter(s[..|s| - 1], Ties(le, y))
    ensures Filter(Insert(s[|s| - 1], t, le), Ties(le, y)) == Filter(s, Ties(le, y))
  {
    var E, pre, x := Ties(le, y), s[..|s| - 1], s[|s| - 1];
    InsertTies(x, t, le, y);
    FilterAppend(pre, [x], E);
    assert Filter([x], E) == (if E(x) then [x] else []) by {
      assert [x][1..] == [];
    }
    assert s == pre + [x];
  }

  /** Selecting rows of a sorted sequence keeps them sorted. */
  lemma {:induction false} FilterSorted<T>(s: seq<T>, p: T -> bool, le: (T, T) -> bool)
    requires Sorted(s, le)
    ensures Sorted(Filter(s, p), le)
  {
    if |s| > 0 {
      FilterSorted(s[1..], p, le);
      if p(s[0]) {
        var f := Filter(s[1..], p);
        FilterSubMultiset(s[1..], p);
        forall j | 0 <= j < |f| ensures le(s[0], f[j]) {
          assert f[j] in multiset(s[1..]);
          var k :| 0 <= k < |s[1..]| && s[1..][k] == f[j];
          assert s[k + 1] == f[j];
        }
      }
    }
  }

  /** Python's `<=` on strings: code-point lexicographic order, a prefix
      first (the order `groupby` gives its string keys). */
  predicate StringLe(a: string, b: string)
  {
    |a| == 0 || (|b| > 0 && (a[0] < b[0] || (a[0] == b[0] && StringLe(a[1..], b[1..]))))
  }

  lemma {:induction false} StringLeTotal(a: string, b: string)
    ensures StringLe(a, b) || StringLe(b, a)
  {
    if |a| > 0 && |b| > 0 && a[0] == b[0] {
      StringLeTotal(a[1..], b[1..]);
    }
  }

  lemma {:induction false} StringLeTransitive(a: string, b: string, c: string)
    requires StringLe(a, b) && StringLe(b, c)
    ensures StringLe(a, c)
  {
    if |a| > 0 && |b| > 0 && |c| > 0 && a[0] == b[0] && b[0] == c[0] {
      StringLeTransitive(a[1..], b[1..], c[1..]);
    }
  }

  lemma {:induction false} StringLeAntisymmetric(a: string, b: string)
    requires StringLe(a, b) && StringLe(b, a)
    ensures a == b
  {
    if |a| > 0 && |b| > 0 {
      StringLeAntisymmetric(a[1..], b[1..]);
      assert a == [a[0]] + a[1..] && b == [b[0]] + b[1..];
    }
  }

  lemma StringLeTotalPreorder()
    ensures TotalPreorder(StringLe)
  {
    forall a, b ensures StringLe(a, b) || StringLe(b, a) {
      StringLeTotal(a, b);
    }
    forall a, b, c | StringLe(a, b) && StringLe(b, c) ensures StringLe(a, c) {
      StringLeTransitive(a, b, c);
    }
  }

  /** The `groupby(name)` keys: each distinct name once, in string order. */
  function SortedKeys<T>(rows: seq<T>, name: T -> string): (keys: seq<string>)
    ensures forall i, j :: 0 <= i < j < |keys| ==> StringLe(keys[i], keys[j]) && keys[i] != keys[j]
    ensures forall i :: 0 <= i < |keys| ==> keys[i] in MapSeq(rows, name)
    ensures forall j :: 0 <= j < |rows| ==> name(rows[j]) in keys
  {
    var d := Distinct(MapSeq(rows, name));
    StringLeTotalPreorder();
    var keys := SortBy(d, StringLe);
    NoDuplicatesPermutation(d, keys);
    KeysPermuted(rows, name, d, keys);
    keys
  }

  lemma KeysPermuted<T>(rows: seq<T>, name: T -> string, d: seq<string>, keys: seq<string>)
    requires d == Distinct(MapSeq(rows, name)) && multiset(d) == multiset(keys)
    ensures forall i :: 0 <= i < |keys| ==> keys[i] in MapSeq(rows, name)
    ensures forall j :: 0 <= j < |rows| ==> name(rows[j]) in keys
  {
    var names := MapSeq(rows, name);
    forall i | 0 <= i < |keys| ensures keys[i] in names {
      assert keys[i] in multiset(d);
    }
    forall j | 0 <= j < |rows| ensures name(rows[j]) in keys {
      assert names[j] in d;
      assert names[j] in multiset(keys);
    }
  }
}

=== FILE: stats.dfy ===
/** The descriptive statistics the scripts take from numpy and pandas:
    sums, means, sample (`Series.std()`, ddof 1) and population
    (`np.std`, ddof 0) standard deviations, z-scores and clamping. The
    square root is a parameter with only the laws the proofs use. */
module Stats {
  import opened Seqs

  /** `sum(s)`. */
  function Total(s: seq<real>): real
  {
    if |s| == 0 then 0.0 else s[0] + Total(s[1..])
  }

  /** `mean(s)` of a non-empty sample. */
  function Mean(s: seq<real>): real
    requires |s| > 0
  {
    Total(s) / |s| as real
  }

  /** The mean times the sample size is the total. */
  lemma MeanTimesCount(s: seq<real>)
    requires |s| > 0
    ensures Mean(s) * |s| as real == Total(s)
  {
  }

  /** What the proofs assume of `np.sqrt` on the values it is given. */
  ghost predicate SqrtLaws(sqrt: real -> real)
  {
    (forall x :: 0.0 <= x ==> 0.0 <= sqrt(x)) &&
    (forall x :: 0.0 < x ==> 0.0 < sqrt(x))
  }

  /** `x -> (x - m)^2`. */
  function SquaredFrom(m: real): real -> real
  {
    x => (x - m) * (x - m)
  }

  /** Sum of squared deviations from the mean. */
  function SquaredDeviations(s: seq<real>): real
    requires |s| > 0
  {
    Total(MapSeq(s, SquaredFrom(Mean(s))))
  }

  /** `Series.std()`: the sample standard deviation (divisor n - 1). */
  function SampleStd(s: seq<real>, sqrt: real -> real): real
    requires |s| > 1
  {
    sqrt(SquaredDeviations(s) / (|s| - 1) as real)
  }

  /** `np.std`: the population standard deviation (divisor n). */
  function PopulationStd(s: seq<real>, sqrt: real -> real): real
    requires |s| > 0
  {
    sqrt(SquaredDeviations(s) / |s| as real)
  }

  /** `max(lo, min(hi, x))`. */
  function Clamp(x: real, lo: real, hi: real): (r: real)
    requires lo <= hi
    ensures lo <= r <= hi
    ensures lo <= x <= hi ==> r == x
  {
    var m := if x < hi then x else hi;
    if m > lo then m else lo
  }

  /** `max(0, x)`. */
  function PosPart(x: real): (r: real)
    ensures r >= 0.0 && r >= x
    ensures r == x || r == 0.0
  {
    if x > 0.0 then x else 0.0
  }

  lemma {:induction false} TotalAppend(a: seq<real>, b: seq<real>)
    ensures Total(a + b) == Total(a) + Total(b)
  {
    if |a| == 0 {
      assert a + b == b;
    } else {
      assert (a + b)[1..] == a[1..] + b;
      TotalAppend(a[1..], b);
    }
  }

  /** Every term within `[lo, hi]` puts the sum within `[n lo, n hi]`. */
  lemma {:induction false} TotalBounds(s: seq<real>, lo: real, hi: real)
    requires forall i :: 0 <= i < |s| ==> lo <= s[i] <= hi
    ensures |s| as real * lo <= Total(s) <= |s| as real * hi
  {
    if |s| > 0 {
      TotalBounds(s[1..], lo, hi);
      assert |s| as real * lo == lo + (|s| - 1) as real * lo;
      assert |s| as real * hi == hi + (|s| - 1) as real * hi;
    }
  }

  /** The mean lies between the smallest and largest possible terms. */
  lemma MeanBounds(s: seq<real>, lo: real, hi: real)
    requires |s| > 0
    requires forall i :: 0 <= i < |s| ==> lo <= s[i] <= hi
    ensures lo <= Mean(s) <= hi
  {
    TotalBounds(s, lo, hi);
    var n := |s| as real;
    DivBounds(Total(s), n, lo, hi);
  }

  lemma DivBounds(t: real, n: real, lo: real, hi: real)
    requires n > 0.0 && n * lo <= t <= n * hi
    ensures lo <= t / n <= hi
  {
  }

  /** Non-negative terms have a non-negative sum. */
  lemma {:induction false} TotalNonNegative(s: seq<real>)
    requires forall i :: 0 <= i < |s| ==> s[i] >= 0.0
    ensures Total(s) >= 0.0
  {
    if |s| > 0 {
      TotalNonNegative(s[1..]);
    }
  }

  /** The standard deviations are non-negative. */
  lemma StdNonNegative(s: seq<real>, sqrt: real -> real)
    requires SqrtLaws(sqrt) && |s| > 0
    ensures PopulationStd(s, sqrt) >= 0.0
    ensures |s| > 1 ==> SampleStd(s, sqrt) >= 0.0
  {
    var sq := MapSeq(s, SquaredFrom(Mean(s)));
    forall i | 0 <= i < |sq| ensures sq[i] >= 0.0 {
      var d := s[i] - Mean(s);
      assert sq[i] == d * d;
    }
    TotalNonNegative(sq);
  }

  /** `x -> (x - m) / sd`. */
  function ZScoreOf(m: real, sd: real): real -> real
    requires sd != 0.0
  {
    x => (x - m) / sd
  }

  /** Summing standardised terms standardises the sum. */
  lemma {:induction false} TotalStandardised(s: seq<real>, m: real, sd: real)
    requires sd != 0.0
    ensures Total(MapSeq(s, ZScoreOf(m, sd))) == (Total(s) - |s| as real * m) / sd
  {
    if |s| > 0 {
      var z := MapSeq(s, ZScoreOf(m, sd));
      assert z[1..] == MapSeq(s[1..], ZScoreOf(m, sd));
      TotalStandardised(s[1..], m, sd);
      var k := (|s| - 1) as real;
      assert |s| as real * m == m + k * m;
      AddQuotients(s[0] - m, Total(s[1..]) - k * m, sd);
    }
  }

  lemma AddQuotients(a: real, b: real, d: real)
    requires d != 0.0
    ensures a / d + b / d == (a + b) / d
  {
  }

  /** Deviations from the mean, scaled by any non-zero factor, sum to zero. */
  lemma ZScoresSumToZero(s: seq<real>, sd: real)
    requires |s| > 0 && sd != 0.0
    ensures Total(MapSeq(s, ZScoreOf(Mean(s), sd))) == 0.0
  {
    TotalStandardised(s, Mean(s), sd);
    var n := |s| as real;
    assert n * (Total(s) / n) == Total(s);
  }

  lemma MulNonNegative(a: real, b: real)
    ensures a >= 0.0 && b >= 0.0 ==> a * b >= 0.0
  {
  }

  lemma MulMonotoneLeft(a: real, b: real, c: real)
    requires a <= b && c >= 0.0
    ensures a * c <= b * c
  {
  }
}

=== FILE: text.dfy ===
/** Python `str` operations the scripts apply to item names and replies:
    `strip`, `upper`, `lower`, `in`, `split()`, and the two regular
    expression substitutions of the name normaliser. Character classes
    follow Python 3's Unicode database on the Latin-1 range; see README for
    what is assumed above it. */
module Text {
  import opened Seqs

  /** `str.isspace()`, which is also what `\s` matches in a `str` pattern. */
  predicate IsSpace(c: char)
  {
    var n := c as int;
    n == 0x20 || 0x09 <= n <= 0x0D || 0x1C <= n <= 0x1F || n == 0x85 || n == 0xA0
    || n == 0x1680 || 0x2000 <= n <= 0x200A || n == 0x2028 || n == 0x2029
    || n == 0x202F || n == 0x205F || n == 0x3000
  }

  /** What `\w` matches: letters, digits, numeric characters and `_`.
      Characters above U+00FF that are not spaces count as word characters. */
  predicate IsWordChar(c: char)
  {
    var n := c as int;
    '0' <= c <= '9' || 'A' <= c <= 'Z' || 'a' <= c <= 'z' || c == '_'
    || n == 0xAA || n == 0xB2 || n == 0xB3 || n == 0xB5 || n == 0xB9 || n == 0xBA
    || 0xBC <= n <= 0xBE || 0xC0 <= n <= 0xD6 || 0xD8 <= n <= 0xF6 || 0xF8 <= n <= 0xFF
    || (n > 0xFF && !IsSpace(c))
  }

  /** `c.upper()`: one character, or two for `ß`. */
  function UpperChar(c: char): (r: string)
    ensures 1 <= |r| <= 2
  {
    var n := c as int;
    if 'a' <= c <= 'z' || (0xE0 <= n <= 0xFE && n != 0xF7) then [(n - 32) as char]
    else if n == 0xB5 then [0x39C as char]
    else if n == 0xFF then [0x178 as char]
    else if n == 0xDF then "SS"
    else [c]
  }

  /** `c.lower()`. */
  function LowerChar(c: char): char
  {
    var n := c as int;
    if 'A' <= c <= 'Z' || (0xC0 <= n <= 0xDE && n != 0xD7) then (n + 32) as char else c
  }

  function Upper(s: string): (r: string)
    ensures |r| >= |s|
  {
    if |s| == 0 then "" else UpperChar(s[0]) + Upper(s[1..])
  }

  function Lower(s: string): (r: string)
    ensures |r| == |s|
  {
    if |s| == 0 then "" else [LowerChar(s[0])] + Lower(s[1..])
  }

  lemma {:induction false} UpperAppend(a: string, b: string)
    ensures Upper(a + b) == Upper(a) + Upper(b)
  {
    if |a| == 0 {
      assert a + b == b;
    } else {
      assert (a + b)[0] == a[0];
      assert (a + b)[1..] == a[1..] + b;
      UpperAppend(a[1..], b);
    }
  }

  /** Upper-casing forgets case: `s.lower().upper() == s.upper()`. */
  lemma {:induction false} UpperOfLower(s: string)
    ensures Upper(Lower(s)) == Upper(s)
  {
    if |s| > 0 {
      UpperOfLower(s[1..]);
      assert Lower(s) == [LowerChar(s[0])] + Lower(s[1..]);
      assert Lower(s)[1..] == Lower(s[1..]);
    }
  }

  /** Upper-casing twice is upper-casing once. */
  lemma {:induction false} UpperIdempotent(s: string)
    ensures Upper(Upper(s)) == Upper(s)
  {
    if |s| > 0 {
      UpperIdempotent(s[1..]);
      UpperAppend(UpperChar(s[0]), Upper(s[1..]));
    }
  }

  /** `s.lstrip()`. */
  function LStrip(s: string): (r: string)
    ensures |r| <= |s|
  {
    if |s| > 0 && IsSpace(s[0]) then LStrip(s[1..]) else s
  }

  /** `s.rstrip()`. */
  function RStrip(s: string): (r: string)
    ensures |r| <= |s|
  {
    if |s| > 0 && IsSpace(s[|s| - 1]) then RStrip(s[..|s| - 1]) else s
  }

  /** `s.strip()`. */
  function Strip(s: string): (r: string)
    ensures |r| <= |s|
  {
    RStrip(LStrip(s))
  }

  /** `lstrip` drops exactly the leading run of spaces. */
  lemma {:induction false} LStripSpec(s: string)
    ensures var r := LStrip(s);
      r == s[|s| - |r|..] && (|r| > 0 ==> !IsSpace(r[0])) &&
      forall i :: 0 <= i < |s| - |r| ==> IsSpace(s[i])
  {
    if |s| > 0 && IsSpace(s[0]) {
      LStripSpec(s[1..]);
    }
  }

  /** `rstrip` drops exactly the trailing run of spaces. */
  lemma {:induction false} RStripSpec(s: string)
    ensures var r := RStrip(s);
      r == s[..|r|] && (|r| > 0 ==> !IsSpace(r[|r| - 1])) &&
      forall i :: |r| <= i < |s| ==> IsSpace(s[i])
  {
    if |s| > 0 && IsSpace(s[|s| - 1]) {
      RStripSpec(s[..|s| - 1]);
    }
  }

  /** Where `strip` starts cutting: the length of the leading run of spaces. */
  function StripStart(s: string): (i: nat)
    ensures i <= |s|
  {
    |s| - |LStrip(s)|
  }

  /** `strip` yields the slice of `s` between its leading and trailing runs
      of spaces: only spaces are cut, the result neither starts nor ends
      with a space, and it is empty exactly when `s` is all spaces. */
  lemma StripSpec(s: string)
    ensures var r, i := Strip(s), StripStart(s);
      i + |r| <= |s| && r == s[i..i + |r|] &&
      (forall j :: 0 <= j < |s| && !(i <= j < i + |r|) ==> IsSpace(s[j])) &&
      (|r| > 0 ==> !IsSpace(r[0]) && !IsSpace(r[|r| - 1])) &&
      (|r| == 0 <==> forall j :: 0 <= j < |s| ==> IsSpace(s[j]))
  {
    var l := LStrip(s);
    var r := Strip(s);
    LStripSpec(s);
    RStripSpec(l);
    var i := |s| - |l|;
    assert r == s[i..i + |r|];
    forall j | 0 <= j < |s| && !(i <= j < i + |r|) ensures IsSpace(s[j]) {
      if j >= i {
        assert s[j] == l[j - i];
      }
    }
    if |r| > 0 {
      assert r[0] == l[0];
    }
  }

  lemma StripIdempotent(s: string)
    ensures Strip(Strip(s)) == Strip(s)
  {
    var t := Strip(s);
    StripSpec(s);
    assert LStrip(t) == t;
    assert RStrip(t) == t;
  }

  /** `prefix` is a prefix of `s` (`s.startswith(prefix)`). */
  predicate StartsWith(s: string, prefix: string)
  {
    |prefix| <= |s| && s[..|prefix|] == prefix
  }

  /** `needle in s`: some slice of `s` equals `needle`. */
  predicate Contains(s: string, needle: string)
  {
    StartsWith(s, needle) || (|s| > 0 && Contains(s[1..], needle))
  }

  lemma {:induction false} ContainsAt(s: string, needle: string, i: nat)
    requires i + |needle| <= |s| && s[i..i + |needle|] == needle
    ensures Contains(s, needle)
  {
    if i > 0 {
      assert s[1..][i - 1..i - 1 + |needle|] == s[i..i + |needle|];
      ContainsAt(s[1..], needle, i - 1);
    }
  }

  /** Every string contains itself and the empty string. */
  lemma ContainsSelf(s: string)
    ensures Contains(s, s) && Contains(s, "")
  {
    assert s[..|s|] == s;
    assert s[..0] == "";
  }

  /** A string only contains strings no longer than itself. */
  lemma {:induction false} ContainsLength(s: string, needle: string)
    requires Contains(s, needle)
    ensures |needle| <= |s|
  {
    if !StartsWith(s, needle) {
      ContainsLength(s[1..], needle);
    }
  }

  /** `re.sub(r'\s+', ' ', s)`: each maximal run of spaces becomes one `' '`. */
  function CollapseSpaces(s: string): (r: string)
    ensures |r| <= |s|
    ensures forall i :: 0 <= i < |r| && IsSpace(r[i]) ==> r[i] == ' '
    ensures forall i :: 0 <= i < |r| - 1 ==> !IsSpace(r[i]) || !IsSpace(r[i + 1])
    ensures |s| > 0 && IsSpace(s[0]) ==> |r| > 0 && r[0] == ' '
    ensures |s| > 0 && !IsSpace(s[0]) ==> |r| > 0 && r[0] == s[0]
    decreases |s|
  {
    if |s| == 0 then ""
    else if IsSpace(s[0]) then
      LStripSpec(s[1..]);
      " " + CollapseSpaces(LStrip(s[1..]))
    else [s[0]] + CollapseSpaces(s[1..])
  }

  /** `re.sub(r'[^\w\s]', '', s)`: drops every character that is neither a
      word character nor a space. */
  function DropPunctuation(s: string): (r: string)
    ensures forall i :: 0 <= i < |r| ==> IsWordChar(r[i]) || IsSpace(r[i])
  {
    Filter(s, c => IsWordChar(c) || IsSpace(c))
  }

  /** `str.split()` with no separator: the maximal runs of non-space
      characters, in order. */
  function Words(s: string): (r: seq<string>)
    ensures forall k :: 0 <= k < |r| ==> IsWord(r[k])
    decreases |s|
  {
    var t := LStrip(s);
    LStripSpec(s);
    if |t| == 0 then []
    else
      var w := FirstWord(t);
      assert IsWord(w);
      var tail := t[|w|..];
      assert |tail| < |s|;
      [w] + Words(tail)
  }

  /** A non-empty run of non-space characters. */
  predicate IsWord(w: string)
  {
    |w| > 0 && forall i :: 0 <= i < |w| ==> !IsSpace(w[i])
  }

  /** The leading run of non-space characters. */
  function FirstWord(s: string): (r: string)
    ensures |r| <= |s| && r == s[..|r|]
    ensures forall i :: 0 <= i < |r| ==> !IsSpace(r[i])
    ensures |s| > 0 && !IsSpace(s[0]) ==> |r| > 0
  {
    if |s| == 0 || IsSpace(s[0]) then "" else [s[0]] + FirstWord(s[1..])
  }

  /** `s[:n]`. */
  function Truncate(s: string, n: nat): (r: string)
    ensures |r| <= n && |r| <= |s| && r == s[..|r|]
    ensures |s| <= n ==> r == s
  {
    if |s| <= n then s else s[..n]
  }

  /** `s.replace(a, b)` for single characters. */
  function ReplaceChar(s: string, a: char, b: char): (r: string)
    ensures |r| == |s|
    ensures forall i :: 0 <= i < |s| ==> r[i] == (if s[i] == a then b else s[i])
  {
    seq(|s|, i requires 0 <= i < |s| => if s[i] == a then b else s[i])
  }

  /** Every character other than `c`. */
  function Other(c: char): char -> bool
  {
    x => x != c
  }

  /** `s.replace(c, '')`. */
  function RemoveChar(s: string, c: char): (r: string)
    ensures c !in r
  {
    FilterMembership(s, Other(c), c);
    Filter(s, Other(c))
  }

  /** Removing a character that does not occur changes nothing. */
  lemma {:induction false} RemoveAbsent(s: string, c: char)
    requires c !in s
    ensures RemoveChar(s, c) == s
  {
    if |s| > 0 {
      assert s[0] != c;
      assert c !in s[1..];
      RemoveAbsent(s[1..], c);
      assert Filter(s, Other(c)) == [s[0]] + Filter(s[1..], Other(c));
      assert s == [s[0]] + s[1..];
    }
  }

  lemma RemoveAppend(a: string, b: string, c: char)
    ensures RemoveChar(a + b, c) == RemoveChar(a, c) + RemoveChar(b, c)
  {
    FilterAppend(a, b, Other(c));
  }

  lemma ReplaceAppend(a: string, b: string, x: char, y: char)
    ensures ReplaceChar(a + b, x, y) == ReplaceChar(a, x, y) + ReplaceChar(b, x, y)
  {
  }

  /** A string with no space at either end is its own strip. */
  lemma StripTrimmed(s: string)
    requires |s| > 0 && !IsSpace(s[0]) && !IsSpace(s[|s| - 1])
    ensures Strip(s) == s
  {
    assert LStrip(s) == s;
    assert RStrip(s) == s;
  }
}

=== FILE: webapp.dfy ===
/** app_final.py: the column finder, the consumption windows with their
    no-date fallback, the rounded coverage, the coverage distribution of
    the dashboard, the purchase list, the per-item projection and the ABC
    report. */
module WebApp {
  import opened Wrappers
  import opened Seqs
  import opened Sorting
  import opened Stats
  import opened Text
  import opened Calendar
  import opened Rounding
  import opened Ledger
  import opened LocaleNumbers
  import Purchases
  import Abc

  /** The dictionary key of a column: lower-cased and trimmed. */
  function ColumnKey(c: string): string
  {
    Strip(Lower(c))
  }

  /** The position of the last column with key `k`, -1 when none has
      it. */
  function LastKeyIndex(columns: seq<string>, k: string): (i: int)
    ensures -1 <= i < |columns|
    ensures i >= 0 ==> ColumnKey(columns[i]) == k
    ensures forall j :: i < j < |columns| ==> ColumnKey(columns[j]) != k
  {
    if |columns| == 0 then -1
    else if ColumnKey(columns[|columns| - 1]) == k then |columns| - 1
    else LastKeyIndex(columns[..|columns| - 1], k)
  }

  /** `{c.lower().strip(): c for c in columns}`: a later column with the
      same key replaces an earlier one, so each key maps to its last
      column. */
  function ColumnsByKey(columns: seq<string>): (m: map<string, string>)
    ensures forall k :: k in m <==> LastKeyIndex(columns, k) >= 0
    ensures forall k :: k in m ==> m[k] == columns[LastKeyIndex(columns, k)]
  {
    if |columns| == 0 then map[]
    else
      var init := columns[..|columns| - 1];
      var c := columns[|columns| - 1];
      ColumnsStep(columns, init, c);
      ColumnsByKey(init)[ColumnKey(c) := c]
  }

  lemma ColumnsStep(columns: seq<string>, init: seq<string>, c: string)
    requires |columns| > 0 && init == columns[..|columns| - 1] && c == columns[|columns| - 1]
    ensures forall k :: k != ColumnKey(c) ==> LastKeyIndex(columns, k) == LastKeyIndex(init, k)
    ensures LastKeyIndex(columns, ColumnKey(c)) == |columns| - 1
    ensures forall i :: 0 <= i < |init| ==> init[i] == columns[i]
  {
  }

  /** Some column's key equals the candidate lower-cased. */
  predicate Matches(columns: seq<string>, name: string)
  {
    exists i :: 0 <= i < |columns| && ColumnKey(columns[i]) == Lower(name)
  }

  lemma MatchesLast(columns: seq<string>, name: string)
    ensures Matches(columns, name) <==> LastKeyIndex(columns, Lower(name)) >= 0
  {
    if Matches(columns, name) {
      var i :| 0 <= i < |columns| && ColumnKey(columns[i]) == Lower(name);
    }
  }

  /** `encontrar_coluna`: the column of the first candidate, in candidate
      order, whose lower-cased form is some column's key. */
  function FindColumn(columns: seq<string>, candidates: seq<string>): (r: Option<string>)
    ensures r.None? <==> forall k :: 0 <= k < |candidates| ==> !Matches(columns, candidates[k])
    ensures r.Some? ==>
      exists k :: 0 <= k < |candidates| && Matches(columns, candidates[k])
        && (forall k' :: 0 <= k' < k ==> !Matches(columns, candidates[k']))
        && r.value in columns && ColumnKey(r.value) == Lower(candidates[k])
  {
    if |candidates| == 0 then None
    else
      var m := ColumnsByKey(columns);
      var key := Lower(candidates[0]);
      MatchesLast(columns, candidates[0]);
      if key in m then Some(m[key])
      else
        var r := FindColumn(columns, candidates[1..]);
        assert forall k :: 0 < k < |candidates| ==> candidates[k] == candidates[1..][k - 1];
        r
  }

  /** An index row after `carregar_dados_completos`. */
  datatype Item = Item(item: string, saldo: real, consumo30: real, consumo60: real, consumo90: real)

  predicate Dated(r: Row)
  {
    r.date.Some?
  }

  /** The `days` consumption of `item`: the exits dated inside the window
      when any ledger row has a valid date, otherwise the whole history's
      exits. */
  function Consumption(rows: seq<Row>, item: string, now: Instant, days: int): real
  {
    if Count(rows, Dated) > 0 then WindowExits(rows, item, now, days)
    else Sum(Filter(rows, OfItem(item)), Exit)
  }

  /** Without a single valid date the three windows all report the
      item's full-history exits. */
  lemma NoDatesFallback(rows: seq<Row>, item: string, now: Instant)
    requires forall j :: 0 <= j < |rows| ==> rows[j].date.None?
    ensures Consumption(rows, item, now, 30) == Sum(Filter(rows, OfItem(item)), Exit)
    ensures Consumption(rows, item, now, 60) == Consumption(rows, item, now, 30)
    ensures Consumption(rows, item, now, 90) == Consumption(rows, item, now, 30)
  {
    FilterNone(rows, Dated);
  }

  /** With some valid date and non-negative exits, the windows are
      nested. */
  lemma WindowsOrdered(rows: seq<Row>, item: string, now: Instant)
    requires ExitsNonNegative(rows)
    ensures Consumption(rows, item, now, 30) <= Consumption(rows, item, now, 60)
    ensures Consumption(rows, item, now, 60) <= Consumption(rows, item, now, 90)
  {
    if Count(rows, Dated) > 0 {
      WindowExitsMonotone(rows, item, now, 30, 60);
      WindowExitsMonotone(rows, item, now, 60, 90);
    }
  }

  function LoadItem(rows: seq<Row>, now: Instant): IndexEntry -> Item
  {
    (e: IndexEntry) => Item(e.item, ParseConditional(e.saldo),
      Consumption(rows, e.item, now, 30), Consumption(rows, e.item, now, 60), Consumption(rows, e.item, now, 90))
  }

  /** The index with its balances parsed and its three consumptions. */
  function LoadItems(index: seq<IndexEntry>, rows: seq<Row>, now: Instant): (r: seq<Item>)
    ensures |r| == |index|
    ensures forall i :: 0 <= i < |r| ==> r[i].item == index[i].item && r[i].saldo == ParseConditional(index[i].saldo)
    ensures forall i :: 0 <= i < |r| ==> r[i].consumo30 == Consumption(rows, index[i].item, now, 30)
  {
    MapSeq(index, LoadItem(rows, now))
  }

  /** Media_Diaria. */
  function MediaDiaria(x: Item): real
  {
    x.consumo30 / 30.0
  }

  /** `round(saldo / media, 1)` for a positive mean, else 999: within
      0.05 of the exact coverage. */
  function RoundedCoverage(saldo: real, media: real): (r: real)
    ensures media <= 0.0 ==> r == 999.0
    ensures media > 0.0 ==> -0.05 <= r - saldo / media <= 0.05
  {
    if media > 0.0 then
      RoundError(saldo / media, 1);
      Round(saldo / media, 1)
    else 999.0
  }

  /** Dias_Cobertura. */
  function DiasCobertura(x: Item): real
  {
    RoundedCoverage(x.saldo, MediaDiaria(x))
  }

  /** The four buckets of the dashboard's coverage distribution. */
  datatype Band = Critical | Urgent | Attention | Steady

  /** The bucket a coverage falls in; the sentinel 999 and anything above
      falls in none. */
  function BandOf(d: real): (b: Option<Band>)
    ensures b == Some(Critical) <==> d < 7.0
    ensures b == Some(Urgent) <==> 7.0 <= d < 15.0
    ensures b == Some(Attention) <==> 15.0 <= d < 30.0
    ensures b == Some(Steady) <==> 30.0 <= d < 999.0
    ensures b.None? <==> d >= 999.0
  {
    if d < 7.0 then Some(Critical)
    else if d < 15.0 then Some(Urgent)
    else if d < 30.0 then Some(Attention)
    else if d < 999.0 then Some(Steady)
    else None
  }

  function InBand(b: Band): Item -> bool
  {
    (x: Item) => BandOf(DiasCobertura(x)) == Some(b)
  }

  function Sentinel(x: Item): bool
  {
    DiasCobertura(x) >= 999.0
  }

  function CriticalKpi(x: Item): bool
  {
    DiasCobertura(x) < 15.0
  }

  /** The four buckets and the sentinel items partition the index, and the
      `itens_criticos` KPI (coverage under 15) is the first two buckets. */
  lemma {:induction false} Distribution(items: seq<Item>)
    ensures Count(items, InBand(Critical)) + Count(items, InBand(Urgent))
      + Count(items, InBand(Attention)) + Count(items, InBand(Steady)) + Count(items, Sentinel) == |items|
    ensures Count(items, CriticalKpi) == Count(items, InBand(Critical)) + Count(items, InBand(Urgent))
  {
    if |items| > 0 {
      Distribution(items[1..]);
    }
  }

  /** `classificar` of the purchase list: under 7 days, negative included,
      is critical. */
  function Classify(dias: real): (u: Purchases.Urgency)
    ensures u == Purchases.Critico <==> dias < 7.0
    ensures u == Purchases.Urgente <==> 7.0 <= dias < 15.0
    ensures u == Purchases.Alto <==> 15.0 <= dias < 30.0
    ensures u == Purchases.Medio <==> dias >= 30.0
  {
    if dias < 0.0 then Purchases.Critico
    else if dias < 7.0 then Purchases.Critico
    else if dias < 15.0 then Purchases.Urgente
    else if dias < 30.0 then Purchases.Alto
    else Purchases.Medio
  }

  /** The two purchase-list ladders disagree: at 5 days of cover this one
      says CRITICO where lista_compras_ia.py says URGENTE. */
  lemma LaddersDiffer()
    ensures Classify(5.0) == Purchases.Critico
    ensures Purchases.UrgencyOf(5.0, 1.0) == Purchases.Urgente
  {
  }

  /** `(media * dias * (1 + margem) - saldo).clip(lower=0).round(0)`:
      covers the target to within half a unit, never negative. */
  function SuggestedQty(saldo: real, media: real, target: real, margin: real): (q: real)
    ensures q >= 0.0
    ensures saldo + q >= media * target * (1.0 + margin) - 0.5
    ensures q <= PosPart(media * target * (1.0 + margin) - saldo) + 0.5
  {
    var need := PosPart(media * target * (1.0 + margin) - saldo);
    RoundError(need, 0);
    RoundNonNegative(need, 0);
    Round(need, 0)
  }

  /** One row of the purchase list. */
  datatype Line = Line(item: string, saldo: real, media: real, dias: real, qty: real, urgency: Purchases.Urgency)

  /** The list's mask and quantity for one item: coverage under the
      target, a positive mean and a positive rounded quantity. */
  function Candidate(target: real, margin: real): (f: Item -> Option<Line>)
    ensures forall x :: f(x).Some? <==>
      DiasCobertura(x) < target && MediaDiaria(x) > 0.0
      && SuggestedQty(x.saldo, MediaDiaria(x), target, margin) > 0.0
  {
    (x: Item) =>
      var media := MediaDiaria(x);
      var dias := DiasCobertura(x);
      if dias < target && media > 0.0 then
        var q := SuggestedQty(x.saldo, media, target, margin);
        if q > 0.0 then Some(Line(x.item, x.saldo, media, dias, q, Classify(dias))) else None
      else None
  }

  function ByCoverage(a: Line, b: Line): bool
  {
    a.dias <= b.dias
  }

  predicate WellListed(l: Line, target: real)
  {
    l.dias < target && l.media > 0.0 && l.qty > 0.0 && l.urgency == Classify(l.dias)
  }

  /** `api_lista_compras` before `head(100)`: the candidates, lowest
      coverage first; `margemPercent` is the request's `margem`. */
  function ShoppingList(items: seq<Item>, target: real, margemPercent: real): (r: seq<Line>)
    ensures multiset(r) == multiset(FilterMap(items, Candidate(target, margemPercent / 100.0)))
    ensures Sorted(r, ByCoverage)
    ensures forall i :: 0 <= i < |r| ==> WellListed(r[i], target)
  {
    CandidatesWellListed(items, target, margemPercent / 100.0);
    CoverageSorts(FilterMap(items, Candidate(target, margemPercent / 100.0)), target);
    SortBy(FilterMap(items, Candidate(target, margemPercent / 100.0)), ByCoverage)
  }

  lemma CoverageSorts(c: seq<Line>, target: real)
    requires forall l :: l in c ==> WellListed(l, target)
    ensures Sorted(SortBy(c, ByCoverage), ByCoverage)
    ensures forall i :: 0 <= i < |c| ==> WellListed(SortBy(c, ByCoverage)[i], target)
  {
    assert TotalPreorder(ByCoverage);
    PermutedWellListed(c, SortBy(c, ByCoverage), target);
  }

  lemma PermutedWellListed(c: seq<Line>, r: seq<Line>, target: real)
    requires multiset(c) == multiset(r)
    requires forall l :: l in c ==> WellListed(l, target)
    ensures forall i :: 0 <= i < |r| ==> WellListed(r[i], target)
  {
    forall i | 0 <= i < |r| ensures WellListed(r[i], target) {
      assert r[i] in multiset(c);
    }
  }

  lemma {:induction false} CandidatesWellListed(items: seq<Item>, target: real, margin: real)
    ensures forall l :: l in FilterMap(items, Candidate(target, margin)) ==> WellListed(l, target)
  {
    if |items| > 0 {
      CandidatesWellListed(items[1..], target, margin);
    }
  }

  /** An item that passes the mask with a positive quantity is on the
      list, with its name, balance and coverage. */
  lemma CandidatesListed(items: seq<Item>, target: real, margemPercent: real, x: Item)
    requires x in items
    ensures (exists l :: l in ShoppingList(items, target, margemPercent) && l.item == x.item && l.saldo == x.saldo && l.dias == DiasCobertura(x))
      <== Candidate(target, margemPercent / 100.0)(x).Some?
  {
    var f := Candidate(target, margemPercent / 100.0);
    if f(x).Some? {
      var i :| 0 <= i < |items| && items[i] == x;
      FilterMapMembership(items, f, f(x).value);
      assert f(x).value in multiset(ShoppingList(items, target, margemPercent));
    }
  }

  function Units(l: Line): real
  {
    l.qty
  }

  function OfUrgency(u: Purchases.Urgency): Line -> bool
  {
    (l: Line) => l.urgency == u
  }

  /** The `resumo` counts: every listed unit is positive, and the critical
      and urgent lines are the lines under 15 days of cover. */
  lemma {:induction false} SummaryCounts(r: seq<Line>, target: real)
    requires forall i :: 0 <= i < |r| ==> WellListed(r[i], target)
    ensures |r| > 0 ==> Sum(r, Units) > 0.0
    ensures Count(r, OfUrgency(Purchases.Critico)) + Count(r, OfUrgency(Purchases.Urgente))
         == Count(r, (l: Line) => l.dias < 15.0)
  {
    if |r| > 0 {
      SummaryCounts(r[1..], target);
    }
  }

  /** `item_data.iloc[0]`: the first index row whose item matches
      ignoring case. */
  function FindItem(items: seq<Item>, name: string): (r: Option<Item>)
    ensures r.None? <==> forall i :: 0 <= i < |items| ==> Upper(items[i].item) != Upper(name)
    ensures r.Some? ==>
      exists i :: 0 <= i < |items| && r.value == items[i]
        && Upper(items[i].item) == Upper(name)
        && forall j :: 0 <= j < i ==> Upper(items[j].item) != Upper(name)
  {
    if |items| == 0 then None
    else if Upper(items[0].item) == Upper(name) then Some(items[0])
    else
      var r := FindItem(items[1..], name);
      assert forall j :: 0 < j < |items| ==> items[j] == items[1..][j - 1];
      r
  }

  datatype Status = Critico | Atencao | Ok

  /** One horizon of `api_previsao`: consumption and balance rounded to
      units for display, the status read off the unrounded balance. */
  datatype Projection = Projection(days: int, consumption: real, balance: real, status: Status)

  function StatusOf(balance: real, media: real): (s: Status)
    ensures s == Critico <==> balance < 0.0
    ensures s == Atencao <==> 0.0 <= balance < media * 15.0
    ensures s == Ok <==> balance >= 0.0 && balance >= media * 15.0
  {
    if balance < 0.0 then Critico
    else if balance < media * 15.0 then Atencao
    else Ok
  }

  function Severity(s: Status): int
  {
    match s
    case Critico => 2
    case Atencao => 1
    case Ok => 0
  }

  /** One horizon: the consumption over `days` days, the balance left and
      its status, both figures rounded to units. */
  function Project(saldo: real, media: real, days: int): (p: Projection)
    ensures p.days == days && p.status == StatusOf(saldo - media * days as real, media)
  {
    var consumo := media * days as real;
    var balance := saldo - consumo;
    Projection(days, Round(consumo, 0), Round(balance, 0), StatusOf(balance, media))
  }

  function ProjectionAt(saldo: real, media: real): int -> Projection
  {
    (days: int) => Project(saldo, media, days)
  }

  const Horizons: seq<int> := [15, 30, 45, 60, 90]

  /** The five horizons of `api_previsao`. */
  function Projections(saldo: real, media: real): (r: seq<Projection>)
    ensures |r| == |Horizons|
    ensures forall i :: 0 <= i < |r| ==> r[i].days == Horizons[i]
  {
    ProjectEach(saldo, media, Horizons)
  }

  /** The projection at each of the horizons `hs`, in order. */
  function ProjectEach(saldo: real, media: real, hs: seq<int>): (r: seq<Projection>)
    ensures |r| == |hs|
    ensures forall i :: 0 <= i < |r| ==> r[i].days == hs[i]
    ensures forall i :: 0 <= i < |r| ==> r[i].status == StatusOf(saldo - media * r[i].days as real, media)
  {
    MapSeq(hs, ProjectionAt(saldo, media))
  }

  /** With a non-negative mean a longer horizon is never less severe. */
  lemma ProjectionsWorsen(saldo: real, media: real)
    requires media >= 0.0
    ensures var r := Projections(saldo, media);
      forall i, j :: 0 <= i < |r| && 0 <= j < |r| && r[i].days <= r[j].days ==>
        Severity(r[i].status) <= Severity(r[j].status)
  {
    WorsenAlong(ProjectEach(saldo, media, Horizons), saldo, media);
  }

  lemma WorsenAlong(r: seq<Projection>, saldo: real, media: real)
    requires media >= 0.0
    requires forall i :: 0 <= i < |r| ==> r[i].status == StatusOf(saldo - media * r[i].days as real, media)
    ensures forall i, j :: 0 <= i < |r| && 0 <= j < |r| && r[i].days <= r[j].days ==>
      Severity(r[i].status) <= Severity(r[j].status)
  {
    forall i, j | 0 <= i < |r| && 0 <= j < |r| && r[i].days <= r[j].days
      ensures Severity(r[i].status) <= Severity(r[j].status)
    {
      StatusWorsens(saldo, media, r[i].days as real, r[j].days as real);
    }
  }

  lemma StatusWorsens(saldo: real, media: real, a: real, b: real)
    requires media >= 0.0 && a <= b
    ensures Severity(StatusOf(saldo - media * a, media)) <= Severity(StatusOf(saldo - media * b, media))
  {
    MulMonotoneLeft(a, b, media);
    var x, y := saldo - media * a, saldo - media * b;
    assert y <= x;
  }

  function UsageOf(x: Item): Abc.Usage
  {
    Abc.Usage(x.item, x.consumo30)
  }

  function OfClass(c: Abc.AbcClass): Abc.Ranked -> bool
  {
    (x: Abc.Ranked) => x.curve == c
  }

  /** `api_curva_abc`: the curve over Consumo_30d. The zero-total branch
      of the source cannot be reached, since only positive consumptions
      are ranked. */
  function AbcReport(items: seq<Item>): (r: seq<Abc.Ranked>)
    ensures multiset(MapSeq(r, Abc.UsageOf)) == multiset(Filter(MapSeq(items, UsageOf), Abc.Consumes))
    ensures forall i, j :: 0 <= i < j < |r| ==> r[i].consumo >= r[j].consumo
    ensures forall i, j :: 0 <= i < j < |r| ==> Abc.ClassRank(r[i].curve) <= Abc.ClassRank(r[j].curve)
    ensures |r| > 0 ==> r[|r| - 1].curve == Abc.C
    ensures Abc.ClassedByShare(r)
  {
    var u := MapSeq(items, UsageOf);
    var r := Abc.Curve(u);
    Abc.CurveClasses(u);
    Abc.CurveEndsInC(u);
    r
  }

  /** The three class counts of a curve add up to its length. */
  lemma {:induction false} ClassCounts(r: seq<Abc.Ranked>)
    ensures Count(r, OfClass(Abc.A)) + Count(r, OfClass(Abc.B)) + Count(r, OfClass(Abc.C)) == |r|
  {
    if |r| > 0 {
      ClassCounts(r[1..]);
    }
  }
}

=== FILE: wrappers.dfy ===
/** Optional values: the model's stand-in for Python's `None`, pandas' `NaT`
    and "no row found". */
module Wrappers {

  datatype Option<+T> = None | Some(value: T) {

    /** The wrapped value, or `default` when there is none. */
    function GetOr(default: T): T {
      match this
      case Some(v) => v
      case None => default
    }
  }
}
